=== FILE: README.md ===
# Kayako REST client: the data-mapping layer, in Dafny

This project models the client-side data-mapping layer of the PHP client library for the Kayako helpdesk
REST API. Each resource class of that library holds the fields of one helpdesk object. Those classes are
departments, staff, users, user groups, user organizations, news items, news categories, news subscribers,
knowledgebase articles and their attachments, troubleshooter categories and steps, ticket posts, ticket
attachments, ticket types, and custom fields. Every class does three things:

- `parseData` reads the object from the server's XML, already turned into nested PHP arrays.
- Its setters store values after coercing them through the shared `Helper` class.
- `buildData($create)` turns the object back into the request data of a create or an update.

The model keeps PHP's dynamic values explicit (`Php.Value`: null, booleans, integers, strings, lists,
keyed arrays, objects) together with the library's coercion rules. Every class becomes a module with an
immutable datatype and pure functions:

- parsing is a function from the data to the object;
- a setter is a function from the object and the value to the new object;
- building returns the request data (`Wire.Data`) or the exception raised by the required-field check.

The properties proved are the ones the library promises to its callers:

- what a setter stores is what the next request sends;
- parsing, as intended, is idempotent and replaces lists instead of appending to them (three classes append as written; see "## Findings");
- identifier lists stay free of duplicates;
- visibility rules answer yes exactly for the listed groups;
- base64 contents round-trip between `buildData` and `parseData`;
- the constant and timestamp coercions keep only the values they promise;
- `formatSeconds` produces a clock reading of exactly the given number of seconds.

Modules follow the source tree:

- `Php` holds PHP value semantics: loose comparison, `intval`, `strval`, `explode`, `implode`, `strpos`
  and `trim`.
- `Helper` is the shared `Helper` class.
- `Wire` holds request data and the helpers common to all resources: identifier lists, lazy getters and
  attachment contents.
- `Base64` is the RFC 4648 section 4 encoding and PHP's lenient decoding.
- `Constants` holds the class constants in declaration order.
- `Wrappers` holds `Option`, `Result` and the library's exceptions.
- There is one module per resource class. The custom field classes are `CustomField`, `CustomFieldFile`,
  `CustomFieldSelect` and `CustomFieldMultiSelect`, with the type dispatch in `CustomFields`.

## Model

| member | source | states |
|---|---|---|
| Helper.AssureString | src/Common/Helper.php:219-221 | null gives the caller's default; any other value gives its string form |
| Helper.AssureInt | src/Common/Helper.php:230-232 | null gives the caller's default; any other value gives its integer form |
| Helper.AssurePositiveInt | src/Common/Helper.php:241-243 | the integer form exactly when it is positive; the default for every non-positive value, null included |
| Helper.AssureArray | src/Common/Helper.php:262-267 | an array is kept, null gives the default, any other value becomes a one-element list |
| Helper.AssureObject | src/Common/Helper.php:277-279 | an object is returned exactly when the value is an object whose class name is the given one, and then it is that object |
| Helper.AssureStringIdempotent | src/Common/Helper.php:219-221 | coercing an already coerced string again changes nothing |
| Helper.AssureIntIdempotent | src/Common/Helper.php:230-232 | coercing an already coerced integer again changes nothing |
| Helper.AssurePositiveIntTwice | src/Common/Helper.php:241-243 | with a null default the result is positive or null, and applying the coercion twice equals applying it once |
| Helper.AssureBoolIdempotent | src/Common/Helper.php:251-253 | coercing a boolean changes nothing; the result is false exactly for values loosely equal to false |
| Helper.AssureArrayIdempotent | src/Common/Helper.php:262-267 | the result is always an array, and coercing it again changes nothing |
| Helper.AssureBool | src/Common/Helper.php:251-253 | a boolean is kept as it is; the result is false exactly for the values PHP compares loosely equal to `false` |
| Helper.InGroupMeaning | src/Common/Helper.php:290-308 | a constant is in the group exactly when its name starts with the prefix and an underscore, ignoring ASCII case |
| Helper.InGroupExactly | src/Common/Helper.php:290-308 | a name that starts with the prefix and an underscore exactly as written is in the group |
| Helper.FirstMatch | src/Common/Helper.php:290-308 | the search returns the first matching constant; none before it matches, and none matches when it finds nothing |
| Helper.GroupValuesMembers | src/Common/Helper.php:290-308 | the values of a group are exactly the values of the constants in the group |
| Helper.AssureClassConstant | src/Common/Helper.php:290-308 | the result is the fallback or a value of the group; with no match it is the fallback; otherwise the input loosely equals it |
| Helper.AssureConstant | src/Common/Helper.php:290-308 | the owner may be a class name or an object of the class; any other owner yields the fallback |
| Helper.AssureConstantFirst | src/Common/Helper.php:290-308 | when several constants match, the first in declaration order wins |
| Helper.AssureTimestamp | src/Object/News/NewsItem.php:691-694 | a number or null gives a positive timestamp or null; text gives the time `strtotime` reads from it, and `false` when it reads none |
| Helper.GroupValueKept | src/Common/Helper.php:290-308 | when no two values of the group compare loosely equal, every value of the group is accepted as it is |
| Helper.Pad2 | src/Common/Helper.php:88-100 | zero-padding widens a short string to two characters and leaves a longer one as it is |
| Helper.FormatSeconds | src/Common/Helper.php:88-100 | a non-numeric value is returned unchanged; a numeric one becomes text |
| Helper.FormatSecondsRoundTrip | src/Common/Helper.php:88-100 | reading the formatted text back as a `[-]hh:mm:ss` clock gives exactly the input seconds |
| Helper.FormatSecondsText | src/Common/Helper.php:88-100 | the text is the input's sign followed by the clock reading of its magnitude |
| Helper.SignedClockOf | src/Common/Helper.php:88-100 | the signed clock text of any integer reads back as that integer |
| Helper.ClockBodyRoundTrip | src/Common/Helper.php:88-100 | the unsigned clock text reads back as the number of seconds and starts with a digit |
| Helper.Distinct | src/Common/Helper.php:178-210 | `array_unique` keeps the same set of values, without duplicates, and is non-empty for non-empty input |
| Helper.DistinctOfDistinct | src/Common/Helper.php:178-210 | a list without duplicates is its own `array_unique` |
| Helper.ParametersMeaning | src/Common/Helper.php:178-210 | a name is a parameter exactly when some token gives it a value, and its value is the distinct values given, in order, a single one collapsed |
| Helper.ParameterMeaning | src/Common/Helper.php:178-210 | the same reference meaning for one name, proved by induction over the tokens |
| Helper.GetTagParametersAsWritten | src/Common/Helper.php:178-210 | the function as written answers false when the tag is absent |
| Helper.GetTagParameters | src/Common/Helper.php:178-210 | the corrected function answers false exactly when the tag is absent; otherwise it returns the parameters of some tag line |
| Helper.TagLineStartsWithAt | src/Common/Helper.php:178-210 | the corrected tag line begins with the tag itself, so trimming never empties it |
| Helper.TagAtStartWithoutNewline | src/Common/Helper.php:178-192 | a tag at the start of a comment with no newline after it is lost as written, and found by the corrected function |
| Helper.TagWithoutNewlineTruncated | src/Common/Helper.php:178-192 | a later tag with no newline after it loses as many trailing characters as its position as written; the corrected line runs to the end |
| Base64.Encode | src/Object/Ticket/TicketAttachment.php:110 | the encoding has four characters per started group of three bytes, all from the alphabet or padding |
| Base64.EncodeBytes | src/Object/Knowledgebase/KnowledgebaseAttachment.php:292 | the encoded text stored as a byte string has the same length and characters |
| Base64.RoundTrip | src/Object/Ticket/TicketAttachment.php:99-110 | decoding what was encoded gives back the original bytes |
| Base64.Decode | src/Object/Ticket/TicketAttachment.php:98-99 | lenient `base64_decode`: characters outside the alphabet, padding included, are skipped, and every four alphabet characters give three bytes (a trailing two give one, a trailing three give two) |
| Wire.TimestampOrZero | src/Object/User/User.php:213 | a null timestamp is sent as 0; any other value is sent unchanged |
| Wire.Flag | src/Object/Staff/Staff.php:165-167 | a flag is sent as 1 or 0, truthy exactly when the flag is set |
| Wire.LazyGet | src/Object/News/NewsItem.php:416-425 | the cached object unless reloading; otherwise a fetch exactly when there is a usable identifier, of that identifier |
| Wire.SameIdMeaning | src/Object/News/NewsItem.php:847-859 | two identifiers compare loosely equal exactly when they are equal or both null-or-zero |
| Wire.NormalizeIds | src/Object/News/NewsItem.php:773-794 | every stored identifier is positive, and a positive n is stored exactly when some candidate value has integer form n |
| Wire.NormalizeScalar | src/Object/News/NewsItem.php:773-794 | a positive numeric scalar becomes a one-element list; any other scalar becomes the empty list |
| Wire.NormalizeIdempotent | src/Object/News/NewsItem.php:773-794 | setting a list that is already normalised keeps it as it is |
| Wire.AddId | src/Object/News/NewsItem.php:847-859 | after adding, the list holds the identifier; it is unchanged if it already held it, and extended by it at the end otherwise |
| Wire.AddIdKeepsDistinct | src/Object/News/NewsItem.php:847-859 | adding to a list without duplicates never introduces one |
| Wire.MemberId | src/Object/News/NewsItem.php:820-837 | a group object of the right class is compared by its identifier; anything else by its integer form |
| Wire.ListItems | src/Object/News/NewsItem.php:286-295 | the items of an XML list: none without the list, one for a single string, the elements otherwise |
| Wire.ParseIds | src/Object/News/NewsItem.php:286-295 | no identifiers without the list; every parsed identifier is positive or null |
| Wire.GetContents | src/Object/Ticket/TicketAttachment.php:330-336 | stored contents are returned; a fetch happens exactly when nothing is stored, both identifiers are known and auto-fetch is on |
| Wire.ParsedContents | src/Object/Ticket/TicketAttachment.php:97-99 | absent or empty contents leave the stored ones; present contents replace them |
| Wire.EncodedContents | src/Object/Ticket/TicketAttachment.php:110 | the sent text has the base64 length of the contents, null encoded as empty |
| Wire.ContentsRoundTrip | src/Object/Ticket/TicketAttachment.php:97-110 | parsing what building sent recovers non-empty contents; empty contents leave the stored ones |
| CustomField.FirstCase | src/Object/CustomField/CustomField.php:84-105 | the dispatch picks the first case whose code the type loosely equals |
| CustomField.VariantOf | src/Object/CustomField/CustomField.php:84-105 | fails with "Unknown custom field type." exactly when no case matches; otherwise returns the class of a matching case |
| CustomField.VariantOfCode | src/Object/CustomField/CustomField.php:84-105 | with distinct type codes, each code selects its own class |
| CustomField.GetOption | src/Object/CustomField/CustomField.php:247-256 | a numeric value is looked up by identifier, other text by option value, and an option object is kept; anything else finds nothing |
| CustomField.GetOptionResolves | src/Object/CustomField/CustomField.php:247-256 | in a well-formed definition, the option found is an option with the identifier or value that was asked for |
| CustomField.Parse | src/Object/CustomField/CustomField.php:107-113 | identifier, type, name and title come from the attributes; the raw value is the element contents |
| CustomField.Build | src/Object/CustomField/CustomField.php:115-121 | sends exactly one form field, the raw value under the field name, and no file |
| CustomField.SetValue | src/Object/CustomField/CustomField.php:220-223 | stores the string form (null kept) and changes nothing else |
| CustomField.SetThenGet | src/Object/CustomField/CustomField.php:209-223 | `getValue` returns what `setValue` stored; a string comes back unchanged, and setting it again is a no-op |
| CustomField.GetValue | src/Object/CustomField/CustomField.php:209-211 | writing back the value read (a string or null) leaves the field as it is |
| CustomField.Forbidden | src/Object/CustomField/CustomField.php:123-145 | fetching, creating, updating, deleting and refreshing a custom field directly raise `BadMethodCallException` |
| CustomFields.CreateByType | src/Object/CustomField/CustomField.php:84-105 | the class created is the one the type selects; an unknown type raises the general exception |
| CustomFields.CreateByTypeDispatch | src/Object/CustomField/CustomField.php:84-105 | a field whose type is a known code is created as that code's class |
| CustomFields.Build | src/Object/CustomField/CustomField.php:115-121 | every class builds its request except the linked select, which is not part of this model |
| CustomFieldFile.Parse | src/Object/CustomField/CustomFieldFile.php:35-41 | the file name only when the attribute is present, the contents base64-decoded, and the field clean |
| CustomFieldFile.Build | src/Object/CustomField/CustomFieldFile.php:43-53 | a clean field sends nothing; a changed one sends exactly its name and raw contents as one upload |
| CustomFieldFile.SetFileName | src/Object/CustomField/CustomFieldFile.php:74-84 | the field becomes dirty exactly when the name differs, and stays dirty |
| CustomFieldFile.SetContents | src/Object/CustomField/CustomFieldFile.php:101-107 | the field becomes dirty exactly when the contents differ, and stays dirty |
| CustomFieldFile.SetContentsFromFile | src/Object/CustomField/CustomFieldFile.php:117-131 | a failed read raises with the path in the message; otherwise the contents read, the given name or the base name, and the base64 raw value are stored |
| CustomFieldFile.SetValue | src/Object/CustomField/CustomFieldFile.php:155-157 | reads the file at the path and names the field after the file |
| CustomFieldFile.FromFileParsesBack | src/Object/CustomField/CustomFieldFile.php:117-131 | the raw value a file read stores parses back to the contents read |
| CustomFieldFile.GetValue | src/Object/CustomField/CustomFieldFile.php:143-145 | writing back the name and contents read leaves a clean field unchanged, so nothing is re-sent |
| CustomFieldFile.FromFileIsSent | src/Object/CustomField/CustomFieldFile.php:117-131 | reading new contents makes the next build upload them under the file's base name |
| CustomFieldFile.ParsedBuildsNothing | src/Object/CustomField/CustomFieldFile.php:35-53 | a freshly parsed field sends nothing |
| CustomFieldFile.ChangedIsMonotone | src/Object/CustomField/CustomFieldFile.php:74-107 | no setter clears the dirty flag |
| CustomFieldFile.SameFileIsNotResent | src/Object/CustomField/CustomFieldFile.php:74-107 | setting the name and contents already held leaves a clean field clean |
| CustomFieldFile.NewContentsAreSent | src/Object/CustomField/CustomFieldFile.php:43-107 | new contents are uploaded by the next build, and `getValue` returns them |
| CustomFieldSelect.Parse | src/Object/CustomField/CustomFieldSelect.php:20-23 | the selected option is the definition's option for the element contents |
| CustomFieldSelect.Build | src/Object/CustomField/CustomFieldSelect.php:25-35 | no selection sends nothing; a selection sends the option's identifier under the field name |
| CustomFieldSelect.SetSelectedOption | src/Object/CustomField/CustomFieldSelect.php:43-48 | an option object is selected and its value becomes the raw value; anything else clears both |
| CustomFieldSelect.SetValue | src/Object/CustomField/CustomFieldSelect.php:80-83 | a value the definition does not resolve clears the selection |
| CustomFieldSelect.SelectThenBuild | src/Object/CustomField/CustomFieldSelect.php:25-48 | a selected option is read back and sent by its identifier |
| CustomFieldSelect.GetValue | src/Object/CustomField/CustomFieldSelect.php:67-69 | the option read is the one the next build sends, by its identifier; no option read means nothing is sent |
| CustomFieldSelect.SetValueSelects | src/Object/CustomField/CustomFieldSelect.php:80-83 | an identifier or value listed in the definition selects that option |
| CustomFieldSelect.RawValueRoundTrip | src/Object/CustomField/CustomFieldSelect.php:20-48 | data carrying the raw value a selection produced parses back to the same option |
| CustomFieldMultiSelect.Resolve | src/Object/CustomField/CustomFieldMultiSelect.php:27-40 | every resolved option comes from some piece, and unresolvable pieces are dropped |
| CustomFieldMultiSelect.Pieces | src/Object/CustomField/CustomFieldMultiSelect.php:27-40 | the pieces are the contents split at the separator |
| CustomFieldMultiSelect.Parse | src/Object/CustomField/CustomFieldMultiSelect.php:27-40 | the options are the resolved pieces of the contents, duplicates included |
| CustomFieldMultiSelect.ResolveValues | src/Object/CustomField/CustomFieldMultiSelect.php:27-40 | pieces naming listed option values resolve to exactly those options |
| CustomFieldMultiSelect.SameIdEquivalence | src/Object/CustomField/CustomFieldMultiSelect.php:70-97 | "same identifier" is an equivalence |
| CustomFieldMultiSelect.OptionObjects | src/Object/CustomField/CustomFieldMultiSelect.php:70-97 | exactly the option objects among the values are kept |
| CustomFieldMultiSelect.KeepFirst | src/Object/CustomField/CustomFieldMultiSelect.php:70-97 | the de-duplicated list shares no identifier, keeps only input options, and represents every identifier of the input |
| CustomFieldMultiSelect.KeepFirstIsFirstOccurrences | src/Object/CustomField/CustomFieldMultiSelect.php:70-97 | de-duplication keeps exactly the first option of each identifier, in order |
| CustomFieldMultiSelect.KeepDecision | src/Object/CustomField/CustomFieldMultiSelect.php:70-97 | an option is dropped exactly when an earlier one has its identifier |
| CustomFieldMultiSelect.KeepFirstOfDistinct | src/Object/CustomField/CustomFieldMultiSelect.php:70-97 | a list without shared identifiers is kept as it is |
| CustomFieldMultiSelect.SetSelectedOptions | src/Object/CustomField/CustomFieldMultiSelect.php:70-97 | the first option of each identifier is selected, and the raw value is their values joined by the separator |
| CustomFieldMultiSelect.SetValue | src/Object/CustomField/CustomFieldMultiSelect.php:135-161 | every selected option resolves some given value, no two share an identifier, and the raw value lists them; with a well-formed definition the selection is exactly the first option of each identifier among the options the values resolve to, in order |
| CustomFieldMultiSelect.SelectDistinct | src/Object/CustomField/CustomFieldMultiSelect.php:70-97 | selecting options without shared identifiers keeps them all, in order |
| CustomFieldMultiSelect.RawValueRoundTrip | src/Object/CustomField/CustomFieldMultiSelect.php:27-97 | data carrying the raw value of a selection parses back to the same options |
| CustomFieldMultiSelect.ElementKeyInjective | src/Object/CustomField/CustomFieldMultiSelect.php:42-53 | the per-option request keys are distinct and differ from the field name |
| CustomFieldMultiSelect.Build | src/Object/CustomField/CustomFieldMultiSelect.php:42-53 | one key per selected option, each carrying that option's identifier, and nothing under the bare name |
| CustomFieldMultiSelect.GetValue | src/Object/CustomField/CustomFieldMultiSelect.php:107-109 | the options read are the ones the next build sends: one key per option, each carrying that option's identifier |
| CustomFieldMultiSelect.GetValues | src/Object/CustomField/CustomFieldMultiSelect.php:120-127 | every entry of the map is the identifier and the value of some selected option |
| CustomFieldMultiSelect.GetValuesKeys | src/Object/CustomField/CustomFieldMultiSelect.php:120-127 | the map is keyed by exactly the identifiers of the options |
| CustomFieldMultiSelect.GetValuesLastWins | src/Object/CustomField/CustomFieldMultiSelect.php:120-127 | for a repeated identifier the last option's value wins |
| CustomFieldMultiSelect.GetValuesOfDistinct | src/Object/CustomField/CustomFieldMultiSelect.php:120-127 | without shared identifiers, every option's value is under its identifier |
| Department.Parse | src/Object/Department/Department.php:119-137 | user groups are read only with custom visibility; otherwise the held list stays |
| Department.Build | src/Object/Department/Department.php:139-161 | title, type and module are always sent; display order and parent only when set; the user group list exactly with custom visibility |
| Department.SetTitle | src/Object/Department/Department.php:207-210 | stores the string form, null kept |
| Department.SetType | src/Object/Department/Department.php:233-236 | only a TYPE constant the value loosely equals is kept, otherwise null |
| Department.SetModule | src/Object/Department/Department.php:259-262 | only a MODULE constant the value loosely equals is kept, otherwise null |
| Department.TypeGroup | src/Object/Department/Department.php:38-45 | the department types are public and private, in that order |
| Department.ModuleGroup | src/Object/Department/Department.php:24-31 | the modules are tickets and live chat, in that order |
| Department.SetTypeKeepsTypes | src/Object/Department/Department.php:233-236 | every department type is accepted as it is |
| Department.SetModuleKeepsModules | src/Object/Department/Department.php:259-262 | every module is accepted as it is |
| Department.SetDisplayOrder | src/Object/Department/Department.php:281-284 | stores the integer form, 0 for null |
| Department.SetParentDepartmentId | src/Object/Department/Department.php:303-307 | stores a positive identifier or null and drops the cached parent |
| Department.GetParentDepartment | src/Object/Department/Department.php:316-325 | no parent without a positive identifier; otherwise that identifier is fetched |
| Department.SetParentDepartment | src/Object/Department/Department.php:333-337 | a department object sets both the parent and its identifier; anything else clears both |
| Department.SettersAreSent | src/Object/Department/Department.php:139-307 | what each setter stores is what the next request sends; a parent is sent exactly when the identifier is positive |
| Department.SetUserVisibilityCustom | src/Object/Department/Department.php:358-365 | turning custom visibility off clears the user groups; turning it on keeps them |
| Department.SetUserGroupIds | src/Object/Department/Department.php:383-404 | the group list becomes the normalised positive identifiers |
| Department.AddUserGroup | src/Object/Department/Department.php:460-473 | the group is listed afterwards; a listed group changes nothing; clearing leaves only it and turns custom visibility on |
| Department.AddUserGroupKeepsDistinct | src/Object/Department/Department.php:460-473 | adding never duplicates a group |
| Department.IsVisibleToUserGroup | src/Object/Department/Department.php:436-450 | only public departments are visible; without custom visibility to all groups, with it to exactly the listed groups |
| Department.AddedGroupSees | src/Object/Department/Department.php:436-473 | a group just added to a public department sees it |
| Department.NoCustomVisibility | src/Object/Department/Department.php:358-450 | without custom visibility, a department is visible to a group exactly when it is public |
| Department.New | src/Object/Department/Department.php:55-117 | a new object carries the declared defaults: no custom visibility, no user groups and no parent |
| Department.CreateNew | src/Object/Department/Department.php:484-490 | the title as a string, type and module as resolved constants, no parent, no custom visibility |
| Department.CreateNewDefaults | src/Object/Department/Department.php:484-490 | the default arguments create a public department of the tickets module |
| Department.NewSubdepartment | src/Object/Department/Department.php:500-504 | the child takes the parent's module and links back to the parent |
| Department.SubdepartmentInheritsModule | src/Object/Department/Department.php:500-504 | a subdepartment of a department whose module is one of the modules has that module |
| Department.GetId | src/Object/Department/Department.php:186-188 | the identifier, or a one-element list of it for the complete form |
| TicketType.GroupIds | src/Object/Ticket/TicketType.php:107-112 | one identifier per listed user group, in order |
| TicketType.ParsedGroupIds | src/Object/Ticket/TicketType.php:107-112 | one parse collects the data's groups exactly when the custom flag is true and the data carries a list, none otherwise |
| TicketType.ParseFields | src/Object/Ticket/TicketType.php:100-107 | identifier, department, type and custom flag come from the data; the group list and the cached department are left as they were |
| TicketType.ParseAsWritten | src/Object/Ticket/TicketType.php:100-113 | as written, the parsed groups are appended to the ones held |
| TicketType.Parse | src/Object/Ticket/TicketType.php:100-113 | corrected, the groups are those of the data alone; the cached department is kept |
| TicketType.ParseOfNewAgrees | src/Object/Ticket/TicketType.php:86-113 | on a new type, whose group list is empty, the written and the corrected parse agree |
| TicketType.ParseAsWrittenDuplicatesGroups | src/Object/Ticket/TicketType.php:108-111 | parsing the same data twice as written lists its group twice |
| TicketType.ParseIsIdempotent | src/Object/Ticket/TicketType.php:100-113 | corrected parsing twice equals once, and its groups do not depend on the previous state |
| TicketType.GetDepartment | src/Object/Ticket/TicketType.php:185-194 | no department without an identifier; otherwise that identifier is fetched |
| TicketType.IsVisibleToUserGroup | src/Object/Ticket/TicketType.php:261-275 | only public types are visible; without custom visibility to all groups, with it to exactly the listed groups |
| TicketType.ParsedWithoutFlagIsOpen | src/Object/Ticket/TicketType.php:261-275 | a parsed public type without custom visibility is visible to every group |
| TicketType.ParsedWithFlagLists | src/Object/Ticket/TicketType.php:261-275 | with custom visibility, a parsed type is visible to a group exactly when the data lists it |
| TicketType.IsAvailableInDepartment | src/Object/Ticket/TicketType.php:284-295 | a type without a department is available everywhere; otherwise only in its own department |
| TicketType.AvailableOnlyInOwnDepartment | src/Object/Ticket/TicketType.php:284-295 | a type with a department is available in a department exactly when the identifiers agree |
| TicketType.GetId | src/Object/Ticket/TicketType.php:138-140 | the identifier, or a one-element list of it for the complete form |
| TicketPost.Parse | src/Object/Ticket/TicketPost.php:228-251 | identifiers and creator kind come from the data; the privacy flag only when present |
| TicketPost.SetUserId | src/Object/Ticket/TicketPost.php:415-422 | a user author replaces any staff author, and the creator kind follows |
| TicketPost.SetUser | src/Object/Ticket/TicketPost.php:447-454 | a user object becomes the sole author; anything else clears the author |
| TicketPost.SetStaffId | src/Object/Ticket/TicketPost.php:573-580 | a staff author replaces any user author, and the creator kind follows |
| TicketPost.SetStaff | src/Object/Ticket/TicketPost.php:605-612 | a staff object becomes the sole author; anything else clears the author |
| TicketPost.SetCreator | src/Object/Ticket/TicketPost.php:623-641 | a numeric creator is read by the creator kind, an object by its class; anything else changes nothing |
| TicketPost.SetCreatorKeepsConsistent | src/Object/Ticket/TicketPost.php:623-641 | the creator kind always agrees with the identifier held, and never both authors are held |
| TicketPost.LastCreatorWins | src/Object/Ticket/TicketPost.php:415-580 | whichever author was set last is the creator, and the other is dropped |
| TicketPost.GetCreator | src/Object/Ticket/TicketPost.php:648-656 | the staff or the user author, according to the creator kind; nothing for another kind |
| TicketPost.SetTicketId | src/Object/Ticket/TicketPost.php:340-344 | a positive identifier or null, and the cached ticket is dropped |
| TicketPost.SetTicket | src/Object/Ticket/TicketPost.php:371-375 | a ticket object sets both the ticket and its identifier; anything else clears both |
| TicketPost.SetSubject | src/Object/Ticket/TicketPost.php:684-687 | stores the string form, null kept |
| TicketPost.SetContents | src/Object/Ticket/TicketPost.php:706-709 | stores the string form, null kept |
| TicketPost.SetIsPrivate | src/Object/Ticket/TicketPost.php:728-731 | stores the truthiness |
| TicketPost.New | src/Object/Ticket/TicketPost.php:89-199 | a new object carries the declared defaults: a public post with no creator kind and no author identifier |
| TicketPost.CreateNew | src/Object/Ticket/TicketPost.php:768-774 | the post has a consistent author, the ticket, the contents and is public |
| TicketPost.Author | src/Object/Ticket/TicketPost.php:253-276 | the staff key is sent exactly for staff posts and the user key exactly for user posts |
| TicketPost.Build | src/Object/Ticket/TicketPost.php:253-276 | a post with neither numeric identifier raises; otherwise at most one author key: `staffid` for a STAFF creator, `userid` for a USER creator, none for any other kind |
| TicketPost.BuildSendsOneAuthor | src/Object/Ticket/TicketPost.php:253-276 | after setting a staff or a user author, only that author's key is sent |
| TicketPost.SettersAreSent | src/Object/Ticket/TicketPost.php:253-276 | subject, contents, privacy and ticket set are the ones the next request sends |
| TicketPost.Update | src/Object/Ticket/TicketPost.php:309-311 | updating a post raises `BadMethodCallException` |
| TicketPost.GetId | src/Object/Ticket/TicketPost.php:321-323 | the post identifier, or the ticket and post identifiers for the complete form |
| TicketPost.DeleteIds | src/Object/Ticket/TicketPost.php:313-315 | deleting addresses the complete identifier, the ticket's and then the post's |
| TicketPost.GetAllParameters | src/Object/Ticket/TicketPost.php:284-296 | lists by ticket, taking a ticket object's identifier or the value as given |
| NewsItem.ParseFields | src/Object/News/NewsItem.php:258-308 | group lists are read only with their visibility flags and replace the held ones; comments are never negative |
| NewsItem.ParseAsWritten | src/Object/News/NewsItem.php:273-282 | as written, the parsed categories are appended to the ones held |
| NewsItem.Parse | src/Object/News/NewsItem.php:273-282 | corrected, the categories are those of the data alone |
| NewsItem.ParseAsWrittenDuplicatesCategories | src/Object/News/NewsItem.php:273-282 | parsing the same data twice as written lists its category twice |
| NewsItem.ParseIsIdempotent | src/Object/News/NewsItem.php:258-308 | corrected parsing twice equals once, and its categories do not depend on the previous state |
| NewsItem.ParseGroupsNeedFlag | src/Object/News/NewsItem.php:284-307 | without the visibility flags no group lists are parsed |
| NewsItem.SetStaffId | src/Object/News/NewsItem.php:404-408 | a positive identifier or null, and the cached author is dropped |
| NewsItem.SetStaff | src/Object/News/NewsItem.php:433-437 | a staff object sets both the author and its identifier; anything else clears both |
| NewsItem.SetEditedStaffId | src/Object/News/NewsItem.php:445-449 | a positive identifier or null, and the cached editor is dropped |
| NewsItem.SetEditedStaff | src/Object/News/NewsItem.php:457-461 | a staff object sets both the editor and its identifier; anything else clears both |
| NewsItem.SetType | src/Object/News/NewsItem.php:485-488 | only a TYPE constant the value loosely equals is kept, otherwise null |
| NewsItem.SetStatus | src/Object/News/NewsItem.php:511-514 | only a STATUS constant the value loosely equals is kept, otherwise null |
| NewsItem.TypeGroup | src/Object/News/NewsItem.php:31-47 | the item types are global, public and private, in that order |
| NewsItem.StatusGroup | src/Object/News/NewsItem.php:54-61 | the item statuses are draft and published, in that order |
| NewsItem.SetTypeKeepsTypes | src/Object/News/NewsItem.php:485-488 | every item type is accepted as it is |
| NewsItem.SetStatusKeepsStatuses | src/Object/News/NewsItem.php:511-514 | every item status is accepted as it is |
| NewsItem.SetTypePrivate | src/Object/News/NewsItem.php:485-488 | the code 3 selects the private type |
| NewsItem.SetTypeNumericString | src/Object/News/NewsItem.php:485-488 | a numeric string selects the type of that number |
| NewsItem.SetTypeRefuses | src/Object/News/NewsItem.php:485-488 | an unknown code gives null |
| NewsItem.SetFromName | src/Object/News/NewsItem.php:546-549 | stores the string form |
| NewsItem.SetEmail | src/Object/News/NewsItem.php:557-560 | stores the string form |
| NewsItem.SetSubject | src/Object/News/NewsItem.php:579-582 | stores the string form |
| NewsItem.SetEmailSubject | src/Object/News/NewsItem.php:603-606 | stores the string form |
| NewsItem.SetContents | src/Object/News/NewsItem.php:1009-1012 | stores the string form |
| NewsItem.SetSendEmail | src/Object/News/NewsItem.php:614-617 | stores the truthiness |
| NewsItem.SetAllowComments | src/Object/News/NewsItem.php:636-639 | stores the truthiness |
| NewsItem.SetExpiry | src/Object/News/NewsItem.php:691-694 | a number or null gives a positive timestamp or null; text gives its parsed time, false when unparsable |
| NewsItem.SetUserVisibilityCustom | src/Object/News/NewsItem.php:748-755 | turning it off clears the user groups; turning it on keeps them |
| NewsItem.SetStaffVisibilityCustom | src/Object/News/NewsItem.php:880-887 | turning it off clears the staff groups; turning it on keeps them |
| NewsItem.SetUserGroupIds | src/Object/News/NewsItem.php:773-794 | the list becomes the normalised positive identifiers |
| NewsItem.SetStaffGroupIds | src/Object/News/NewsItem.php:905-926 | the list becomes the normalised positive identifiers |
| NewsItem.SetCategoryIds | src/Object/News/NewsItem.php:1030-1051 | the list becomes the normalised positive identifiers |
| NewsItem.AddUserGroup | src/Object/News/NewsItem.php:847-859 | the group is listed afterwards; a listed group changes nothing; clearing leaves only it and turns custom visibility on |
| NewsItem.AddStaffGroup | src/Object/News/NewsItem.php:979-991 | the group is listed afterwards; a listed group changes nothing; clearing leaves only it and turns custom visibility on |
| NewsItem.AddCategory | src/Object/News/NewsItem.php:1100-1112 | the category is listed afterwards; a listed one changes nothing; clearing leaves only it |
| NewsItem.AddersKeepDistinct | src/Object/News/NewsItem.php:847-859 | none of the three adders duplicates an identifier |
| NewsItem.IsInCategory | src/Object/News/NewsItem.php:1083-1091 | a category object with a nonzero identifier is matched by that identifier, anything else with a nonzero integer form by that integer, as `in_array` compares them |
| NewsItem.AddedCategoryIsIn | src/Object/News/NewsItem.php:1083-1112 | an item is in a category just added |
| NewsItem.ExpiryIsMonotone | src/Object/News/NewsItem.php:703-705 | an item without an expiry never expires, and an expired item stays expired |
| NewsItem.IsExpired | src/Object/News/NewsItem.php:703-705 | null and false never expire, nor does a non-positive timestamp; a positive timestamp has expired exactly once the clock has reached it |
| NewsItem.IsVisibleToUserGroup | src/Object/News/NewsItem.php:820-837 | private items and expired items (when checked) are hidden; otherwise visible to all, or exactly to the listed groups with custom visibility |
| NewsItem.IsVisibleToStaffGroup | src/Object/News/NewsItem.php:952-969 | public items and expired items (when checked) are hidden; otherwise visible exactly when the flag is explicitly false or the group is listed |
| NewsItem.NoCustomVisibilityOpensAll | src/Object/News/NewsItem.php:820-837 | without custom visibility, a live non-private item is visible to every user group |
| NewsItem.AddedGroupSees | src/Object/News/NewsItem.php:820-859 | a user group just added sees a live non-private item |
| NewsItem.UnlistedGroupCannotSee | src/Object/News/NewsItem.php:820-837 | with custom visibility, an unlisted group does not see the item |
| NewsItem.NewItemHiddenFromStaff | src/Object/News/NewsItem.php:952-969 | a new item, whose staff flag is unset, is hidden from every staff group and visible to every user group |
| NewsItem.ModeData | src/Object/News/NewsItem.php:310-349 | the author and the type are sent on create; the editor on update |
| NewsItem.VisibilityData | src/Object/News/NewsItem.php:310-349 | both flags are always sent; each group list exactly when its flag is set |
| NewsItem.CommonData | src/Object/News/NewsItem.php:310-349 | texts, status, flags, expiry and the category list are sent as held |
| NewsItem.Build | src/Object/News/NewsItem.php:310-349 | the request is the common keys plus the mode keys plus the visibility keys |
| NewsItem.BuildAuthorKeys | src/Object/News/NewsItem.php:310-349 | exactly one of author and editor is sent, chosen by the mode |
| NewsItem.BuildVisibilityKeys | src/Object/News/NewsItem.php:310-349 | each group list is sent exactly when its flag is set |
| NewsItem.BuildSendsCategories | src/Object/News/NewsItem.php:310-349 | the category list is always sent, as held |
| NewsItem.SettersAreSent | src/Object/News/NewsItem.php:310-349 | what each setter stores is what the next request sends, on create and update alike |
| NewsItem.BuildSendsCommon | src/Object/News/NewsItem.php:310-349 | no mode or visibility key overrides a common key |
| NewsItem.GetAllParameters | src/Object/News/NewsItem.php:357-367 | lists by category, taking an object's identifier or the value as given |
| NewsItem.GetId | src/Object/News/NewsItem.php:383-385 | the identifier, or a one-element list of it for the complete form |
| NewsItem.GetStaff | src/Object/News/NewsItem.php:416-425 | the cached author unless reloading; otherwise fetched exactly when an identifier is held |
| NewsItem.StaffSettersAgree | src/Object/News/NewsItem.php:404-437 | after setting an identifier it is fetched; after setting an object it is handed back |
| NewsItem.New | src/Object/News/NewsItem.php:105-256 | a new object carries the declared defaults: no custom user visibility and an unset staff flag, no group or category lists, no expiry and no type |
| NewsItem.CreateNew | src/Object/News/NewsItem.php:1123-1129 | subject and contents as strings, the staff member as author, no categories, no custom visibility |
| TroubleshooterStep.Parse | src/Object/Troubleshooter/TroubleshooterStep.php:201-238 | both step lists come from the data; redirection and its department are read; the status is not |
| TroubleshooterStep.ParseReplacesLists | src/Object/Troubleshooter/TroubleshooterStep.php:215-236 | the step lists do not depend on the previous state, and parsing twice equals once |
| TroubleshooterStep.RedirectData | src/Object/Troubleshooter/TroubleshooterStep.php:260-265 | the redirection keys are sent exactly when redirection is enabled |
| TroubleshooterStep.ModeData | src/Object/Troubleshooter/TroubleshooterStep.php:249-253 | the author on create, the editor on update |
| TroubleshooterStep.CommonData | src/Object/Troubleshooter/TroubleshooterStep.php:240-270 | texts, status, order, flags and the parent list are sent as held |
| TroubleshooterStep.Build | src/Object/Troubleshooter/TroubleshooterStep.php:240-270 | the request is the common keys plus the mode key plus the redirection block |
| TroubleshooterStep.BuildKeys | src/Object/Troubleshooter/TroubleshooterStep.php:240-270 | one author key by mode, redirection keys exactly when enabled, the parent list always, no child list |
| TroubleshooterStep.SetStatus | src/Object/Troubleshooter/TroubleshooterStep.php:368-371 | only a STATUS constant the value loosely equals is kept, otherwise null |
| TroubleshooterStep.StatusGroup | src/Object/Troubleshooter/TroubleshooterStep.php:30-37 | the step statuses are draft and published, in that order |
| TroubleshooterStep.SetStatusKeepsStatuses | src/Object/Troubleshooter/TroubleshooterStep.php:368-371 | every step status is accepted as it is |
| TroubleshooterStep.SetStatusValues | src/Object/Troubleshooter/TroubleshooterStep.php:368-371 | both statuses are kept, and another code gives null |
| TroubleshooterStep.SetDisplayOrder | src/Object/Troubleshooter/TroubleshooterStep.php:411-414 | stores the integer form, null kept |
| TroubleshooterStep.SetAllowComments | src/Object/Troubleshooter/TroubleshooterStep.php:433-436 | stores the truthiness |
| TroubleshooterStep.SetParentStepIds | src/Object/Troubleshooter/TroubleshooterStep.php:696-717 | the parents become the normalised positive identifiers; the children are kept |
| TroubleshooterStep.SetCategory | src/Object/Troubleshooter/TroubleshooterStep.php:602-606 | a category object sets both the category and its identifier; anything else clears both |
| TroubleshooterStep.SetTicketTypeId | src/Object/Troubleshooter/TroubleshooterStep.php:455-459 | an integer or null, and the cached ticket type is dropped |
| TroubleshooterStep.SetTicketType | src/Object/Troubleshooter/TroubleshooterStep.php:486-490 | a ticket type object sets both the type and its identifier; anything else clears both |
| TroubleshooterStep.SetTicketPriorityId | src/Object/Troubleshooter/TroubleshooterStep.php:509-512 | an integer or null; the cached priority is kept |
| TroubleshooterStep.SetTicketPriority | src/Object/Troubleshooter/TroubleshooterStep.php:539-543 | a priority object sets both the priority and its identifier; anything else clears both |
| TroubleshooterStep.SetTicketSubject | src/Object/Troubleshooter/TroubleshooterStep.php:562-565 | stores the string form |
| TroubleshooterStep.SetSubject | src/Object/Troubleshooter/TroubleshooterStep.php:316-319 | stores the string form |
| TroubleshooterStep.SetContents | src/Object/Troubleshooter/TroubleshooterStep.php:389-392 | stores the string form |
| TroubleshooterStep.SetEnableTicketRedirection | src/Object/Troubleshooter/TroubleshooterStep.php:622-625 | stores the truthiness |
| TroubleshooterStep.SetRedirectDepartmentId | src/Object/Troubleshooter/TroubleshooterStep.php:644-647 | stores the string form, unlike the other identifier setters |
| TroubleshooterStep.SetRedirectDepartment | src/Object/Troubleshooter/TroubleshooterStep.php:674-678 | a department object sets both the department and its identifier; anything else clears both |
| TroubleshooterStep.SetStaff | src/Object/Troubleshooter/TroubleshooterStep.php:590-594 | a staff object sets both the author and its identifier; anything else clears both |
| TroubleshooterStep.SetEditedStaffId | src/Object/Troubleshooter/TroubleshooterStep.php:734-738 | a positive identifier or null, and the cached editor is dropped |
| TroubleshooterStep.SetEditedStaff | src/Object/Troubleshooter/TroubleshooterStep.php:746-750 | a staff object sets both the editor and its identifier; anything else clears both |
| TroubleshooterStep.DisabledRedirectionSendsNoBlock | src/Object/Troubleshooter/TroubleshooterStep.php:260-265 | disabling redirection drops the whole redirection block |
| TroubleshooterStep.BuildSendsCommon | src/Object/Troubleshooter/TroubleshooterStep.php:240-270 | neither the author key nor the redirection block overrides a common key |
| TroubleshooterStep.SettersAreSent | src/Object/Troubleshooter/TroubleshooterStep.php:240-270 | subject, contents, status, order, comments flag and redirection flag set are the ones the next request sends |
| TroubleshooterStep.RedirectSettersAreSent | src/Object/Troubleshooter/TroubleshooterStep.php:260-265 | with redirection on, the department, type, priority and subject set are the ones sent |
| TroubleshooterStep.New | src/Object/Troubleshooter/TroubleshooterStep.php:161-175 | a new object carries the declared defaults: no parent or child steps and no status |
| TroubleshooterStep.CreateNew | src/Object/Troubleshooter/TroubleshooterStep.php:763-770 | the staff member as author, subject and contents as strings, no parents |
| TroubleshooterCategory.Parse | src/Object/Troubleshooter/TroubleshooterCategory.php:123-153 | user groups are read only when custom user visibility is already on; staff groups follow the parsed flag |
| TroubleshooterCategory.NewCategoryGetsNoUserGroups | src/Object/Troubleshooter/TroubleshooterCategory.php:123-153 | a new category never reads user groups, whatever the data says |
| TroubleshooterCategory.Build | src/Object/Troubleshooter/TroubleshooterCategory.php:155-174 | the fields are always sent; each group list exactly when its flag is on |
| TroubleshooterCategory.SetCategoryType | src/Object/Troubleshooter/TroubleshooterCategory.php:224-227 | only a CATEGORY_TYPE constant the value loosely equals is kept, otherwise null |
| TroubleshooterCategory.CategoryTypeGroup | src/Object/Troubleshooter/TroubleshooterCategory.php:24-40 | the group is global, public and private, in that order |
| TroubleshooterCategory.CategoryTypesDistinct | src/Object/Troubleshooter/TroubleshooterCategory.php:24-40 | no two category types compare loosely equal |
| TroubleshooterCategory.SetCategoryTypeKeepsTypes | src/Object/Troubleshooter/TroubleshooterCategory.php:224-227 | every category type is accepted as it is |
| TroubleshooterCategory.SetCategoryTypeInteger | src/Object/Troubleshooter/TroubleshooterCategory.php:224-227 | the integer 2 selects the public type |
| TroubleshooterCategory.SetCategoryTypeRefuses | src/Object/Troubleshooter/TroubleshooterCategory.php:224-227 | an unknown code gives null |
| TroubleshooterCategory.SetTitle | src/Object/Troubleshooter/TroubleshooterCategory.php:246-249 | stores the string form |
| TroubleshooterCategory.SetDescription | src/Object/Troubleshooter/TroubleshooterCategory.php:268-271 | stores the string form |
| TroubleshooterCategory.SetDisplayOrder | src/Object/Troubleshooter/TroubleshooterCategory.php:290-293 | stores the integer form, 0 for null |
| TroubleshooterCategory.SetUserVisibilityCustom | src/Object/Troubleshooter/TroubleshooterCategory.php:344-350 | turning it off empties the user groups; turning it on keeps them |
| TroubleshooterCategory.SetStaffVisibilityCustom | src/Object/Troubleshooter/TroubleshooterCategory.php:410-416 | turning it off empties the staff groups; turning it on keeps them |
| TroubleshooterCategory.SetUserGroupIds | src/Object/Troubleshooter/TroubleshooterCategory.php:368-389 | the list becomes the normalised positive identifiers |
| TroubleshooterCategory.SetStaffGroupIds | src/Object/Troubleshooter/TroubleshooterCategory.php:434-455 | the list becomes the normalised positive identifiers |
| TroubleshooterCategory.FlagOffSendsNoList | src/Object/Troubleshooter/TroubleshooterCategory.php:155-174 | turning a visibility flag off stops its group list being sent |
| TroubleshooterCategory.BuildSendsFields | src/Object/Troubleshooter/TroubleshooterCategory.php:155-174 | title, type, description, order, flags and author are sent as held |
| TroubleshooterCategory.SettersAreSent | src/Object/Troubleshooter/TroubleshooterCategory.php:155-174 | what each setter stores is what the next request sends |
| TroubleshooterCategory.SetStaffId | src/Object/Troubleshooter/TroubleshooterCategory.php:474-477 | a positive identifier or null; the cached author is kept |
| TroubleshooterCategory.GetStaff | src/Object/Troubleshooter/TroubleshooterCategory.php:301-310 | the cached author unless reloading; otherwise fetched exactly when an identifier is held |
| TroubleshooterCategory.SetStaffIdKeepsCachedStaff | src/Object/Troubleshooter/TroubleshooterCategory.php:301-310 | after `setStaffId` the getter still hands back the old author until reloaded |
| TroubleshooterCategory.SetStaff | src/Object/Troubleshooter/TroubleshooterCategory.php:318-322 | a staff object sets both the author and its identifier; anything else clears both |
| TroubleshooterCategory.New | src/Object/Troubleshooter/TroubleshooterCategory.php:85-107 | a new object carries the declared defaults: the user flag and user list unset, an empty staff list |
| TroubleshooterCategory.CreateNew | src/Object/Troubleshooter/TroubleshooterCategory.php:490-496 | title as a string, type as a resolved constant, the staff member as author |
| KnowledgebaseArticle.ParseFields | src/Object/Knowledgebase/KnowledgebaseArticle.php:133-155 | identifiers and flags come from the data |
| KnowledgebaseArticle.ParseAsWritten | src/Object/Knowledgebase/KnowledgebaseArticle.php:133-155 | as written, the status is read as a boolean and the categories are appended |
| KnowledgebaseArticle.Parse | src/Object/Knowledgebase/KnowledgebaseArticle.php:133-155 | corrected, the status is read as an integer and the categories are those of the data |
| KnowledgebaseArticle.ArticleData | src/Object/Knowledgebase/KnowledgebaseArticle.php:133-155 | sample data with the given status and one category |
| KnowledgebaseArticle.ParseAsWrittenLosesDraft | src/Object/Knowledgebase/KnowledgebaseArticle.php:138 | as written, a draft and a published article parse to the same status |
| KnowledgebaseArticle.ParseAsWrittenDuplicatesCategories | src/Object/Knowledgebase/KnowledgebaseArticle.php:147-150 | parsing the same data twice as written lists its category twice |
| KnowledgebaseArticle.ParseIsIdempotent | src/Object/Knowledgebase/KnowledgebaseArticle.php:133-155 | corrected parsing twice equals once, and its categories do not depend on the previous state |
| KnowledgebaseArticle.ParseKeepsStatus | src/Object/Knowledgebase/KnowledgebaseArticle.php:133-176 | corrected, a parsed status is kept and sent back unchanged |
| KnowledgebaseArticle.Build | src/Object/Knowledgebase/KnowledgebaseArticle.php:157-176 | texts, comments flag, status and categories are sent as held; the creator on create, the editor on update |
| KnowledgebaseArticle.CategoryParameter | src/Object/Knowledgebase/KnowledgebaseArticle.php:186-207 | a category object is named by its identifier; any other value is passed as given |
| KnowledgebaseArticle.GetAllParametersAsWritten | src/Object/Knowledgebase/KnowledgebaseArticle.php:186-207 | as written, a numeric maximum is always passed and the start comes last |
| KnowledgebaseArticle.GetAllAsWrittenMisplacesStart | src/Object/Knowledgebase/KnowledgebaseArticle.php:196-204 | as written, a zero maximum with a start passes five parameters |
| KnowledgebaseArticle.GetAllParameters | src/Object/Knowledgebase/KnowledgebaseArticle.php:186-207 | corrected, at most a positive maximum and a positive start follow the category |
| KnowledgebaseArticle.GetAllParametersPositions | src/Object/Knowledgebase/KnowledgebaseArticle.php:186-207 | corrected, the maximum (1000 when unusable) is third and the start fourth |
| KnowledgebaseArticle.GetAllAgreesOnUsableMaximum | src/Object/Knowledgebase/KnowledgebaseArticle.php:186-207 | with a usable maximum the corrected and the written parameters agree |
| KnowledgebaseArticle.SetStatus | src/Object/Knowledgebase/KnowledgebaseArticle.php:343-346 | only a STATUS constant the value loosely equals is kept, otherwise null |
| KnowledgebaseArticle.StatusGroup | src/Object/Knowledgebase/KnowledgebaseArticle.php:25-33 | the statuses are published and draft, in that order |
| KnowledgebaseArticle.SetStatusKeepsStatuses | src/Object/Knowledgebase/KnowledgebaseArticle.php:343-346 | every article status is accepted as it is |
| KnowledgebaseArticle.SetStatusDraft | src/Object/Knowledgebase/KnowledgebaseArticle.php:343-346 | the string "2" selects draft |
| KnowledgebaseArticle.SetStatusRefuses | src/Object/Knowledgebase/KnowledgebaseArticle.php:343-346 | an unknown code gives null |
| KnowledgebaseArticle.SetSubject | src/Object/Knowledgebase/KnowledgebaseArticle.php:296-299 | stores the string form |
| KnowledgebaseArticle.SetContents | src/Object/Knowledgebase/KnowledgebaseArticle.php:317-320 | stores the string form |
| KnowledgebaseArticle.SetStaffId | src/Object/Knowledgebase/KnowledgebaseArticle.php:244-248 | the creator is a positive identifier or null, and the cached creator is dropped |
| KnowledgebaseArticle.SetCreatorId | src/Object/Knowledgebase/KnowledgebaseArticle.php:367-370 | the creator is an integer or null, and the cached creator is kept |
| KnowledgebaseArticle.SetStaff | src/Object/Knowledgebase/KnowledgebaseArticle.php:273-277 | a staff object sets both the creator and its identifier; anything else clears both |
| KnowledgebaseArticle.GetStaff | src/Object/Knowledgebase/KnowledgebaseArticle.php:256-265 | the cached creator unless reloading; otherwise fetched exactly when an identifier is held |
| KnowledgebaseArticle.StaffSettersAgree | src/Object/Knowledgebase/KnowledgebaseArticle.php:244-277 | after setting an identifier it is fetched; after setting an object it is handed back |
| KnowledgebaseArticle.SetEditedStaffId | src/Object/Knowledgebase/KnowledgebaseArticle.php:378-382 | a positive identifier or null, and the cached editor is dropped |
| KnowledgebaseArticle.SetIsFeatured | src/Object/Knowledgebase/KnowledgebaseArticle.php:401-404 | stores the truthiness |
| KnowledgebaseArticle.SetAllowComments | src/Object/Knowledgebase/KnowledgebaseArticle.php:434-437 | stores the truthiness |
| KnowledgebaseArticle.SetCategoryIds | src/Object/Knowledgebase/KnowledgebaseArticle.php:466-487 | the list becomes the normalised positive identifiers |
| KnowledgebaseArticle.SetCategoryIdsAreSent | src/Object/Knowledgebase/KnowledgebaseArticle.php:157-176 | the categories set are the ones the next request sends |
| KnowledgebaseArticle.SettersAreSent | src/Object/Knowledgebase/KnowledgebaseArticle.php:157-176 | subject, contents, status, comments flag, creator and editor set are the ones sent |
| KnowledgebaseArticle.New | src/Object/Knowledgebase/KnowledgebaseArticle.php:90-125 | a new object carries the declared defaults: not featured, no comments, no attachments, no categories and no status |
| KnowledgebaseArticle.CreateNew | src/Object/Knowledgebase/KnowledgebaseArticle.php:514-520 | subject and contents as strings, the staff member as creator, no categories |
| KnowledgebaseArticle.GetId | src/Object/Knowledgebase/KnowledgebaseArticle.php:223-225 | the identifier, or a one-element list of it for the complete form |
| User.ParsedEmail | src/Object/User/User.php:190-192 | a single address becomes a one-element list; a list stays as it is |
| User.Parse | src/Object/User/User.php:182-202 | identifiers, role, salutation, addresses, expiries and flags come from the data |
| User.ParseSingleEmail | src/Object/User/User.php:182-202 | a single parsed address is the user's first address |
| User.ProfileData | src/Object/User/User.php:204-233 | group, organization, role, salutation, name, addresses, designation, phone and timezone are sent as held |
| User.AccountData | src/Object/User/User.php:204-233 | expiries (0 for none), flags (1 or 0) and the SLA plan are sent, apart from the profile keys |
| User.Build | src/Object/User/User.php:204-233 | password and welcome flag are sent exactly on create; expiries, flags and addresses always |
| User.BuildSendsProfile | src/Object/User/User.php:204-233 | every profile key reaches the request unchanged |
| User.ExpiryRoundTrip | src/Object/User/User.php:182-233 | a parsed expiry is sent back as read, or as 0 when there was none |
| User.FlagsRoundTrip | src/Object/User/User.php:204-233 | the flags sent are truthy exactly when the flags held are set |
| User.GetAllParameters | src/Object/User/User.php:243-255 | the filter name, then a positive start, then a positive maximum, each only when usable |
| User.GetAllPositions | src/Object/User/User.php:243-255 | a maximum alone and a start alone pass the same parameters |
| User.GetEmail | src/Object/User/User.php:521-523 | the first address, false for none; an error when the addresses are not a list |
| User.AddEmail | src/Object/User/User.php:541-549 | clearing leaves only the new address; otherwise it is appended to a list or a keyed array alike (under a fresh integer key), and null or false become a one-address list; null adds nothing; it fails exactly when the held value is another scalar; nothing else changes |
| User.ClearedEmailIsFirst | src/Object/User/User.php:521-549 | after clearing, the added address is the first |
| User.AddEmailKeepsFirst | src/Object/User/User.php:521-549 | appending to a non-empty list or keyed array keeps the first address |
| User.SetUserGroupId | src/Object/User/User.php:319-323 | a positive identifier or null, and the cached group is dropped |
| User.GetUserGroup | src/Object/User/User.php:332-341 | the cached group unless reloading; otherwise fetched exactly when an identifier is held |
| User.SetUserGroup | src/Object/User/User.php:349-353 | the group and its identifier are set together |
| User.SetUserGroupIdRefetches | src/Object/User/User.php:319-341 | after setting an identifier the getter fetches it |
| User.SetUserOrganizationId | src/Object/User/User.php:398-402 | a positive identifier or null, and the cached organization is dropped |
| User.GetUserOrganization | src/Object/User/User.php:411-420 | the cached organization unless reloading; otherwise fetched exactly when an identifier is held |
| User.SetUserOrganization | src/Object/User/User.php:428-432 | the organization and its identifier are set together |
| User.SetUserRole | src/Object/User/User.php:376-379 | only a ROLE constant the value loosely equals is kept, otherwise null |
| User.RoleGroup | src/Object/User/User.php:20-21 | the roles are user and manager, in that order |
| User.SetUserRoleKeepsRoles | src/Object/User/User.php:376-379 | every role is accepted as it is |
| User.SetUserRoleManager | src/Object/User/User.php:376-379 | "manager" selects the manager role |
| User.SetUserRoleRefuses | src/Object/User/User.php:376-379 | a salutation is not a role |
| User.SetSalutation | src/Object/User/User.php:455-458 | only a SALUTATION constant the value loosely equals is kept, otherwise null |
| User.SalutationGroup | src/Object/User/User.php:23-26 | the salutations are Mr., Ms., Mrs. and Dr., in that order |
| User.SetSalutationKeepsSalutations | src/Object/User/User.php:455-458 | every salutation is accepted as it is |
| User.SetSalutationDoctor | src/Object/User/User.php:455-458 | "Dr." selects the doctor salutation |
| User.SetSalutationRefuses | src/Object/User/User.php:455-458 | a role's value is not accepted as a salutation |
| User.SetSalutationRefusesUnknown | src/Object/User/User.php:455-458 | a title the constants do not spell, such as "Miss", gives null |
| User.SetUserExpiry | src/Object/User/User.php:489-492 | a number or null gives a positive timestamp or null; text gives its parsed time, false when unparsable |
| User.SetSlaPlanExpiry | src/Object/User/User.php:750-753 | a number or null gives a positive timestamp or null; text gives its parsed time, false when unparsable |
| User.ClearedExpirySendsZero | src/Object/User/User.php:204-233 | a cleared expiry is sent as 0 |
| User.SetSlaPlanId | src/Object/User/User.php:716-719 | a positive identifier or null |
| User.SetFullName | src/Object/User/User.php:511-514 | stores the string form, null kept |
| User.SetDesignation | src/Object/User/User.php:568-571 | stores the string form, null kept |
| User.SetPhone | src/Object/User/User.php:589-592 | stores the string form, null kept |
| User.SetTimezone | src/Object/User/User.php:674-677 | stores the string form, null kept |
| User.SetIsEnabled | src/Object/User/User.php:652-655 | stores the truthiness |
| User.SetEnableDst | src/Object/User/User.php:695-698 | stores the truthiness |
| User.SetPassword | src/Object/User/User.php:761-764 | stores the string form |
| User.SetSendWelcomeEmail | src/Object/User/User.php:772-775 | stores the truthiness |
| User.SettersAreSent | src/Object/User/User.php:204-233 | what each profile setter stores is what the next request sends |
| User.New | src/Object/User/User.php:53-161 | a new object carries the declared defaults: the user role, expiry 0, no addresses, enabled, without daylight saving, and sending the welcome email |
| User.CreateNew | src/Object/User/User.php:787-794 | name, one address (none for null), the group, the password and the user role |
| User.GetId | src/Object/User/User.php:298-300 | the identifier, or a one-element list of it for the complete form |
| Staff.Parse | src/Object/Staff/Staff.php:134-148 | identifiers, flags and timezone come from the data; signature and password are kept |
| Staff.ProfileData | src/Object/Staff/Staff.php:150-172 | group, names, address, designation, greeting, phone, timezone and flags are sent as held |
| Staff.Build | src/Object/Staff/Staff.php:150-172 | signature and password are sent exactly when non-empty; flags always as 1 or 0 |
| Staff.BuildIgnoresMode | src/Object/Staff/Staff.php:150-172 | create and update send the same data |
| Staff.NewStaffRequest | src/Object/Staff/Staff.php:105-172 | a new staff member is sent enabled, without daylight saving, in GMT |
| Staff.PasswordSentWhenSet | src/Object/Staff/Staff.php:168-169 | an empty password is not sent; a non-empty one is sent as set |
| Staff.SetStaffGroupId | src/Object/Staff/Staff.php:218-222 | a positive identifier or null, and the cached group is dropped |
| Staff.GetStaffGroup | src/Object/Staff/Staff.php:231-240 | the cached group unless reloading; otherwise fetched exactly when a positive identifier is held |
| Staff.SetStaffGroupIdRefetches | src/Object/Staff/Staff.php:218-240 | after setting a positive identifier the getter fetches it; otherwise it finds nothing |
| Staff.SetStaffGroup | src/Object/Staff/Staff.php:248-252 | a group object sets both the group and its identifier; anything else clears both |
| Staff.SetFirstName | src/Object/Staff/Staff.php:271-274 | stores the string form, null kept |
| Staff.SetLastName | src/Object/Staff/Staff.php:293-296 | stores the string form, null kept |
| Staff.SetUserName | src/Object/Staff/Staff.php:326-329 | stores the string form, null kept |
| Staff.SetEmail | src/Object/Staff/Staff.php:348-351 | stores the string form, null kept |
| Staff.SetDesignation | src/Object/Staff/Staff.php:370-373 | stores the string form, null kept |
| Staff.SetGreeting | src/Object/Staff/Staff.php:391-394 | stores the string form, null kept |
| Staff.SetSignature | src/Object/Staff/Staff.php:412-415 | stores the string form |
| Staff.SetMobileNumber | src/Object/Staff/Staff.php:433-436 | stores the string form, null kept |
| Staff.SetIsEnabled | src/Object/Staff/Staff.php:456-459 | stores the truthiness |
| Staff.SetTimezone | src/Object/Staff/Staff.php:477-480 | stores the string form, null kept |
| Staff.SetEnableDst | src/Object/Staff/Staff.php:499-502 | stores the truthiness |
| Staff.SetPassword | src/Object/Staff/Staff.php:510-513 | stores the string form |
| Staff.BuildSendsProfile | src/Object/Staff/Staff.php:150-172 | every profile key reaches the request unchanged |
| Staff.SettersAreSent | src/Object/Staff/Staff.php:150-172 | what each profile setter stores is what the next request sends |
| Staff.New | src/Object/Staff/Staff.php:91-126 | a new object carries the declared defaults: enabled, in GMT, without daylight saving, with no signature and no password |
| Staff.CreateNew | src/Object/Staff/Staff.php:527-536 | names, user name, group and password as given; enabled, in GMT |
| Staff.NewNewsItem | src/Object/Staff/Staff.php:559-561 | the news item is authored by this staff member |
| Staff.GetId | src/Object/Staff/Staff.php:197-199 | the identifier, or a one-element list of it for the complete form |
| UserOrganization.Parse | src/Object/User/UserOrganization.php:132-148 | type, name, dates and SLA plan come from the data |
| UserOrganization.Build | src/Object/User/UserOrganization.php:150-169 | type, SLA plan and its expiry (0 for none) are sent; identifier and dates are not |
| UserOrganization.BuildKeys | src/Object/User/UserOrganization.php:150-169 | the request carries exactly the organization's editable fields |
| UserOrganization.BuildIgnoresMode | src/Object/User/UserOrganization.php:150-169 | create and update send the same data |
| UserOrganization.SlaPlanExpiryRoundTrip | src/Object/User/UserOrganization.php:132-169 | a parsed SLA expiry is sent back as read, or as 0 when there was none |
| UserOrganization.SetType | src/Object/User/UserOrganization.php:241-244 | only a TYPE constant the value loosely equals is kept, otherwise null |
| UserOrganization.TypeGroup | src/Object/User/UserOrganization.php:18-19 | the types are restricted and shared, in that order |
| UserOrganization.SetTypeKeepsTypes | src/Object/User/UserOrganization.php:241-244 | every organization type is accepted as it is |
| UserOrganization.SetTypeShared | src/Object/User/UserOrganization.php:241-244 | "shared" selects the shared type |
| UserOrganization.SetTypeRefuses | src/Object/User/UserOrganization.php:241-244 | an unknown type gives null |
| UserOrganization.SetName | src/Object/User/UserOrganization.php:215-218 | stores the string form, null kept |
| UserOrganization.SetAddress | src/Object/User/UserOrganization.php:263-266 | stores the string form, null kept |
| UserOrganization.SetCity | src/Object/User/UserOrganization.php:285-288 | stores the string form, null kept |
| UserOrganization.SetState | src/Object/User/UserOrganization.php:307-310 | stores the string form, null kept |
| UserOrganization.SetPostalCode | src/Object/User/UserOrganization.php:329-332 | stores the string form, null kept |
| UserOrganization.SetCountry | src/Object/User/UserOrganization.php:351-354 | stores the string form, null kept |
| UserOrganization.SetPhone | src/Object/User/UserOrganization.php:372-375 | stores the string form, null kept |
| UserOrganization.SetFax | src/Object/User/UserOrganization.php:393-396 | stores the string form, null kept |
| UserOrganization.SetWebsite | src/Object/User/UserOrganization.php:414-417 | stores the string form, null kept |
| UserOrganization.SetSlaPlanId | src/Object/User/UserOrganization.php:477-480 | the plan is kept exactly when its identifier is positive, otherwise null |
| UserOrganization.SetSlaPlanExpiry | src/Object/User/UserOrganization.php:511-514 | a number or null gives a positive timestamp or null; text gives its parsed time, false when unparsable |
| UserOrganization.ClearedSlaPlanExpirySendsZero | src/Object/User/UserOrganization.php:166 | a cleared or non-positive expiry is sent as 0 |
| UserOrganization.BuildSendsContact | src/Object/User/UserOrganization.php:150-169 | the contact fields reach the request unchanged |
| UserOrganization.SettersAreSent | src/Object/User/UserOrganization.php:150-169 | what each contact setter stores is what the next request sends |
| UserOrganization.GetId | src/Object/User/UserOrganization.php:194-196 | the identifier, or a one-element list of it for the complete form |
| UserOrganization.New | src/Object/User/UserOrganization.php:29-130 | a new object carries the declared defaults: the restricted type, no identifier and no SLA expiry |
| NewsSubscriber.Parse | src/Object/News/NewsSubscriber.php:62-69 | identifiers, address and validation come from the data |
| NewsSubscriber.Build | src/Object/News/NewsSubscriber.php:71-85 | the address is always sent; the validation flag only on create and only when set |
| NewsSubscriber.UpdateSendsOnlyEmail | src/Object/News/NewsSubscriber.php:71-85 | an update sends the address alone |
| NewsSubscriber.SetEmail | src/Object/News/NewsSubscriber.php:153-156 | stores the string form and keeps the rest |
| NewsSubscriber.SetIsValidated | src/Object/News/NewsSubscriber.php:175-178 | stores the value as given |
| NewsSubscriber.SettersAreSent | src/Object/News/NewsSubscriber.php:71-85 | the address set is sent; validation is sent exactly on create when truthy |
| NewsSubscriber.New | src/Object/News/NewsSubscriber.php:46-53 | a new object carries the declared defaults: no address and no validation |
| NewsSubscriber.CreateNew | src/Object/News/NewsSubscriber.php:199-204 | a new subscriber with the given address and validation |
| NewsSubscriber.CreateNewValidation | src/Object/News/NewsSubscriber.php:71-85 | an unvalidated new subscriber does not send the flag; a validated one does |
| NewsSubscriber.ParsedValidationResent | src/Object/News/NewsSubscriber.php:62-85 | a parsed validation flag is sent back on create exactly when it was truthy |
| NewsSubscriber.GetId | src/Object/News/NewsSubscriber.php:110-112 | the identifier, or a one-element list of it for the complete form |
| NewsCategory.Parse | src/Object/News/NewsCategory.php:66-71 | title and visibility from the data; the item count is never negative |
| NewsCategory.Build | src/Object/News/NewsCategory.php:73-82 | exactly title and visibility type are sent |
| NewsCategory.ParseThenBuild | src/Object/News/NewsCategory.php:66-82 | a parsed category sends back the title and visibility type it read |
| NewsCategory.SetVisibilityType | src/Object/News/NewsCategory.php:132-135 | only a VISIBILITY_TYPE constant the value loosely equals is kept, otherwise null |
| NewsCategory.VisibilityTypeGroup | src/Object/News/NewsCategory.php:25-33 | the visibility types are public and private, in that order |
| NewsCategory.SetVisibilityTypeKeepsTypes | src/Object/News/NewsCategory.php:132-135 | every visibility type is accepted as it is |
| NewsCategory.SetVisibilityTypePrivate | src/Object/News/NewsCategory.php:132-135 | "private" selects the private type |
| NewsCategory.SetVisibilityTypeRefuses | src/Object/News/NewsCategory.php:132-135 | an unknown type gives null |
| NewsCategory.SetTitle | src/Object/News/NewsCategory.php:154-157 | stores the string form and keeps the visibility |
| NewsCategory.SettersAreSent | src/Object/News/NewsCategory.php:73-82 | the title and visibility type set are the ones sent |
| NewsCategory.New | src/Object/News/NewsCategory.php:50-64 | a new object carries the declared defaults: no title, no visibility type and an item count of 0 |
| NewsCategory.CreateNew | src/Object/News/NewsCategory.php:180-185 | the title as a string, the visibility as a resolved constant, no items |
| NewsCategory.GetId | src/Object/News/NewsCategory.php:107-109 | the identifier, or a one-element list of it for the complete form |
| UserGroup.Parse | src/Object/User/UserGroup.php:63-68 | identifier, title, type and master flag from the data |
| UserGroup.Build | src/Object/User/UserGroup.php:70-79 | exactly title and group type are sent |
| UserGroup.ParseThenBuild | src/Object/User/UserGroup.php:63-79 | a parsed group sends back the title and type it read |
| UserGroup.SetTitle | src/Object/User/UserGroup.php:125-128 | stores the string form and keeps the type |
| UserGroup.SetType | src/Object/User/UserGroup.php:151-154 | only a TYPE constant the value loosely equals is kept, otherwise null |
| UserGroup.TypeGroup | src/Object/User/UserGroup.php:21-27 | the types are guest and registered, in that order |
| UserGroup.SetTypeKeepsTypes | src/Object/User/UserGroup.php:151-154 | every group type is accepted as it is |
| UserGroup.SetTypeRefuses | src/Object/User/UserGroup.php:151-154 | an unknown type gives null |
| UserGroup.SettersAreSent | src/Object/User/UserGroup.php:70-79 | the title and type set are the ones sent |
| UserGroup.New | src/Object/User/UserGroup.php:37-61 | a new object carries the declared defaults: no identifier, type or master flag |
| UserGroup.CreateNew | src/Object/User/UserGroup.php:174-179 | the title as a string and the type as a resolved constant |
| UserGroup.CreateNewRegistered | src/Object/User/UserGroup.php:174-179 | the default type is registered |
| UserGroup.NewUser | src/Object/User/UserGroup.php:190-192 | the new user belongs to this group |
| UserGroup.GetId | src/Object/User/UserGroup.php:104-106 | the identifier, or a one-element list of it for the complete form |
| TicketAttachment.Parse | src/Object/Ticket/TicketAttachment.php:90-100 | identifiers and size from the data; contents only when present and non-empty |
| TicketAttachment.Build | src/Object/Ticket/TicketAttachment.php:102-113 | exactly ticket, post, file name and encoded contents are sent |
| TicketAttachment.BuildEncodesContents | src/Object/Ticket/TicketAttachment.php:90-113 | the contents sent parse back to the contents held |
| TicketAttachment.Update | src/Object/Ticket/TicketAttachment.php:146-148 | updating an attachment raises `BadMethodCallException` |
| TicketAttachment.GetId | src/Object/Ticket/TicketAttachment.php:158-160 | the attachment identifier, or the ticket and attachment identifiers for the complete form |
| TicketAttachment.DeleteIds | src/Object/Ticket/TicketAttachment.php:150-152 | deleting addresses the complete identifier |
| TicketAttachment.GetAllParameters | src/Object/Ticket/TicketAttachment.php:121-133 | lists by ticket, with the same parameters as `TicketPost::getAll`: a ticket object's identifier or the value as given |
| TicketAttachment.SetTicketId | src/Object/Ticket/TicketAttachment.php:177-181 | a positive identifier or null, the cached ticket dropped, the post kept |
| TicketAttachment.GetTicket | src/Object/Ticket/TicketAttachment.php:191-200 | the cached ticket unless reloading; otherwise fetched exactly when an identifier is held |
| TicketAttachment.SetTicketPostId | src/Object/Ticket/TicketAttachment.php:215-219 | a positive identifier or null, and the cached post is dropped |
| TicketAttachment.GetTicketPost | src/Object/Ticket/TicketAttachment.php:229-238 | the cached post unless reloading; otherwise fetched by ticket and post exactly when both are held |
| TicketAttachment.SetTicketPost | src/Object/Ticket/TicketAttachment.php:247-252 | a post object sets the post, its identifier and its ticket; anything else clears all of them |
| TicketAttachment.SetFileName | src/Object/Ticket/TicketAttachment.php:271-274 | stores the string form and keeps the contents |
| TicketAttachment.GetAttachmentContents | src/Object/Ticket/TicketAttachment.php:330-336 | stored contents are returned; otherwise fetched by the complete identifier when auto-fetch is on |
| TicketAttachment.SetContents | src/Object/Ticket/TicketAttachment.php:344-347 | stores the raw contents and keeps the name |
| TicketAttachment.SetContentsFromFile | src/Object/Ticket/TicketAttachment.php:357-367 | a failed read raises with the path in the message; otherwise the raw contents and the given or base name |
| TicketAttachment.PositiveId | src/Object/Ticket/TicketAttachment.php:378-387 | only a positive identifier is kept |
| TicketAttachment.New | src/Object/Ticket/TicketAttachment.php:27-88 | a new object carries the declared defaults: no identifier, contents, ticket or post |
| TicketAttachment.CreateNew | src/Object/Ticket/TicketAttachment.php:378-387 | the post's ticket and identifier, the contents and the name |
| TicketAttachment.CreateNewFromFile | src/Object/Ticket/TicketAttachment.php:398-406 | fails exactly when the read fails; otherwise the post's identifiers and the contents read |
| TicketAttachment.CreateNewFindsPost | src/Object/Ticket/TicketAttachment.php:229-387 | a new attachment fetches its post by the post's identifiers |
| TicketAttachment.ConstructorsAgree | src/Object/Ticket/TicketAttachment.php:378-406 | both constructors send the same request for the same contents and name |
| KnowledgebaseAttachment.Parse | src/Object/Knowledgebase/KnowledgebaseAttachment.php:78-87 | identifiers and size from the data; contents only when present and non-empty |
| KnowledgebaseAttachment.StoredContents | src/Object/Knowledgebase/KnowledgebaseAttachment.php:96 | the contents are sent as stored, null when there are none |
| KnowledgebaseAttachment.BuildAsWritten | src/Object/Knowledgebase/KnowledgebaseAttachment.php:89-99 | as written, the contents are sent as stored |
| KnowledgebaseAttachment.Build | src/Object/Knowledgebase/KnowledgebaseAttachment.php:89-99 | corrected, the raw contents are sent base64-encoded |
| KnowledgebaseAttachment.BuildEncodesContents | src/Object/Knowledgebase/KnowledgebaseAttachment.php:78-99 | corrected, the contents sent parse back to the contents held |
| KnowledgebaseAttachment.Update | src/Object/Knowledgebase/KnowledgebaseAttachment.php:132-134 | updating an attachment raises `BadMethodCallException` |
| KnowledgebaseAttachment.GetId | src/Object/Knowledgebase/KnowledgebaseAttachment.php:144-146 | the attachment identifier, or the article and attachment identifiers for the complete form |
| KnowledgebaseAttachment.DeleteIds | src/Object/Knowledgebase/KnowledgebaseAttachment.php:136-138 | deleting addresses the complete identifier |
| KnowledgebaseAttachment.GetAllParameters | src/Object/Knowledgebase/KnowledgebaseAttachment.php:107-119 | lists by article, taking an article object's identifier or the value as given |
| KnowledgebaseAttachment.SetArticleId | src/Object/Knowledgebase/KnowledgebaseAttachment.php:163-167 | a positive identifier or null, and the cached article is dropped |
| KnowledgebaseAttachment.GetArticle | src/Object/Knowledgebase/KnowledgebaseAttachment.php:177-186 | the cached article unless reloading; otherwise fetched exactly when an identifier is held |
| KnowledgebaseAttachment.SetArticleIdRefetches | src/Object/Knowledgebase/KnowledgebaseAttachment.php:163-186 | after setting a positive identifier the getter fetches it; otherwise it finds nothing |
| KnowledgebaseAttachment.SetFileName | src/Object/Knowledgebase/KnowledgebaseAttachment.php:205-208 | stores the string form and keeps the contents |
| KnowledgebaseAttachment.GetAttachmentContents | src/Object/Knowledgebase/KnowledgebaseAttachment.php:264-270 | stored contents are returned; otherwise fetched by the complete identifier when auto-fetch is on |
| KnowledgebaseAttachment.SetContents | src/Object/Knowledgebase/KnowledgebaseAttachment.php:278-281 | stores the raw contents and keeps the name |
| KnowledgebaseAttachment.FileNameOr | src/Object/Knowledgebase/KnowledgebaseAttachment.php:291-301 | the given name, or the base name when none is given |
| KnowledgebaseAttachment.SetContentsFromFileAsWritten | src/Object/Knowledgebase/KnowledgebaseAttachment.php:291-301 | as written, the base64 text of what was read is stored, a failed read as empty |
| KnowledgebaseAttachment.ReadFailureUnnoticed | src/Object/Knowledgebase/KnowledgebaseAttachment.php:292-294 | as written, a failed read stores empty contents instead of raising |
| KnowledgebaseAttachment.FromFileContentsNotRaw | src/Object/Knowledgebase/KnowledgebaseAttachment.php:264-301 | as written, the contents read back after a file read are not the file's bytes |
| KnowledgebaseAttachment.SetContentsFromFile | src/Object/Knowledgebase/KnowledgebaseAttachment.php:291-301 | corrected, a failed read raises and a successful one stores the raw bytes |
| KnowledgebaseAttachment.New | src/Object/Knowledgebase/KnowledgebaseAttachment.php:25-66 | a new object carries the declared defaults: no identifier, contents or article |
| KnowledgebaseAttachment.CreateNew | src/Object/Knowledgebase/KnowledgebaseAttachment.php:312-320 | the article's positive identifier, the contents and the name |
| KnowledgebaseAttachment.CreateNewFromFileAsWritten | src/Object/Knowledgebase/KnowledgebaseAttachment.php:331-338 | as written, the article's identifier and the encoded contents |
| KnowledgebaseAttachment.CreateNewFromFile | src/Object/Knowledgebase/KnowledgebaseAttachment.php:331-338 | corrected, fails exactly when the read fails; otherwise the raw contents read |
| KnowledgebaseAttachment.ConstructorsDisagreeAsWritten | src/Object/Knowledgebase/KnowledgebaseAttachment.php:312-338 | as written, the two constructors send different contents for the same file |
| KnowledgebaseAttachment.ConstructorsAgree | src/Object/Knowledgebase/KnowledgebaseAttachment.php:312-338 | corrected, both constructors send the same request |

## Left out

- HTTP and the REST client: `get`, `getAll`, `create`, `update`, `delete`, `refresh` and `User::search` go over the network. Where a class computes what it sends, the model keeps that part and leaves out the request:
  - the `getAll` overrides of `NewsItem`, `KnowledgebaseArticle`, `User`, `TicketPost`, `TicketAttachment` and `KnowledgebaseAttachment` are modelled as the parameter list each passes (`GetAllParameters`); the other classes' `getAll` takes no argument and passes nothing;
  - the `delete` overrides of `TicketPost`, `TicketAttachment` and `KnowledgebaseAttachment` are modelled as the complete identifier each addresses (`DeleteIds`), and `CustomField::delete` as the exception it raises;
  - the single-object lazy getters `Department::getParentDepartment`, `TicketType::getDepartment`, `NewsItem::getStaff`, `TroubleshooterCategory::getStaff`, `KnowledgebaseArticle::getStaff`, `User::getUserGroup`, `User::getUserOrganization`, `Staff::getStaffGroup`, `TicketAttachment::getTicket`, `TicketAttachment::getTicketPost` and `KnowledgebaseAttachment::getKbarticle` are modelled as a `Lookup` naming the identifiers each would fetch, and `TicketPost::getCreator` as the choice between them.
- The other loaders are left out, because each is a network fetch whose result the model cannot see:
  - the `delete` of every other class, which is inherited from the base class and is not part of this model;
  - the list getters `Department::getUserGroups`, `TicketType::getUserGroups`, `NewsItem::getUserGroups`, `getStaffGroups` and `getCategories`, `KnowledgebaseArticle::getCategories`, `TicketPost::getAttachments` and `TroubleshooterStep::getAttachments`;
  - the single-object getters `CustomField::getDefinition` (the definition is an input instead), `TicketPost::getTicket`, `getUser` and `getStaff`, and `TroubleshooterStep::getTicketType`, `getTicketPriority`, `getStaff` and `getRedirectDepartment`.
- `convertXmlToArray`: XML parsing is I/O-bound library code. Its output, nested PHP arrays, is the input to every parser.
- `formatBytes` and `getPostValue`: presentation helpers that no resource operation uses.
- `strtotime` becomes the parameter `parsed` of the date setters. `date()` formatting and the date getters are left out because they depend on the clock and the locale.
- `file_get_contents` and `basename` become the parameters `read` and `baseName`.
- `checkRequiredAPIFields` and the `buildData*` helpers of the base class are not part of this model. The check is an input (`Wire.Check`), and each helper call is recorded as the entry it makes (`Wire.Via`).
- `md5` in `CustomFieldFile::setContents`: digests are compared as the contents themselves, which assumes no collision.
- `toString`, `__toString` and the plain getters that return a stored property: there is nothing to prove beyond the stored field. An object's string form is taken to be its class name.
- `CustomFieldDate`, the linked select field, comments, `CommentableBase`, `TicketCustomFieldGroup` and `ResultSet` are not part of this model.
- Creating tickets (`newTicket`, `newTicketAuto`) belongs to the ticket class, which is not part of this model.
- `TicketPost::newAttachment` and `newAttachmentFromFile` only delegate to `TicketAttachment.CreateNew` and `TicketAttachment.CreateNewFromFile`, which are modelled.
- `Helper.AssureObject`: `instanceof` also accepts objects of a subclass; the model compares the class name exactly, since an object records only its own class and the class hierarchy is not part of this model.
- Integers are unbounded: 64-bit overflow of `intval` is not modelled.
- Numeric strings are limited to an optional sign followed by digits: no whitespace, decimals or exponents.
- Setting contents by reference is modelled as setting a value.
- `CustomFieldMultiSelect.Parse` keeps duplicate options, as `parseData` does; only `setSelectedOptions` de-duplicates.
- `User.AddEmail`: the runtime error PHP raises when appending to a non-array address field is modelled as `RuntimeError`. The error's text is not modelled. When appending to a keyed array, negative integer keys are not counted in the next index (`Php.NextIndex`), since PHP versions disagree on them.

## Findings

| source | as written | input that shows it | evidently intended | confidence | as-written member | corrected member |
|---|---|---|---|---|---|---|
| src/Common/Helper.php:184 | without a newline after the tag, the length passed to `substr` is minus the tag position | the comment `@tag a=1` (no newline): the tag line is empty, so the result is false | the tag line runs to the end of the comment | not executed | Helper.TagAtStartWithoutNewline | Helper.TagLineStartsWithAt |
| src/Object/News/NewsItem.php:277 | `parseData` appends category identifiers without resetting the list (only the category cache is reset) | parsing data with category 7 twice gives [7, 7] | the parsed categories replace the held ones | not executed | NewsItem.ParseAsWrittenDuplicatesCategories | NewsItem.ParseIsIdempotent |
| src/Object/Knowledgebase/KnowledgebaseArticle.php:147 | `parseData` appends category identifiers without resetting the list | parsing data with category 7 twice gives [7, 7] | the parsed categories replace the held ones | not executed | KnowledgebaseArticle.ParseAsWrittenDuplicatesCategories | KnowledgebaseArticle.ParseIsIdempotent |
| src/Object/Ticket/TicketType.php:108-111 | `parseData` appends user group identifiers without resetting the list | re-populating a type restricted to group 4 (`refresh`) gives [4, 4] | the parsed groups replace the held ones | not executed | TicketType.ParseAsWrittenDuplicatesGroups | TicketType.ParseIsIdempotent |
| src/Object/Knowledgebase/KnowledgebaseArticle.php:138 | the status is parsed with `assureBool`, so draft (2) and published (1) both become true | a draft article parses to the same status as a published one, and the next build passes `true` to `buildDataNumeric` | the status is read as the integer constant | not executed | KnowledgebaseArticle.ParseAsWrittenLosesDraft | KnowledgebaseArticle.ParseKeepsStatus |
| src/Object/Knowledgebase/KnowledgebaseArticle.php:196-204 | a numeric maximum of 0 or less is passed, and then 1000 is appended as well | category 3, maximum 0, start 5 gives [ListAll, 3, 0, 1000, 5], so the start lands fifth | the maximum is 1000 when unusable, and the start is fourth | not executed | KnowledgebaseArticle.GetAllAsWrittenMisplacesStart | KnowledgebaseArticle.GetAllParametersPositions |
| src/Object/Knowledgebase/KnowledgebaseAttachment.php:292 | `setContentsFromFile` stores the base64 text while `setContents` stores raw bytes, and `buildData` sends what is stored | the same file through the two constructors sends different contents; `getContents` after a file read returns base64 text | contents are held raw, as documented, and encoded when sent | not executed | KnowledgebaseAttachment.ConstructorsDisagreeAsWritten | KnowledgebaseAttachment.ConstructorsAgree |
| src/Object/Knowledgebase/KnowledgebaseAttachment.php:293-294 | the `=== false` test is on the result of `base64_encode`, which is never false | a file that cannot be read stores empty contents and raises nothing | a failed read raises the general exception | not executed | KnowledgebaseAttachment.ReadFailureUnnoticed | KnowledgebaseAttachment.SetContentsFromFile |

=== FILE: base64.dfy ===
/** Base64 as PHP's `base64_encode` and `base64_decode` apply it: the standard alphabet and `=` padding
    of RFC 4648 section 4 for encoding; decoding in PHP's lenient (non-strict) mode, which skips every
    character outside the alphabet, padding included, and ignores a lone trailing character. */
module Base64 {
  import opened Php

  /** A six-bit group. */
  type Sextet = x: nat | x < 64

  /** The alphabet character of a six-bit group. */
  function EncodeChar(d: Sextet): (c: char)
    ensures IsBase64Char(c) && SextetOf(c) == d
  {
    if d < 26 then ('A' as int + d) as char
    else if d < 52 then ('a' as int + d - 26) as char
    else if d < 62 then ('0' as int + d - 52) as char
    else if d == 62 then '+'
    else '/'
  }

  predicate IsBase64Char(c: char) {
    'A' <= c <= 'Z' || 'a' <= c <= 'z' || '0' <= c <= '9' || c == '+' || c == '/'
  }

  /** The six-bit group an alphabet character stands for. */
  function SextetOf(c: char): Sextet
    requires IsBase64Char(c)
  {
    if 'A' <= c <= 'Z' then c as int - 'A' as int
    else if 'a' <= c <= 'z' then c as int - 'a' as int + 26
    else if '0' <= c <= '9' then c as int - '0' as int + 52
    else if c == '+' then 62
    else 63
  }

  /** The six-bit groups of a byte string, the last group zero-filled. */
  function ToSextets(b: seq<byte>): (q: seq<Sextet>)
    ensures |q| == (4 * |b| + 2) / 3
    decreases |b|
  {
    if |b| == 0 then []
    else if |b| == 1 then [b[0] as int / 4, (b[0] as int % 4) * 16]
    else if |b| == 2 then [b[0] as int / 4, (b[0] as int % 4) * 16 + b[1] as int / 16, (b[1] as int % 16) * 4]
    else
      [b[0] as int / 4, (b[0] as int % 4) * 16 + b[1] as int / 16, (b[1] as int % 16) * 4 + b[2] as int / 64,
       b[2] as int % 64] + ToSextets(b[3..])
  }

  function Chars(q: seq<Sextet>): (s: string)
    ensures |s| == |q|
  {
    if |q| == 0 then "" else [EncodeChar(q[0])] + Chars(q[1..])
  }

  /** The `=` characters that fill the last quantum to four characters. */
  function Padding(n: nat): string {
    if n % 3 == 1 then "==" else if n % 3 == 2 then "=" else ""
  }

  /** `base64_encode`. */
  function Encode(b: seq<byte>): (s: string)
    ensures |s| == 4 * ((|b| + 2) / 3)
    ensures forall i | 0 <= i < |s| :: IsBase64Char(s[i]) || s[i] == '='
  {
    var s := Chars(ToSextets(b)) + Padding(|b|);
    CharsInAlphabet(ToSextets(b));
    EncodedLength(|b|);
    s
  }

  /** The text `base64_encode` returns, as the bytes of a PHP string: every character is ASCII. */
  function EncodeBytes(b: seq<byte>): (r: seq<byte>)
    ensures |r| == |Encode(b)| == 4 * ((|b| + 2) / 3)
    ensures forall i | 0 <= i < |r| :: r[i] as int == Encode(b)[i] as int
  {
    var s := Encode(b);
    seq(|s|, i requires 0 <= i < |s| => s[i] as int as byte)
  }

  lemma EncodedLength(n: nat)
    ensures (4 * n + 2) / 3 + |Padding(n)| == 4 * ((n + 2) / 3)
  {
    var k := n / 3;
    assert n == 3 * k + n % 3;
  }

  lemma CharsInAlphabet(q: seq<Sextet>)
    ensures forall i | 0 <= i < |Chars(q)| :: IsBase64Char(Chars(q)[i])
  {
    if |q| > 0 {
      CharsInAlphabet(q[1..]);
      assert forall i | 1 <= i < |Chars(q)| :: Chars(q)[i] == Chars(q[1..])[i - 1];
    }
  }

  /** The six-bit groups a text carries: its alphabet characters, everything else skipped. */
  function Sextets(s: string): seq<Sextet> {
    if |s| == 0 then []
    else (if IsBase64Char(s[0]) then [SextetOf(s[0])] else []) + Sextets(s[1..])
  }

  /** Reassembles bytes from six-bit groups: four groups give three bytes, a trailing three give two,
      a trailing two give one and a lone trailing group gives none. */
  function FromSextets(q: seq<Sextet>): (r: seq<byte>)
    ensures |r| == |q| * 3 / 4
    decreases |q|
  {
    if |q| < 2 then []
    else
      var a, b := q[0] as int, q[1] as int;
      if |q| == 2 then [(a * 4 + b / 16) as byte]
      else
        var c := q[2] as int;
        if |q| == 3 then [(a * 4 + b / 16) as byte, ((b % 16) * 16 + c / 4) as byte]
        else
          [(a * 4 + b / 16) as byte, ((b % 16) * 16 + c / 4) as byte, ((c % 4) * 64 + q[3] as int) as byte]
          + FromSextets(q[4..])
  }

  /** `base64_decode` in its default, lenient mode. */
  function Decode(s: string): (r: seq<byte>)
    ensures |r| == |Sextets(s)| * 3 / 4
  {
    FromSextets(Sextets(s))
  }

  /** Decoding what was encoded gives back the original bytes. */
  lemma RoundTrip(b: seq<byte>)
    ensures Decode(Encode(b)) == b
  {
    SextetsConcat(Chars(ToSextets(b)), Padding(|b|));
    SextetsOfChars(ToSextets(b));
    assert Sextets("=") == [];
    assert Sextets("==") == [] by {
      assert "=="[1..] == "=";
    }
    assert Sextets(Encode(b)) == ToSextets(b);
    FromToSextets(b);
  }

  lemma {:induction false} SextetsConcat(a: string, b: string)
    ensures Sextets(a + b) == Sextets(a) + Sextets(b)
    decreases |a|
  {
    if |a| > 0 {
      assert (a + b)[1..] == a[1..] + b;
      SextetsConcat(a[1..], b);
    } else {
      assert a + b == b;
    }
  }

  lemma {:induction false} SextetsOfChars(q: seq<Sextet>)
    ensures Sextets(Chars(q)) == q
    decreases |q|
  {
    if |q| > 0 {
      var s := Chars(q);
      assert s[1..] == Chars(q[1..]);
      SextetsOfChars(q[1..]);
    }
  }

  lemma {:induction false} FromToSextets(b: seq<byte>)
    ensures FromSextets(ToSextets(b)) == b
    decreases |b|
  {
    if |b| >= 3 {
      var q := ToSextets(b);
      assert q[4..] == ToSextets(b[3..]);
      FromToSextets(b[3..]);
      Block(b[0], b[1], b[2]);
      assert b == [b[0], b[1], b[2]] + b[3..];
    } else if |b| == 2 {
      Block(b[0], b[1], 0);
    } else if |b| == 1 {
      Block(b[0], 0, 0);
    }
  }

  /** The arithmetic of one quantum: splitting three bytes into four groups and joining them back. */
  lemma Block(x: byte, y: byte, z: byte)
    ensures var a, b, c, d := x as int / 4, (x as int % 4) * 16 + y as int / 16, (y as int % 16) * 4 + z as int / 64, z as int % 64;
      a * 4 + b / 16 == x as int && (b % 16) * 16 + c / 4 == y as int && (c % 4) * 64 + d == z as int
      && (x as int % 4) * 16 / 16 == x as int % 4 && ((x as int % 4) * 16) % 16 == 0 && ((y as int % 16) * 4) / 4 == y as int % 16
  {
  }
}

=== FILE: constants.dfy ===
/** The class constants of the resource classes, in declaration order, as PHP reflection lists them.
    `Helper.AssureConstant` searches these tables; the resource modules use the named values. */
module Constants {
  import opened Php

  datatype Constant = Constant(name: string, value: Value)

  // News/NewsItem.php
  const NewsItemTypeGlobal := Int(1)
  const NewsItemTypePublic := Int(2)
  const NewsItemTypePrivate := Int(3)
  const NewsItemStatusDraft := Int(1)
  const NewsItemStatusPublished := Int(2)

  // Department/Department.php
  const DepartmentModuleTickets := Str("tickets")
  const DepartmentModuleLivechat := Str("livechat")
  const DepartmentTypePublic := Str("public")
  const DepartmentTypePrivate := Str("private")

  // Ticket/TicketPost.php
  const CreatorStaff := 1
  const CreatorUser := 2
  const CreatorClient := 2
  const CreatorCc := 3
  const CreatorBcc := 4
  const CreatorThirdParty := 5

  // Ticket/TicketType.php
  const TicketTypeTypePublic := Str("public")
  const TicketTypeTypePrivate := Str("private")

  // Troubleshooter/TroubleshooterStep.php
  const StepStatusDraft := Int(1)
  const StepStatusPublished := Int(2)

  // Troubleshooter/TroubleshooterCategory.php
  const CategoryTypeGlobal := Str("1")
  const CategoryTypePublic := Str("2")
  const CategoryTypePrivate := Str("3")

  // Knowledgebase/KnowledgebaseArticle.php
  const ArticleStatusPublished := Int(1)
  const ArticleStatusDraft := Int(2)

  // User/User.php
  const RoleUser := Str("user")
  const RoleManager := Str("manager")
  const SalutationMr := Str("Mr.")
  const SalutationMiss := Str("Ms.")
  const SalutationMrs := Str("Mrs.")
  const SalutationDr := Str("Dr.")

  // User/UserOrganization.php
  const OrganizationTypeRestricted := Str("restricted")
  const OrganizationTypeShared := Str("shared")

  // User/UserGroup.php
  const UserGroupTypeGuest := Str("guest")
  const UserGroupTypeRegistered := Str("registered")

  // News/NewsCategory.php
  const VisibilityTypePublic := Str("public")
  const VisibilityTypePrivate := Str("private")

  /** The constants class `cls` declares, in declaration order; a class outside the model declares none. */
  function ClassConstants(cls: string): seq<Constant> {
    match cls
    case "NewsItem" => [
      Constant("TYPE_GLOBAL", NewsItemTypeGlobal), Constant("TYPE_PUBLIC", NewsItemTypePublic),
      Constant("TYPE_PRIVATE", NewsItemTypePrivate), Constant("STATUS_DRAFT", NewsItemStatusDraft),
      Constant("STATUS_PUBLISHED", NewsItemStatusPublished)]
    case "Department" => [
      Constant("MODULE_TICKETS", DepartmentModuleTickets), Constant("MODULE_LIVECHAT", DepartmentModuleLivechat),
      Constant("TYPE_PUBLIC", DepartmentTypePublic), Constant("TYPE_PRIVATE", DepartmentTypePrivate)]
    case "TicketPost" => [
      Constant("CREATOR_STAFF", Int(CreatorStaff)), Constant("CREATOR_USER", Int(CreatorUser)),
      Constant("CREATOR_CLIENT", Int(CreatorClient)), Constant("CREATOR_CC", Int(CreatorCc)),
      Constant("CREATOR_BCC", Int(CreatorBcc)), Constant("CREATOR_THIRDPARTY", Int(CreatorThirdParty))]
    case "TicketType" => [
      Constant("TYPE_PUBLIC", TicketTypeTypePublic), Constant("TYPE_PRIVATE", TicketTypeTypePrivate)]
    case "TroubleshooterStep" => [
      Constant("STATUS_DRAFT", StepStatusDraft), Constant("STATUS_PUBLISHED", StepStatusPublished)]
    case "TroubleshooterCategory" => [
      Constant("CATEGORY_TYPE_GLOBAL", CategoryTypeGlobal), Constant("CATEGORY_TYPE_PUBLIC", CategoryTypePublic),
      Constant("CATEGORY_TYPE_PRIVATE", CategoryTypePrivate)]
    case "KnowledgebaseArticle" => [
      Constant("STATUS_PUBLISHED", ArticleStatusPublished), Constant("STATUS_DRAFT", ArticleStatusDraft)]
    case "User" => [
      Constant("ROLE_USER", RoleUser), Constant("ROLE_MANAGER", RoleManager),
      Constant("SALUTATION_MR", SalutationMr), Constant("SALUTATION_MISS", SalutationMiss),
      Constant("SALUTATION_MRS", SalutationMrs), Constant("SALUTATION_DR", SalutationDr)]
    case "UserOrganization" => [
      Constant("TYPE_RESTRICTED", OrganizationTypeRestricted), Constant("TYPE_SHARED", OrganizationTypeShared)]
    case "UserGroup" => [
      Constant("TYPE_GUEST", UserGroupTypeGuest), Constant("TYPE_REGISTERED", UserGroupTypeRegistered)]
    case "NewsCategory" => [
      Constant("VISIBILITY_TYPE_PUBLIC", VisibilityTypePublic), Constant("VISIBILITY_TYPE_PRIVATE", VisibilityTypePrivate)]
    case _ => []
  }
}

=== FILE: custom_field.dfy ===
/** `CustomField`: one custom field value of a ticket, user or organization, as the server lists it in
    a custom field group. The class is also the plain (text-like) variant and the base of the others:
    it reads the attributes every variant shares, resolves option references against the field's
    definition, and refuses every generic REST operation. */
module CustomField {
  import opened Wrappers
  import opened Php
  import opened Helper
  import opened Wire

  /** The values of the `TYPE_` constants of `CustomFieldDefinition` (that class is not part of this model). */
  datatype TypeCodes = TypeCodes(
    text: Value, textarea: Value, password: Value, custom: Value, radio: Value, select: Value,
    linkedSelect: Value, checkbox: Value, multiSelect: Value, date: Value, file: Value)

  /** The classes `createByType` can instantiate. */
  datatype Variant = PlainVariant | SelectVariant | LinkedSelectVariant | MultiSelectVariant | DateVariant | FileVariant

  /** The cases of the `switch` of `createByType`, in source order. */
  function Cases(codes: TypeCodes): (table: seq<(Value, Variant)>)
    ensures |table| == 11
  {
    [(codes.text, PlainVariant), (codes.textarea, PlainVariant), (codes.password, PlainVariant), (codes.custom, PlainVariant),
     (codes.radio, SelectVariant), (codes.select, SelectVariant),
     (codes.linkedSelect, LinkedSelectVariant),
     (codes.checkbox, MultiSelectVariant), (codes.multiSelect, MultiSelectVariant),
     (codes.date, DateVariant),
     (codes.file, FileVariant)]
  }

  /** The first case from `k` on whose code the discriminator loosely equals (`switch` compares with `==`). */
  function FirstCase(table: seq<(Value, Variant)>, t: Value, k: nat): (r: Option<nat>)
    requires k <= |table|
    ensures r.Some? ==> k <= r.value < |table| && LooseEq(t, table[r.value].0)
    ensures r.Some? ==> forall j | k <= j < r.value :: !LooseEq(t, table[j].0)
    ensures r.None? ==> forall j | k <= j < |table| :: !LooseEq(t, table[j].0)
    decreases |table| - k
  {
    if k == |table| then None
    else if LooseEq(t, table[k].0) then Some(k)
    else FirstCase(table, t, k + 1)
  }

  /** The variant `createByType` picks for a type discriminator; an unknown one fails closed. */
  function VariantOf(codes: TypeCodes, t: Value): (r: Result<Variant>)
    ensures r.Failure? <==> forall j | 0 <= j < 11 :: !LooseEq(t, Cases(codes)[j].0)
    ensures r.Failure? ==> r.error == GeneralException("Unknown custom field type.")
    ensures r.Success? ==> exists k | 0 <= k < 11 ::
      r.value == Cases(codes)[k].1 && LooseEq(t, Cases(codes)[k].0) && forall j | 0 <= j < k :: !LooseEq(t, Cases(codes)[j].0)
  {
    match FirstCase(Cases(codes), t, 0)
    case Some(k) => Success(Cases(codes)[k].1)
    case None => Failure(GeneralException("Unknown custom field type."))
  }

  /** No two codes of different variants compare loosely equal. */
  predicate DistinctCodes(codes: TypeCodes) {
    forall i, j | 0 <= i < 11 && 0 <= j < 11 && Cases(codes)[i].1 != Cases(codes)[j].1 ::
      !LooseEq(Cases(codes)[i].0, Cases(codes)[j].0)
  }

  /** With distinct codes, each code dispatches to its own variant: text, textarea, password and custom to
      the plain field, radio and select to the single select, checkbox and multi-select to the multi-select,
      linked select, date and file to their own classes. */
  lemma VariantOfCode(codes: TypeCodes, k: nat)
    requires DistinctCodes(codes) && k < 11
    ensures VariantOf(codes, Cases(codes)[k].0) == Success(Cases(codes)[k].1)
  {
    var table := Cases(codes);
    LooseEqReflexive(table[k].0);
    var r := FirstCase(table, table[k].0, 0);
    assert r.Some?;
  }

  // ---------------------------------------------------------------------------------------------
  // The option table of the definition

  /** The definition's options, looked up by identifier and by value (`getOptionById`, `getOptionByValue`). */
  datatype Definition = Definition(byId: map<int, PhpObject>, byValue: map<string, PhpObject>)

  const OptionClass := "CustomFieldOption"

  /** A definition whose tables hold options under their own identifier and value. */
  predicate WellFormed(def: Definition) {
    (forall i | i in def.byId :: def.byId[i].cls == OptionClass && def.byId[i].id == Some(i))
    && (forall v | v in def.byValue :: def.byValue[v].cls == OptionClass && def.byValue[v].value == v)
  }

  /** `getOption`: a numeric value is an option identifier, any other string an option value, an option
      stands for itself, and anything else resolves to nothing. */
  function GetOption(def: Definition, v: Value): (r: Option<PhpObject>)
    ensures IsNumeric(v) ==> r == (if IntVal(v) in def.byId then Some(def.byId[IntVal(v)]) else None)
    ensures !IsNumeric(v) && v.Str? ==> r == (if v.s in def.byValue then Some(def.byValue[v.s]) else None)
    ensures !IsNumeric(v) && !v.Str? && v.Obj? && v.o.cls == OptionClass ==> r == Some(v.o)
    ensures !IsNumeric(v) && !v.Str? && !(v.Obj? && v.o.cls == OptionClass) ==> r.None?
  {
    if IsNumeric(v) then (if IntVal(v) in def.byId then Some(def.byId[IntVal(v)]) else None)
    else if v.Str? then (if v.s in def.byValue then Some(def.byValue[v.s]) else None)
    else if v.Obj? && v.o.cls == OptionClass then Some(v.o)
    else None
  }

  /** In a well-formed definition every resolved option is an option object, found under its identifier
      or value: an identifier resolves to the option carrying it, a non-numeric string to the option with
      that value. */
  lemma GetOptionResolves(def: Definition, v: Value)
    requires WellFormed(def)
    ensures GetOption(def, v).Some? ==> GetOption(def, v).value.cls == OptionClass
    ensures GetOption(def, v).Some? && IsNumeric(v) ==> GetOption(def, v).value.id == Some(IntVal(v))
    ensures GetOption(def, v).Some? && !IsNumeric(v) && v.Str? ==> GetOption(def, v).value.value == v.s
  {
  }

  // ---------------------------------------------------------------------------------------------
  // The plain field

  /** The state every variant shares. `name` and `title` are XML attributes: a string, or `null` when absent. */
  datatype Field = Field(id: int, name: Value, typ: int, title: Value, rawValue: Value)

  /** What the server sends for a field: the attributes under `_attributes`, the text under `_contents`. */
  function Attribute(data: Value, name: string): Value {
    Key(Key(data, "_attributes"), name)
  }

  function Contents(data: Value): Value {
    Key(data, "_contents")
  }

  /** `parseData`: identifier and type as integers, name and title as sent, the contents as the raw value. */
  function Parse(data: Value): (f: Field)
    ensures f.id == IntVal(Attribute(data, "id")) && f.typ == IntVal(Attribute(data, "type"))
    ensures f.name == Attribute(data, "name") && f.title == Attribute(data, "title")
    ensures f.rawValue == Contents(data)
  {
    Field(IntVal(Attribute(data, "id")), Attribute(data, "name"), IntVal(Attribute(data, "type")),
          Attribute(data, "title"), Contents(data))
  }

  /** A file sent through the request's separate files channel. */
  datatype Upload = Upload(fileName: Value, contents: seq<byte>)

  /** What a custom field contributes to the request of its owner: form fields and file uploads. */
  datatype Payload = Payload(fields: Data, files: map<string, Upload>)

  /** The array key the field's name becomes. */
  function NameKey(f: Field): string {
    StrVal(f.name)
  }

  /** `buildData` of the plain field: exactly one entry, the name mapped to the raw value. */
  function Build(f: Field, check: Check): (r: Result<Payload>)
    ensures r.Success? <==> check.Passes?
    ensures r.Success? ==> r.value.fields.Keys == {NameKey(f)} && r.value.fields[NameKey(f)] == Raw(f.rawValue)
    ensures r.Success? ==> r.value.files == map[]
  {
    Checked(check, Payload(map[NameKey(f) := Raw(f.rawValue)], map[]))
  }

  /** `setValue` of the plain field: the string form of the value, `null` for `null`. */
  function SetValue(f: Field, v: Value): (r: Field)
    ensures r.rawValue == (if v.Null? then Null else Str(StrVal(v)))
    ensures r.(rawValue := f.rawValue) == f
  {
    f.(rawValue := StrOrNull(AssureString(v, None)))
  }

  /** `getValue` of the plain field: the raw value. */
  function GetValue(f: Field): (r: Value)
    ensures r.Null? || r.Str? ==> SetValue(f, r) == f
  {
    f.rawValue
  }

  /** Setting a value and reading it back gives its string form; setting a string gives it back exactly. */
  lemma SetThenGet(f: Field, v: Value)
    ensures GetValue(SetValue(f, v)) == StrOrNull(AssureString(v, None))
    ensures v.Str? ==> GetValue(SetValue(f, v)) == v
    ensures GetValue(SetValue(SetValue(f, v), GetValue(SetValue(f, v)))) == GetValue(SetValue(f, v))
  {
  }

  // ---------------------------------------------------------------------------------------------
  // Operations the custom fields refuse

  /** The generic REST entry points of the base class. */
  datatype Operation = GetAll | Get | Create | Update | Delete | Refresh

  function ClassName(v: Variant): string {
    "Kayako\\Api\\Client\\Object\\CustomField\\" +
    match v
    case PlainVariant => "CustomField"
    case SelectVariant => "CustomFieldSelect"
    case LinkedSelectVariant => "CustomFieldLinkedSelect"
    case MultiSelectVariant => "CustomFieldMultiSelect"
    case DateVariant => "CustomFieldDate"
    case FileVariant => "CustomFieldFile"
  }

  /** Every generic operation on any variant throws `BadMethodCallException`; custom fields are read and
      written only through the object that owns them. */
  function Forbidden(op: Operation, v: Variant): (r: Result<()>)
    ensures r.Failure? && r.error.BadMethodCall?
  {
    Failure(BadMethodCall(Refusal(op, ClassName(v))))
  }

  /** The message of the exception. */
  function Refusal(op: Operation, cls: string): string {
      match op
      case GetAll => "You can't get all objects of type " + cls + " this way. Use CustomFieldGroupBase extending classes getAll method instead or relevant methods of objects extending ObjectWithCustomFieldsBase class."
      case Get => "You can't get single object of type " + cls + "."
      case Create => "You can't create objects of type " + cls + "."
      case Update => "You can't update single custom fields of type " + cls + ". Use updateCustomFields method of objects extending ObjectWithCustomFieldsBase class."
      case Delete => "You can't delete objects of type " + cls + "."
      case Refresh => "You can't refresh objects of type " + cls + "."
  }
}

=== FILE: custom_field_dispatch.dfy ===
/** `CustomField::createByType`: the factory that turns one field of a custom field group, as the server
    sends it, into the variant its type discriminator names. */
module CustomFields {
  import opened Wrappers
  import opened Php
  import opened Wire
  import CustomField
  import CustomFieldSelect
  import CustomFieldMultiSelect
  import CustomFieldFile

  /** A parsed custom field of any variant. Date and linked-select fields carry the shared state their
      parent class reads; their own parsing is not part of this model. */
  datatype AnyField =
    | Plain(field: CustomField.Field)
    | Select(select: CustomFieldSelect.SelectField)
    | LinkedSelect(linked: CustomField.Field)
    | MultiSelect(multi: CustomFieldMultiSelect.MultiSelectField)
    | Date(date: CustomField.Field)
    | File(file: CustomFieldFile.FileField)

  /** The variant of a parsed field. */
  function VariantOfField(f: AnyField): CustomField.Variant {
    match f
    case Plain(_) => CustomField.PlainVariant
    case Select(_) => CustomField.SelectVariant
    case LinkedSelect(_) => CustomField.LinkedSelectVariant
    case MultiSelect(_) => CustomField.MultiSelectVariant
    case Date(_) => CustomField.DateVariant
    case File(_) => CustomField.FileVariant
  }

  /** Constructs the variant the discriminator names and parses the data into it; an unknown discriminator
      throws `GeneralException` rather than falling back to a plain field. */
  function CreateByType(codes: CustomField.TypeCodes, def: CustomField.Definition, data: Value): (r: Result<AnyField>)
    ensures r.Failure? <==> CustomField.VariantOf(codes, CustomField.Attribute(data, "type")).Failure?
    ensures r.Failure? ==> r.error == GeneralException("Unknown custom field type.")
    ensures r.Success? ==> VariantOfField(r.value) == CustomField.VariantOf(codes, CustomField.Attribute(data, "type")).value
  {
    var variant :- CustomField.VariantOf(codes, CustomField.Attribute(data, "type"));
    Success(
      match variant
      case PlainVariant => Plain(CustomField.Parse(data))
      case SelectVariant => Select(CustomFieldSelect.Parse(def, data))
      case LinkedSelectVariant => LinkedSelect(CustomField.Parse(data))
      case MultiSelectVariant => MultiSelect(CustomFieldMultiSelect.Parse(def, data))
      case DateVariant => Date(CustomField.Parse(data))
      case FileVariant => File(CustomFieldFile.Parse(data)))
  }

  /** With distinct codes, data carrying one of the codes is parsed into that code's variant, and data
      carrying none of them is rejected. */
  lemma CreateByTypeDispatch(codes: CustomField.TypeCodes, def: CustomField.Definition, data: Value, k: nat)
    requires CustomField.DistinctCodes(codes) && k < 11
    requires CustomField.Attribute(data, "type") == CustomField.Cases(codes)[k].0
    ensures CreateByType(codes, def, data).Success?
    ensures VariantOfField(CreateByType(codes, def, data).value) == CustomField.Cases(codes)[k].1
  {
    CustomField.VariantOfCode(codes, k);
  }

  /** `buildData` of whichever variant the field is. A date field inherits the plain field's; the
      linked-select class is not part of this model. */
  function Build(f: AnyField, check: Check): (r: Option<Result<CustomField.Payload>>)
    ensures r.None? <==> f.LinkedSelect?
  {
    match f
    case Plain(x) => Some(CustomField.Build(x, check))
    case Date(x) => Some(CustomField.Build(x, check))
    case Select(x) => Some(CustomFieldSelect.Build(x, check))
    case MultiSelect(x) => Some(CustomFieldMultiSelect.Build(x, check))
    case File(x) => Some(CustomFieldFile.Build(x, check))
    case _ => None
  }
}

=== FILE: custom_field_file.dfy ===
/** `CustomFieldFile`: a file custom field. The server sends the file base64-encoded; the client sends a
    file back through the request's files channel, and only once the file name or contents changed. */
module CustomFieldFile {
  import opened Wrappers
  import opened Php
  import opened Wire
  import opened Helper
  import Base64
  import CustomField

  /** The shared field state, the file name (an attribute string, or `null`), the binary contents and
      the dirty flag `is_changed`. */
  datatype FileField = FileField(base: CustomField.Field, fileName: Value, contents: seq<byte>, changed: bool)

  /** `parseData` of a new field: the file name only when the attribute is present, the contents
      base64-decoded, and the dirty flag at its initial `false`. */
  function Parse(data: Value): (f: FileField)
    ensures f.base == CustomField.Parse(data)
    ensures HasKey(Key(data, "_attributes"), "filename") ==> f.fileName == CustomField.Attribute(data, "filename")
    ensures !HasKey(Key(data, "_attributes"), "filename") ==> f.fileName == Null
    ensures f.contents == Base64.Decode(StrVal(CustomField.Contents(data)))
    ensures !f.changed
  {
    var name := if HasKey(Key(data, "_attributes"), "filename") then CustomField.Attribute(data, "filename") else Null;
    FileField(CustomField.Parse(data), name, Base64.Decode(StrVal(CustomField.Contents(data))), false)
  }

  /** `buildData`: nothing for an unchanged file; for a changed one, a single entry of the files channel
      under the field's name, holding the file name and the raw contents, and no form field. */
  function Build(f: FileField, check: Check): (r: Result<CustomField.Payload>)
    ensures r.Success? <==> check.Passes?
    ensures r.Success? ==> r.value.fields == map[]
    ensures r.Success? && !f.changed ==> r.value.files == map[]
    ensures r.Success? && f.changed ==>
      r.value.files == map[CustomField.NameKey(f.base) := CustomField.Upload(f.fileName, f.contents)]
  {
    var files := if f.changed then map[CustomField.NameKey(f.base) := CustomField.Upload(f.fileName, f.contents)] else map[];
    Checked(check, CustomField.Payload(map[], files))
  }

  /** `setFileName`: the string form of the name (or `null`); the field becomes dirty when it differs
      from the current name, and stays dirty once it is. */
  function SetFileName(f: FileField, v: Value): (r: FileField)
    ensures r.fileName == StrOrNull(AssureString(v, None))
    ensures r.changed <==> f.changed || f.fileName != r.fileName
    ensures r.base == f.base && r.contents == f.contents
  {
    var name := StrOrNull(AssureString(v, None));
    f.(fileName := name, changed := f.changed || f.fileName != name)
  }

  /** `setContents`: the field becomes dirty when the new contents differ from the current ones (the source
      compares MD5 digests; the model compares the contents). */
  function SetContents(f: FileField, contents: seq<byte>): (r: FileField)
    ensures r.contents == contents
    ensures r.changed <==> f.changed || f.contents != contents
    ensures r.base == f.base && r.fileName == f.fileName
  {
    f.(contents := contents, changed := f.changed || f.contents != contents)
  }

  /** `setContentsFromFile($filePath, $fileName = null)`: the contents through `setContents`, the name
      (the file's base name when none is given) through `setFileName`, and the raw value set to the
      base64 text of the contents. Reading the file is outside the model: `read` is what
      `file_get_contents` returned (`None` for `false`, which raises), `baseName` is `basename($filePath)`. */
  function SetContentsFromFile(f: FileField, read: Option<seq<byte>>, filePath: string, fileName: Value,
                               baseName: string): (r: Result<FileField>)
    ensures read.None? <==> r.Failure?
    ensures r.Failure? ==> r.error == GeneralException("Error reading contents of " + filePath + ".")
    ensures r.Success? ==> r.value.contents == read.value
    ensures r.Success? ==> r.value.fileName == StrOrNull(AssureString(if fileName.Null? then Str(baseName) else fileName, None))
    ensures r.Success? ==> r.value.base.rawValue == Str(Base64.Encode(read.value))
    ensures r.Success? ==> (r.value.changed <==> f.changed || f.contents != read.value || f.fileName != r.value.fileName)
  {
    match read
    case None => Failure(GeneralException("Error reading contents of " + filePath + "."))
    case Some(b) =>
      var g := SetFileName(SetContents(f, b), if fileName.Null? then Str(baseName) else fileName);
      Success(g.(base := g.base.(rawValue := Str(Base64.Encode(b)))))
  }

  /** `setValue($value)`: reads the file at the path `$value`, naming it after the file. */
  function SetValue(f: FileField, read: Option<seq<byte>>, filePath: string, baseName: string): (r: Result<FileField>)
    ensures read.None? <==> r.Failure?
    ensures r.Success? ==> r.value.fileName == Str(baseName) && r.value.contents == read.value
  {
    SetContentsFromFile(f, read, filePath, Null, baseName)
  }

  /** The raw value a file read sets is what the server sends back: parsing it recovers the contents. */
  lemma FromFileParsesBack(f: FileField, b: seq<byte>, filePath: string, fileName: Value, baseName: string, data: Value)
    requires CustomField.Contents(data) == SetContentsFromFile(f, Some(b), filePath, fileName, baseName).value.base.rawValue
    ensures Parse(data).contents == b
  {
    Base64.RoundTrip(b);
  }

  /** Reading a file whose contents differ from the stored ones makes the next build send the file. */
  lemma FromFileIsSent(f: FileField, b: seq<byte>, filePath: string, baseName: string)
    requires b != f.contents
    ensures var g := SetValue(f, Some(b), filePath, baseName).value;
      Build(g, Passes).value.files == map[CustomField.NameKey(f.base) := CustomField.Upload(Str(baseName), b)]
  {
  }

  /** `getValue`: the file name and the contents. */
  function GetValue(f: FileField): (r: (Value, seq<byte>))
    ensures !f.changed && (r.0.Str? || r.0.Null?) ==> SetContents(SetFileName(f, r.0), r.1) == f
  {
    (f.fileName, f.contents)
  }

  /** A freshly parsed field sends nothing. */
  lemma ParsedBuildsNothing(data: Value)
    ensures Build(Parse(data), Passes) == Success(CustomField.Payload(map[], map[]))
  {
  }

  /** The dirty flag is monotone: no setter ever clears it. */
  lemma ChangedIsMonotone(f: FileField, name: Value, contents: seq<byte>)
    requires f.changed
    ensures SetFileName(f, name).changed && SetContents(f, contents).changed
  {
  }

  /** Setting the name and contents the field already holds leaves a clean field clean, so it is not
      re-sent. */
  lemma SameFileIsNotResent(f: FileField)
    requires !f.changed && (f.fileName.Str? || f.fileName.Null?)
    ensures Build(SetContents(SetFileName(f, f.fileName), f.contents), Passes).value.files == map[]
  {
  }

  /** Setting different contents makes the field dirty, and the next build sends exactly what was set. */
  lemma NewContentsAreSent(f: FileField, contents: seq<byte>)
    requires contents != f.contents
    ensures Build(SetContents(f, contents), Passes).value.files ==
      map[CustomField.NameKey(f.base) := CustomField.Upload(f.fileName, contents)]
    ensures GetValue(SetContents(f, contents)) == (f.fileName, contents)
  {
  }
}

=== FILE: custom_field_multi_select.dfy ===
/** `CustomFieldMultiSelect`: a checkbox or multi-select custom field, whose value is a list of options of
    the field's definition. The server sends the selected option values joined by `", "`; the client sends
    back the option identifiers under indexed keys `name[0]`, `name[1]`, … */
module CustomFieldMultiSelect {
  import opened Wrappers
  import opened Php
  import opened Wire
  import opened Helper
  import CustomField

  /** `VALUES_SEPARATOR`. */
  const Separator := ", "

  /** The shared field state and the selected options, in order. */
  datatype MultiSelectField = MultiSelectField(base: CustomField.Field, options: seq<PhpObject>)

  // ---------------------------------------------------------------------------------------------
  // Resolving and parsing

  /** The options the values resolve to, in order; values that resolve to nothing are dropped. */
  function Resolve(def: CustomField.Definition, vs: seq<Value>): (os: seq<PhpObject>)
    ensures |os| <= |vs|
    ensures forall o | o in os :: exists v | v in vs :: CustomField.GetOption(def, v) == Some(o)
    ensures (forall k | 0 <= k < |vs| :: CustomField.GetOption(def, vs[k]).Some?) ==>
      |os| == |vs| && forall k | 0 <= k < |vs| :: CustomField.GetOption(def, vs[k]) == Some(os[k])
  {
    if |vs| == 0 then []
    else
      var rest := Resolve(def, vs[1..]);
      assert forall v | v in vs[1..] :: v in vs;
      assert forall k | 0 <= k < |vs[1..]| :: vs[1..][k] == vs[k + 1];
      match CustomField.GetOption(def, vs[0])
      case Some(o) =>
        assert forall x | x in [o] + rest :: x == o || x in rest;
        [o] + rest
      case None =>
        assert !CustomField.GetOption(def, vs[0]).Some?;
        rest
  }

  /** The pieces of the contents: `explode(", ", $contents)`. */
  function Pieces(contents: Value): (vs: seq<Value>)
    ensures |vs| == |Explode(Separator, StrVal(contents))|
    ensures forall k | 0 <= k < |vs| :: vs[k] == Str(Explode(Separator, StrVal(contents))[k])
  {
    var parts := Explode(Separator, StrVal(contents));
    seq(|parts|, k requires 0 <= k < |parts| => Str(parts[k]))
  }

  /** `parseData`: the shared attributes, and the options the pieces of the contents resolve to, in wire
      order. Unresolved pieces are dropped and duplicates are kept. */
  function Parse(def: CustomField.Definition, data: Value): (m: MultiSelectField)
    ensures m.base == CustomField.Parse(data)
    ensures m.options == Resolve(def, Pieces(CustomField.Contents(data)))
  {
    MultiSelectField(CustomField.Parse(data), Resolve(def, Pieces(CustomField.Contents(data))))
  }

  // ---------------------------------------------------------------------------------------------
  // Selecting

  /** Two options are duplicates when their identifiers compare loosely equal (`in_array`). */
  predicate SameId(a: PhpObject, b: PhpObject) {
    LooseEq(IdValue(a.id), IdValue(b.id))
  }

  /** Loose comparison of identifiers is an equivalence. */
  lemma SameIdEquivalence(a: PhpObject, b: PhpObject, c: PhpObject)
    ensures SameId(a, a)
    ensures SameId(a, b) == SameId(b, a)
    ensures SameId(a, b) && SameId(b, c) ==> SameId(a, c)
  {
    SameIdMeaning(a.id, b.id);
    SameIdMeaning(b.id, c.id);
    SameIdMeaning(a.id, c.id);
    SameIdMeaning(a.id, a.id);
    SameIdMeaning(b.id, a.id);
  }

  predicate NoSharedIds(os: seq<PhpObject>) {
    forall i, j | 0 <= i < j < |os| :: !SameId(os[i], os[j])
  }

  /** `xs` holds an option sharing its identifier with `o`. */
  predicate HasSameId(xs: seq<PhpObject>, o: PhpObject) {
    exists k | 0 <= k < |xs| :: SameId(xs[k], o)
  }

  /** The option objects among the values, in order (`assureObject`); everything else is dropped. */
  function OptionObjects(vs: seq<Value>): (os: seq<PhpObject>)
    ensures forall o | o in os :: o.cls == CustomField.OptionClass && Obj(o) in vs
    ensures forall v | v in vs && v.Obj? && v.o.cls == CustomField.OptionClass :: v.o in os
  {
    if |vs| == 0 then []
    else
      var rest := OptionObjects(vs[1..]);
      assert forall v :: v in vs <==> v == vs[0] || v in vs[1..];
      match AssureObject(vs[0], CustomField.OptionClass)
      case Some(o) => [o] + rest
      case None => rest
  }

  /** The de-duplication loop of `setSelectedOptions`: an option is kept unless an option with the same
      identifier was kept before it. */
  function KeepFirst(xs: seq<PhpObject>): (d: seq<PhpObject>)
    ensures NoSharedIds(d)
    ensures forall o | o in d :: o in xs
    ensures forall x | x in xs :: HasSameId(d, x)
    ensures |d| <= |xs|
  {
    if |xs| == 0 then []
    else
      var init := xs[..|xs| - 1];
      var x := xs[|xs| - 1];
      var d := KeepFirst(init);
      assert forall y :: y in xs <==> y in init || y == x by {
        assert xs == init + [x];
      }
      if HasSameId(d, x) then d
      else
        var r := d + [x];
        SameIdEquivalence(x, x, x);
        assert SameId(r[|d|], x);
        forall i, j | 0 <= i < j < |r|
          ensures !SameId(r[i], r[j])
        {
          if j == |d| {
            SameIdEquivalence(r[i], x, x);
          }
        }
        forall y | y in xs
          ensures HasSameId(r, y)
        {
          if y in init {
            var k :| 0 <= k < |d| && SameId(d[k], y);
            assert SameId(r[k], y);
          }
        }
        r
  }

  /** An option is the first with its identifier when no earlier option shares it. */
  predicate FirstWithId(xs: seq<PhpObject>, i: nat)
    requires i < |xs|
  {
    forall j | 0 <= j < i :: !SameId(xs[j], xs[i])
  }

  /** Reference definition: the options that are first with their identifier, in their original order. */
  function FirstOccurrences(xs: seq<PhpObject>): seq<PhpObject> {
    if |xs| == 0 then []
    else FirstOccurrences(xs[..|xs| - 1]) + if FirstWithId(xs, |xs| - 1) then [xs[|xs| - 1]] else []
  }

  /** The de-duplication keeps exactly the first occurrence of each identifier, in first-occurrence order. */
  lemma {:induction false} KeepFirstIsFirstOccurrences(xs: seq<PhpObject>)
    ensures KeepFirst(xs) == FirstOccurrences(xs)
    decreases |xs|
  {
    if |xs| > 0 {
      KeepFirstIsFirstOccurrences(xs[..|xs| - 1]);
      KeepDecision(xs);
    }
  }

  /** The last option is dropped exactly when an earlier option shares its identifier. */
  lemma KeepDecision(xs: seq<PhpObject>)
    requires |xs| > 0
    ensures HasSameId(KeepFirst(xs[..|xs| - 1]), xs[|xs| - 1]) <==> !FirstWithId(xs, |xs| - 1)
  {
    var n := |xs| - 1;
    var init := xs[..n];
    var x := xs[n];
    var d := KeepFirst(init);
    if HasSameId(d, x) {
      var k :| 0 <= k < |d| && SameId(d[k], x);
      assert d[k] in d;
      var j :| 0 <= j < |init| && init[j] == d[k];
      assert xs[j] == d[k];
      assert !FirstWithId(xs, n);
    } else {
      forall j | 0 <= j < n
        ensures !SameId(xs[j], x)
      {
        assert xs[j] in init;
        var k :| 0 <= k < |d| && SameId(d[k], xs[j]);
        SameIdEquivalence(d[k], xs[j], x);
      }
    }
  }

  /** A list without duplicates passes the de-duplication unchanged. */
  lemma {:induction false} KeepFirstOfDistinct(xs: seq<PhpObject>)
    requires NoSharedIds(xs)
    ensures KeepFirst(xs) == xs
    decreases |xs|
  {
    if |xs| > 0 {
      var n := |xs| - 1;
      var init := xs[..n];
      KeepFirstOfDistinct(init);
      assert !HasSameId(init, xs[n]) by {
        forall k | 0 <= k < n
          ensures !SameId(init[k], xs[n])
        {
          assert init[k] == xs[k];
        }
      }
      assert xs == init + [xs[n]];
    }
  }

  /** The values of the options, in order. */
  function OptionValues(os: seq<PhpObject>): (vs: seq<string>)
    ensures |vs| == |os| && forall k | 0 <= k < |os| :: vs[k] == os[k].value
  {
    seq(|os|, k requires 0 <= k < |os| => os[k].value)
  }

  /** The value as a PHP list of option objects. */
  function ObjectList(os: seq<PhpObject>): (v: Value)
    ensures v.Arr? && |v.items| == |os| && forall k | 0 <= k < |os| :: v.items[k] == Obj(os[k])
  {
    Arr(seq(|os|, k requires 0 <= k < |os| => Obj(os[k])))
  }

  /** `setSelectedOptions`: `null` is the empty list and a single value a one-element list; the option
      objects among them are kept, de-duplicated by identifier; the raw value becomes their values joined
      by `", "`. */
  function SetSelectedOptions(m: MultiSelectField, v: Value): (r: MultiSelectField)
    ensures r.options == FirstOccurrences(OptionObjects(ListOf(v)))
    ensures NoSharedIds(r.options)
    ensures forall o | o in r.options :: o.cls == CustomField.OptionClass && Obj(o) in ListOf(v)
    ensures r.base.rawValue == Str(Implode(Separator, OptionValues(r.options)))
    ensures r.base.(rawValue := m.base.rawValue) == m.base
  {
    var options := KeepFirst(OptionObjects(ListOf(v)));
    KeepFirstIsFirstOccurrences(OptionObjects(ListOf(v)));
    MultiSelectField(m.base.(rawValue := Str(Implode(Separator, OptionValues(options)))), options)
  }

  /** `setValue`: each value (or the single value) is resolved against the definition, unresolved ones are
      dropped, and the options found are selected with the de-duplication of `setSelectedOptions`. */
  function SetValue(m: MultiSelectField, def: CustomField.Definition, v: Value): (r: MultiSelectField)
    ensures forall o | o in r.options :: exists x | x in ListOf(v) :: CustomField.GetOption(def, x) == Some(o)
    ensures NoSharedIds(r.options)
    ensures r.base.rawValue == Str(Implode(Separator, OptionValues(r.options)))
    ensures r.base.(rawValue := m.base.rawValue) == m.base
    ensures CustomField.WellFormed(def) ==> r.options == FirstOccurrences(Resolve(def, ListOf(v)))
  {
    var found := Resolve(def, ListOf(v));
    var r := SetSelectedOptions(m, ObjectList(found));
    assert forall o | o in r.options :: o in found by {
      forall o | o in r.options ensures o in found {
        var k :| 0 <= k < |found| && ObjectList(found).items[k] == Obj(o);
      }
    }
    if CustomField.WellFormed(def) then
      ResolvedAreOptions(def, ListOf(v));
      OptionObjectsOfList(found);
      r
    else r
  }

  /** In a well-formed definition every option a value resolves to is a `CustomFieldOption`. */
  lemma ResolvedAreOptions(def: CustomField.Definition, vs: seq<Value>)
    requires CustomField.WellFormed(def)
    ensures forall o | o in Resolve(def, vs) :: o.cls == CustomField.OptionClass
  {
    forall o | o in Resolve(def, vs) ensures o.cls == CustomField.OptionClass {
      var x :| x in vs && CustomField.GetOption(def, x) == Some(o);
      CustomField.GetOptionResolves(def, x);
    }
  }

  /** Selecting options that share no identifier keeps them all, in order. */
  lemma SelectDistinct(m: MultiSelectField, os: seq<PhpObject>)
    requires NoSharedIds(os) && forall o | o in os :: o.cls == CustomField.OptionClass
    ensures SetSelectedOptions(m, ObjectList(os)).options == os
  {
    OptionObjectsOfList(os);
    KeepFirstOfDistinct(os);
    KeepFirstIsFirstOccurrences(os);
  }

  lemma {:induction false} OptionObjectsOfList(os: seq<PhpObject>)
    requires forall o | o in os :: o.cls == CustomField.OptionClass
    ensures OptionObjects(Elements(ObjectList(os))) == os
    decreases |os|
  {
    if |os| > 0 {
      assert Elements(ObjectList(os))[1..] == Elements(ObjectList(os[1..]));
      OptionObjectsOfList(os[1..]);
    }
  }

  /** The raw value left by a selection reads back as the same selection: parsing it against a
      definition that lists each option under its value gives the options again, in order, provided
      the values are non-numeric and free of the separator. */
  lemma RawValueRoundTrip(m: MultiSelectField, def: CustomField.Definition, os: seq<PhpObject>, data: Value)
    requires |os| > 0 && NoSharedIds(os)
    requires forall o | o in os :: ListedByValue(def, o) && Find(o.value, Separator, 0).None?
    requires CustomField.Contents(data) == SetSelectedOptions(m, ObjectList(os)).base.rawValue
    ensures Parse(def, data).options == os
  {
    SelectDistinct(m, os);
    var vals := OptionValues(os);
    forall k | 0 <= k < |vals|
      ensures Separated(vals[k], Separator)
    {
      assert os[k] in os;
      CommaSpaceSeparated(vals[k]);
    }
    ExplodeImplodeSeparated(Separator, vals);
    assert Explode(Separator, StrVal(CustomField.Contents(data))) == vals;
    ResolveValues(def, os, Pieces(CustomField.Contents(data)));
  }

  /** The option is listed under its value, and that value is not numeric (so it is looked up by value). */
  predicate ListedByValue(def: CustomField.Definition, o: PhpObject) {
    o.cls == CustomField.OptionClass && !IsNumericString(o.value) && o.value in def.byValue && def.byValue[o.value] == o
  }

  lemma ResolveValues(def: CustomField.Definition, os: seq<PhpObject>, pieces: seq<Value>)
    requires forall o | o in os :: ListedByValue(def, o)
    requires |pieces| == |os| && forall k | 0 <= k < |os| :: pieces[k] == Str(os[k].value)
    ensures Resolve(def, pieces) == os
  {
    forall k | 0 <= k < |pieces|
      ensures CustomField.GetOption(def, pieces[k]) == Some(os[k])
    {
      assert os[k] in os;
    }
  }

  // ---------------------------------------------------------------------------------------------
  // Building and reading

  /** `sprintf('%s[%d]', $name, $key)`. */
  function ElementKey(name: string, k: nat): string {
    name + "[" + NatToString(k) + "]"
  }

  /** Different positions give different keys, none of them the bare name. */
  lemma ElementKeyInjective(name: string, i: nat, j: nat)
    ensures ElementKey(name, i) == ElementKey(name, j) ==> i == j
    ensures ElementKey(name, i) != name
  {
    var a, b := ElementKey(name, i), ElementKey(name, j);
    if a == b {
      var n := |name| + 1;
      assert |NatToString(i)| == |NatToString(j)|;
      assert NatToString(i) == a[n..n + |NatToString(i)|];
      assert NatToString(j) == b[n..n + |NatToString(j)|];
      NatToStringInjective(i, j);
    }
  }

  /** `buildData`: one key `name[i]` per selected option, mapped to the identifier of the option at index
      `i`, and no other key. */
  function Build(m: MultiSelectField, check: Check): (r: Result<CustomField.Payload>)
    ensures r.Success? <==> check.Passes?
    ensures r.Success? ==>
      r.value.fields.Keys == set k | 0 <= k < |m.options| :: ElementKey(CustomField.NameKey(m.base), k)
    ensures r.Success? ==> forall k | 0 <= k < |m.options| ::
      r.value.fields[ElementKey(CustomField.NameKey(m.base), k)] == Raw(IdValue(m.options[k].id))
    ensures r.Success? ==> CustomField.NameKey(m.base) !in r.value.fields && r.value.files == map[]
  {
    var name := CustomField.NameKey(m.base);
    forall i: nat, j: nat
      ensures ElementKey(name, i) == ElementKey(name, j) ==> i == j
    {
      ElementKeyInjective(name, i, j);
    }
    forall k: nat ensures ElementKey(name, k) != name {
      ElementKeyInjective(name, k, k);
    }
    var fields := map k | 0 <= k < |m.options| :: ElementKey(name, k) := Raw(IdValue(m.options[k].id));
    Checked(check, CustomField.Payload(fields, map[]))
  }

  /** `getValue`: the selected options. */
  function GetValue(m: MultiSelectField): (r: seq<PhpObject>)
    ensures Build(m, Passes).value.fields.Keys == set k | 0 <= k < |r| :: ElementKey(CustomField.NameKey(m.base), k)
    ensures forall k | 0 <= k < |r| ::
      Build(m, Passes).value.fields[ElementKey(CustomField.NameKey(m.base), k)] == Raw(IdValue(r[k].id))
  {
    m.options
  }

  /** `getValues`: option identifier to option value; of options sharing an identifier the last one wins. */
  function GetValues(os: seq<PhpObject>): (r: map<Option<int>, string>)
    ensures forall id | id in r :: exists k | 0 <= k < |os| :: os[k].id == id && r[id] == os[k].value
  {
    if |os| == 0 then map[] else GetValues(os[..|os| - 1])[os[|os| - 1].id := os[|os| - 1].value]
  }

  /** The keys of `getValues` are the identifiers of the options. */
  lemma {:induction false} GetValuesKeys(os: seq<PhpObject>)
    ensures forall k | 0 <= k < |os| :: os[k].id in GetValues(os)
    ensures forall id | id in GetValues(os) :: exists k | 0 <= k < |os| :: os[k].id == id
    decreases |os|
  {
    if |os| > 0 {
      var n := |os| - 1;
      GetValuesKeys(os[..n]);
      assert forall k | 0 <= k < n :: os[..n][k] == os[k];
    }
  }

  /** Each identifier maps to the value of the last option carrying it. */
  lemma {:induction false} GetValuesLastWins(os: seq<PhpObject>, k: nat)
    requires k < |os| && forall j | k < j < |os| :: os[j].id != os[k].id
    ensures os[k].id in GetValues(os) && GetValues(os)[os[k].id] == os[k].value
    decreases |os|
  {
    var n := |os| - 1;
    if k < n {
      GetValuesLastWins(os[..n], k);
    }
  }

  /** For options that share no identifier, as a selection leaves them, every option is listed under
      its own identifier with its own value. */
  lemma GetValuesOfDistinct(os: seq<PhpObject>, k: nat)
    requires NoSharedIds(os) && k < |os|
    ensures os[k].id in GetValues(os) && GetValues(os)[os[k].id] == os[k].value
  {
    forall j | k < j < |os|
      ensures os[j].id != os[k].id
    {
      SameIdEquivalence(os[k], os[j], os[j]);
    }
    GetValuesLastWins(os, k);
  }
}


=== FILE: custom_field_select.dfy ===
/** `CustomFieldSelect`: a radio or select custom field, whose value is one option of the field's definition. */
module CustomFieldSelect {
  import opened Wrappers
  import opened Php
  import opened Wire
  import opened Helper
  import CustomField

  /** The shared field state and the selected option (`null` when nothing is selected). */
  datatype SelectField = SelectField(base: CustomField.Field, option: Option<PhpObject>)

  /** `null` or the option object, as the setter receives it. */
  function OptionValue(o: Option<PhpObject>): (v: Value)
    ensures o.None? ==> v.Null?
    ensures o.Some? ==> v == Obj(o.value)
  {
    match o
    case Some(x) => Obj(x)
    case None => Null
  }

  /** `parseData`: the shared attributes, and the option the contents name (by identifier or by value). */
  function Parse(def: CustomField.Definition, data: Value): (s: SelectField)
    ensures s.base == CustomField.Parse(data)
    ensures s.option == CustomField.GetOption(def, CustomField.Contents(data))
  {
    SelectField(CustomField.Parse(data), CustomField.GetOption(def, CustomField.Contents(data)))
  }

  /** `buildData`: the name mapped to the selected option's identifier, or nothing when none is selected. */
  function Build(s: SelectField, check: Check): (r: Result<CustomField.Payload>)
    ensures r.Success? <==> check.Passes?
    ensures r.Success? && s.option.None? ==> r.value.fields == map[]
    ensures r.Success? && s.option.Some? ==>
      r.value.fields == map[CustomField.NameKey(s.base) := Raw(IdValue(s.option.value.id))]
    ensures r.Success? ==> r.value.files == map[]
  {
    var fields: Data := if s.option.Some? then map[CustomField.NameKey(s.base) := Raw(IdValue(s.option.value.id))] else map[];
    Checked(check, CustomField.Payload(fields, map[]))
  }

  /** `setSelectedOption`: keeps an option object, anything else clears the selection; the raw value
      follows the option's value (`null` when cleared). */
  function SetSelectedOption(s: SelectField, v: Value): (r: SelectField)
    ensures r.option == AssureObject(v, CustomField.OptionClass)
    ensures r.option.None? ==> r.base.rawValue == Null
    ensures r.option.Some? ==> r.base.rawValue == Str(r.option.value.value)
    ensures r.base.(rawValue := s.base.rawValue) == s.base
  {
    var option := AssureObject(v, CustomField.OptionClass);
    SelectField(s.base.(rawValue := if option.Some? then Str(option.value.value) else Null), option)
  }

  /** `getValue`: the selected option. */
  function GetValue(s: SelectField): (r: Option<PhpObject>)
    ensures r.None? ==> Build(s, Passes).value.fields == map[]
    ensures r.Some? ==> Build(s, Passes).value.fields == map[CustomField.NameKey(s.base) := Raw(IdValue(r.value.id))]
  {
    s.option
  }

  /** `setValue`: resolves the value against the definition and selects the result; an unresolvable value
      clears the selection and never throws. */
  function SetValue(s: SelectField, def: CustomField.Definition, v: Value): (r: SelectField)
    ensures CustomField.GetOption(def, v).None? ==> r.option.None? && r.base.rawValue == Null
  {
    SetSelectedOption(s, OptionValue(CustomField.GetOption(def, v)))
  }

  /** Selecting an option and reading the value back gives the option; building then sends its identifier. */
  lemma SelectThenBuild(s: SelectField, o: PhpObject)
    requires o.cls == CustomField.OptionClass
    ensures GetValue(SetSelectedOption(s, Obj(o))) == Some(o)
    ensures Build(SetSelectedOption(s, Obj(o)), Passes).value.fields ==
      map[CustomField.NameKey(s.base) := Raw(IdValue(o.id))]
  {
  }

  /** A value that names an option of a well-formed definition (its identifier, or its non-numeric value)
      selects that option. */
  lemma SetValueSelects(s: SelectField, def: CustomField.Definition, o: PhpObject, v: Value)
    requires CustomField.WellFormed(def)
    requires (o.id.Some? && v == Int(o.id.value) && o.id.value in def.byId && def.byId[o.id.value] == o)
      || (v == Str(o.value) && !IsNumericString(o.value) && o.value in def.byValue && def.byValue[o.value] == o)
    ensures SetValue(s, def, v).option == Some(o)
    ensures SetValue(s, def, v).base.rawValue == Str(o.value)
  {
  }

  /** The raw value a selection leaves behind names the selection again: parsing it back against a
      definition that lists the option under its (non-numeric) value yields the same option. */
  lemma RawValueRoundTrip(s: SelectField, def: CustomField.Definition, o: PhpObject, data: Value)
    requires o.cls == CustomField.OptionClass && !IsNumericString(o.value)
    requires o.value in def.byValue && def.byValue[o.value] == o
    requires CustomField.Contents(data) == SetSelectedOption(s, Obj(o)).base.rawValue
    ensures Parse(def, data).option == Some(o)
  {
  }
}

=== FILE: department.dfy ===
/** `Department`: a ticket or live-chat department, public or private, optionally restricted to a list of
    user groups, and possibly nested under a parent department. */
module Department {
  import opened Wrappers
  import opened Php
  import opened Helper
  import opened Wire
  import Constants

  datatype Department = Department(
    id: Option<int>, title: Value, typ: Value, moduleName: Value,
    displayOrder: Option<int>, parentDepartmentId: Option<int>,
    userVisibilityCustom: bool, userGroupIds: seq<Option<int>>,
    parentDepartment: Option<PhpObject>, userGroups: Option<map<Option<int>, PhpObject>>)

  const TypePublic := Constants.DepartmentTypePublic
  const ModuleTickets := Constants.DepartmentModuleTickets

  /** `new Department()`: nothing set, no custom visibility. */
  function New(): (d: Department)
    ensures !d.userVisibilityCustom && d.userGroupIds == [] && d.parentDepartmentId.None?
  {
    Department(None, Null, Null, Null, None, None, false, [], None, None)
  }

  /** The department as the object other records refer to. */
  function AsObject(d: Department): (o: PhpObject)
    ensures o.cls == "Department" && o.id == d.id
  {
    PhpObject("Department", d.id, "")
  }

  /** `parseData`: the custom flag is whether `intval` of it is non-zero; the group list is replaced only
      when the flag is set and the data carries a list, as `intval`s (not filtered to positive ones). */
  function Parse(d: Department, data: Value): (r: Department)
    ensures r.id == Some(IntVal(Key(data, "id")))
    ensures r.displayOrder == Some(IntVal(Key(data, "displayorder")))
    ensures r.parentDepartmentId == AssurePositiveInt(Key(data, "parentdepartmentid"), None)
    ensures r.userVisibilityCustom <==> IntVal(Key(data, "uservisibilitycustom")) != 0
    ensures r.userVisibilityCustom && IsArray(Key(data, "usergroups")) ==>
      |r.userGroupIds| == |ListItems(data, "usergroups", "id")|
      && forall k | 0 <= k < |r.userGroupIds| :: r.userGroupIds[k] == Some(IntVal(ListItems(data, "usergroups", "id")[k]))
    ensures !(r.userVisibilityCustom && IsArray(Key(data, "usergroups"))) ==> r.userGroupIds == d.userGroupIds
  {
    var custom := IntVal(Key(data, "uservisibilitycustom")) != 0;
    var items := ListItems(data, "usergroups", "id");
    d.(id := Some(IntVal(Key(data, "id"))),
       title := Key(data, "title"),
       typ := Key(data, "type"),
       moduleName := Key(data, "module"),
       displayOrder := Some(IntVal(Key(data, "displayorder"))),
       parentDepartmentId := AssurePositiveInt(Key(data, "parentdepartmentid"), None),
       userVisibilityCustom := custom,
       userGroupIds :=
         if custom && IsArray(Key(data, "usergroups"))
         then seq(|items|, k requires 0 <= k < |items| => Some(IntVal(items[k])))
         else d.userGroupIds)
  }

  /** `buildData`: title, type and module always; the display order and the parent only when numeric; the
      custom flag as 1/0, and the group list only when the flag is set. */
  function Build(d: Department, check: Check): (r: Result<Data>)
    ensures r.Success? <==> check.Passes?
    ensures r.Success? ==> Sends(r.value, "title", Raw(d.title)) && Sends(r.value, "type", Raw(d.typ))
    ensures r.Success? ==> Sends(r.value, "module", Raw(d.moduleName))
    ensures r.Success? ==> ("displayorder" in r.value <==> d.displayOrder.Some?)
    ensures r.Success? && d.displayOrder.Some? ==> r.value["displayorder"] == Raw(Int(d.displayOrder.value))
    ensures r.Success? ==> ("parentdepartmentid" in r.value <==> d.parentDepartmentId.Some?)
    ensures r.Success? && d.parentDepartmentId.Some? ==>
      r.value["parentdepartmentid"] == Raw(Int(d.parentDepartmentId.value))
    ensures r.Success? ==>
      "uservisibilitycustom" in r.value && r.value["uservisibilitycustom"] == Raw(Flag(d.userVisibilityCustom))
    ensures r.Success? ==> ("usergroupid" in r.value <==> d.userVisibilityCustom)
    ensures r.Success? && d.userVisibilityCustom ==> r.value["usergroupid"] == Raw(IdList(d.userGroupIds))
  {
    var data: Data := map["title" := Raw(d.title), "type" := Raw(d.typ), "module" := Raw(d.moduleName)];
    var data := if IsNumeric(IdValue(d.displayOrder)) then data["displayorder" := Raw(IdValue(d.displayOrder))] else data;
    var data := if IsNumeric(IdValue(d.parentDepartmentId)) then data["parentdepartmentid" := Raw(IdValue(d.parentDepartmentId))] else data;
    var data := data["uservisibilitycustom" := Raw(Flag(d.userVisibilityCustom))];
    var data := if d.userVisibilityCustom then data["usergroupid" := Raw(IdList(d.userGroupIds))] else data;
    Checked(check, data)
  }

  // ---------------------------------------------------------------------------------------------
  // Setters

  function SetTitle(d: Department, v: Value): (r: Department)
    ensures r.title == StrOrNull(AssureString(v, None))
  {
    d.(title := StrOrNull(AssureString(v, None)))
  }

  /** `setType`: one of the TYPE constants, or `null`. */
  function SetType(d: Department, v: Value): (r: Department)
    ensures r.typ == Null || r.typ in GroupValues("Department", "TYPE")
    ensures r.typ != Null ==> LooseEq(v, r.typ)
  {
    d.(typ := AssureConstant(v, Str("Department"), "TYPE", Null))
  }

  /** `setModule`: one of the MODULE constants, or `null`. */
  function SetModule(d: Department, v: Value): (r: Department)
    ensures r.moduleName == Null || r.moduleName in GroupValues("Department", "MODULE")
    ensures r.moduleName != Null ==> LooseEq(v, r.moduleName)
  {
    d.(moduleName := AssureConstant(v, Str("Department"), "MODULE", Null))
  }

  /** `setDisplayOrder`: an integer, 0 for `null`. */
  function SetDisplayOrder(d: Department, v: Value): (r: Department)
    ensures r.displayOrder == Some(if v.Null? then 0 else IntVal(v))
  {
    d.(displayOrder := AssureInt(v, Some(0)))
  }

  function SetParentDepartmentId(d: Department, v: Value): (r: Department)
    ensures r.parentDepartmentId == AssurePositiveInt(v, None) && r.parentDepartment.None?
  {
    d.(parentDepartmentId := AssurePositiveInt(v, None), parentDepartment := None)
  }

  function SetParentDepartment(d: Department, v: Value): (r: Department)
    ensures r.parentDepartment == AssureObject(v, "Department")
    ensures r.parentDepartmentId == (if r.parentDepartment.Some? then r.parentDepartment.value.id else None)
  {
    var parent := AssureObject(v, "Department");
    d.(parentDepartment := parent, parentDepartmentId := if parent.Some? then parent.value.id else None)
  }

  /** `getParentDepartment`: `null` without asking the server when there is no positive parent identifier. */
  function GetParentDepartment(d: Department, reload: bool): (r: Lookup)
    ensures (d.parentDepartment.None? || reload) && (d.parentDepartmentId.None? || d.parentDepartmentId.value <= 0) ==>
      r == NoObject
    ensures r.Fetch? ==> d.parentDepartmentId.Some? && d.parentDepartmentId.value > 0 && r.ids == [d.parentDepartmentId.value]
  {
    LazyGet(d.parentDepartment, d.parentDepartmentId, reload, true)
  }

  /** What a setter stores is what the next request sends: the title as its string form (`null` kept), the
      type and module as the constants they resolved to, the display order always, and a parent only when
      its identifier is positive. */
  lemma SettersAreSent(d: Department, v: Value)
    ensures Sends(Build(SetTitle(d, v), Passes).value, "title", Raw(StrOrNull(AssureString(v, None))))
    ensures Sends(Build(SetType(d, v), Passes).value, "type", Raw(SetType(d, v).typ))
    ensures Sends(Build(SetModule(d, v), Passes).value, "module", Raw(SetModule(d, v).moduleName))
    ensures Sends(Build(SetDisplayOrder(d, v), Passes).value, "displayorder", Raw(Int(if v.Null? then 0 else IntVal(v))))
    ensures IntVal(v) > 0 <==> "parentdepartmentid" in Build(SetParentDepartmentId(d, v), Passes).value
    ensures IntVal(v) > 0 ==> Sends(Build(SetParentDepartmentId(d, v), Passes).value, "parentdepartmentid", Raw(Int(IntVal(v))))
  {
  }

  /** `setUserVisibilityCustom`: turning custom visibility off empties the group list and its cache. */
  function SetUserVisibilityCustom(d: Department, v: Value): (r: Department)
    ensures r.userVisibilityCustom == Truthy(v)
    ensures !Truthy(v) ==> r.userGroupIds == [] && r.userGroups.None?
    ensures Truthy(v) ==> r.userGroupIds == d.userGroupIds
  {
    if !AssureBool(v) then d.(userVisibilityCustom := false, userGroupIds := [], userGroups := None)
    else d.(userVisibilityCustom := true)
  }

  function SetUserGroupIds(d: Department, v: Value): (r: Department)
    ensures r.userGroupIds == NormalizeIds(v)
  {
    d.(userGroupIds := NormalizeIds(v))
  }

  /** `addUserGroup`: `clear` empties the list and the cache first; a group not yet listed is appended,
      cached, and turns custom visibility on. */
  function AddUserGroup(d: Department, group: PhpObject, clear: bool): (r: Department)
    ensures HasId(r.userGroupIds, IdValue(group.id))
    ensures clear ==> r.userGroupIds == [group.id] && r.userVisibilityCustom
    ensures !clear && HasId(d.userGroupIds, IdValue(group.id)) ==> r == d
    ensures !clear && !HasId(d.userGroupIds, IdValue(group.id)) ==>
      r.userGroupIds == d.userGroupIds + [group.id] && r.userVisibilityCustom
  {
    var start := if clear then d.(userGroups := Some(map[]), userGroupIds := []) else d;
    if HasId(start.userGroupIds, IdValue(group.id)) then start
    else
      var cache := start.userGroups.GetOr(map[]);
      start.(userGroupIds := AddId(start.userGroupIds, group.id), userGroups := Some(cache[group.id := group]),
             userVisibilityCustom := true)
  }

  /** Adding never introduces a duplicate group identifier. */
  lemma AddUserGroupKeepsDistinct(d: Department, g: PhpObject, clear: bool)
    requires DistinctIds(d.userGroupIds)
    ensures DistinctIds(AddUserGroup(d, g, clear).userGroupIds)
  {
    AddIdKeepsDistinct(if clear then [] else d.userGroupIds, g.id);
  }

  // ---------------------------------------------------------------------------------------------
  // Visibility

  /** `isVisibleToUserGroup`: only a department whose type is exactly `'public'`; to every group without
      custom visibility, to the listed groups with it. */
  function IsVisibleToUserGroup(d: Department, group: Value): (r: bool)
    ensures d.typ != TypePublic ==> !r
    ensures d.typ == TypePublic && !d.userVisibilityCustom ==> r
    ensures d.typ == TypePublic && d.userVisibilityCustom ==> (r <==> HasId(d.userGroupIds, MemberId(group, "UserGroup")))
  {
    if d.typ != TypePublic then false
    else if !d.userVisibilityCustom then true
    else HasId(d.userGroupIds, MemberId(group, "UserGroup"))
  }

  /** A group that was added can see a public department. */
  lemma AddedGroupSees(d: Department, g: PhpObject, clear: bool)
    requires d.typ == TypePublic && g.cls == "UserGroup"
    ensures IsVisibleToUserGroup(AddUserGroup(d, g, clear), Obj(g))
  {
  }

  /** Turning custom visibility off opens a public department to every group, and keeps a private one
      closed to all. */
  lemma NoCustomVisibility(d: Department, group: Value)
    ensures IsVisibleToUserGroup(SetUserVisibilityCustom(d, Bool(false)), group) <==> d.typ == TypePublic
  {
  }

  // ---------------------------------------------------------------------------------------------
  // Creation

  /** `createNew($title, $type, $module)`: a new department of the given type and module. */
  function CreateNew(title: Value, typ: Value, moduleValue: Value): (d: Department)
    ensures d.title == StrOrNull(AssureString(title, None))
    ensures d.typ == AssureConstant(typ, Str("Department"), "TYPE", Null)
    ensures d.moduleName == AssureConstant(moduleValue, Str("Department"), "MODULE", Null)
    ensures d.parentDepartmentId.None? && !d.userVisibilityCustom
  {
    SetModule(SetType(SetTitle(New(), title), typ), moduleValue)
  }

  /** The defaults of `createNew`, `TYPE_PUBLIC` and `MODULE_TICKETS`, are accepted as they are: a
      department created with them is a public ticket department. */
  lemma CreateNewDefaults(title: Value)
    ensures CreateNew(title, TypePublic, ModuleTickets).typ == TypePublic
    ensures CreateNew(title, TypePublic, ModuleTickets).moduleName == ModuleTickets
  {
    var consts := Constants.ClassConstants("Department");
    assert !Matches(TypePublic, consts[0], "TYPE") && !Matches(TypePublic, consts[1], "TYPE");
    InGroupExactly(consts[2], "TYPE");
    InGroupExactly(consts[0], "MODULE");
    AssureConstantFirst(TypePublic, "Department", "TYPE", Null, 2);
    AssureConstantFirst(ModuleTickets, "Department", "MODULE", Null, 0);
  }

  /** `newSubdepartment($title, $type)`: a department of the same module, linked to this one as parent. */
  function NewSubdepartment(d: Department, title: Value, typ: Value): (s: Department)
    ensures s.moduleName == AssureConstant(d.moduleName, Str("Department"), "MODULE", Null)
    ensures s.parentDepartment == Some(AsObject(d)) && s.parentDepartmentId == d.id
    ensures s.typ == AssureConstant(typ, Str("Department"), "TYPE", Null)
  {
    SetParentDepartment(CreateNew(title, typ, d.moduleName), Obj(AsObject(d)))
  }

  /** `SetType` accepts every type of the group as it is. */
  lemma SetTypeKeepsTypes(d: Department, v: Value)
    requires v in GroupValues("Department", "TYPE")
    ensures SetType(d, v).typ == v
  {
    TypeGroup();
    TextsDistinct([TypePublic, Constants.DepartmentTypePrivate]);
    GroupValueKept(v, "Department", "TYPE", Null);
  }

  /** The department types are public and private, in that order. */
  lemma TypeGroup()
    ensures GroupValues("Department", "TYPE") == [TypePublic, Constants.DepartmentTypePrivate]
  {
    var consts := Constants.ClassConstants("Department");
    assert GroupValuesOf(consts[4..], "TYPE") == [];
    InGroupExactly(consts[3], "TYPE");
    InGroupExactly(consts[2], "TYPE");
  }

  /** The modules are tickets and live chat, in that order. */
  lemma ModuleGroup()
    ensures GroupValues("Department", "MODULE") == [ModuleTickets, Constants.DepartmentModuleLivechat]
  {
    var consts := Constants.ClassConstants("Department");
    assert GroupValuesOf(consts[2..], "MODULE") == [] by {
      assert GroupValuesOf(consts[4..], "MODULE") == [];
      assert GroupValuesOf(consts[3..], "MODULE") == [];
    }
    InGroupExactly(consts[1], "MODULE");
    InGroupExactly(consts[0], "MODULE");
  }

  /** `SetModule` accepts every module of the group as it is. */
  lemma SetModuleKeepsModules(d: Department, v: Value)
    requires v in GroupValues("Department", "MODULE")
    ensures SetModule(d, v).moduleName == v
  {
    ModuleGroup();
    TextsDistinct([ModuleTickets, Constants.DepartmentModuleLivechat]);
    GroupValueKept(v, "Department", "MODULE", Null);
  }

  /** A subdepartment of a department with a valid module has that module. */
  lemma SubdepartmentInheritsModule(d: Department, title: Value, typ: Value)
    requires d.moduleName in GroupValues("Department", "MODULE")
    ensures NewSubdepartment(d, title, typ).moduleName == d.moduleName
  {
    ModuleGroup();
    TextsDistinct([ModuleTickets, Constants.DepartmentModuleLivechat]);
    GroupValueKept(d.moduleName, "Department", "MODULE", Null);
  }

  /** `getId($complete)`. */
  function GetId(d: Department, complete: bool): (v: Value)
    ensures complete ==> v == Arr([IdValue(d.id)])
    ensures !complete ==> v == IdValue(d.id)
  {
    if complete then Arr([IdValue(d.id)]) else IdValue(d.id)
  }
}

=== FILE: helper.dfy ===
/** The static helpers of `Helper`: the coercions every setter and parser applies to its input,
    the membership test against a class's constant group, the `hh:mm:ss` formatter and the
    parser of the library's custom PHPDoc tags. */
module Helper {
  import opened Wrappers
  import opened Php
  import opened Constants

  // ---------------------------------------------------------------------------------------------
  // Coercions

  /** `assureString`: any non-null value as its string form, `onNull` for `null`. */
  function AssureString(v: Value, onNull: Option<string>): (r: Option<string>)
    ensures v.Null? ==> r == onNull
    ensures !v.Null? ==> r == Some(StrVal(v))
  {
    if v.Null? then onNull else Some(StrVal(v))
  }

  /** `assureInt`: any non-null value as its integer form, `onNull` for `null`. */
  function AssureInt(v: Value, onNull: Option<int>): (r: Option<int>)
    ensures v.Null? ==> r == onNull
    ensures !v.Null? ==> r == Some(IntVal(v))
  {
    if v.Null? then onNull else Some(IntVal(v))
  }

  /** `assurePositiveInt`: the integer form when it is positive, `onNonPositive` otherwise (null included). */
  function AssurePositiveInt(v: Value, onNonPositive: Option<int>): (r: Option<int>)
    ensures IntVal(v) > 0 ==> r == Some(IntVal(v))
    ensures IntVal(v) <= 0 ==> r == onNonPositive
  {
    if IntVal(v) > 0 then Some(IntVal(v)) else onNonPositive
  }

  /** What the date setters (`setExpiry`, `setUserExpiry`, `setSLAPlanExpiry`) store: `assurePositiveInt` of
      a number or `null`, and otherwise the timestamp `strtotime` makes of the text. The clock and the time
      zone are outside the model, so that timestamp is a parameter: `parsed`, `None` where `strtotime`
      fails and returns `false`. */
  function AssureTimestamp(v: Value, parsed: Option<int>): (r: Value)
    ensures IsNumeric(v) || v.Null? ==> r == IdValue(AssurePositiveInt(v, None))
    ensures IsNumeric(v) || v.Null? ==> r.Null? || (r.Int? && r.i > 0)
    ensures !(IsNumeric(v) || v.Null?) && parsed.Some? ==> r == Int(parsed.value)
    ensures !(IsNumeric(v) || v.Null?) && parsed.None? ==> r == Bool(false)
  {
    if IsNumeric(v) || v.Null? then IdValue(AssurePositiveInt(v, None))
    else if parsed.Some? then Int(parsed.value)
    else Bool(false)
  }

  /** `assureBool`: truthiness. A boolean is kept, and the result is false exactly for the values PHP
      compares loosely equal to `false`. */
  function AssureBool(v: Value): (r: bool)
    ensures v.Bool? ==> r == v.b
    ensures !r <==> LooseEq(v, Bool(false))
  {
    Truthy(v)
  }

  /** `assureArray`: an array unchanged, `onNull` for `null`, anything else wrapped in a one-element list. */
  function AssureArray(v: Value, onNull: Value): (r: Value)
    ensures IsArray(v) ==> r == v
    ensures v.Null? ==> r == onNull
    ensures !IsArray(v) && !v.Null? ==> r == Arr([v])
  {
    if IsArray(v) then v else if !v.Null? then Arr([v]) else onNull
  }

  /** `assureObject` with its default: the object when its class is exactly `cls`, `null` otherwise
      (subclasses are not modelled). */
  function AssureObject(v: Value, cls: string): (r: Option<PhpObject>)
    ensures r.Some? <==> v.Obj? && v.o.cls == cls
    ensures r.Some? ==> Obj(r.value) == v
  {
    if v.Obj? && v.o.cls == cls then Some(v.o) else None
  }

  /** Coercing a value that is already a string (or null) to a string changes nothing. */
  lemma AssureStringIdempotent(v: Value)
    ensures AssureString(StrOrNull(AssureString(v, None)), None) == AssureString(v, None)
  {
  }

  /** Coercing a value that is already an integer (or null) to an integer changes nothing. */
  lemma AssureIntIdempotent(v: Value, onNull: Option<int>)
    ensures AssureInt(IdValue(AssureInt(v, onNull)), onNull) == AssureInt(v, onNull)
  {
  }

  /** With a null default, `assurePositiveInt` yields a positive integer or null, and applying it twice equals once. */
  lemma AssurePositiveIntTwice(v: Value)
    ensures AssurePositiveInt(v, None).Some? ==> AssurePositiveInt(v, None).value > 0
    ensures AssurePositiveInt(IdValue(AssurePositiveInt(v, None)), None) == AssurePositiveInt(v, None)
  {
  }

  /** Coercing a boolean to a boolean changes nothing, and the result is false exactly for falsy input. */
  lemma AssureBoolIdempotent(v: Value)
    ensures AssureBool(Bool(AssureBool(v))) == AssureBool(v)
    ensures !AssureBool(v) <==> LooseEq(v, Bool(false))
  {
  }

  /** Coercing to an array twice equals once, when the null default is itself an array. */
  lemma AssureArrayIdempotent(v: Value, onNull: Value)
    requires IsArray(onNull)
    ensures IsArray(AssureArray(v, onNull))
    ensures AssureArray(AssureArray(v, onNull), onNull) == AssureArray(v, onNull)
  {
  }

  // ---------------------------------------------------------------------------------------------
  // Constant groups

  /** A constant belongs to the group `prefix` when its name starts with `prefix_`, ignoring ASCII case. */
  predicate InGroup(c: Constant, prefix: string) {
    HeadMatchesCaseless(c.name, prefix + "_")
  }

  /** Group membership is the `stripos($name, $prefix . '_') === 0` test of the source. */
  lemma InGroupMeaning(c: Constant, prefix: string)
    ensures InGroup(c, prefix) <==> StartsWithCaseless(c.name, prefix + "_")
  {
    HeadMatchesCaselessMeaning(c.name, prefix + "_");
  }

  /** A constant whose name starts with `prefix_` as written is in the group. */
  lemma InGroupExactly(c: Constant, prefix: string)
    requires |prefix| < |c.name| && c.name[..|prefix| + 1] == prefix + "_"
    ensures InGroup(c, prefix)
  {
    HeadMatchesExactly(c.name, prefix + "_");
  }

  /** A constant of the group `prefix` that the value loosely equals. */
  predicate Matches(value: Value, c: Constant, prefix: string) {
    InGroup(c, prefix) && LooseEq(value, c.value)
  }

  /** The position of the first constant from `k` on that `value` matches. */
  function FirstMatch(value: Value, consts: seq<Constant>, prefix: string, k: nat): (r: Option<nat>)
    requires k <= |consts|
    ensures r.Some? ==> k <= r.value < |consts| && Matches(value, consts[r.value], prefix)
    ensures r.Some? ==> forall j | k <= j < r.value :: !Matches(value, consts[j], prefix)
    ensures r.None? ==> forall j | k <= j < |consts| :: !Matches(value, consts[j], prefix)
    decreases |consts| - k
  {
    if k == |consts| then None
    else if Matches(value, consts[k], prefix) then Some(k)
    else FirstMatch(value, consts, prefix, k + 1)
  }

  /** The values of the constants of class `cls` in group `prefix`, in declaration order. */
  function GroupValues(cls: string, prefix: string): seq<Value> {
    GroupValuesOf(ClassConstants(cls), prefix)
  }

  function GroupValuesOf(consts: seq<Constant>, prefix: string): (vs: seq<Value>)
    ensures |vs| <= |consts|
  {
    if |consts| == 0 then []
    else
      var rest := GroupValuesOf(consts[1..], prefix);
      if InGroup(consts[0], prefix) then [consts[0].value] + rest else rest
  }

  /** The group's values are exactly the values of the constants in the group. */
  lemma {:induction false} GroupValuesMembers(consts: seq<Constant>, prefix: string)
    ensures forall c | c in consts && InGroup(c, prefix) :: c.value in GroupValuesOf(consts, prefix)
    ensures forall v | v in GroupValuesOf(consts, prefix) :: exists c | c in consts :: InGroup(c, prefix) && c.value == v
  {
    if |consts| > 0 {
      GroupValuesMembers(consts[1..], prefix);
      assert forall c | c in consts[1..] :: c in consts;
      assert forall c | c in consts :: c == consts[0] || c in consts[1..];
    }
  }

  /** `assureConstant` resolved to a class: the value of the first constant of the group that `value`
      loosely equals, or `onInvalid` when there is none. */
  function AssureClassConstant(value: Value, cls: string, prefix: string, onInvalid: Value): (r: Value)
    ensures r == onInvalid || r in GroupValues(cls, prefix)
    ensures (forall c | c in ClassConstants(cls) :: !Matches(value, c, prefix)) ==> r == onInvalid
    ensures r != onInvalid ==> LooseEq(value, r)
  {
    var consts := ClassConstants(cls);
    match FirstMatch(value, consts, prefix, 0)
    case Some(i) =>
      assert consts[i] in consts;
      GroupValuesMembers(consts, prefix);
      consts[i].value
    case None => onInvalid
  }

  /** `assureConstant`: the owner is a class name or an object of the class; any other owner yields `onInvalid`. */
  function AssureConstant(value: Value, owner: Value, prefix: string, onInvalid: Value): (r: Value)
    ensures owner.Str? ==> r == AssureClassConstant(value, owner.s, prefix, onInvalid)
    ensures owner.Obj? ==> r == AssureClassConstant(value, owner.o.cls, prefix, onInvalid)
    ensures !owner.Str? && !owner.Obj? ==> r == onInvalid
  {
    match owner
    case Str(name) => AssureClassConstant(value, name, prefix, onInvalid)
    case Obj(o) => AssureClassConstant(value, o.cls, prefix, onInvalid)
    case _ => onInvalid
  }

  /** The search returns the first member of the group the value loosely equals: whenever `value` matches
      the constant at position `i` and no earlier one, the result is that constant's value. */
  lemma AssureConstantFirst(value: Value, cls: string, prefix: string, onInvalid: Value, i: nat)
    requires i < |ClassConstants(cls)| && Matches(value, ClassConstants(cls)[i], prefix)
    requires forall j | 0 <= j < i :: !Matches(value, ClassConstants(cls)[j], prefix)
    ensures AssureClassConstant(value, cls, prefix, onInvalid) == ClassConstants(cls)[i].value
  {
    var r := FirstMatch(value, ClassConstants(cls), prefix, 0);
    assert r.Some?;
  }

  /** No two values of a group compare loosely equal. */
  predicate LooselyDistinct(vs: seq<Value>) {
    forall i, j | 0 <= i < j < |vs| :: !LooseEq(vs[i], vs[j])
  }

  /** Strings that are not numeric compare loosely as strings, so different ones are loosely distinct. */
  lemma TextsDistinct(vs: seq<Value>)
    requires forall i | 0 <= i < |vs| :: vs[i].Str? && |vs[i].s| > 0 && !IsDigit(vs[i].s[0]) && vs[i].s[0] != '-' && vs[i].s[0] != '+'
    requires forall i, j | 0 <= i < j < |vs| :: vs[i] != vs[j]
    ensures LooselyDistinct(vs)
  {
  }

  /** When the values of a group are loosely distinct, every one of them is accepted as it is. */
  lemma GroupValueKept(value: Value, cls: string, prefix: string, onInvalid: Value)
    requires value in GroupValues(cls, prefix) && LooselyDistinct(GroupValues(cls, prefix))
    ensures AssureClassConstant(value, cls, prefix, onInvalid) == value
  {
    var consts := ClassConstants(cls);
    var vs := GroupValues(cls, prefix);
    GroupValuesMembers(consts, prefix);
    var c :| c in consts && InGroup(c, prefix) && c.value == value;
    LooseEqReflexive(value);
    assert Matches(value, c, prefix);
    var i :| 0 <= i < |consts| && consts[i] == c;
    var m := FirstMatch(value, consts, prefix, 0);
    assert m.Some?;
    var r := consts[m.value].value;
    assert consts[m.value] in consts;
    assert r in vs;
    var a :| 0 <= a < |vs| && vs[a] == value;
    var b :| 0 <= b < |vs| && vs[b] == r;
    LooseEqSymmetric(value, r);
    assert a == b;
  }

  // ---------------------------------------------------------------------------------------------
  // formatSeconds

  /** `str_pad($s, 2, "0", STR_PAD_LEFT)`. */
  function Pad2(s: string): (r: string)
    ensures |r| == if |s| >= 2 then |s| else 2
  {
    if |s| >= 2 then s else if |s| == 1 then "0" + s else "00"
  }

  /** `formatSeconds`: a numeric value of seconds as `[-]hh:mm:ss`; anything else unchanged. */
  function FormatSeconds(v: Value): (r: Value)
    ensures !IsNumeric(v) ==> r == v
    ensures IsNumeric(v) ==> r.Str?
  {
    if !IsNumeric(v) then v
    else
      var n := IntVal(v);
      var minus := if n < 0 then "-" else "";
      Str(minus + ClockBody(if n < 0 then -n else n))
  }

  /** The unsigned part of the formatted text: hours, minutes and seconds, each padded to two digits. */
  function ClockBody(seconds: nat): string {
    var minutes := seconds / 60;
    Pad2(NatToString(minutes / 60)) + ":" + Pad2(NatToString(minutes % 60)) + ":" + Pad2(NatToString(seconds % 60))
  }

  /** Reads a `[-]hh:mm:ss` string back. */
  function ParseClock(s: string): Option<int> {
    var negative := |s| > 0 && s[0] == '-';
    match ParseClockBody(if negative then s[1..] else s)
    case Some(total) =>
      var t: int := total;
      Some(if negative then -t else t)
    case None => None
  }

  /** Reads `hh:mm:ss`. */
  function ParseClockBody(body: string): Option<nat> {
    ClockOfParts(Explode(":", body))
  }

  /** The clock value of the colon-separated groups: exactly three groups of digits, at least two hour digits,
      exactly two minute and second digits, minutes and seconds below 60. */
  function ClockOfParts(parts: seq<string>): Option<nat> {
    if |parts| != 3 || !AllDigits(parts[0]) || !AllDigits(parts[1]) || !AllDigits(parts[2]) then None
    else if |parts[0]| < 2 || |parts[1]| != 2 || |parts[2]| != 2 then None
    else
      var minutes := DigitsValue(parts[1]);
      var seconds := DigitsValue(parts[2]);
      if minutes >= 60 || seconds >= 60 then None
      else Some(DigitsValue(parts[0]) * 3600 + minutes * 60 + seconds)
  }

  /** The formatted text is a well-formed clock reading of exactly the given number of seconds:
      sign, hours, minutes below 60 and seconds below 60 recombine to the input. */
  lemma FormatSecondsRoundTrip(v: Value)
    requires IsNumeric(v)
    ensures ParseClock(FormatSeconds(v).s) == Some(IntVal(v))
  {
    var n := IntVal(v);
    FormatSecondsText(v);
    assert FormatSeconds(v).s == (if n < 0 then "-" else "") + ClockBody(if n < 0 then -n else n);
    SignedClockOf(n);
  }

  /** The formatted text is the sign of the input followed by the clock text of its magnitude. */
  lemma FormatSecondsText(v: Value)
    requires IsNumeric(v)
    ensures FormatSeconds(v).s == (if IntVal(v) < 0 then "-" else "") + ClockBody(if IntVal(v) < 0 then -IntVal(v) else IntVal(v))
  {
  }

  /** The signed clock text of any integer reads back as that integer. */
  lemma SignedClockOf(n: int)
    ensures ParseClock((if n < 0 then "-" else "") + ClockBody(if n < 0 then -n else n)) == Some(n)
  {
    var seconds: nat := if n < 0 then -n else n;
    ClockBodyRoundTrip(seconds);
    SignedClock(ClockBody(seconds), n < 0, seconds);
  }

  /** A leading minus sign negates the clock reading. */
  lemma SignedClock(body: string, negative: bool, seconds: nat)
    requires ParseClockBody(body) == Some(seconds) && |body| > 0 && IsDigit(body[0])
    ensures ParseClock((if negative then "-" else "") + body) == Some(if negative then -(seconds as int) else seconds as int)
  {
    if negative {
      assert ("-" + body)[1..] == body;
    } else {
      assert ("" + body) == body;
    }
  }

  /** The unsigned clock text reads back as the number of seconds, and it starts with a digit. */
  lemma ClockBodyRoundTrip(seconds: nat)
    ensures ParseClockBody(ClockBody(seconds)) == Some(seconds)
    ensures IsDigit(ClockBody(seconds)[0])
  {
    var minutes := seconds / 60;
    PaddedDigits(minutes / 60);
    PaddedDigits(minutes % 60);
    PaddedDigits(seconds % 60);
    SmallNatToString(minutes % 60);
    SmallNatToString(seconds % 60);
    ParseClockBodyOf(Pad2(NatToString(minutes / 60)), Pad2(NatToString(minutes % 60)), Pad2(NatToString(seconds % 60)));
    ClockArithmetic(seconds);
  }

  /** Three digit groups of the right widths, joined by colons, read back as their clock value. */
  lemma ParseClockBodyOf(h: string, m: string, s: string)
    requires AllDigits(h) && AllDigits(m) && AllDigits(s)
    requires |h| >= 2 && |m| == 2 && |s| == 2 && DigitsValue(m) < 60 && DigitsValue(s) < 60
    ensures ParseClockBody(h + ":" + m + ":" + s) == Some(DigitsValue(h) * 3600 + DigitsValue(m) * 60 + DigitsValue(s))
    ensures IsDigit((h + ":" + m + ":" + s)[0])
  {
    ClockJoin(h, m, s);
    DigitsHaveNoColon(h, m, s);
    ExplodeImplode(':', [h, m, s]);
    ClockGroups(h, m, s);
  }

  lemma ClockJoin(h: string, m: string, s: string)
    ensures Implode(":", [h, m, s]) == h + ":" + m + ":" + s
  {
    assert [h, m, s][1..] == [m, s];
    assert [m, s][1..] == [s];
    assert Implode(":", [m, s]) == m + ":" + s;
  }

  lemma DigitsHaveNoColon(h: string, m: string, s: string)
    requires AllDigits(h) && AllDigits(m) && AllDigits(s)
    ensures forall k, j | 0 <= k < 3 && 0 <= j < |[h, m, s][k]| :: [h, m, s][k][j] != ':'
  {
    forall k, j | 0 <= k < 3 && 0 <= j < |[h, m, s][k]|
      ensures [h, m, s][k][j] != ':'
    {
      assert IsDigit([h, m, s][k][j]);
    }
  }

  lemma ClockGroups(h: string, m: string, s: string)
    requires AllDigits(h) && AllDigits(m) && AllDigits(s)
    requires |h| >= 2 && |m| == 2 && |s| == 2 && DigitsValue(m) < 60 && DigitsValue(s) < 60
    ensures ClockOfParts([h, m, s]) == Some(DigitsValue(h) * 3600 + DigitsValue(m) * 60 + DigitsValue(s))
    ensures IsDigit((h + ":" + m + ":" + s)[0])
  {
  }

  lemma ClockArithmetic(seconds: nat)
    ensures (seconds / 60 / 60) * 3600 + (seconds / 60 % 60) * 60 + seconds % 60 == seconds
  {
  }

  lemma SmallNatToString(n: nat)
    requires n < 100
    ensures |NatToString(n)| <= 2
  {
  }

  /** Left-padding a rendered number with zeros keeps it a digit string with the same value. */
  lemma PaddedDigits(n: nat)
    ensures AllDigits(Pad2(NatToString(n))) && DigitsValue(Pad2(NatToString(n))) == n
  {
    var t := NatToString(n);
    if |t| == 1 {
      LeadingZero(t);
    }
  }

  lemma {:induction false} LeadingZero(t: string)
    requires AllDigits(t)
    ensures AllDigits("0" + t) && DigitsValue("0" + t) == DigitsValue(t)
    decreases |t|
  {
    var z := "0" + t;
    if |t| > 0 {
      assert z[..|z| - 1] == "0" + t[..|t| - 1];
      LeadingZero(t[..|t| - 1]);
    }
  }

  // ---------------------------------------------------------------------------------------------
  // getTagParameters

  /** A tag parameter: a single value, or the distinct values of a repeated name in order of appearance. */
  datatype TagValue = One(value: string) | Many(values: seq<string>)

  /** `array_unique` on a list of strings: the first occurrence of each value, in order. */
  function Distinct(xs: seq<string>): (d: seq<string>)
    ensures forall x :: x in d <==> x in xs
    ensures NoDuplicates(d)
    ensures |xs| > 0 ==> |d| > 0
  {
    if |xs| == 0 then []
    else
      var d := Distinct(xs[..|xs| - 1]);
      assert forall x :: x in xs <==> x in xs[..|xs| - 1] || x == xs[|xs| - 1] by {
        assert xs == xs[..|xs| - 1] + [xs[|xs| - 1]];
      }
      if xs[|xs| - 1] in d then d else d + [xs[|xs| - 1]]
  }

  predicate NoDuplicates(xs: seq<string>) {
    forall i, j | 0 <= i < j < |xs| :: xs[i] != xs[j]
  }

  /** A list that is already free of duplicates is its own `array_unique`. */
  lemma {:induction false} DistinctOfDistinct(xs: seq<string>)
    requires NoDuplicates(xs)
    ensures Distinct(xs) == xs
    decreases |xs|
  {
    if |xs| > 0 {
      var init := xs[..|xs| - 1];
      DistinctOfDistinct(init);
      assert xs[|xs| - 1] !in init;
      assert xs == init + [xs[|xs| - 1]];
    }
  }

  /** How a list of values is stored: a single value collapses to itself. */
  function Collapse(xs: seq<string>): TagValue
    requires |xs| > 0
  {
    if |xs| == 1 then One(xs[0]) else Many(xs)
  }

  /** The stored value as a list, as `array($parameters[$name])` makes it. */
  function AsList(t: TagValue): seq<string> {
    match t
    case One(v) => [v]
    case Many(vs) => vs
  }

  /** Records `name=value`: a new name maps to its value; a repeated name accumulates its distinct values. */
  function AddParameter(params: map<string, TagValue>, name: string, value: string): map<string, TagValue> {
    if name in params then params[name := Collapse(Distinct(AsList(params[name]) + [value]))]
    else params[name := One(value)]
  }

  /** A token carries a parameter when it contains `=` (`stripos` and `strpos` agree on that character). */
  predicate IsPair(token: string) {
    Find(token, "=", 0).Some?
  }

  /** The name of a `name=value` token: the text before the first `=`. */
  function PairName(token: string): string
    requires IsPair(token)
  {
    Explode("=", token)[0]
  }

  /** The value of a `name=value` token: the text between the first `=` and the next one (or the end). */
  function PairValue(token: string): string
    requires IsPair(token)
  {
    Explode("=", token)[1]
  }

  /** The parameters the tokens of a tag line define, processed from left to right. */
  function Parameters(tokens: seq<string>): map<string, TagValue> {
    if |tokens| == 0 then map[]
    else
      var params := Parameters(tokens[..|tokens| - 1]);
      var t := tokens[|tokens| - 1];
      if IsPair(t) then AddParameter(params, PairName(t), PairValue(t)) else params
  }

  /** The values given to `name` by the tokens, in order (repetitions included). */
  function ValuesNamed(tokens: seq<string>, name: string): seq<string> {
    if |tokens| == 0 then []
    else
      var t := tokens[|tokens| - 1];
      ValuesNamed(tokens[..|tokens| - 1], name) + if IsPair(t) && PairName(t) == name then [PairValue(t)] else []
  }

  /** Reference meaning of the parameter map: a name is present exactly when some token gives it a value,
      and it maps to the distinct values given to it, collapsed to a single value when there is only one. */
  lemma ParametersMeaning(tokens: seq<string>)
    ensures forall name :: name in Parameters(tokens) <==> |ValuesNamed(tokens, name)| > 0
    ensures forall name | name in Parameters(tokens) ::
      Parameters(tokens)[name] == Collapse(Distinct(ValuesNamed(tokens, name)))
  {
    forall name
      ensures name in Parameters(tokens) <==> |ValuesNamed(tokens, name)| > 0
      ensures name in Parameters(tokens) ==> Parameters(tokens)[name] == Collapse(Distinct(ValuesNamed(tokens, name)))
    {
      ParameterMeaning(tokens, name);
    }
  }

  /** The reference meaning for one name, by induction over the tokens. */
  lemma {:induction false} ParameterMeaning(tokens: seq<string>, name: string)
    ensures name in Parameters(tokens) <==> |ValuesNamed(tokens, name)| > 0
    ensures name in Parameters(tokens) ==> Parameters(tokens)[name] == Collapse(Distinct(ValuesNamed(tokens, name)))
    decreases |tokens|
  {
    if |tokens| > 0 {
      var init := tokens[..|tokens| - 1];
      var t := tokens[|tokens| - 1];
      var before := ValuesNamed(init, name);
      ParameterMeaning(init, name);
      if IsPair(t) && PairName(t) == name {
        var value := PairValue(t);
        assert ValuesNamed(tokens, name) == before + [value];
        if name in Parameters(init) {
          var d := Distinct(before);
          assert AsList(Collapse(d)) == d;
          DistinctOfDistinct(d);
          var vs := before + [value];
          assert vs[..|vs| - 1] == before;
          assert (d + [value])[..|d|] == d;
          assert Distinct(d + [value]) == Distinct(vs);
        } else {
          assert before == [];
          assert ValuesNamed(tokens, name) == [value];
        }
      } else {
        assert ValuesNamed(tokens, name) == before;
      }
    }
  }

  /** The text of the tag line from the tag to the next newline, as the source cuts it. When no newline
      follows, `$tag_end_pos` is `false` and the length passed to `substr` is `-$tag_pos`. */
  function TagLineAsWritten(comment: string, pos: nat): string {
    match FindCaseless(comment, "\n", pos)
    case Some(e) => Substr(comment, pos, e - pos)
    case None => Substr(comment, pos, 0 - pos)
  }

  /** The tag line as evidently intended: up to the next newline, or to the end of the comment. */
  function TagLine(comment: string, pos: nat): string {
    match FindCaseless(comment, "\n", pos)
    case Some(e) => Substr(comment, pos, e - pos)
    case None => Substr(comment, pos, |comment| - pos)
  }

  /** `getTagParameters` as written: `None` stands for `false` (tag not found or empty tag line). */
  function GetTagParametersAsWritten(comment: string, tagName: string): (r: Option<map<string, TagValue>>)
    ensures FindCaseless(comment, "@" + tagName, 0).None? ==> r.None?
  {
    match FindCaseless(comment, "@" + tagName, 0)
    case None => None
    case Some(pos) =>
      var tag := Trim(TagLineAsWritten(comment, pos));
      if |tag| == 0 then None else Some(Parameters(Explode(" ", tag)))
  }

  /** `getTagParameters` with the tag line running to the end of the comment when no newline follows. */
  function GetTagParameters(comment: string, tagName: string): (r: Option<map<string, TagValue>>)
    ensures FindCaseless(comment, "@" + tagName, 0).None? ==> r.None?
    ensures FindCaseless(comment, "@" + tagName, 0).Some? ==> r.Some?
    ensures r.Some? ==> exists line :: r.value == Parameters(Explode(" ", line))
  {
    match FindCaseless(comment, "@" + tagName, 0)
    case None => None
    case Some(pos) =>
      var line := TagLine(comment, pos);
      TagLineStartsWithAt(comment, tagName, pos);
      var tag := Trim(line);
      assert |tag| > 0;
      Some(Parameters(Explode(" ", tag)))
  }

  /** The tag line begins with the `@` the search found, so it never trims to nothing. */
  lemma TagLineStartsWithAt(comment: string, tagName: string, pos: nat)
    requires FindCaseless(comment, "@" + tagName, 0) == Some(pos)
    ensures |Trim(TagLine(comment, pos))| > 0
  {
    assert Lower(comment)[pos] == Lower("@" + tagName)[0];
    assert comment[pos] == '@';
    var line := TagLine(comment, pos);
    assert line[0] == '@';
    TrimKeeps(line);
  }

  /** Trimming a string whose first character is not white space leaves it non-empty. */
  lemma TrimKeeps(s: string)
    requires |s| > 0 && !IsTrimmed(s[0])
    ensures |Trim(s)| > 0
  {
    TrimRightKeepsHead(s);
  }

  lemma {:induction false} TrimRightKeepsHead(s: string)
    requires |s| > 0 && !IsTrimmed(s[0])
    ensures |TrimRight(s)| > 0 && TrimRight(s)[0] == s[0]
    decreases |s|
  {
    if IsTrimmed(s[|s| - 1]) {
      TrimRightKeepsHead(s[..|s| - 1]);
    }
  }

  /** The source loses a tag that starts the comment when no newline follows it: the length handed to
      `substr` is zero, the tag line is empty, and the result is `false` though the tag is present.
      The corrected reading finds the tag. */
  lemma TagAtStartWithoutNewline(comment: string, tagName: string)
    requires FindCaseless(comment, "@" + tagName, 0) == Some(0)
    requires FindCaseless(comment, "\n", 0).None?
    ensures GetTagParametersAsWritten(comment, tagName).None?
    ensures GetTagParameters(comment, tagName).Some?
  {
  }

  /** The same defect truncates a tag further into the comment: its line loses as many characters at
      the end as the tag's offset. */
  lemma TagWithoutNewlineTruncated(comment: string, tagName: string, pos: nat)
    requires FindCaseless(comment, "@" + tagName, 0) == Some(pos)
    requires FindCaseless(comment, "\n", pos).None?
    requires 0 < pos && 2 * pos < |comment|
    ensures TagLineAsWritten(comment, pos) == comment[pos..|comment| - pos]
    ensures TagLine(comment, pos) == comment[pos..]
  {
  }
}

=== FILE: knowledgebase_article.dfy ===
/** `KnowledgebaseArticle`: a knowledgebase article written by a staff member, published or draft, filed
    under knowledgebase categories. */
module KnowledgebaseArticle {
  import opened Wrappers
  import opened Php
  import opened Helper
  import opened Wire
  import Constants

  type Cache = map<Option<int>, PhpObject>

  datatype Article = Article(
    id: Option<int>, subject: Option<string>, contents: Option<string>,
    creatorId: Option<int>, creator: Option<PhpObject>,
    editedStaffId: Option<int>, editedStaff: Option<PhpObject>,
    /** A STATUS constant as the setter keeps it; what a parse leaves there is discussed at `Parse`. */
    status: Value,
    isFeatured: bool, allowComments: Option<bool>, totalComments: Option<int>, hasAttachments: Option<int>,
    categoryIds: seq<Option<int>>, categories: Cache)

  const StatusPublished := Constants.ArticleStatusPublished
  const StatusDraft := Constants.ArticleStatusDraft

  /** `new KnowledgebaseArticle()`: not featured, no comments, no attachments, no categories. */
  function New(): (a: Article)
    ensures !a.isFeatured && a.totalComments == Some(0) && a.hasAttachments == Some(0)
    ensures a.categoryIds == [] && a.status.Null?
  {
    Article(None, None, None, None, None, None, None, Null, false, None, Some(0), Some(0), [], map[])
  }

  // ---------------------------------------------------------------------------------------------
  // Parsing

  /** What `parseData` reads apart from the status and the categories; the category cache is emptied. */
  function ParseFields(a: Article, data: Value): (r: Article)
    ensures r.id == AssurePositiveInt(Key(data, "kbarticleid"), None)
    ensures r.creatorId == AssureInt(Key(data, "creatorid"), None)
    ensures r.isFeatured == Truthy(Key(data, "isfeatured"))
    ensures r.allowComments == Some(Truthy(Key(data, "allowcomments")))
    ensures r.status == a.status && r.categoryIds == a.categoryIds && r.categories == map[]
  {
    a.(id := AssurePositiveInt(Key(data, "kbarticleid"), None),
       subject := AssureString(Key(data, "subject"), None),
       contents := AssureString(Key(data, "contents"), None),
       creatorId := AssureInt(Key(data, "creatorid"), None),
       isFeatured := AssureBool(Key(data, "isfeatured")),
       allowComments := Some(AssureBool(Key(data, "allowcomments"))),
       totalComments := AssureInt(Key(data, "totalcomments"), None),
       hasAttachments := AssureInt(Key(data, "hasattachments"), None),
       categories := map[])
  }

  /** `parseData` as written: the status goes through `assureBool`, and the category identifiers of the
      data are appended to those the article already holds. */
  function ParseAsWritten(a: Article, data: Value): (r: Article)
    ensures r.status == Bool(Truthy(Key(data, "articlestatus")))
    ensures r.categoryIds == a.categoryIds + ParseIds(data, "categories", "categoryid")
  {
    ParseFields(a, data).(
      status := Bool(AssureBool(Key(data, "articlestatus"))),
      categoryIds := a.categoryIds + ParseIds(data, "categories", "categoryid"))
  }

  /** `parseData` as intended: the status is read as the integer it is, and the category identifiers are
      those of the data. */
  function Parse(a: Article, data: Value): (r: Article)
    ensures r.status == IdValue(AssureInt(Key(data, "articlestatus"), None))
    ensures r.categoryIds == ParseIds(data, "categories", "categoryid")
  {
    ParseFields(a, data).(
      status := IdValue(AssureInt(Key(data, "articlestatus"), None)),
      categoryIds := ParseIds(data, "categories", "categoryid"))
  }

  /** The data of an article with the given status, filed under category 7 alone, as the server sends it. */
  function ArticleData(status: Value): (data: Value)
    ensures Key(data, "articlestatus") == status
    ensures ListItems(data, "categories", "categoryid") == [Str("7")]
  {
    var inner := Arr([Dict([Pair("categoryid", Str("7"))])]);
    var data := Dict([Pair("articlestatus", status), Pair("categories", inner)]);
    assert LookupPair(data.entries[1..], "categories") == Some(inner);
    assert Key(data, "categories") == inner;
    data
  }

  /** As written, a draft article parses to the same status as a published one, so the next update sends
      the article back with its status changed from draft. */
  lemma ParseAsWrittenLosesDraft(a: Article)
    ensures ParseAsWritten(a, ArticleData(StatusDraft)).status == ParseAsWritten(a, ArticleData(StatusPublished)).status
  {
  }

  /** As written, re-populating an article from the server duplicates its categories. */
  lemma ParseAsWrittenDuplicatesCategories()
    ensures ParseAsWritten(New(), ArticleData(StatusPublished)).categoryIds == [Some(7)]
    ensures ParseAsWritten(ParseAsWritten(New(), ArticleData(StatusPublished)), ArticleData(StatusPublished)).categoryIds ==
      [Some(7), Some(7)]
  {
    assert AssurePositiveInt(Str("7"), None) == Some(7);
  }

  /** Parsing the same data again changes nothing, and the categories after a parse depend on the data
      alone. */
  lemma ParseIsIdempotent(a: Article, b: Article, data: Value)
    ensures Parse(Parse(a, data), data) == Parse(a, data)
    ensures Parse(a, data).categoryIds == Parse(b, data).categoryIds
  {
  }

  /** A parsed status is the one the server sent: each STATUS constant survives a parse and the build of
      the next update. */
  lemma ParseKeepsStatus(a: Article, s: Value, check: Check)
    requires s == StatusPublished || s == StatusDraft
    requires check.Passes?
    ensures Parse(a, ArticleData(s)).status == s
    ensures Build(Parse(a, ArticleData(s)), false, check).value["articlestatus"] == Via(AsNumeric, s)
  {
  }

  // ---------------------------------------------------------------------------------------------
  // Requests

  /** `buildData($create)`: the creator on create, the editing staff member on update, and the category
      list always. */
  function Build(a: Article, create: bool, check: Check): (r: Result<Data>)
    ensures r.Success? <==> check.Passes?
    ensures r.Success? ==> Sends(r.value, "subject", Via(AsString, StrOrNull(a.subject)))
    ensures r.Success? ==> Sends(r.value, "contents", Via(AsString, StrOrNull(a.contents)))
    ensures r.Success? ==> Sends(r.value, "allowcomments", Via(AsBool, BoolOrNull(a.allowComments)))
    ensures r.Success? ==> ("creatorid" in r.value <==> create) && ("editedstaffid" in r.value <==> !create)
    ensures r.Success? && create ==> r.value["creatorid"] == Via(AsNumeric, IdValue(a.creatorId))
    ensures r.Success? && !create ==> r.value["editedstaffid"] == Via(AsNumeric, IdValue(a.editedStaffId))
    ensures r.Success? ==> "articlestatus" in r.value && r.value["articlestatus"] == Via(AsNumeric, a.status)
    ensures r.Success? ==> "categoryid" in r.value && r.value["categoryid"] == Via(Emitter.AsList, IdList(a.categoryIds))
  {
    var staff := if create then map["creatorid" := Via(AsNumeric, IdValue(a.creatorId))]
                 else map["editedstaffid" := Via(AsNumeric, IdValue(a.editedStaffId))];
    Checked(check, staff + map[
      "subject" := Via(AsString, StrOrNull(a.subject)),
      "contents" := Via(AsString, StrOrNull(a.contents)),
      "articlestatus" := Via(AsNumeric, a.status),
      "allowcomments" := Via(AsBool, BoolOrNull(a.allowComments)),
      "categoryid" := Via(Emitter.AsList, IdList(a.categoryIds))])
  }

  /** The category identifier `getAll` sends: the object's identifier for a knowledgebase category, the
      argument itself otherwise. */
  function CategoryParameter(category: Value): (v: Value)
    ensures category.Obj? && category.o.cls == "KnowledgebaseCategory" ==> v == IdValue(category.o.id)
    ensures !(category.Obj? && category.o.cls == "KnowledgebaseCategory") ==> v == category
  {
    if category.Obj? && category.o.cls == "KnowledgebaseCategory" then IdValue(category.o.id) else category
  }

  /** A positive starting article identifier was given. */
  predicate HasStart(start: Value) {
    IsNumeric(start) && IntVal(start) > 0
  }

  /** The page size used when a starting identifier comes without a usable maximum. */
  const DefaultPageSize := 1000

  /** `getAll($category, $maxItems, $startingId)` as written: a numeric maximum is always appended, so a
      maximum of 0 or less is followed by 1000 as well, and the starting identifier ends up fifth. */
  function GetAllParametersAsWritten(category: Value, maxItems: Value, start: Value): (ps: seq<Value>)
    ensures |ps| >= 2 && ps[..2] == [Str("ListAll"), CategoryParameter(category)]
    ensures |ps| == 2 + (if IsNumeric(maxItems) then 1 else 0) +
      (if HasStart(start) then (if !IsNumeric(maxItems) || IntVal(maxItems) <= 0 then 2 else 1) else 0)
    ensures IsNumeric(maxItems) ==> ps[2] == maxItems
    ensures HasStart(start) ==> ps[|ps| - 1] == start
  {
    var ps := [Str("ListAll"), CategoryParameter(category)];
    var ps := if IsNumeric(maxItems) then ps + [maxItems] else ps;
    if HasStart(start) then
      var ps := if !IsNumeric(maxItems) || IntVal(maxItems) <= 0 then ps + [Int(DefaultPageSize)] else ps;
      ps + [start]
    else ps
  }

  /** As written, a maximum of 0 with starting identifier 5 sends the maximum, then 1000, then 5: the
      server reads 1000 as the starting identifier. */
  lemma GetAllAsWrittenMisplacesStart()
    ensures GetAllParametersAsWritten(Int(3), Int(0), Int(5)) == [Str("ListAll"), Int(3), Int(0), Int(1000), Int(5)]
  {
  }

  /** `getAll` as intended: a maximum that is not a positive number stands for "none", and a starting
      identifier always follows a positive page size. */
  function GetAllParameters(category: Value, maxItems: Value, start: Value): (ps: seq<Value>)
    ensures 2 <= |ps| <= 4 && ps[..2] == [Str("ListAll"), CategoryParameter(category)]
    ensures forall k | 2 <= k < |ps| :: IsNumeric(ps[k]) && IntVal(ps[k]) > 0
  {
    var hasMax := IsNumeric(maxItems) && IntVal(maxItems) > 0;
    var ps := [Str("ListAll"), CategoryParameter(category)];
    var ps := if hasMax then ps + [maxItems] else ps;
    if HasStart(start) then (if hasMax then ps else ps + [Int(DefaultPageSize)]) + [start]
    else ps
  }

  /** The positions the server reads: the page size third (the given maximum, or 1000 when a start needs
      one), the starting identifier fourth, and nothing else. */
  lemma GetAllParametersPositions(category: Value, maxItems: Value, start: Value)
    ensures var ps := GetAllParameters(category, maxItems, start);
      (HasStart(start) <==> |ps| == 4) &&
      (HasStart(start) ==> ps[3] == start) &&
      (IsNumeric(maxItems) && IntVal(maxItems) > 0 ==> |ps| >= 3 && ps[2] == maxItems) &&
      (!(IsNumeric(maxItems) && IntVal(maxItems) > 0) && HasStart(start) ==> ps[2] == Int(DefaultPageSize)) &&
      (!(IsNumeric(maxItems) && IntVal(maxItems) > 0) && !HasStart(start) ==> |ps| == 2)
  {
  }

  /** The corrected parameters agree with the written ones whenever the maximum is missing or positive. */
  lemma GetAllAgreesOnUsableMaximum(category: Value, maxItems: Value, start: Value)
    requires !IsNumeric(maxItems) || IntVal(maxItems) > 0
    ensures GetAllParameters(category, maxItems, start) == GetAllParametersAsWritten(category, maxItems, start)
  {
  }

  // ---------------------------------------------------------------------------------------------
  // Setters and getters

  /** `setStatus`: one of the STATUS constants, or `null`. */
  function SetStatus(a: Article, v: Value): (r: Article)
    ensures r.status == Null || r.status in GroupValues("KnowledgebaseArticle", "STATUS")
    ensures r.status != Null ==> LooseEq(v, r.status)
  {
    a.(status := AssureConstant(v, Str("KnowledgebaseArticle"), "STATUS", Null))
  }

  /** The STATUS group is published (1) then draft (2). */
  lemma StatusGroup()
    ensures GroupValues("KnowledgebaseArticle", "STATUS") == [StatusPublished, StatusDraft]
  {
    var consts := Constants.ClassConstants("KnowledgebaseArticle");
    assert GroupValuesOf(consts[2..], "STATUS") == [];
    InGroupExactly(consts[1], "STATUS");
    InGroupExactly(consts[0], "STATUS");
  }

  /** `SetStatus` accepts every status of the group as it is. */
  lemma SetStatusKeepsStatuses(a: Article, v: Value)
    requires v in GroupValues("KnowledgebaseArticle", "STATUS")
    ensures SetStatus(a, v).status == v
  {
    StatusGroup();
    GroupValueKept(v, "KnowledgebaseArticle", "STATUS", Null);
  }

  /** The string `'2'` is read as the draft status. */
  lemma SetStatusDraft(a: Article)
    ensures SetStatus(a, Str("2")).status == StatusDraft
  {
    var consts := Constants.ClassConstants("KnowledgebaseArticle");
    InGroupExactly(consts[1], "STATUS");
    AssureConstantFirst(Str("2"), "KnowledgebaseArticle", "STATUS", Null, 1);
  }

  /** A value outside the STATUS group is refused. */
  lemma SetStatusRefuses(a: Article)
    ensures SetStatus(a, Int(3)).status == Null
  {
    var consts := Constants.ClassConstants("KnowledgebaseArticle");
    assert forall k | k in consts :: !Matches(Int(3), k, "STATUS");
  }

  function SetSubject(a: Article, v: Value): (r: Article)
    ensures r.subject == AssureString(v, None)
  {
    a.(subject := AssureString(v, None))
  }

  function SetContents(a: Article, v: Value): (r: Article)
    ensures r.contents == AssureString(v, None)
  {
    a.(contents := AssureString(v, None))
  }

  /** `setStaffId`: the creator's identifier, positive or `null`; the cached creator is dropped. */
  function SetStaffId(a: Article, v: Value): (r: Article)
    ensures r.creatorId == AssurePositiveInt(v, None) && r.creator.None?
  {
    a.(creatorId := AssurePositiveInt(v, None), creator := None)
  }

  /** `setCreatorId`: any integer, and the cached creator is kept. */
  function SetCreatorId(a: Article, v: Value): (r: Article)
    ensures r.creatorId == AssureInt(v, None) && r.creator == a.creator
  {
    a.(creatorId := AssureInt(v, None))
  }

  /** `setStaff`: the creator, and its identifier with it. */
  function SetStaff(a: Article, v: Value): (r: Article)
    ensures r.creator == AssureObject(v, "Staff")
    ensures r.creatorId == (if r.creator.Some? then r.creator.value.id else None)
  {
    var staff := AssureObject(v, "Staff");
    a.(creator := staff, creatorId := if staff.Some? then staff.value.id else None)
  }

  /** `getStaff($reload)`. */
  function GetStaff(a: Article, reload: bool): (r: Lookup)
    ensures r.Cached? <==> a.creator.Some? && !reload
    ensures r.Fetch? <==> (a.creator.None? || reload) && a.creatorId.Some?
    ensures r.Fetch? ==> r.ids == [a.creatorId.value]
  {
    LazyGet(a.creator, a.creatorId, reload, false)
  }

  /** After `setStaffId` the creator is fetched by the new identifier; after `setStaff` the given staff
      member is handed back without a fetch. */
  lemma StaffSettersAgree(a: Article, id: int, staff: PhpObject)
    requires id > 0 && staff.cls == "Staff"
    ensures GetStaff(SetStaffId(a, Int(id)), false) == Fetch([id])
    ensures GetStaff(SetStaff(a, Obj(staff)), false) == Cached(staff)
    ensures SetStaff(a, Obj(staff)).creatorId == staff.id
  {
  }

  /** `setEditedStaffId`: positive or `null`; the cached editor is dropped. */
  function SetEditedStaffId(a: Article, v: Value): (r: Article)
    ensures r.editedStaffId == AssurePositiveInt(v, None) && r.editedStaff.None?
  {
    a.(editedStaffId := AssurePositiveInt(v, None), editedStaff := None)
  }

  function SetIsFeatured(a: Article, v: Value): (r: Article)
    ensures r.isFeatured == Truthy(v)
  {
    a.(isFeatured := AssureBool(v))
  }

  function SetAllowComments(a: Article, v: Value): (r: Article)
    ensures r.allowComments == Some(Truthy(v))
  {
    a.(allowComments := Some(AssureBool(v)))
  }

  /** `setCategoryIds`: a list of positive identifiers; a numeric scalar counts as a one-element list. */
  function SetCategoryIds(a: Article, v: Value): (r: Article)
    ensures r.categoryIds == NormalizeIds(v)
    ensures forall k | 0 <= k < |r.categoryIds| :: r.categoryIds[k].Some? && r.categoryIds[k].value > 0
  {
    a.(categoryIds := NormalizeIds(v))
  }

  /** The identifiers set are the ones the next request lists. */
  lemma SetCategoryIdsAreSent(a: Article, v: Value, create: bool)
    ensures Build(SetCategoryIds(a, v), create, Passes).value["categoryid"] == Via(Emitter.AsList, IdList(NormalizeIds(v)))
  {
  }

  /** What a setter stores is what the next request sends: text through the string helper (`null` kept),
      the status as the constant it resolved to, the comment flag as a boolean, and the author identifiers
      under the key of their mode. */
  lemma SettersAreSent(a: Article, v: Value, create: bool)
    ensures var text := Via(AsString, StrOrNull(AssureString(v, None)));
      Sends(Build(SetSubject(a, v), create, Passes).value, "subject", text) &&
      Sends(Build(SetContents(a, v), create, Passes).value, "contents", text)
    ensures Sends(Build(SetStatus(a, v), create, Passes).value, "articlestatus", Via(AsNumeric, SetStatus(a, v).status))
    ensures Sends(Build(SetAllowComments(a, v), create, Passes).value, "allowcomments", Via(AsBool, Bool(Truthy(v))))
    ensures Sends(Build(SetCreatorId(a, v), true, Passes).value, "creatorid", Via(AsNumeric, IdValue(AssureInt(v, None))))
    ensures Sends(Build(SetEditedStaffId(a, v), false, Passes).value, "editedstaffid",
                  Via(AsNumeric, IdValue(AssurePositiveInt(v, None))))
  {
  }

  /** `createNew($subject, $contents, $staff)`: a new article by the given creator. */
  function CreateNew(subject: Value, contents: Value, staff: Value): (a: Article)
    ensures a.subject == AssureString(subject, None) && a.contents == AssureString(contents, None)
    ensures a.creator == AssureObject(staff, "Staff")
    ensures a.creator.Some? ==> a.creatorId == a.creator.value.id
    ensures a.categoryIds == [] && !a.isFeatured
  {
    SetStaff(SetContents(SetSubject(New(), subject), contents), staff)
  }

  /** `getId($complete)`. */
  function GetId(a: Article, complete: bool): (v: Value)
    ensures complete ==> v == Arr([IdValue(a.id)])
    ensures !complete ==> v == IdValue(a.id)
  {
    if complete then Arr([IdValue(a.id)]) else IdValue(a.id)
  }
}

=== FILE: knowledgebase_attachment.dfy ===
/** `KnowledgebaseAttachment`: a file attached to a knowledgebase article, addressed by the article
    identifier and its own, and not updatable once created.

    The documentation of the `contents` property, of `getContents` and of `setContents` says the
    property holds the raw file, and `parseData` decodes the base64 text the server sends. But
    `buildData` sends the property as it is, and `setContentsFromFile` stores the base64 text of the file.
    The members suffixed `AsWritten` model that code. `Build`, `SetContentsFromFile` and
    `CreateNewFromFile` keep the raw file and encode it on the way out, as `TicketAttachment` does. */
module KnowledgebaseAttachment {
  import opened Wrappers
  import opened Php
  import opened Helper
  import opened Wire
  import Base64
  import KnowledgebaseArticle

  datatype Attachment = Attachment(
    id: Option<int>, articleId: Option<int>,
    fileName: Value, fileSize: Option<int>, fileType: Value, dateline: Option<int>,
    contents: Option<seq<byte>>,
    /** The cached article of the lazy getter. */
    article: Option<PhpObject>)

  /** `new KnowledgebaseAttachment()`. */
  function New(): (a: Attachment)
    ensures a.id.None? && a.contents.None? && a.article.None?
  {
    Attachment(None, None, Null, None, Null, None, None, None)
  }

  /** `parseData`: the contents are base64-decoded when present and non-empty, and left untouched
      otherwise. */
  function Parse(a: Attachment, data: Value): (r: Attachment)
    ensures r.id == Some(IntVal(Key(data, "id")))
    ensures r.articleId == AssurePositiveInt(Key(data, "kbarticleid"), None)
    ensures r.fileSize == Some(IntVal(Key(data, "filesize")))
    ensures !HasContents(data) ==> r.contents == a.contents
    ensures HasContents(data) ==> r.contents.Some?
  {
    a.(id := Some(IntVal(Key(data, "id"))),
       articleId := AssurePositiveInt(Key(data, "kbarticleid"), None),
       fileName := Key(data, "filename"),
       fileSize := Some(IntVal(Key(data, "filesize"))),
       fileType := Key(data, "filetype"),
       dateline := AssurePositiveInt(Key(data, "dateline"), None),
       contents := ParsedContents(data, a.contents))
  }

  /** The contents as `$data['contents'] = $this->contents` sends them: `null` stays `null`. */
  function StoredContents(contents: Option<seq<byte>>): (w: WireValue)
    ensures contents.None? ==> w == Raw(Null)
    ensures contents.Some? ==> w == Bytes(contents.value)
  {
    match contents
    case None => Raw(Null)
    case Some(b) => Bytes(b)
  }

  /** `buildData` as written: the article identifier, the file name and the contents as stored. */
  function BuildAsWritten(a: Attachment, create: bool, check: Check): (r: Result<Data>)
    ensures r.Success? <==> check.Passes?
    ensures r.Success? ==> r.value.Keys == {"kbarticleid", "filename", "contents"}
    ensures r.Success? ==> r.value["kbarticleid"] == Raw(IdValue(a.articleId))
    ensures r.Success? ==> r.value["contents"] == StoredContents(a.contents)
  {
    Checked(check, map["kbarticleid" := Raw(IdValue(a.articleId)), "filename" := Raw(a.fileName),
                       "contents" := StoredContents(a.contents)])
  }

  /** `buildData` with the contents base64-encoded, the encoding `parseData` undoes. */
  function Build(a: Attachment, create: bool, check: Check): (r: Result<Data>)
    ensures r.Success? <==> check.Passes?
    ensures r.Success? ==> r.value.Keys == {"kbarticleid", "filename", "contents"}
    ensures r.Success? ==> r.value["kbarticleid"] == Raw(IdValue(a.articleId))
    ensures r.Success? ==> r.value["contents"].Raw? && r.value["contents"].v.Str?
  {
    Checked(check, map["kbarticleid" := Raw(IdValue(a.articleId)), "filename" := Raw(a.fileName),
                       "contents" := Raw(EncodedContents(a.contents))])
  }

  /** Decoding the contents a request carries gives back the stored contents, and a response echoing
      them restores non-empty contents when parsed. */
  lemma BuildEncodesContents(a: Attachment, create: bool, b: Attachment)
    ensures var sent := Build(a, create, Passes).value["contents"].v;
      Base64.Decode(sent.s) == a.contents.GetOr([]) &&
      (|a.contents.GetOr([])| > 0 ==> Parse(b, Dict([Pair("contents", sent)])).contents == a.contents)
  {
    Base64.RoundTrip(a.contents.GetOr([]));
    ContentsRoundTrip(a.contents, b.contents);
  }

  /** `update()`: attachments cannot be updated. */
  function Update(a: Attachment): (r: Result<()>)
    ensures r.Failure? && r.error.BadMethodCall?
  {
    Failure(BadMethodCall("You can't update objects of type KnowledgebaseAttachment."))
  }

  /** `getId($complete)`: the attachment identifier, or the pair article identifier and attachment
      identifier that addresses it on the server. */
  function GetId(a: Attachment, complete: bool): (v: Value)
    ensures !complete ==> v == IdValue(a.id)
    ensures complete ==> v == Arr([IdValue(a.articleId), IdValue(a.id)])
  {
    if complete then Arr([IdValue(a.articleId), IdValue(a.id)]) else IdValue(a.id)
  }

  /** `delete()`: the identifiers the request names. */
  function DeleteIds(a: Attachment): (ids: seq<Value>)
    ensures Arr(ids) == GetId(a, true)
  {
    [IdValue(a.articleId), IdValue(a.id)]
  }

  /** `getAll($article)`: the search parameters, naming an article by its identifier or by the object. */
  function GetAllParameters(article: Value): (ps: seq<Value>)
    ensures |ps| == 2 && ps[0] == Str("ListAll")
    ensures article.Obj? && article.o.cls == "KnowledgebaseArticle" ==> ps[1] == IdValue(article.o.id)
    ensures !(article.Obj? && article.o.cls == "KnowledgebaseArticle") ==> ps[1] == article
  {
    [Str("ListAll"), if article.Obj? && article.o.cls == "KnowledgebaseArticle" then IdValue(article.o.id) else article]
  }

  // ---------------------------------------------------------------------------------------------
  // Article

  /** `setKbarticleId`: positive or `null`; the cached article is dropped. */
  function SetArticleId(a: Attachment, v: Value): (r: Attachment)
    ensures r.articleId == AssurePositiveInt(v, None) && r.article.None?
    ensures r.contents == a.contents
  {
    a.(articleId := AssurePositiveInt(v, None), article := None)
  }

  /** `getKbarticle($reload)`. */
  function GetArticle(a: Attachment, reload: bool): (r: Lookup)
    ensures r.Cached? <==> a.article.Some? && !reload
    ensures r.Fetch? <==> (a.article.None? || reload) && a.articleId.Some?
    ensures r.Fetch? ==> r.ids == [a.articleId.value]
  {
    LazyGet(a.article, a.articleId, reload, false)
  }

  /** After `setKbarticleId` the article is fetched by its new identifier, or not at all. */
  lemma SetArticleIdRefetches(a: Attachment, v: Value)
    ensures IntVal(v) > 0 ==> GetArticle(SetArticleId(a, v), false) == Fetch([IntVal(v)])
    ensures IntVal(v) <= 0 ==> GetArticle(SetArticleId(a, v), false) == NoObject
  {
  }

  // ---------------------------------------------------------------------------------------------
  // File and contents

  function SetFileName(a: Attachment, v: Value): (r: Attachment)
    ensures r.fileName == StrOrNull(AssureString(v, None)) && r.contents == a.contents
  {
    a.(fileName := StrOrNull(AssureString(v, None)))
  }

  /** `getContents($autoFetch)`: fetched by `[kbarticleId, id]` when nothing is stored yet. */
  function GetAttachmentContents(a: Attachment, autoFetch: bool): (r: ContentsLookup)
    ensures r.FetchContents? <==> a.contents.None? && a.articleId.Some? && a.id.Some? && autoFetch
    ensures r.FetchContents? ==> |r.ids| == 2 && Arr([Int(r.ids[0]), Int(r.ids[1])]) == GetId(a, true)
    ensures r.Stored? ==> r.contents == a.contents
  {
    GetContents(a.contents, a.articleId, a.id, autoFetch)
  }

  /** `setContents`: the raw contents. */
  function SetContents(a: Attachment, contents: seq<byte>): (r: Attachment)
    ensures r.contents == Some(contents) && r.fileName == a.fileName
  {
    a.(contents := Some(contents))
  }

  /** The file name `setContentsFromFile` keeps: the one given, else `basename($filePath)`. */
  function FileNameOr(fileName: Value, baseName: string): (v: Value)
    ensures fileName.Null? ==> v == Str(baseName)
    ensures !fileName.Null? ==> v == fileName
  {
    if fileName.Null? then Str(baseName) else fileName
  }

  /** `setContentsFromFile` as written. Reading the file is outside the model: `read` is what
      `file_get_contents` returned (`None` for `false`) and `baseName` is `basename($filePath)`. The
      property receives the base64 text of the file, and `base64_encode(false)` is the empty string, so
      the `=== false` test never throws. */
  function SetContentsFromFileAsWritten(a: Attachment, read: Option<seq<byte>>, fileName: Value, baseName: string): (r: Attachment)
    ensures r.contents == Some(Base64.EncodeBytes(read.GetOr([])))
    ensures r.fileName == FileNameOr(fileName, baseName)
  {
    a.(contents := Some(Base64.EncodeBytes(read.GetOr([]))), fileName := FileNameOr(fileName, baseName))
  }

  /** A file that cannot be read goes unnoticed: the attachment gets empty contents. */
  lemma ReadFailureUnnoticed(a: Attachment, fileName: Value, baseName: string)
    ensures SetContentsFromFileAsWritten(a, None, fileName, baseName).contents == Some([])
  {
  }

  /** After `setContentsFromFile` as written, `getContents` does not return the raw file it documents:
      for a non-empty file it returns longer, encoded contents. */
  lemma FromFileContentsNotRaw(a: Attachment, b: seq<byte>, fileName: Value, baseName: string)
    requires |b| > 0
    ensures GetAttachmentContents(SetContentsFromFileAsWritten(a, Some(b), fileName, baseName), true) != Stored(Some(b))
  {
    assert |Base64.EncodeBytes(b)| > |b|;
  }

  /** `setContentsFromFile` keeping the raw file and reporting a file that cannot be read. */
  function SetContentsFromFile(a: Attachment, read: Option<seq<byte>>, filePath: string, fileName: Value,
                               baseName: string): (r: Result<Attachment>)
    ensures read.None? <==> r.Failure?
    ensures r.Failure? ==> r.error == GeneralException("Error reading contents of " + filePath + ".")
    ensures r.Success? ==> r.value.contents == read && r.value.fileName == FileNameOr(fileName, baseName)
  {
    match read
    case None => Failure(GeneralException("Error reading contents of " + filePath + "."))
    case Some(b) => Success(a.(contents := Some(b), fileName := FileNameOr(fileName, baseName)))
  }

  /** `createNew($kbarticle, $contents, $fileName)`: attached to the given article. */
  function CreateNew(article: KnowledgebaseArticle.Article, contents: seq<byte>, fileName: Value): (a: Attachment)
    ensures article.id.Some? && article.id.value > 0 ==> a.articleId == article.id
    ensures !(article.id.Some? && article.id.value > 0) ==> a.articleId.None?
    ensures a.contents == Some(contents) && a.fileName == StrOrNull(AssureString(fileName, None))
  {
    SetFileName(SetContents(SetArticleId(New(), IdValue(article.id)), contents), fileName)
  }

  /** `createNewFromFile($kbarticle, $filePath, $fileName = null)` as written. */
  function CreateNewFromFileAsWritten(article: KnowledgebaseArticle.Article, read: Option<seq<byte>>, fileName: Value,
                                      baseName: string): (a: Attachment)
    ensures a.articleId == CreateNew(article, [], fileName).articleId
    ensures a.contents == Some(Base64.EncodeBytes(read.GetOr([])))
  {
    SetContentsFromFileAsWritten(SetArticleId(New(), IdValue(article.id)), read, fileName, baseName)
  }

  /** `createNewFromFile` over the corrected `setContentsFromFile`. */
  function CreateNewFromFile(article: KnowledgebaseArticle.Article, read: Option<seq<byte>>, filePath: string,
                             fileName: Value, baseName: string): (r: Result<Attachment>)
    ensures read.None? <==> r.Failure?
    ensures r.Success? ==> r.value.articleId == CreateNew(article, [], fileName).articleId && r.value.contents == read
  {
    SetContentsFromFile(SetArticleId(New(), IdValue(article.id)), read, filePath, fileName, baseName)
  }

  /** As written, the two constructors send different contents for the same non-empty file: the bytes
      themselves from `createNew`, their base64 text from `createNewFromFile`. */
  lemma ConstructorsDisagreeAsWritten(article: KnowledgebaseArticle.Article, b: seq<byte>, name: string,
                                      baseName: string, create: bool)
    requires |b| > 0
    ensures BuildAsWritten(CreateNew(article, b, Str(name)), create, Passes).value["contents"] == Bytes(b)
    ensures BuildAsWritten(CreateNewFromFileAsWritten(article, Some(b), Str(name), baseName), create, Passes).value["contents"] != Bytes(b)
  {
    assert |Base64.EncodeBytes(b)| > |b|;
  }

  /** With the raw file kept and encoded on the way out, the two constructors send the same request. */
  lemma ConstructorsAgree(article: KnowledgebaseArticle.Article, b: seq<byte>, filePath: string, name: string,
                          baseName: string, create: bool)
    ensures CreateNewFromFile(article, Some(b), filePath, Str(name), baseName).Success?
    ensures Build(CreateNew(article, b, Str(name)), create, Passes) ==
            Build(CreateNewFromFile(article, Some(b), filePath, Str(name), baseName).value, create, Passes)
  {
  }
}

=== FILE: news_category.dfy ===
/** `NewsCategory`: a public or private category of news items. */
module NewsCategory {
  import opened Wrappers
  import opened Php
  import opened Helper
  import opened Wire
  import Constants

  datatype Category = Category(
    id: Option<int>, title: Option<string>, newsItemCount: Option<int>,
    /** A string read from the server, or what `setVisibilityType` accepted. */
    visibilityType: Value)

  const VisibilityPublic := Constants.VisibilityTypePublic
  const VisibilityPrivate := Constants.VisibilityTypePrivate

  /** `new NewsCategory()`: no news items yet. */
  function New(): (c: Category)
    ensures c.newsItemCount == Some(0) && c.visibilityType.Null? && c.title.None?
  {
    Category(None, None, Some(0), Null)
  }

  /** `parseData`: a count that is not positive reads as 0. */
  function Parse(c: Category, data: Value): (r: Category)
    ensures r.id == AssurePositiveInt(Key(data, "id"), None)
    ensures r.title == AssureString(Key(data, "title"), None)
    ensures r.visibilityType == StrOrNull(AssureString(Key(data, "visibilitytype"), None))
    ensures r.newsItemCount.Some? && r.newsItemCount.value >= 0
    ensures IntVal(Key(data, "newsitemcount")) > 0 ==> r.newsItemCount.value == IntVal(Key(data, "newsitemcount"))
    ensures IntVal(Key(data, "newsitemcount")) <= 0 ==> r.newsItemCount.value == 0
  {
    Category(
      AssurePositiveInt(Key(data, "id"), None), AssureString(Key(data, "title"), None),
      AssurePositiveInt(Key(data, "newsitemcount"), Some(0)),
      StrOrNull(AssureString(Key(data, "visibilitytype"), None)))
  }

  /** `buildData`: the title and the visibility type, nothing else. */
  function Build(c: Category, create: bool, check: Check): (r: Result<Data>)
    ensures r.Success? <==> check.Passes?
    ensures r.Success? ==> r.value.Keys == {"title", "visibilitytype"}
    ensures r.Success? ==> r.value["title"] == Via(AsString, StrOrNull(c.title))
    ensures r.Success? ==> r.value["visibilitytype"] == Via(AsString, c.visibilityType)
  {
    Checked(check, map["title" := Via(AsString, StrOrNull(c.title)), "visibilitytype" := Via(AsString, c.visibilityType)])
  }

  /** What is read is what the next request sends: the count and the identifier stay on the client. */
  lemma ParseThenBuild(c: Category, data: Value, create: bool)
    ensures var d := Build(Parse(c, data), create, Passes).value;
      d["title"] == Via(AsString, StrOrNull(AssureString(Key(data, "title"), None))) &&
      d["visibilitytype"] == Via(AsString, StrOrNull(AssureString(Key(data, "visibilitytype"), None)))
  {
  }

  /** `setVisibilityType`: one of the VISIBILITY_TYPE constants, or `null`. */
  function SetVisibilityType(c: Category, v: Value): (r: Category)
    ensures r.visibilityType == Null || r.visibilityType in GroupValues("NewsCategory", "VISIBILITY_TYPE")
    ensures r.visibilityType != Null ==> LooseEq(v, r.visibilityType)
    ensures r.title == c.title
  {
    c.(visibilityType := AssureConstant(v, Str("NewsCategory"), "VISIBILITY_TYPE", Null))
  }

  /** `SetVisibilityType` accepts every visibility type of the group as it is. */
  lemma SetVisibilityTypeKeepsTypes(c: Category, v: Value)
    requires v in GroupValues("NewsCategory", "VISIBILITY_TYPE")
    ensures SetVisibilityType(c, v).visibilityType == v
  {
    VisibilityTypeGroup();
    TextsDistinct([VisibilityPublic, VisibilityPrivate]);
    GroupValueKept(v, "NewsCategory", "VISIBILITY_TYPE", Null);
  }

  /** The visibility types are `'public'` and `'private'`, in that order. */
  lemma VisibilityTypeGroup()
    ensures GroupValues("NewsCategory", "VISIBILITY_TYPE") == [VisibilityPublic, VisibilityPrivate]
  {
    var consts := Constants.ClassConstants("NewsCategory");
    InGroupExactly(consts[1], "VISIBILITY_TYPE");
    InGroupExactly(consts[0], "VISIBILITY_TYPE");
  }

  lemma SetVisibilityTypePrivate(c: Category)
    ensures SetVisibilityType(c, Str("private")).visibilityType == VisibilityPrivate
  {
    var consts := Constants.ClassConstants("NewsCategory");
    InGroupExactly(consts[1], "VISIBILITY_TYPE");
    AssureConstantFirst(Str("private"), "NewsCategory", "VISIBILITY_TYPE", Null, 1);
  }

  /** A value outside the group is refused. */
  lemma SetVisibilityTypeRefuses(c: Category)
    ensures SetVisibilityType(c, Str("global")).visibilityType == Null
  {
    var consts := Constants.ClassConstants("NewsCategory");
    assert forall k | k in consts :: !Matches(Str("global"), k, "VISIBILITY_TYPE");
  }

  function SetTitle(c: Category, v: Value): (r: Category)
    ensures r.title == AssureString(v, None) && r.visibilityType == c.visibilityType
  {
    c.(title := AssureString(v, None))
  }

  /** What a setter stores is what the next request sends: the title as its string form (`null` kept), the
      visibility as the constant it resolved to. */
  lemma SettersAreSent(c: Category, v: Value, create: bool)
    ensures Sends(Build(SetTitle(c, v), create, Passes).value, "title", Via(AsString, StrOrNull(AssureString(v, None))))
    ensures Sends(Build(SetVisibilityType(c, v), create, Passes).value, "visibilitytype",
                  Via(AsString, SetVisibilityType(c, v).visibilityType))
  {
  }

  /** `createNew($title, $visibilityType)`. */
  function CreateNew(title: Value, visibilityType: Value): (c: Category)
    ensures c.title == AssureString(title, None)
    ensures c.visibilityType == AssureConstant(visibilityType, Str("NewsCategory"), "VISIBILITY_TYPE", Null)
    ensures c.newsItemCount == Some(0) && c.id.None?
  {
    SetVisibilityType(SetTitle(New(), title), visibilityType)
  }

  /** `getId($complete)`. */
  function GetId(c: Category, complete: bool): (v: Value)
    ensures complete ==> v == Arr([IdValue(c.id)])
    ensures !complete ==> v == IdValue(c.id)
  {
    if complete then Arr([IdValue(c.id)]) else IdValue(c.id)
  }
}

=== FILE: news_item.dfy ===
/** `NewsItem`: a news article, visible to user groups and staff groups according to its type, its
    expiry and two custom-visibility flags with their group lists, and filed under news categories. */
module NewsItem {
  import opened Wrappers
  import opened Php
  import opened Helper
  import opened Wire
  import Constants

  /** A cache of fetched objects keyed by identifier (`null` keys included). */
  type Cache = map<Option<int>, PhpObject>

  datatype NewsItem = NewsItem(
    id: Option<int>, staffId: Option<int>, staff: Option<PhpObject>,
    editedStaffId: Option<int>, editedStaff: Option<PhpObject>,
    /** An integer after parsing; after `setType`/`setStatus`, the matched constant or `null`. */
    typ: Value, status: Value,
    author: Option<string>, authorEmail: Option<string>, fromName: Option<string>, email: Option<string>,
    subject: Option<string>, emailSubject: Option<string>, sendEmail: Option<bool>, allowComments: Option<bool>,
    dateline: Option<int>, expiry: Value, isSynced: bool, totalComments: Option<int>,
    userVisibilityCustom: bool, userGroupIds: seq<Option<int>>, userGroups: Option<Cache>,
    /** `null` until parsed or set: the property has no default, unlike its user counterpart. */
    staffVisibilityCustom: Option<bool>, staffGroupIds: seq<Option<int>>, staffGroups: Option<Cache>,
    contents: Option<string>, categoryIds: seq<Option<int>>, categories: Cache)

  const TypePublic := Constants.NewsItemTypePublic
  const TypePrivate := Constants.NewsItemTypePrivate

  /** `new NewsItem()`: no user custom visibility, no staff custom visibility flag at all, empty lists,
      not synced, no comments. */
  function New(): (n: NewsItem)
    ensures !n.userVisibilityCustom && n.staffVisibilityCustom.None?
    ensures n.userGroupIds == [] && n.staffGroupIds == [] && n.categoryIds == []
    ensures n.expiry.Null? && n.typ.Null?
  {
    NewsItem(None, None, None, None, None, Null, Null, None, None, None, None, None, None, None, None,
             None, Null, false, Some(0), false, [], None, None, [], None, None, [], map[])
  }

  // ---------------------------------------------------------------------------------------------
  // Parsing

  /** Every property `parseData` reads from the data, except the category list. */
  function ParseFields(n: NewsItem, data: Value): (r: NewsItem)
    ensures r.userVisibilityCustom == Truthy(Key(data, "uservisibilitycustom"))
    ensures r.userVisibilityCustom ==> r.userGroupIds == ParseIds(data, "usergroupidlist", "usergroupid")
    ensures !r.userVisibilityCustom ==> r.userGroupIds == []
    ensures r.staffVisibilityCustom == Some(Truthy(Key(data, "staffvisibilitycustom")))
    ensures Truthy(Key(data, "staffvisibilitycustom")) ==> r.staffGroupIds == ParseIds(data, "staffgroupidlist", "staffgroupid")
    ensures !Truthy(Key(data, "staffvisibilitycustom")) ==> r.staffGroupIds == []
    ensures r.totalComments.Some? && r.totalComments.value >= 0
    ensures r.categoryIds == n.categoryIds && r.categories == map[]
  {
    var userCustom := AssureBool(Key(data, "uservisibilitycustom"));
    var staffCustom := AssureBool(Key(data, "staffvisibilitycustom"));
    n.(id := AssurePositiveInt(Key(data, "id"), None),
       staffId := AssurePositiveInt(Key(data, "staffid"), None),
       typ := IdValue(AssurePositiveInt(Key(data, "newstype"), None)),
       status := IdValue(AssurePositiveInt(Key(data, "newsstatus"), None)),
       author := AssureString(Key(data, "author"), None),
       authorEmail := AssureString(Key(data, "email"), None),
       subject := AssureString(Key(data, "subject"), None),
       emailSubject := AssureString(Key(data, "emailsubject"), None),
       dateline := AssurePositiveInt(Key(data, "dateline"), None),
       expiry := IdValue(AssurePositiveInt(Key(data, "expiry"), None)),
       isSynced := AssureBool(Key(data, "issynced")),
       totalComments := AssurePositiveInt(Key(data, "totalcomments"), Some(0)),
       allowComments := Some(AssureBool(Key(data, "allowcomments"))),
       contents := AssureString(Key(data, "contents"), None),
       categories := map[],
       userVisibilityCustom := userCustom,
       userGroupIds := if userCustom then ParseIds(data, "usergroupidlist", "usergroupid") else [],
       staffVisibilityCustom := Some(staffCustom),
       staffGroupIds := if staffCustom then ParseIds(data, "staffgroupidlist", "staffgroupid") else [])
  }

  /** `parseData` as written: the category identifiers of the data are appended to the ones the item
      already holds, while the category cache is emptied. */
  function ParseAsWritten(n: NewsItem, data: Value): (r: NewsItem)
    ensures r.categoryIds == n.categoryIds + ParseIds(data, "categories", "categoryid")
    ensures r.categories == map[]
  {
    ParseFields(n, data).(categoryIds := n.categoryIds + ParseIds(data, "categories", "categoryid"))
  }

  /** `parseData` as intended: the category identifiers are those of the data, like every other list. */
  function Parse(n: NewsItem, data: Value): (r: NewsItem)
    ensures r.categoryIds == ParseIds(data, "categories", "categoryid")
    ensures r.categories == map[]
  {
    ParseFields(n, data).(categoryIds := ParseIds(data, "categories", "categoryid"))
  }

  /** The data of an item filed under category 7 alone, as the server sends it. */
  const OneCategory := Dict([Pair("categories", Arr([Dict([Pair("categoryid", Str("7"))])]))])

  /** As written, re-populating an item from the server (after `refresh` or `update`) duplicates its
      categories: the second parse of the same data files the item under category 7 twice. */
  lemma ParseAsWrittenDuplicatesCategories()
    ensures ParseAsWritten(New(), OneCategory).categoryIds == [Some(7)]
    ensures ParseAsWritten(ParseAsWritten(New(), OneCategory), OneCategory).categoryIds == [Some(7), Some(7)]
  {
    assert ListItems(OneCategory, "categories", "categoryid") == [Str("7")];
    assert AssurePositiveInt(Str("7"), None) == Some(7);
  }

  /** Parsing the same data again changes nothing, and the categories after a parse depend on the data
      alone, not on what the item held before. */
  lemma ParseIsIdempotent(n: NewsItem, m: NewsItem, data: Value)
    ensures Parse(Parse(n, data), data) == Parse(n, data)
    ensures Parse(n, data).categoryIds == Parse(m, data).categoryIds
  {
  }

  /** Group lists are read only for a flag that is set: without it the list stays empty whatever the data
      holds. */
  lemma ParseGroupsNeedFlag(n: NewsItem, data: Value)
    requires !Truthy(Key(data, "uservisibilitycustom")) && !Truthy(Key(data, "staffvisibilitycustom"))
    ensures Parse(n, data).userGroupIds == [] && Parse(n, data).staffGroupIds == []
  {
  }

  // ---------------------------------------------------------------------------------------------
  // Setters

  function SetStaffId(n: NewsItem, v: Value): (r: NewsItem)
    ensures r.staffId == AssurePositiveInt(v, None) && r.staff.None?
  {
    n.(staffId := AssurePositiveInt(v, None), staff := None)
  }

  function SetStaff(n: NewsItem, v: Value): (r: NewsItem)
    ensures r.staff == AssureObject(v, "Staff")
    ensures r.staffId == (if r.staff.Some? then r.staff.value.id else None)
  {
    var staff := AssureObject(v, "Staff");
    n.(staff := staff, staffId := if staff.Some? then staff.value.id else None)
  }

  function SetEditedStaffId(n: NewsItem, v: Value): (r: NewsItem)
    ensures r.editedStaffId == AssurePositiveInt(v, None) && r.editedStaff.None?
  {
    n.(editedStaffId := AssurePositiveInt(v, None), editedStaff := None)
  }

  function SetEditedStaff(n: NewsItem, v: Value): (r: NewsItem)
    ensures r.editedStaff == AssureObject(v, "Staff")
    ensures r.editedStaffId == (if r.editedStaff.Some? then r.editedStaff.value.id else None)
  {
    var staff := AssureObject(v, "Staff");
    n.(editedStaff := staff, editedStaffId := if staff.Some? then staff.value.id else None)
  }

  /** `setType`: one of the TYPE constants, or `null`. */
  function SetType(n: NewsItem, v: Value): (r: NewsItem)
    ensures r.typ == Null || r.typ in GroupValues("NewsItem", "TYPE")
    ensures r.typ != Null ==> LooseEq(v, r.typ)
  {
    n.(typ := AssureConstant(v, Str("NewsItem"), "TYPE", Null))
  }

  /** `setStatus`: one of the STATUS constants, or `null`. */
  function SetStatus(n: NewsItem, v: Value): (r: NewsItem)
    ensures r.status == Null || r.status in GroupValues("NewsItem", "STATUS")
    ensures r.status != Null ==> LooseEq(v, r.status)
  {
    n.(status := AssureConstant(v, Str("NewsItem"), "STATUS", Null))
  }

  /** `SetType` accepts every type of the group as it is. */
  lemma SetTypeKeepsTypes(n: NewsItem, v: Value)
    requires v in GroupValues("NewsItem", "TYPE")
    ensures SetType(n, v).typ == v
  {
    TypeGroup();
    GroupValueKept(v, "NewsItem", "TYPE", Null);
  }

  /** The item types are global, public and private, in that order. */
  lemma TypeGroup()
    ensures GroupValues("NewsItem", "TYPE") == [Constants.NewsItemTypeGlobal, TypePublic, TypePrivate]
  {
    var consts := Constants.ClassConstants("NewsItem");
    assert GroupValuesOf(consts[3..], "TYPE") == [] by {
      assert GroupValuesOf(consts[5..], "TYPE") == [];
      assert GroupValuesOf(consts[4..], "TYPE") == [];
    }
    InGroupExactly(consts[2], "TYPE");
    InGroupExactly(consts[1], "TYPE");
    InGroupExactly(consts[0], "TYPE");
  }

  /** The item statuses are draft and published, in that order. */
  lemma StatusGroup()
    ensures GroupValues("NewsItem", "STATUS") == [Constants.NewsItemStatusDraft, Constants.NewsItemStatusPublished]
  {
    var consts := Constants.ClassConstants("NewsItem");
    assert GroupValuesOf(consts[5..], "STATUS") == [];
    InGroupExactly(consts[4], "STATUS");
    InGroupExactly(consts[3], "STATUS");
  }

  /** `SetStatus` accepts every status of the group as it is. */
  lemma SetStatusKeepsStatuses(n: NewsItem, v: Value)
    requires v in GroupValues("NewsItem", "STATUS")
    ensures SetStatus(n, v).status == v
  {
    StatusGroup();
    GroupValueKept(v, "NewsItem", "STATUS", Null);
  }

  /** A TYPE constant is accepted as it is. */
  lemma SetTypePrivate(n: NewsItem)
    ensures SetType(n, Int(3)).typ == TypePrivate
  {
    var consts := Constants.ClassConstants("NewsItem");
    InGroupExactly(consts[2], "TYPE");
    AssureConstantFirst(Int(3), "NewsItem", "TYPE", Null, 2);
  }

  /** A numeric string is read as the TYPE constant it equals. */
  lemma SetTypeNumericString(n: NewsItem)
    ensures SetType(n, Str("2")).typ == TypePublic
  {
    var consts := Constants.ClassConstants("NewsItem");
    InGroupExactly(consts[1], "TYPE");
    AssureConstantFirst(Str("2"), "NewsItem", "TYPE", Null, 1);
  }

  /** A value outside the TYPE group is refused. */
  lemma SetTypeRefuses(n: NewsItem)
    ensures SetType(n, Int(4)).typ == Null
  {
    var consts := Constants.ClassConstants("NewsItem");
    assert forall c | c in consts :: !Matches(Int(4), c, "TYPE");
  }

  function SetFromName(n: NewsItem, v: Value): (r: NewsItem)
    ensures r.fromName == AssureString(v, None)
  {
    n.(fromName := AssureString(v, None))
  }

  function SetEmail(n: NewsItem, v: Value): (r: NewsItem)
    ensures r.email == AssureString(v, None)
  {
    n.(email := AssureString(v, None))
  }

  function SetSubject(n: NewsItem, v: Value): (r: NewsItem)
    ensures r.subject == AssureString(v, None)
  {
    n.(subject := AssureString(v, None))
  }

  function SetEmailSubject(n: NewsItem, v: Value): (r: NewsItem)
    ensures r.emailSubject == AssureString(v, None)
  {
    n.(emailSubject := AssureString(v, None))
  }

  function SetContents(n: NewsItem, v: Value): (r: NewsItem)
    ensures r.contents == AssureString(v, None)
  {
    n.(contents := AssureString(v, None))
  }

  function SetSendEmail(n: NewsItem, v: Value): (r: NewsItem)
    ensures r.sendEmail == Some(Truthy(v))
  {
    n.(sendEmail := Some(AssureBool(v)))
  }

  function SetAllowComments(n: NewsItem, v: Value): (r: NewsItem)
    ensures r.allowComments == Some(Truthy(v))
  {
    n.(allowComments := Some(AssureBool(v)))
  }

  /** `setExpiry`: a positive timestamp or `null` for a number or `null`, and what `strtotime` makes of
      anything else (`parsed`, see `AssureTimestamp`). */
  function SetExpiry(n: NewsItem, v: Value, parsed: Option<int>): (r: NewsItem)
    ensures IsNumeric(v) || v.Null? ==> r.expiry == IdValue(AssurePositiveInt(v, None))
    ensures !(IsNumeric(v) || v.Null?) ==> r.expiry == (if parsed.Some? then Int(parsed.value) else Bool(false))
  {
    n.(expiry := AssureTimestamp(v, parsed))
  }

  // ---------------------------------------------------------------------------------------------
  // Group and category lists

  /** `setUserVisibilityCustom`: turning custom visibility off empties the group list and its cache. */
  function SetUserVisibilityCustom(n: NewsItem, v: Value): (r: NewsItem)
    ensures r.userVisibilityCustom == Truthy(v)
    ensures !Truthy(v) ==> r.userGroupIds == [] && r.userGroups.None?
    ensures Truthy(v) ==> r.userGroupIds == n.userGroupIds && r.userGroups == n.userGroups
  {
    var custom := AssureBool(v);
    if !custom then n.(userVisibilityCustom := false, userGroupIds := [], userGroups := None)
    else n.(userVisibilityCustom := true)
  }

  /** `setStaffVisibilityCustom`: the mirror image for staff groups. */
  function SetStaffVisibilityCustom(n: NewsItem, v: Value): (r: NewsItem)
    ensures r.staffVisibilityCustom == Some(Truthy(v))
    ensures !Truthy(v) ==> r.staffGroupIds == [] && r.staffGroups.None?
    ensures Truthy(v) ==> r.staffGroupIds == n.staffGroupIds && r.staffGroups == n.staffGroups
  {
    var custom := AssureBool(v);
    if !custom then n.(staffVisibilityCustom := Some(false), staffGroupIds := [], staffGroups := None)
    else n.(staffVisibilityCustom := Some(true))
  }

  /** `setUserGroupIds`: the normalised list; the cache is kept. */
  function SetUserGroupIds(n: NewsItem, v: Value): (r: NewsItem)
    ensures r.userGroupIds == NormalizeIds(v) && r.userGroups == n.userGroups
  {
    n.(userGroupIds := NormalizeIds(v))
  }

  function SetStaffGroupIds(n: NewsItem, v: Value): (r: NewsItem)
    ensures r.staffGroupIds == NormalizeIds(v) && r.staffGroups == n.staffGroups
  {
    n.(staffGroupIds := NormalizeIds(v))
  }

  function SetCategoryIds(n: NewsItem, v: Value): (r: NewsItem)
    ensures r.categoryIds == NormalizeIds(v) && r.categories == n.categories
  {
    n.(categoryIds := NormalizeIds(v))
  }

  /** `addUserGroup($group, $clear)`: `clear` empties the list and the cache first; a group not yet listed
      is appended and turns custom visibility on; a listed one changes nothing more. */
  function AddUserGroup(n: NewsItem, group: PhpObject, clear: bool): (r: NewsItem)
    ensures HasId(r.userGroupIds, IdValue(group.id))
    ensures clear ==> r.userGroupIds == [group.id] && r.userGroups == Some(map[]) && r.userVisibilityCustom
    ensures !clear && HasId(n.userGroupIds, IdValue(group.id)) ==> r == n
    ensures !clear && !HasId(n.userGroupIds, IdValue(group.id)) ==>
      r.userGroupIds == n.userGroupIds + [group.id] && r.userVisibilityCustom
  {
    var start := if clear then n.(userGroups := Some(map[]), userGroupIds := []) else n;
    if HasId(start.userGroupIds, IdValue(group.id)) then start
    else start.(userGroupIds := AddId(start.userGroupIds, group.id), userVisibilityCustom := true)
  }

  /** `addStaffGroup`: the mirror image for staff groups. */
  function AddStaffGroup(n: NewsItem, group: PhpObject, clear: bool): (r: NewsItem)
    ensures HasId(r.staffGroupIds, IdValue(group.id))
    ensures clear ==> r.staffGroupIds == [group.id] && r.staffGroups == Some(map[]) && r.staffVisibilityCustom == Some(true)
    ensures !clear && HasId(n.staffGroupIds, IdValue(group.id)) ==> r == n
    ensures !clear && !HasId(n.staffGroupIds, IdValue(group.id)) ==>
      r.staffGroupIds == n.staffGroupIds + [group.id] && r.staffVisibilityCustom == Some(true)
  {
    var start := if clear then n.(staffGroups := Some(map[]), staffGroupIds := []) else n;
    if HasId(start.staffGroupIds, IdValue(group.id)) then start
    else start.(staffGroupIds := AddId(start.staffGroupIds, group.id), staffVisibilityCustom := Some(true))
  }

  /** `addCategory`: like the group adders, but the category also goes into the cache and no flag is
      involved. */
  function AddCategory(n: NewsItem, category: PhpObject, clear: bool): (r: NewsItem)
    ensures HasId(r.categoryIds, IdValue(category.id))
    ensures clear ==> r.categoryIds == [category.id] && r.categories == map[category.id := category]
    ensures !clear && HasId(n.categoryIds, IdValue(category.id)) ==> r == n
    ensures !clear && !HasId(n.categoryIds, IdValue(category.id)) ==>
      r.categoryIds == n.categoryIds + [category.id] && r.categories == n.categories[category.id := category]
  {
    var start := if clear then n.(categories := map[], categoryIds := []) else n;
    if HasId(start.categoryIds, IdValue(category.id)) then start
    else start.(categoryIds := AddId(start.categoryIds, category.id), categories := start.categories[category.id := category])
  }

  /** The adders never introduce a duplicate identifier into a list free of them. */
  lemma AddersKeepDistinct(n: NewsItem, g: PhpObject, clear: bool)
    requires DistinctIds(n.userGroupIds) && DistinctIds(n.staffGroupIds) && DistinctIds(n.categoryIds)
    ensures DistinctIds(AddUserGroup(n, g, clear).userGroupIds)
    ensures DistinctIds(AddStaffGroup(n, g, clear).staffGroupIds)
    ensures DistinctIds(AddCategory(n, g, clear).categoryIds)
  {
    if clear {
      AddIdKeepsDistinct([], g.id);
    } else {
      AddIdKeepsDistinct(n.userGroupIds, g.id);
      AddIdKeepsDistinct(n.staffGroupIds, g.id);
      AddIdKeepsDistinct(n.categoryIds, g.id);
    }
  }

  /** `isInCategory`: the category's identifier (or the `intval` of anything else) is listed. */
  function IsInCategory(n: NewsItem, category: Value): (r: bool)
    ensures category.Obj? && category.o.cls == "NewsCategory" && category.o.id.GetOr(0) != 0 ==>
      (r <==> category.o.id in n.categoryIds)
    ensures !(category.Obj? && category.o.cls == "NewsCategory") && IntVal(category) != 0 ==>
      (r <==> Some(IntVal(category)) in n.categoryIds)
  {
    HasId(n.categoryIds, MemberId(category, "NewsCategory"))
  }

  /** An added category is one the item is in. */
  lemma AddedCategoryIsIn(n: NewsItem, c: PhpObject, clear: bool)
    requires c.cls == "NewsCategory"
    ensures IsInCategory(AddCategory(n, c, clear), Obj(c))
  {
  }

  // ---------------------------------------------------------------------------------------------
  // Visibility

  /** `isExpired`, with the clock reading `now` as a parameter: a positive timestamp already reached
      (`null` and `false` never are). */
  function IsExpired(n: NewsItem, now: int): (r: bool)
    ensures !n.expiry.Int? ==> !r
    ensures n.expiry.Int? && n.expiry.i > 0 ==> (r <==> now >= n.expiry.i)
    ensures n.expiry.Int? && n.expiry.i <= 0 ==> !r
  {
    n.expiry.Int? && n.expiry.i > 0 && n.expiry.i <= now
  }

  /** An item without an expiry timestamp never expires; an expired item stays expired as the clock advances. */
  lemma ExpiryIsMonotone(n: NewsItem, now: int, later: int)
    requires now <= later
    ensures !n.expiry.Int? ==> !IsExpired(n, later)
    ensures IsExpired(n, now) ==> IsExpired(n, later)
  {
  }

  /** `isVisibleToUserGroup($group, $checkExpiration)`: never for a PRIVATE item (strict comparison);
      never for an expired one when expiration is checked (strictly `true`); always without custom
      visibility; otherwise when the group is listed. */
  function IsVisibleToUserGroup(n: NewsItem, group: Value, checkExpiration: Value, now: int): (r: bool)
    ensures n.typ == TypePrivate ==> !r
    ensures checkExpiration == Bool(true) && IsExpired(n, now) ==> !r
    ensures r <==> (
      n.typ != TypePrivate && !(checkExpiration == Bool(true) && IsExpired(n, now))
      && (!n.userVisibilityCustom || HasId(n.userGroupIds, MemberId(group, "UserGroup"))))
  {
    if n.typ == TypePrivate then false
    else if checkExpiration == Bool(true) && IsExpired(n, now) then false
    else if !n.userVisibilityCustom then true
    else HasId(n.userGroupIds, MemberId(group, "UserGroup"))
  }

  /** `isVisibleToStaffGroup`: never for a PUBLIC item, then as for user groups; only a flag that is
      exactly `false` opens the item to every staff group. */
  function IsVisibleToStaffGroup(n: NewsItem, group: Value, checkExpiration: Value, now: int): (r: bool)
    ensures n.typ == TypePublic ==> !r
    ensures checkExpiration == Bool(true) && IsExpired(n, now) ==> !r
    ensures r <==> (
      n.typ != TypePublic && !(checkExpiration == Bool(true) && IsExpired(n, now))
      && (n.staffVisibilityCustom == Some(false) || HasId(n.staffGroupIds, MemberId(group, "StaffGroup"))))
  {
    if n.typ == TypePublic then false
    else if checkExpiration == Bool(true) && IsExpired(n, now) then false
    else if n.staffVisibilityCustom == Some(false) then true
    else HasId(n.staffGroupIds, MemberId(group, "StaffGroup"))
  }

  /** Turning custom visibility off opens a live, non-private item to every user group. */
  lemma NoCustomVisibilityOpensAll(n: NewsItem, group: Value, now: int)
    requires n.typ != TypePrivate && !IsExpired(n, now)
    ensures IsVisibleToUserGroup(SetUserVisibilityCustom(n, Bool(false)), group, Bool(true), now)
  {
  }

  /** A group that was added can see a live, non-private item. */
  lemma AddedGroupSees(n: NewsItem, g: PhpObject, clear: bool, now: int)
    requires g.cls == "UserGroup" && n.typ != TypePrivate && !IsExpired(n, now)
    ensures IsVisibleToUserGroup(AddUserGroup(n, g, clear), Obj(g), Bool(true), now)
  {
  }

  /** With custom visibility on, a group whose identifier is not listed cannot see the item. */
  lemma UnlistedGroupCannotSee(n: NewsItem, g: int, check: Value, now: int)
    requires n.userVisibilityCustom && forall k | 0 <= k < |n.userGroupIds| :: n.userGroupIds[k] != Some(g)
    requires g != 0
    ensures !IsVisibleToUserGroup(n, Int(g), check, now)
  {
    forall k | 0 <= k < |n.userGroupIds|
      ensures !LooseEq(Int(g), IdValue(n.userGroupIds[k]))
    {
      SameIdMeaning(Some(g), n.userGroupIds[k]);
    }
  }

  /** A new item has no staff visibility flag, so until the flag is set it is hidden from every staff
      group, although a new item is open to every user group. */
  lemma NewItemHiddenFromStaff(group: Value, check: Value, now: int)
    ensures !IsVisibleToStaffGroup(New(), group, check, now)
    ensures IsVisibleToUserGroup(New(), group, check, now)
  {
  }

  // ---------------------------------------------------------------------------------------------
  // Requests

  /** The author keys: `staffid` and `newstype` when creating, `editedstaffid` when updating. */
  function ModeData(n: NewsItem, create: bool): (d: Data)
    ensures "staffid" in d <==> create
    ensures "newstype" in d <==> create
    ensures "editedstaffid" in d <==> !create
    ensures create ==> d["staffid"] == Via(AsNumeric, IdValue(n.staffId))
    ensures !create ==> d["editedstaffid"] == Via(AsNumeric, IdValue(n.editedStaffId))
    ensures d.Keys <= {"staffid", "newstype", "editedstaffid"}
  {
    if create then map["staffid" := Via(AsNumeric, IdValue(n.staffId)), "newstype" := Via(AsNumeric, n.typ)]
    else map["editedstaffid" := Via(AsNumeric, IdValue(n.editedStaffId))]
  }

  /** The visibility keys: each flag always, each group list only when its flag is set. */
  function VisibilityData(n: NewsItem): (d: Data)
    ensures "uservisibilitycustom" in d && "staffvisibilitycustom" in d
    ensures "usergroupidlist" in d <==> n.userVisibilityCustom
    ensures "staffgroupidlist" in d <==> n.staffVisibilityCustom == Some(true)
    ensures "usergroupidlist" in d ==> d["usergroupidlist"] == Via(Emitter.AsList, IdList(n.userGroupIds))
    ensures "staffgroupidlist" in d ==> d["staffgroupidlist"] == Via(Emitter.AsList, IdList(n.staffGroupIds))
    ensures d.Keys <= {"uservisibilitycustom", "usergroupidlist", "staffvisibilitycustom", "staffgroupidlist"}
  {
    var users: Data := map["uservisibilitycustom" := Via(AsBool, Bool(n.userVisibilityCustom))];
    var users := if n.userVisibilityCustom then users["usergroupidlist" := Via(Emitter.AsList, IdList(n.userGroupIds))] else users;
    var staff: Data := map["staffvisibilitycustom" := Via(AsBool, BoolOrNull(n.staffVisibilityCustom))];
    var staff := if n.staffVisibilityCustom == Some(true) then staff["staffgroupidlist" := Via(Emitter.AsList, IdList(n.staffGroupIds))] else staff;
    users + staff
  }

  /** The keys every request carries. */
  function CommonData(n: NewsItem): (d: Data)
    ensures Sends(d, "subject", Via(AsString, StrOrNull(n.subject)))
    ensures Sends(d, "contents", Via(AsString, StrOrNull(n.contents)))
    ensures Sends(d, "newsstatus", Via(AsNumeric, n.status))
    ensures Sends(d, "fromname", Via(AsString, StrOrNull(n.fromName)))
    ensures Sends(d, "email", Via(AsString, StrOrNull(n.email)))
    ensures Sends(d, "customemailsubject", Via(AsString, StrOrNull(n.emailSubject)))
    ensures Sends(d, "sendemail", Via(AsBool, BoolOrNull(n.sendEmail)))
    ensures Sends(d, "allowcomments", Via(AsBool, BoolOrNull(n.allowComments)))
    ensures Sends(d, "expiry", Via(AsDate, n.expiry))
    ensures Sends(d, "newscategoryidlist", Via(Emitter.AsList, IdList(n.categoryIds)))
    ensures "staffid" !in d && "newstype" !in d && "editedstaffid" !in d
    ensures "usergroupidlist" !in d && "staffgroupidlist" !in d
  {
    map["subject" := Via(AsString, StrOrNull(n.subject)),
        "contents" := Via(AsString, StrOrNull(n.contents)),
        "newsstatus" := Via(AsNumeric, n.status),
        "fromname" := Via(AsString, StrOrNull(n.fromName)),
        "email" := Via(AsString, StrOrNull(n.email)),
        "customemailsubject" := Via(AsString, StrOrNull(n.emailSubject)),
        "sendemail" := Via(AsBool, BoolOrNull(n.sendEmail)),
        "allowcomments" := Via(AsBool, BoolOrNull(n.allowComments)),
        "expiry" := Via(AsDate, n.expiry),
        "newscategoryidlist" := Via(Emitter.AsList, IdList(n.categoryIds))]
  }

  /** `buildData($create)`: the required-field check, then the common keys, the author keys of the mode
      and the visibility keys. */
  function Build(n: NewsItem, create: bool, check: Check): (r: Result<Data>)
    ensures r.Success? <==> check.Passes?
    ensures r.Success? ==> r.value == CommonData(n) + ModeData(n, create) + VisibilityData(n)
  {
    Checked(check, CommonData(n) + ModeData(n, create) + VisibilityData(n))
  }

  /** The author goes out once: `staffid` and `newstype` when creating, `editedstaffid` when updating. */
  lemma BuildAuthorKeys(n: NewsItem, create: bool)
    ensures var d := Build(n, create, Passes).value;
      ("staffid" in d <==> create) && ("newstype" in d <==> create) && ("editedstaffid" in d <==> !create)
  {
    var visibility := VisibilityData(n);
    assert "staffid" !in visibility && "newstype" !in visibility && "editedstaffid" !in visibility;
  }

  /** Each group list goes out exactly when its flag is set. */
  lemma BuildVisibilityKeys(n: NewsItem, create: bool)
    ensures var d := Build(n, create, Passes).value;
      ("usergroupidlist" in d <==> n.userVisibilityCustom) &&
      ("staffgroupidlist" in d <==> n.staffVisibilityCustom == Some(true))
  {
    var common, mode := CommonData(n), ModeData(n, create);
    assert "usergroupidlist" !in common && "usergroupidlist" !in mode;
    assert "staffgroupidlist" !in common && "staffgroupidlist" !in mode;
  }

  /** The category list always goes out, holding the item's categories. */
  lemma BuildSendsCategories(n: NewsItem, create: bool)
    ensures var d := Build(n, create, Passes).value;
      "newscategoryidlist" in d && d["newscategoryidlist"] == Via(Emitter.AsList, IdList(n.categoryIds))
  {
    var mode, visibility := ModeData(n, create), VisibilityData(n);
    assert "newscategoryidlist" !in mode && "newscategoryidlist" !in visibility;
  }

  /** What a setter stores is what the next request sends, on create and update alike: text through the
      string helper (`null` kept), flags through the boolean helper, the status as the constant it resolved to,
      the expiry through the date formatter. */
  lemma SettersAreSent(n: NewsItem, v: Value, parsed: Option<int>, create: bool)
    ensures var text := Via(AsString, StrOrNull(AssureString(v, None)));
      Sends(Build(SetSubject(n, v), create, Passes).value, "subject", text) &&
      Sends(Build(SetContents(n, v), create, Passes).value, "contents", text) &&
      Sends(Build(SetFromName(n, v), create, Passes).value, "fromname", text) &&
      Sends(Build(SetEmail(n, v), create, Passes).value, "email", text) &&
      Sends(Build(SetEmailSubject(n, v), create, Passes).value, "customemailsubject", text)
    ensures Sends(Build(SetSendEmail(n, v), create, Passes).value, "sendemail", Via(AsBool, Bool(Truthy(v))))
    ensures Sends(Build(SetAllowComments(n, v), create, Passes).value, "allowcomments", Via(AsBool, Bool(Truthy(v))))
    ensures Sends(Build(SetStatus(n, v), create, Passes).value, "newsstatus", Via(AsNumeric, SetStatus(n, v).status))
    ensures Sends(Build(SetExpiry(n, v, parsed), create, Passes).value, "expiry", Via(AsDate, AssureTimestamp(v, parsed)))
  {
    BuildSendsCommon(SetSubject(n, v), create);
    BuildSendsCommon(SetContents(n, v), create);
    BuildSendsCommon(SetFromName(n, v), create);
    BuildSendsCommon(SetEmail(n, v), create);
    BuildSendsCommon(SetEmailSubject(n, v), create);
    BuildSendsCommon(SetSendEmail(n, v), create);
    BuildSendsCommon(SetAllowComments(n, v), create);
    BuildSendsCommon(SetStatus(n, v), create);
    BuildSendsCommon(SetExpiry(n, v, parsed), create);
  }

  /** The common keys reach the request unchanged: neither the author keys nor the visibility keys
      override them. */
  lemma BuildSendsCommon(n: NewsItem, create: bool)
    ensures forall key | key in CommonData(n) :: Sends(Build(n, create, Passes).value, key, CommonData(n)[key])
  {
    var common, mode, visibility := CommonData(n), ModeData(n, create), VisibilityData(n);
    forall key | key in common
      ensures key !in mode && key !in visibility
    {
    }
  }

  /** `getAll($category)`: the `ListAll` request of a category, given as an object or an identifier. */
  function GetAllParameters(category: Value): (ps: seq<Value>)
    ensures |ps| == 2 && ps[0] == Str("ListAll")
    ensures category.Obj? && category.o.cls == "NewsCategory" ==> ps[1] == IdValue(category.o.id)
    ensures !(category.Obj? && category.o.cls == "NewsCategory") ==> ps[1] == category
  {
    [Str("ListAll"), if category.Obj? && category.o.cls == "NewsCategory" then IdValue(category.o.id) else category]
  }

  /** `getId($complete)`: the identifier, or the one-element list that addresses the item. */
  function GetId(n: NewsItem, complete: bool): (v: Value)
    ensures complete ==> v == Arr([IdValue(n.id)])
    ensures !complete ==> v == IdValue(n.id)
  {
    if complete then Arr([IdValue(n.id)]) else IdValue(n.id)
  }

  /** `getStaff`: the lazy author getter. */
  function GetStaff(n: NewsItem, reload: bool): (r: Lookup)
    ensures r.Cached? <==> n.staff.Some? && !reload
    ensures r.Cached? ==> r.o == n.staff.value
    ensures r.Fetch? <==> (n.staff.None? || reload) && n.staffId.Some?
    ensures r.Fetch? ==> r.ids == [n.staffId.value]
  {
    LazyGet(n.staff, n.staffId, reload, false)
  }

  /** The two author setters agree with the getter: an identifier is fetched, an object is handed back. */
  lemma StaffSettersAgree(n: NewsItem, id: int, staff: PhpObject)
    requires id > 0 && staff.cls == "Staff"
    ensures GetStaff(SetStaffId(n, Int(id)), false) == Fetch([id])
    ensures GetStaff(SetStaff(n, Obj(staff)), false) == Cached(staff)
  {
  }

  /** `createNew($subject, $contents, $staff)`: a new item by the staff member. */
  function CreateNew(subject: Value, contents: Value, staff: PhpObject): (n: NewsItem)
    requires staff.cls == "Staff"
    ensures n.subject == AssureString(subject, None) && n.contents == AssureString(contents, None)
    ensures n.staff == Some(staff) && n.staffId == staff.id
    ensures n.categoryIds == [] && !n.userVisibilityCustom
  {
    SetStaff(SetContents(SetSubject(New(), subject), contents), Obj(staff))
  }
}

=== FILE: news_subscriber.dfy ===
/** `NewsSubscriber`: an e-mail address subscribed to the news, validated or not. */
module NewsSubscriber {
  import opened Wrappers
  import opened Php
  import opened Helper
  import opened Wire

  datatype Subscriber = Subscriber(
    id: Option<int>, templateGroupId: Option<int>, userId: Option<int>, email: Option<string>,
    /** Whatever `setIsValidated` was given: the setter does not coerce it. */
    isValidated: Value,
    userGroupId: Option<int>)

  /** `new NewsSubscriber()`. */
  function New(): (s: Subscriber)
    ensures s.isValidated.Null? && s.email.None?
  {
    Subscriber(None, None, None, None, Null, None)
  }

  /** `parseData`: identifiers as positive integers or `null`, the flag as a boolean. */
  function Parse(s: Subscriber, data: Value): (r: Subscriber)
    ensures r.id == AssurePositiveInt(Key(data, "id"), None)
    ensures r.templateGroupId == AssurePositiveInt(Key(data, "tgroupid"), None)
    ensures r.userId == AssurePositiveInt(Key(data, "userid"), None)
    ensures r.userGroupId == AssurePositiveInt(Key(data, "usergroupid"), None)
    ensures r.email == AssureString(Key(data, "email"), None)
    ensures r.isValidated == Bool(Truthy(Key(data, "isvalidated")))
  {
    Subscriber(
      AssurePositiveInt(Key(data, "id"), None), AssurePositiveInt(Key(data, "tgroupid"), None),
      AssurePositiveInt(Key(data, "userid"), None), AssureString(Key(data, "email"), None),
      Bool(AssureBool(Key(data, "isvalidated"))), AssurePositiveInt(Key(data, "usergroupid"), None))
  }

  /** `buildData($create)`: the address always; the validation flag only when creating a subscriber that is
      already validated (the library's own comment says this field works differently from other flags). */
  function Build(s: Subscriber, create: bool, check: Check): (r: Result<Data>)
    ensures r.Success? <==> check.Passes?
    ensures r.Success? ==> "email" in r.value && r.value["email"] == Via(AsString, StrOrNull(s.email))
    ensures r.Success? ==> ("isvalidated" in r.value <==> create && Truthy(s.isValidated))
    ensures r.Success? && "isvalidated" in r.value ==> r.value["isvalidated"] == Via(AsBool, s.isValidated)
    ensures r.Success? ==> r.value.Keys <= {"email", "isvalidated"}
  {
    var d: Data := map["email" := Via(AsString, StrOrNull(s.email))];
    Checked(check, if create && Truthy(s.isValidated) then d["isvalidated" := Via(AsBool, s.isValidated)] else d)
  }

  /** An update sends the address and nothing else. */
  lemma UpdateSendsOnlyEmail(s: Subscriber)
    ensures Build(s, false, Passes).value.Keys == {"email"}
  {
  }

  /** `setEmail`. */
  function SetEmail(s: Subscriber, v: Value): (r: Subscriber)
    ensures r.email == AssureString(v, None)
    ensures r.isValidated == s.isValidated && r.id == s.id
  {
    s.(email := AssureString(v, None))
  }

  /** `setIsValidated`: stored as given. */
  function SetIsValidated(s: Subscriber, v: Value): (r: Subscriber)
    ensures r.isValidated == v && r.email == s.email
  {
    s.(isValidated := v)
  }

  /** What a setter stores is what the next request sends: the address as its string form (`null` kept);
      a truthy validation flag on create only, as it was given. */
  lemma SettersAreSent(s: Subscriber, v: Value, create: bool)
    ensures Sends(Build(SetEmail(s, v), create, Passes).value, "email", Via(AsString, StrOrNull(AssureString(v, None))))
    ensures create && Truthy(v) ==> Sends(Build(SetIsValidated(s, v), create, Passes).value, "isvalidated", Via(AsBool, v))
    ensures !(create && Truthy(v)) ==> "isvalidated" !in Build(SetIsValidated(s, v), create, Passes).value
  {
  }

  /** `createNew($email, $isValidated = false)`. */
  function CreateNew(email: Value, isValidated: Value): (s: Subscriber)
    ensures s.email == AssureString(email, None) && s.isValidated == isValidated
    ensures s.id.None?
  {
    SetIsValidated(SetEmail(New(), email), isValidated)
  }

  /** With the default `false` a new subscriber is created unvalidated: the flag is not sent at all. A
      truthy flag is sent. */
  lemma CreateNewValidation(email: Value, isValidated: Value)
    ensures "isvalidated" !in Build(CreateNew(email, Bool(false)), true, Passes).value
    ensures Truthy(isValidated) ==>
      Build(CreateNew(email, isValidated), true, Passes).value["isvalidated"] == Via(AsBool, isValidated)
  {
  }

  /** A subscriber read from the server and sent back as a new one carries the flag exactly when the server
      said it was validated. */
  lemma ParsedValidationResent(s: Subscriber, data: Value)
    ensures var d := Build(Parse(s, data), true, Passes).value;
      ("isvalidated" in d <==> Truthy(Key(data, "isvalidated"))) &&
      d["email"] == Via(AsString, StrOrNull(AssureString(Key(data, "email"), None)))
  {
  }

  /** `getId($complete)`. */
  function GetId(s: Subscriber, complete: bool): (v: Value)
    ensures complete ==> v == Arr([IdValue(s.id)])
    ensures !complete ==> v == IdValue(s.id)
  {
    if complete then Arr([IdValue(s.id)]) else IdValue(s.id)
  }
}

=== FILE: php.dfy ===
/** The slice of PHP's value semantics the client library relies on: loosely typed values,
    the `intval`/`strval`/truthiness conversions, numeric strings, loose `==`, array access and
    the string functions `stripos`, `explode`, `implode` and `trim`.

    Numeric strings are the decimal integers `[+-]?[0-9]+`; PHP's leading or trailing whitespace,
    decimal points and exponents are not modelled. */
module Php {
  import opened Wrappers

  /** An object instance, seen through what the library asks of it: its class (short name),
      what `getId()` returns, and what `getValue()` returns (meaningful for custom field options only). */
  datatype PhpObject = PhpObject(cls: string, id: Option<int>, value: string)

  /** A PHP value. Lists (`Arr`) and keyed arrays (`Dict`, in insertion order) are kept apart because the
      XML decoder produces lists for repeated elements and keyed arrays for elements with children. */
  datatype Value =
    | Null
    | Bool(b: bool)
    | Int(i: int)
    | Str(s: string)
    | Arr(items: seq<Value>)
    | Dict(entries: seq<Pair>)
    | Obj(o: PhpObject)

  datatype Pair = Pair(key: string, val: Value)

  /** A byte of a PHP (binary) string. */
  newtype byte = x: int | 0 <= x < 256

  /** The PHP value of a property that holds an integer or `null`. */
  function IdValue(id: Option<int>): (v: Value)
    ensures v.Null? <==> id.None?
  {
    match id
    case Some(n) => Int(n)
    case None => Null
  }

  /** The PHP value of a property that holds a string or `null`. */
  function StrOrNull(s: Option<string>): (v: Value)
    ensures v.Null? <==> s.None?
  {
    match s
    case Some(t) => Str(t)
    case None => Null
  }

  /** The PHP value of a property that holds a boolean or `null`. */
  function BoolOrNull(b: Option<bool>): (v: Value)
    ensures v.Null? <==> b.None?
  {
    match b
    case Some(t) => Bool(t)
    case None => Null
  }

  // ---------------------------------------------------------------------------------------------
  // Decimal digits

  predicate IsDigit(c: char) {
    '0' <= c <= '9'
  }

  predicate AllDigits(s: string) {
    forall i | 0 <= i < |s| :: IsDigit(s[i])
  }

  function DigitValue(c: char): (d: nat)
    requires IsDigit(c)
    ensures d < 10
  {
    c as int - '0' as int
  }

  function DigitChar(d: nat): (c: char)
    requires d < 10
    ensures IsDigit(c) && DigitValue(c) == d
  {
    (d + '0' as int) as char
  }

  /** The number a string of decimal digits denotes (0 for the empty string). */
  function DigitsValue(s: string): nat
    requires AllDigits(s)
  {
    if |s| == 0 then 0 else DigitsValue(s[..|s| - 1]) * 10 + DigitValue(s[|s| - 1])
  }

  /** The decimal rendering of a natural number, without leading zeros. */
  function NatToString(n: nat): (s: string)
    ensures |s| >= 1 && AllDigits(s)
    ensures DigitsValue(s) == n
    ensures |s| == 1 || s[0] != '0'
    decreases n
  {
    if n < 10 then [DigitChar(n)]
    else
      var s := NatToString(n / 10) + [DigitChar(n % 10)];
      assert s[..|s| - 1] == NatToString(n / 10);
      s
  }

  /** The decimal rendering of an integer, as `strval` produces it. */
  function IntToString(i: int): string {
    if i < 0 then "-" + NatToString(-i) else NatToString(i)
  }

  /** The digits at the head of `s`. */
  function LeadingDigits(s: string): (d: string)
    ensures AllDigits(d) && |d| <= |s| && d == s[..|d|]
    ensures |d| < |s| ==> !IsDigit(s[|d|])
  {
    if |s| > 0 && IsDigit(s[0]) then [s[0]] + LeadingDigits(s[1..]) else ""
  }

  /** `s` without one leading sign character. */
  function Unsigned(s: string): string {
    if |s| > 0 && (s[0] == '-' || s[0] == '+') then s[1..] else s
  }

  /** `is_numeric` on a string: an optionally signed, non-empty run of decimal digits. */
  predicate IsNumericString(s: string) {
    |Unsigned(s)| > 0 && AllDigits(Unsigned(s))
  }

  /** `intval` on a string: the optionally signed decimal number at its head, 0 when there is none. */
  function IntValOfString(s: string): int {
    var magnitude: int := DigitsValue(LeadingDigits(Unsigned(s)));
    if |s| > 0 && s[0] == '-' then -magnitude else magnitude
  }

  lemma LeadingDigitsOfDigits(s: string)
    requires AllDigits(s)
    ensures LeadingDigits(s) == s
  {
    if |s| > 0 {
      LeadingDigitsOfDigits(s[1..]);
    }
  }

  /** Rendering an integer and reading it back as a numeric string is the identity. */
  lemma IntToStringRoundTrip(i: int)
    ensures IsNumericString(IntToString(i))
    ensures IntValOfString(IntToString(i)) == i
  {
    var s := IntToString(i);
    if i < 0 {
      assert Unsigned(s) == NatToString(-i);
    } else {
      assert Unsigned(s) == NatToString(i);
    }
    LeadingDigitsOfDigits(Unsigned(s));
  }

  /** Different natural numbers render differently. */
  lemma NatToStringInjective(a: nat, b: nat)
    requires NatToString(a) == NatToString(b)
    ensures a == b
  {
  }

  // ---------------------------------------------------------------------------------------------
  // Conversions

  /** `is_numeric`. */
  predicate IsNumeric(v: Value) {
    v.Int? || (v.Str? && IsNumericString(v.s))
  }

  /** `is_array`. */
  predicate IsArray(v: Value) {
    v.Arr? || v.Dict?
  }

  /** Truthiness, as used by `if ($v)`, `$v ? … : …` and `(bool)$v`. */
  predicate Truthy(v: Value) {
    match v
    case Null => false
    case Bool(b) => b
    case Int(i) => i != 0
    case Str(s) => s != "" && s != "0"
    case Arr(items) => |items| > 0
    case Dict(entries) => |entries| > 0
    case Obj(_) => true
  }

  /** `intval`. */
  function IntVal(v: Value): int {
    match v
    case Null => 0
    case Bool(b) => if b then 1 else 0
    case Int(i) => i
    case Str(s) => IntValOfString(s)
    case Arr(items) => if |items| > 0 then 1 else 0
    case Dict(entries) => if |entries| > 0 then 1 else 0
    case Obj(_) => 1
  }

  /** `strval`. Arrays render as "Array"; an object renders as its class name, standing for its `__toString` text. */
  function StrVal(v: Value): string {
    match v
    case Null => ""
    case Bool(b) => if b then "1" else ""
    case Int(i) => IntToString(i)
    case Str(s) => s
    case Arr(_) => "Array"
    case Dict(_) => "Array"
    case Obj(o) => o.cls
  }

  /** `$a == $b` with the comparison rules of PHP 8 for scalars; two arrays or two objects compare structurally. */
  predicate LooseEq(a: Value, b: Value) {
    if a.Bool? || b.Bool? then Truthy(a) == Truthy(b)
    else if a.Null? && b.Null? then true
    else if a.Null? && b.Str? then b.s == ""
    else if a.Str? && b.Null? then a.s == ""
    else if a.Null? then !Truthy(b)
    else if b.Null? then !Truthy(a)
    else if a.Int? && b.Int? then a.i == b.i
    else if a.Int? && b.Str? then IntStrEq(a.i, b.s)
    else if a.Str? && b.Int? then IntStrEq(b.i, a.s)
    else if a.Str? && b.Str? then
      if IsNumericString(a.s) && IsNumericString(b.s) then IntValOfString(a.s) == IntValOfString(b.s)
      else a.s == b.s
    else a == b
  }

  /** An integer against a string: numerically when the string is numeric, otherwise as strings. */
  predicate IntStrEq(i: int, s: string) {
    if IsNumericString(s) then i == IntValOfString(s) else IntToString(i) == s
  }

  /** Loose equality relates every value to itself. */
  lemma LooseEqReflexive(a: Value)
    ensures LooseEq(a, a)
  {
  }

  /** Loose equality does not depend on the order of its operands. */
  lemma LooseEqSymmetric(a: Value, b: Value)
    ensures LooseEq(a, b) == LooseEq(b, a)
  {
  }

  /** `in_array($x, $xs)` with loose comparison. */
  predicate InArray(x: Value, xs: seq<Value>) {
    exists i | 0 <= i < |xs| :: LooseEq(x, xs[i])
  }

  // ---------------------------------------------------------------------------------------------
  // Array access

  function LookupPair(entries: seq<Pair>, k: string): Option<Value> {
    if |entries| == 0 then None
    else if entries[0].key == k then Some(entries[0].val)
    else LookupPair(entries[1..], k)
  }

  /** `array_key_exists($k, $v)`. */
  predicate HasKey(v: Value, k: string) {
    v.Dict? && LookupPair(v.entries, k).Some?
  }

  /** `$v[$k]`, which reads as `null` when the key is missing. */
  function Key(v: Value, k: string): Value {
    if v.Dict? then LookupPair(v.entries, k).GetOr(Null) else Null
  }

  /** `$v[$i]` for an integer index, `null` when it is missing. */
  function Index(v: Value, i: nat): Value {
    match v
    case Arr(items) => if i < |items| then items[i] else Null
    case Dict(entries) => LookupPair(entries, NatToString(i)).GetOr(Null)
    case _ => Null
  }

  /** The values `foreach` visits; a non-array is not iterated. */
  function Elements(v: Value): seq<Value> {
    match v
    case Arr(items) => items
    case Dict(entries) => seq(|entries|, i requires 0 <= i < |entries| => entries[i].val)
    case _ => []
  }

  /** A key PHP stores as a non-negative integer: decimal digits without a leading zero. */
  predicate IsIndexKey(k: string) {
    |k| > 0 && AllDigits(k) && (|k| == 1 || k[0] != '0')
  }

  /** The index `$a[] = $x` gives the new element of a keyed array: one past its largest integer key, 0
      when it has none. */
  function NextIndex(entries: seq<Pair>): (n: nat)
    ensures forall i | 0 <= i < |entries| && IsIndexKey(entries[i].key) :: DigitsValue(entries[i].key) < n
    ensures n > 0 ==> exists i | 0 <= i < |entries| && IsIndexKey(entries[i].key) :: DigitsValue(entries[i].key) == n - 1
  {
    if |entries| == 0 then 0
    else
      var rest := NextIndex(entries[1..]);
      assert forall i | 1 <= i < |entries| :: entries[i] == entries[1..][i - 1];
      var k := entries[0].key;
      if IsIndexKey(k) && DigitsValue(k) >= rest then DigitsValue(k) + 1 else rest
  }

  /** `$a[] = $x` on an array: a list grows by one element; a keyed array keeps its entries and gains
      one under a fresh integer key, one past its largest. */
  function Append(v: Value, x: Value): (r: Value)
    requires IsArray(v)
    ensures Elements(r) == Elements(v) + [x]
    ensures r.Arr? <==> v.Arr?
    ensures r.Dict? ==> |r.entries| == |v.entries| + 1 && r.entries[..|v.entries|] == v.entries
    ensures r.Dict? ==> IsIndexKey(r.entries[|v.entries|].key)
    ensures r.Dict? ==> forall i | 0 <= i < |v.entries| ::
      v.entries[i].key != r.entries[|v.entries|].key &&
      (IsIndexKey(v.entries[i].key) ==> DigitsValue(v.entries[i].key) < DigitsValue(r.entries[|v.entries|].key))
  {
    match v
    case Arr(items) => Arr(items + [x])
    case Dict(entries) =>
      var r := Dict(entries + [Pair(NatToString(NextIndex(entries)), x)]);
      assert Elements(r) == Elements(v) + [x];
      r
  }

  /** The list a value denotes when the library normalises "one value or a list": a list stays as it is,
      `null` is the empty list and anything else a one-element list. */
  function ListOf(v: Value): (xs: seq<Value>)
    ensures IsArray(v) ==> xs == Elements(v)
    ensures v.Null? ==> xs == []
    ensures !IsArray(v) && !v.Null? ==> xs == [v]
  {
    if IsArray(v) then Elements(v) else if v.Null? then [] else [v]
  }

  // ---------------------------------------------------------------------------------------------
  // Strings

  function LowerChar(c: char): char {
    if 'A' <= c <= 'Z' then (c as int + 32) as char else c
  }

  function Lower(s: string): (r: string)
    ensures |r| == |s|
    ensures forall i | 0 <= i < |s| :: r[i] == LowerChar(s[i])
  {
    seq(|s|, i requires 0 <= i < |s| => LowerChar(s[i]))
  }

  predicate OccursAt(hay: string, needle: string, i: nat) {
    i + |needle| <= |hay| && hay[i..i + |needle|] == needle
  }

  /** `strpos($hay, $needle, $from)`: the first occurrence at or after `from`. */
  function Find(hay: string, needle: string, from: nat): (r: Option<nat>)
    ensures r.Some? ==> from <= r.value && OccursAt(hay, needle, r.value)
    ensures r.Some? ==> forall j | from <= j < r.value :: !OccursAt(hay, needle, j)
    ensures r.None? ==> forall j | from <= j :: !OccursAt(hay, needle, j)
    decreases |hay| - from
  {
    if from + |needle| > |hay| then None
    else if OccursAt(hay, needle, from) then Some(from)
    else Find(hay, needle, from + 1)
  }

  /** `stripos($hay, $needle, $from)`: `strpos` after ASCII lower-casing both strings. */
  function FindCaseless(hay: string, needle: string, from: nat): Option<nat> {
    Find(Lower(hay), Lower(needle), from)
  }

  /** `stripos($s, $prefix) === 0`. */
  predicate StartsWithCaseless(s: string, prefix: string) {
    FindCaseless(s, prefix, 0) == Some(0)
  }

  /** Starting with a prefix, ignoring ASCII case, is comparing the lower-cased head of the string. */
  lemma StartsWithCaselessMeaning(s: string, prefix: string)
    ensures StartsWithCaseless(s, prefix) <==> |prefix| <= |s| && Lower(s)[..|prefix|] == Lower(prefix)
  {
  }

  /** The head of `s` equals `prefix` character by character, ignoring ASCII case: `StartsWithCaseless`
      computed without a search. */
  predicate HeadMatchesCaseless(s: string, prefix: string) {
    |prefix| == 0 || (|s| > 0 && LowerChar(s[0]) == LowerChar(prefix[0]) && HeadMatchesCaseless(s[1..], prefix[1..]))
  }

  lemma {:induction false} HeadMatchesCaselessMeaning(s: string, prefix: string)
    ensures HeadMatchesCaseless(s, prefix) <==> StartsWithCaseless(s, prefix)
  {
    StartsWithCaselessMeaning(s, prefix);
    if |prefix| > 0 && |s| > 0 {
      HeadMatchesCaselessMeaning(s[1..], prefix[1..]);
      StartsWithCaselessMeaning(s[1..], prefix[1..]);
      if |prefix| <= |s| {
        LowerHead(s, |prefix|);
        LowerHead(prefix, |prefix|);
      }
    }
  }

  /** A string that starts with `prefix` exactly starts with it ignoring case too. */
  lemma {:induction false} HeadMatchesExactly(s: string, prefix: string)
    requires |prefix| <= |s| && s[..|prefix|] == prefix
    ensures HeadMatchesCaseless(s, prefix)
  {
    if |prefix| > 0 {
      assert s[1..][..|prefix| - 1] == prefix[1..];
      HeadMatchesExactly(s[1..], prefix[1..]);
    }
  }

  /** The first `n` lower-cased characters are the first one followed by the next `n - 1`. */
  lemma LowerHead(s: string, n: nat)
    requires 0 < n <= |s|
    ensures Lower(s)[..n] == [LowerChar(s[0])] + Lower(s[1..])[..n - 1]
  {
  }

  /** `explode($sep, $s)`: the pieces between occurrences of a non-empty separator. */
  function Explode(sep: string, s: string): (parts: seq<string>)
    requires |sep| > 0
    ensures |parts| >= 1
    decreases |s|
  {
    match Find(s, sep, 0)
    case None => [s]
    case Some(i) => [s[..i]] + Explode(sep, s[i + |sep|..])
  }

  /** `implode($sep, $parts)`. */
  function Implode(sep: string, parts: seq<string>): string
    decreases |parts|
  {
    if |parts| == 0 then "" else if |parts| == 1 then parts[0] else parts[0] + sep + Implode(sep, parts[1..])
  }

  /** Joining the pieces of `explode` with the same separator gives back the string. */
  lemma {:induction false} ImplodeExplode(sep: string, s: string)
    requires |sep| > 0
    ensures Implode(sep, Explode(sep, s)) == s
    decreases |s|
  {
    match Find(s, sep, 0)
    case None =>
    case Some(i) =>
      var rest := s[i + |sep|..];
      var tail := Explode(sep, rest);
      assert Explode(sep, s) == [s[..i]] + tail;
      ImplodeExplode(sep, rest);
      assert Implode(sep, [s[..i]] + tail) == s[..i] + sep + Implode(sep, tail) by {
        assert ([s[..i]] + tail)[1..] == tail;
      }
      assert s == s[..i] + sep + rest by {
        assert s[i..i + |sep|] == sep;
      }
  }

  /** For a one-character separator, `explode` splits a joined list of pieces free of it back into the pieces. */
  lemma {:induction false} ExplodeImplode(c: char, parts: seq<string>)
    requires |parts| >= 1
    requires forall k, j | 0 <= k < |parts| && 0 <= j < |parts[k]| :: parts[k][j] != c
    ensures Explode([c], Implode([c], parts)) == parts
    decreases |parts|
  {
    var s := Implode([c], parts);
    if |parts| == 1 {
      NoOccurrence(c, s, 0);
    } else {
      var rest := Implode([c], parts[1..]);
      assert s == parts[0] + [c] + rest;
      var i := |parts[0]|;
      assert OccursAt(s, [c], i);
      forall j | 0 <= j < i
        ensures !OccursAt(s, [c], j)
      {
        assert s[j] == parts[0][j];
      }
      FindFirst(s, [c], 0, i);
      assert s[..i] == parts[0];
      assert s[i + 1..] == rest;
      ExplodeImplode(c, parts[1..]);
    }
  }

  /** `sep` cannot be found in `p` followed by `sep` before the end of `p`: neither inside `p` nor
      straddling into the separator. */
  predicate Separated(p: string, sep: string) {
    forall j | 0 <= j < |p| :: !OccursAt(p + sep, sep, j)
  }

  /** `explode` splits a joined list back into its pieces when no piece lets the separator be found early. */
  lemma {:induction false} ExplodeImplodeSeparated(sep: string, parts: seq<string>)
    requires |sep| > 0 && |parts| >= 1
    requires forall k | 0 <= k < |parts| :: Separated(parts[k], sep)
    ensures Explode(sep, Implode(sep, parts)) == parts
    decreases |parts|
  {
    var s := Implode(sep, parts);
    var p := parts[0];
    assert Separated(p, sep);
    if |parts| == 1 {
      forall j | 0 <= j
        ensures !OccursAt(s, sep, j)
      {
        if j + |sep| <= |s| {
          assert !OccursAt(p + sep, sep, j);
          assert (p + sep)[j..j + |sep|] == p[j..j + |sep|];
        }
      }
    } else {
      var rest := Implode(sep, parts[1..]);
      assert s == p + sep + rest;
      var i := |p|;
      assert s[i..i + |sep|] == sep;
      forall j | 0 <= j < i
        ensures !OccursAt(s, sep, j)
      {
        assert !OccursAt(p + sep, sep, j);
        assert s[j..j + |sep|] == (p + sep)[j..j + |sep|];
      }
      FindFirst(s, sep, 0, i);
      assert s[..i] == p;
      assert s[i + |sep|..] == rest;
      ExplodeImplodeSeparated(sep, parts[1..]);
    }
  }

  /** A piece free of `", "` is separated by `", "`: the separator cannot straddle, since its second
      character is not its first. */
  lemma CommaSpaceSeparated(p: string)
    requires Find(p, ", ", 0).None?
    ensures Separated(p, ", ")
  {
    forall j | 0 <= j < |p|
      ensures !OccursAt(p + ", ", ", ", j)
    {
      if j + 1 < |p| {
        assert (p + ", ")[j..j + 2] == p[j..j + 2];
        assert !OccursAt(p, ", ", j);
      } else {
        assert (p + ", ")[j..j + 2][1] == ',' != ", "[1];
      }
    }
  }

  lemma NoOccurrence(c: char, s: string, from: nat)
    requires forall j | 0 <= j < |s| :: s[j] != c
    ensures Find(s, [c], from).None?
  {
    forall j | from <= j
      ensures !OccursAt(s, [c], j)
    {
      if j + 1 <= |s| {
        assert s[j..j + 1] == [s[j]];
      }
    }
  }

  /** When `i` is the first occurrence at or after `from`, `Find` reports `i`. */
  lemma FindFirst(hay: string, needle: string, from: nat, i: nat)
    requires from <= i && OccursAt(hay, needle, i)
    requires forall j | from <= j < i :: !OccursAt(hay, needle, j)
    ensures Find(hay, needle, from) == Some(i)
    decreases i - from
  {
    if from < i {
      FindFirst(hay, needle, from + 1, i);
    }
  }

  /** The characters `trim` removes by default. */
  predicate IsTrimmed(c: char) {
    c == ' ' || c == '\t' || c == '\n' || c == '\r' || c == '\0' || c == '\U{000B}'
  }

  function TrimLeft(s: string): (r: string)
    ensures |r| <= |s| && r == s[|s| - |r|..]
    ensures |r| > 0 ==> !IsTrimmed(r[0])
  {
    if |s| > 0 && IsTrimmed(s[0]) then TrimLeft(s[1..]) else s
  }

  function TrimRight(s: string): (r: string)
    ensures |r| <= |s| && r == s[..|r|]
    ensures |r| > 0 ==> !IsTrimmed(r[|r| - 1])
  {
    if |s| > 0 && IsTrimmed(s[|s| - 1]) then TrimRight(s[..|s| - 1]) else s
  }

  /** `trim($s)`. */
  function Trim(s: string): (r: string)
    ensures |r| <= |s|
    ensures |r| > 0 ==> !IsTrimmed(r[0]) && !IsTrimmed(r[|r| - 1])
  {
    var t := TrimLeft(TrimRight(s));
    assert |t| > 0 ==> t[|t| - 1] == TrimRight(s)[|TrimRight(s)| - 1];
    t
  }

  /** `substr($s, $start, $length)` for `0 <= $start`, including PHP's reading of a negative length
      as the number of characters to drop from the end. */
  function Substr(s: string, start: nat, length: int): (r: string)
    ensures |r| <= |s|
  {
    if start >= |s| then ""
    else if length >= 0 then s[start..if start + length <= |s| then start + length else |s|]
    else if |s| + length <= start then ""
    else s[start..|s| + length]
  }
}

=== FILE: staff.dfy ===
/** `Staff`: a staff user of the help desk, member of a staff group, with an optional signature and a
    password that is only ever sent, never read. */
module Staff {
  import opened Wrappers
  import opened Php
  import opened Helper
  import opened Wire
  import NewsItem

  datatype Staff = Staff(
    id: Option<int>, staffGroupId: Option<int>, staffGroup: Option<PhpObject>,
    firstName: Value, lastName: Value, fullName: Value, userName: Value, email: Value,
    designation: Value, greeting: Value,
    /** Never read from the server; the setter keeps a string or `null`. */
    signature: Option<string>,
    mobileNumber: Value, isEnabled: bool, timezone: Value, enableDst: bool,
    password: Option<string>)

  /** `new Staff()`: enabled, in time zone `'GMT'`, without daylight saving time. */
  function New(): (s: Staff)
    ensures s.isEnabled && s.timezone == Str("GMT") && !s.enableDst
    ensures s.signature.None? && s.password.None?
  {
    Staff(None, None, None, Null, Null, Null, Null, Null, Null, Null, None, Null, true, Str("GMT"), false, None)
  }

  /** The staff member as an object other records link to. */
  function AsObject(s: Staff): (o: PhpObject)
    ensures o.cls == "Staff" && o.id == s.id
  {
    PhpObject("Staff", s.id, "")
  }

  /** `parseData`: the text fields as they come, the group as a positive identifier, the flags as booleans.
      The signature and the password are left alone. */
  function Parse(s: Staff, data: Value): (r: Staff)
    ensures r.id == Some(IntVal(Key(data, "id")))
    ensures r.staffGroupId == AssurePositiveInt(Key(data, "staffgroupid"), None)
    ensures r.isEnabled == Truthy(Key(data, "isenabled")) && r.enableDst == Truthy(Key(data, "enabledst"))
    ensures r.timezone == Key(data, "timezone")
    ensures r.signature == s.signature && r.password == s.password && r.staffGroup == s.staffGroup
  {
    s.(id := Some(IntVal(Key(data, "id"))),
       staffGroupId := AssurePositiveInt(Key(data, "staffgroupid"), None),
       firstName := Key(data, "firstname"),
       lastName := Key(data, "lastname"),
       fullName := Key(data, "fullname"),
       userName := Key(data, "username"),
       email := Key(data, "email"),
       designation := Key(data, "designation"),
       greeting := Key(data, "greeting"),
       mobileNumber := Key(data, "mobilenumber"),
       isEnabled := AssureBool(Key(data, "isenabled")),
       timezone := Key(data, "timezone"),
       enableDst := AssureBool(Key(data, "enabledst")))
  }

  /** `strlen($s) > 0` for a property holding a string or `null`. */
  predicate NonEmpty(s: Option<string>) {
    s.Some? && |s.value| > 0
  }

  /** The fields sent whatever the signature and password. */
  function ProfileData(s: Staff): (d: Data)
    ensures Sends(d, "staffgroupid", Raw(IdValue(s.staffGroupId)))
    ensures Sends(d, "firstname", Raw(s.firstName)) && Sends(d, "lastname", Raw(s.lastName))
    ensures Sends(d, "username", Raw(s.userName)) && Sends(d, "email", Raw(s.email))
    ensures Sends(d, "designation", Raw(s.designation)) && Sends(d, "greeting", Raw(s.greeting))
    ensures Sends(d, "mobilenumber", Raw(s.mobileNumber)) && Sends(d, "timezone", Raw(s.timezone))
    ensures Sends(d, "isenabled", Raw(Flag(s.isEnabled))) && Sends(d, "enabledst", Raw(Flag(s.enableDst)))
    ensures "staffsignature" !in d && "password" !in d
  {
    map["staffgroupid" := Raw(IdValue(s.staffGroupId)),
        "firstname" := Raw(s.firstName),
        "lastname" := Raw(s.lastName),
        "username" := Raw(s.userName),
        "email" := Raw(s.email),
        "designation" := Raw(s.designation),
        "greeting" := Raw(s.greeting),
        "mobilenumber" := Raw(s.mobileNumber),
        "isenabled" := Raw(Flag(s.isEnabled)),
        "timezone" := Raw(s.timezone),
        "enabledst" := Raw(Flag(s.enableDst))]
  }

  /** `buildData($create)`: the signature and the password only when non-empty, on create and on update
      alike. */
  function Build(s: Staff, create: bool, check: Check): (r: Result<Data>)
    ensures r.Success? <==> check.Passes?
    ensures r.Success? ==> ("staffsignature" in r.value <==> NonEmpty(s.signature))
    ensures r.Success? && NonEmpty(s.signature) ==> r.value["staffsignature"] == Raw(Str(s.signature.value))
    ensures r.Success? ==> ("password" in r.value <==> NonEmpty(s.password))
    ensures r.Success? && NonEmpty(s.password) ==> r.value["password"] == Raw(Str(s.password.value))
    ensures r.Success? ==> "isenabled" in r.value && r.value["isenabled"] == Raw(Flag(s.isEnabled))
    ensures r.Success? ==> "enabledst" in r.value && r.value["enabledst"] == Raw(Flag(s.enableDst))
  {
    var d := ProfileData(s);
    var d := if NonEmpty(s.signature) then d["staffsignature" := Raw(Str(s.signature.value))] else d;
    var d := if NonEmpty(s.password) then d["password" := Raw(Str(s.password.value))] else d;
    Checked(check, d)
  }

  /** The request does not depend on whether it creates or updates. */
  lemma BuildIgnoresMode(s: Staff, check: Check)
    ensures Build(s, true, check) == Build(s, false, check)
  {
  }

  /** A new staff member is sent as enabled, in `'GMT'`, without DST, and with neither a signature nor a
      password until they are set. */
  lemma NewStaffRequest(create: bool)
    ensures var d := Build(New(), create, Passes).value;
      d["isenabled"] == Raw(Int(1)) && d["enabledst"] == Raw(Int(0)) && d["timezone"] == Raw(Str("GMT")) &&
      "staffsignature" !in d && "password" !in d
  {
  }

  /** An empty password is never sent, and a non-empty one is sent as set. */
  lemma PasswordSentWhenSet(s: Staff, p: string, create: bool)
    ensures "password" !in Build(SetPassword(s, Str("")), create, Passes).value
    ensures |p| > 0 ==> Build(SetPassword(s, Str(p)), create, Passes).value["password"] == Raw(Str(p))
  {
  }

  // ---------------------------------------------------------------------------------------------
  // Setters and getters

  /** `setStaffGroupId`: positive or `null`; the cached group is dropped. */
  function SetStaffGroupId(s: Staff, v: Value): (r: Staff)
    ensures r.staffGroupId == AssurePositiveInt(v, None) && r.staffGroup.None?
  {
    s.(staffGroupId := AssurePositiveInt(v, None), staffGroup := None)
  }

  /** `getStaffGroup($reload)`: `null` without asking the server for a missing or non-positive identifier. */
  function GetStaffGroup(s: Staff, reload: bool): (r: Lookup)
    ensures r.Cached? <==> s.staffGroup.Some? && !reload
    ensures (s.staffGroup.None? || reload) && (s.staffGroupId.None? || s.staffGroupId.value <= 0) ==> r == NoObject
    ensures r.Fetch? ==> s.staffGroupId.Some? && s.staffGroupId.value > 0 && r.ids == [s.staffGroupId.value]
  {
    LazyGet(s.staffGroup, s.staffGroupId, reload, true)
  }

  /** After `setStaffGroupId` the group is fetched by its new identifier, or not at all for one that is not
      positive. */
  lemma SetStaffGroupIdRefetches(s: Staff, v: Value)
    ensures IntVal(v) > 0 ==> GetStaffGroup(SetStaffGroupId(s, v), false) == Fetch([IntVal(v)])
    ensures IntVal(v) <= 0 ==> GetStaffGroup(SetStaffGroupId(s, v), false) == NoObject
  {
  }

  /** `setStaffGroup`: the group, and its identifier with it. */
  function SetStaffGroup(s: Staff, v: Value): (r: Staff)
    ensures r.staffGroup == AssureObject(v, "StaffGroup")
    ensures r.staffGroupId == (if r.staffGroup.Some? then r.staffGroup.value.id else None)
  {
    var group := AssureObject(v, "StaffGroup");
    s.(staffGroup := group, staffGroupId := if group.Some? then group.value.id else None)
  }

  function SetFirstName(s: Staff, v: Value): (r: Staff)
    ensures r.firstName == StrOrNull(AssureString(v, None))
  {
    s.(firstName := StrOrNull(AssureString(v, None)))
  }

  function SetLastName(s: Staff, v: Value): (r: Staff)
    ensures r.lastName == StrOrNull(AssureString(v, None))
  {
    s.(lastName := StrOrNull(AssureString(v, None)))
  }

  function SetUserName(s: Staff, v: Value): (r: Staff)
    ensures r.userName == StrOrNull(AssureString(v, None))
  {
    s.(userName := StrOrNull(AssureString(v, None)))
  }

  function SetEmail(s: Staff, v: Value): (r: Staff)
    ensures r.email == StrOrNull(AssureString(v, None))
  {
    s.(email := StrOrNull(AssureString(v, None)))
  }

  function SetDesignation(s: Staff, v: Value): (r: Staff)
    ensures r.designation == StrOrNull(AssureString(v, None))
  {
    s.(designation := StrOrNull(AssureString(v, None)))
  }

  function SetGreeting(s: Staff, v: Value): (r: Staff)
    ensures r.greeting == StrOrNull(AssureString(v, None))
  {
    s.(greeting := StrOrNull(AssureString(v, None)))
  }

  function SetSignature(s: Staff, v: Value): (r: Staff)
    ensures r.signature == AssureString(v, None)
  {
    s.(signature := AssureString(v, None))
  }

  function SetMobileNumber(s: Staff, v: Value): (r: Staff)
    ensures r.mobileNumber == StrOrNull(AssureString(v, None))
  {
    s.(mobileNumber := StrOrNull(AssureString(v, None)))
  }

  function SetIsEnabled(s: Staff, v: Value): (r: Staff)
    ensures r.isEnabled == Truthy(v)
  {
    s.(isEnabled := AssureBool(v))
  }

  function SetTimezone(s: Staff, v: Value): (r: Staff)
    ensures r.timezone == StrOrNull(AssureString(v, None))
  {
    s.(timezone := StrOrNull(AssureString(v, None)))
  }

  function SetEnableDst(s: Staff, v: Value): (r: Staff)
    ensures r.enableDst == Truthy(v)
  {
    s.(enableDst := AssureBool(v))
  }

  function SetPassword(s: Staff, v: Value): (r: Staff)
    ensures r.password == AssureString(v, None)
  {
    s.(password := AssureString(v, None))
  }

  /** Every profile field goes out under its own key as the value the staff member holds. */
  lemma BuildSendsProfile(s: Staff, create: bool)
    ensures var d := Build(s, create, Passes).value;
      Sends(d, "firstname", Raw(s.firstName)) && Sends(d, "lastname", Raw(s.lastName)) &&
      Sends(d, "username", Raw(s.userName)) && Sends(d, "email", Raw(s.email)) &&
      Sends(d, "designation", Raw(s.designation)) && Sends(d, "greeting", Raw(s.greeting)) &&
      Sends(d, "mobilenumber", Raw(s.mobileNumber)) && Sends(d, "timezone", Raw(s.timezone)) &&
      Sends(d, "staffgroupid", Raw(IdValue(s.staffGroupId)))
  {
  }

  /** What a setter stores is what the next request sends under the property's key, on create and update
      alike: text as its string form (`null` kept), flags as 1 or 0, the group as a positive identifier. */
  lemma SettersAreSent(s: Staff, v: Value, create: bool)
    ensures var text := Raw(StrOrNull(AssureString(v, None)));
      Sends(Build(SetFirstName(s, v), create, Passes).value, "firstname", text) &&
      Sends(Build(SetLastName(s, v), create, Passes).value, "lastname", text) &&
      Sends(Build(SetUserName(s, v), create, Passes).value, "username", text) &&
      Sends(Build(SetEmail(s, v), create, Passes).value, "email", text) &&
      Sends(Build(SetDesignation(s, v), create, Passes).value, "designation", text) &&
      Sends(Build(SetGreeting(s, v), create, Passes).value, "greeting", text) &&
      Sends(Build(SetMobileNumber(s, v), create, Passes).value, "mobilenumber", text) &&
      Sends(Build(SetTimezone(s, v), create, Passes).value, "timezone", text)
    ensures Sends(Build(SetIsEnabled(s, v), create, Passes).value, "isenabled", Raw(Int(if Truthy(v) then 1 else 0)))
    ensures Sends(Build(SetEnableDst(s, v), create, Passes).value, "enabledst", Raw(Int(if Truthy(v) then 1 else 0)))
    ensures Sends(Build(SetStaffGroupId(s, v), create, Passes).value, "staffgroupid", Raw(IdValue(AssurePositiveInt(v, None))))
  {
    BuildSendsProfile(SetFirstName(s, v), create);
    BuildSendsProfile(SetLastName(s, v), create);
    BuildSendsProfile(SetUserName(s, v), create);
    BuildSendsProfile(SetEmail(s, v), create);
    BuildSendsProfile(SetDesignation(s, v), create);
    BuildSendsProfile(SetGreeting(s, v), create);
    BuildSendsProfile(SetMobileNumber(s, v), create);
    BuildSendsProfile(SetTimezone(s, v), create);
    BuildSendsProfile(SetStaffGroupId(s, v), create);
  }

  /** `createNew($firstName, $lastName, $userName, $email, StaffGroup $group, $password)`. */
  function CreateNew(firstName: Value, lastName: Value, userName: Value, email: Value, group: PhpObject,
                     password: Value): (s: Staff)
    requires group.cls == "StaffGroup"
    ensures s.firstName == StrOrNull(AssureString(firstName, None))
    ensures s.userName == StrOrNull(AssureString(userName, None))
    ensures s.staffGroup == Some(group) && s.staffGroupId == group.id
    ensures s.password == AssureString(password, None)
    ensures s.isEnabled && s.timezone == Str("GMT")
  {
    var s := SetEmail(SetUserName(SetLastName(SetFirstName(New(), firstName), lastName), userName), email);
    SetPassword(SetStaffGroup(s, Obj(group)), password)
  }

  /** `newNewsItem($subject, $contents)`: a news item written by this staff member. */
  function NewNewsItem(s: Staff, subject: Value, contents: Value): (n: NewsItem.NewsItem)
    ensures n.staff == Some(AsObject(s)) && n.staffId == s.id
    ensures n.subject == AssureString(subject, None)
  {
    NewsItem.CreateNew(subject, contents, AsObject(s))
  }

  /** `getId($complete)`. */
  function GetId(s: Staff, complete: bool): (v: Value)
    ensures complete ==> v == Arr([IdValue(s.id)])
    ensures !complete ==> v == IdValue(s.id)
  {
    if complete then Arr([IdValue(s.id)]) else IdValue(s.id)
  }
}

=== FILE: ticket_attachment.dfy ===
/** `TicketAttachment`: a file attached to a ticket post. It is addressed by the ticket identifier and
    its own, travels base64-encoded, and cannot be updated once created. */
module TicketAttachment {
  import opened Wrappers
  import opened Php
  import opened Helper
  import opened Wire
  import TicketPost

  datatype Attachment = Attachment(
    id: Option<int>, ticketId: Option<int>, ticketPostId: Option<int>,
    fileName: Value, fileSize: Option<int>, fileType: Value, dateline: Option<int>,
    /** The raw (decoded) contents, `null` until set or fetched. */
    contents: Option<seq<byte>>,
    /** The cached related objects of the lazy getters. */
    ticket: Option<PhpObject>, ticketPost: Option<PhpObject>)

  /** `new TicketAttachment()`. */
  function New(): (a: Attachment)
    ensures a.id.None? && a.contents.None? && a.ticket.None? && a.ticketPost.None?
  {
    Attachment(None, None, None, Null, None, Null, None, None, None, None)
  }

  /** `parseData`: the contents are base64-decoded when present and non-empty, and left untouched
      otherwise. */
  function Parse(a: Attachment, data: Value): (r: Attachment)
    ensures r.id == Some(IntVal(Key(data, "id")))
    ensures r.ticketId == AssurePositiveInt(Key(data, "ticketid"), None)
    ensures r.ticketPostId == AssurePositiveInt(Key(data, "ticketpostid"), None)
    ensures r.fileSize == Some(IntVal(Key(data, "filesize")))
    ensures !HasContents(data) ==> r.contents == a.contents
    ensures HasContents(data) ==> r.contents.Some?
  {
    a.(id := Some(IntVal(Key(data, "id"))),
       ticketId := AssurePositiveInt(Key(data, "ticketid"), None),
       ticketPostId := AssurePositiveInt(Key(data, "ticketpostid"), None),
       fileName := Key(data, "filename"),
       fileSize := Some(IntVal(Key(data, "filesize"))),
       fileType := Key(data, "filetype"),
       dateline := AssurePositiveInt(Key(data, "dateline"), None),
       contents := ParsedContents(data, a.contents))
  }

  /** `buildData`: the two parent identifiers, the file name and the base64 encoding of the contents. */
  function Build(a: Attachment, create: bool, check: Check): (r: Result<Data>)
    ensures r.Success? <==> check.Passes?
    ensures r.Success? ==> r.value.Keys == {"ticketid", "ticketpostid", "filename", "contents"}
    ensures r.Success? ==> r.value["ticketid"] == Raw(IdValue(a.ticketId)) && r.value["ticketpostid"] == Raw(IdValue(a.ticketPostId))
    ensures r.Success? ==> r.value["contents"].Raw? && r.value["contents"].v.Str?
  {
    Checked(check, map[
      "ticketid" := Raw(IdValue(a.ticketId)), "ticketpostid" := Raw(IdValue(a.ticketPostId)),
      "filename" := Raw(a.fileName), "contents" := Raw(EncodedContents(a.contents))])
  }

  /** Decoding the contents a request carries gives back the stored contents (nothing for `null`), and a
      response echoing them restores non-empty contents when parsed. */
  lemma BuildEncodesContents(a: Attachment, create: bool, b: Attachment)
    ensures var sent := Build(a, create, Passes).value["contents"].v;
      Base64.Decode(sent.s) == a.contents.GetOr([]) &&
      (|a.contents.GetOr([])| > 0 ==> Parse(b, Dict([Pair("contents", sent)])).contents == a.contents)
  {
    Base64.RoundTrip(a.contents.GetOr([]));
    ContentsRoundTrip(a.contents, b.contents);
  }

  /** `update()`: attachments cannot be updated. */
  function Update(a: Attachment): (r: Result<()>)
    ensures r.Failure? && r.error.BadMethodCall?
  {
    Failure(BadMethodCall("You can't update objects of type TicketAttachment."))
  }

  /** `getId($complete)`: the attachment identifier, or the pair ticket identifier and attachment
      identifier that addresses it on the server. */
  function GetId(a: Attachment, complete: bool): (v: Value)
    ensures !complete ==> v == IdValue(a.id)
    ensures complete ==> v == Arr([IdValue(a.ticketId), IdValue(a.id)])
  {
    if complete then Arr([IdValue(a.ticketId), IdValue(a.id)]) else IdValue(a.id)
  }

  /** `delete()`: the identifiers the request names. */
  function DeleteIds(a: Attachment): (ids: seq<Value>)
    ensures Arr(ids) == GetId(a, true)
  {
    [IdValue(a.ticketId), IdValue(a.id)]
  }

  /** `getAll($ticket)`: the search parameters, naming a ticket by its identifier or by the object; the
      same request the posts of the ticket are listed by. */
  function GetAllParameters(ticket: Value): (ps: seq<Value>)
    ensures ps == TicketPost.GetAllParameters(ticket)
    ensures |ps| == 2 && ps[0] == Str("ListAll")
    ensures ticket.Obj? && ticket.o.cls == "Ticket" ==> ps[1] == IdValue(ticket.o.id)
    ensures !(ticket.Obj? && ticket.o.cls == "Ticket") ==> ps[1] == ticket
  {
    [Str("ListAll"), if ticket.Obj? && ticket.o.cls == "Ticket" then IdValue(ticket.o.id) else ticket]
  }

  // ---------------------------------------------------------------------------------------------
  // Parents

  /** `setTicketId`: positive or `null`; the cached ticket is dropped, the cached post is not. */
  function SetTicketId(a: Attachment, v: Value): (r: Attachment)
    ensures r.ticketId == AssurePositiveInt(v, None) && r.ticket.None?
    ensures r.ticketPost == a.ticketPost && r.ticketPostId == a.ticketPostId
  {
    a.(ticketId := AssurePositiveInt(v, None), ticket := None)
  }

  /** `getTicket($reload)`. */
  function GetTicket(a: Attachment, reload: bool): (r: Lookup)
    ensures r.Cached? <==> a.ticket.Some? && !reload
    ensures r.Fetch? <==> (a.ticket.None? || reload) && a.ticketId.Some?
    ensures r.Fetch? ==> r.ids == [a.ticketId.value]
  {
    LazyGet(a.ticket, a.ticketId, reload, false)
  }

  /** `setTicketPostId`: positive or `null`; the cached post is dropped. */
  function SetTicketPostId(a: Attachment, v: Value): (r: Attachment)
    ensures r.ticketPostId == AssurePositiveInt(v, None) && r.ticketPost.None?
    ensures r.ticketId == a.ticketId
  {
    a.(ticketPostId := AssurePositiveInt(v, None), ticketPost := None)
  }

  /** `getTicketPost($reload)`: `null` without asking the server unless both identifiers are known; a post
      is fetched by the ticket identifier and its own. */
  function GetTicketPost(a: Attachment, reload: bool): (r: Lookup)
    ensures r.Cached? <==> a.ticketPost.Some? && !reload
    ensures r.Fetch? <==> (a.ticketPost.None? || reload) && a.ticketId.Some? && a.ticketPostId.Some?
    ensures r.Fetch? ==> r.ids == [a.ticketId.value, a.ticketPostId.value]
  {
    if a.ticketPost.Some? && !reload then Cached(a.ticketPost.value)
    else if a.ticketId.None? || a.ticketPostId.None? then NoObject
    else Fetch([a.ticketId.value, a.ticketPostId.value])
  }

  /** `setTicketPost`: the post, its identifier, and the ticket the post's own `getTicket()` returns
      (`postTicket`, which may need the server) with that ticket's identifier. */
  function SetTicketPost(a: Attachment, v: Value, postTicket: Option<PhpObject>): (r: Attachment)
    ensures r.ticketPost == AssureObject(v, "TicketPost")
    ensures r.ticketPost.None? ==> r.ticketPostId.None? && r.ticket.None? && r.ticketId.None?
    ensures r.ticketPost.Some? ==> r.ticketPostId == v.o.id && r.ticket == postTicket
    ensures r.ticket.Some? ==> r.ticketId == r.ticket.value.id
  {
    var post := AssureObject(v, "TicketPost");
    var ticket := if post.Some? then postTicket else None;
    a.(ticketPost := post, ticketPostId := if post.Some? then post.value.id else None,
       ticket := ticket, ticketId := if ticket.Some? then ticket.value.id else None)
  }

  // ---------------------------------------------------------------------------------------------
  // File and contents

  function SetFileName(a: Attachment, v: Value): (r: Attachment)
    ensures r.fileName == StrOrNull(AssureString(v, None)) && r.contents == a.contents
  {
    a.(fileName := StrOrNull(AssureString(v, None)))
  }

  /** `getContents($autoFetch)`: fetched by `[ticketId, id]` when nothing is stored yet. */
  function GetAttachmentContents(a: Attachment, autoFetch: bool): (r: ContentsLookup)
    ensures r.FetchContents? <==> a.contents.None? && a.ticketId.Some? && a.id.Some? && autoFetch
    ensures r.FetchContents? ==> |r.ids| == 2 && Arr([Int(r.ids[0]), Int(r.ids[1])]) == GetId(a, true)
    ensures r.Stored? ==> r.contents == a.contents
  {
    GetContents(a.contents, a.ticketId, a.id, autoFetch)
  }

  /** `setContents`: the raw contents. */
  function SetContents(a: Attachment, contents: seq<byte>): (r: Attachment)
    ensures r.contents == Some(contents) && r.fileName == a.fileName
  {
    a.(contents := Some(contents))
  }

  /** `setContentsFromFile($filePath, $fileName = null)`. Reading the file is outside the model: `read` is
      what `file_get_contents` returned (`None` for `false`), `baseName` is `basename($filePath)`. */
  function SetContentsFromFile(a: Attachment, read: Option<seq<byte>>, filePath: string, fileName: Value,
                               baseName: string): (r: Result<Attachment>)
    ensures read.None? <==> r.Failure?
    ensures r.Failure? ==> r.error == GeneralException("Error reading contents of " + filePath + ".")
    ensures r.Success? ==> r.value.contents == read
    ensures r.Success? ==> r.value.fileName == (if fileName.Null? then Str(baseName) else fileName)
  {
    match read
    case None => Failure(GeneralException("Error reading contents of " + filePath + "."))
    case Some(b) => Success(a.(contents := Some(b), fileName := if fileName.Null? then Str(baseName) else fileName))
  }

  /** The positive identifier `setTicketId`/`setTicketPostId` keep of an identifier read from a post. */
  function PositiveId(id: Option<int>): (r: Option<int>)
    ensures id.Some? && id.value > 0 ==> r == id
    ensures !(id.Some? && id.value > 0) ==> r.None?
  {
    AssurePositiveInt(IdValue(id), None)
  }

  /** `createNew($ticketPost, $contents, $fileName)`: attached to the post's ticket and to the post. */
  function CreateNew(post: TicketPost.TicketPost, contents: seq<byte>, fileName: Value): (a: Attachment)
    ensures a.ticketId == PositiveId(post.ticketId) && a.ticketPostId == PositiveId(post.id)
    ensures a.contents == Some(contents) && a.fileName == StrOrNull(AssureString(fileName, None))
  {
    var a := SetTicketPostId(SetTicketId(New(), IdValue(post.ticketId)), IdValue(post.id));
    SetFileName(SetContents(a, contents), fileName)
  }

  /** `createNewFromFile($ticketPost, $filePath, $fileName = null)`. */
  function CreateNewFromFile(post: TicketPost.TicketPost, read: Option<seq<byte>>, filePath: string, fileName: Value,
                             baseName: string): (r: Result<Attachment>)
    ensures read.None? <==> r.Failure?
    ensures r.Success? ==> r.value.ticketId == PositiveId(post.ticketId) && r.value.ticketPostId == PositiveId(post.id)
    ensures r.Success? ==> r.value.contents == read
  {
    SetContentsFromFile(SetTicketPostId(SetTicketId(New(), IdValue(post.ticketId)), IdValue(post.id)),
                        read, filePath, fileName, baseName)
  }

  /** A new attachment of a stored post finds that post again: it is fetched by the post's ticket and
      identifier. */
  lemma CreateNewFindsPost(post: TicketPost.TicketPost, contents: seq<byte>, fileName: Value)
    requires post.ticketId.Some? && post.ticketId.value > 0 && post.id.Some? && post.id.value > 0
    ensures GetTicketPost(CreateNew(post, contents, fileName), false) == Fetch([post.ticketId.value, post.id.value])
  {
  }

  /** The two constructors send the same request for the same bytes and name. */
  lemma ConstructorsAgree(post: TicketPost.TicketPost, contents: seq<byte>, filePath: string, name: string,
                          baseName: string, create: bool)
    ensures CreateNewFromFile(post, Some(contents), filePath, Str(name), baseName).Success?
    ensures Build(CreateNew(post, contents, Str(name)), create, Passes) ==
            Build(CreateNewFromFile(post, Some(contents), filePath, Str(name), baseName).value, create, Passes)
  {
  }
}

=== FILE: ticket_post.dfy ===
/** `TicketPost`: one post of a ticket. Its author is either a staff member or a user, never both; the
    creator setters keep the two apart, and building a post for the server requires one of them. */
module TicketPost {
  import opened Wrappers
  import opened Php
  import opened Helper
  import opened Wire
  import Constants

  datatype TicketPost = TicketPost(
    id: Option<int>, ticketId: Option<int>, dateline: Option<int>, userId: Option<int>,
    fullName: Value, email: Value, emailTo: Value, ipAddress: Value,
    hasAttachments: Option<bool>, creator: Option<int>, isThirdParty: Option<bool>, isHtml: Option<bool>,
    isEmailed: Option<bool>, staffId: Option<int>, isSurveyComment: Option<bool>,
    contents: Value, subject: Option<string>, isPrivate: Option<bool>,
    /** The cached related objects of the lazy getters. */
    user: Option<PhpObject>, staff: Option<PhpObject>, ticket: Option<PhpObject>)

  const StaffCreator := Constants.CreatorStaff
  const UserCreator := Constants.CreatorUser

  /** A post as `new TicketPost()` makes it: every property `null` except `is_private`, which is `false`. */
  function New(): (p: TicketPost)
    ensures p.isPrivate == Some(false) && p.creator.None? && p.staffId.None? && p.userId.None?
  {
    TicketPost(None, None, None, None, Null, Null, Null, Null, None, None, None, None, None, None, None,
               Null, None, Some(false), None, None, None)
  }

  /** `parseData`: reads the post as the server sends it. A missing `isprivate` key (the server leaves it out
      of post listings) reads as `null`, not `false`. */
  function Parse(p: TicketPost, data: Value): (r: TicketPost)
    ensures r.id == Some(IntVal(Key(data, "id")))
    ensures r.creator == Some(IntVal(Key(data, "creator")))
    ensures r.staffId == AssurePositiveInt(Key(data, "staffid"), None)
    ensures r.userId == AssurePositiveInt(Key(data, "userid"), None)
    ensures HasKey(data, "isprivate") ==> r.isPrivate == Some(Truthy(Key(data, "isprivate")))
    ensures !HasKey(data, "isprivate") ==> r.isPrivate.None?
    ensures r.subject == p.subject && r.user == p.user && r.staff == p.staff && r.ticket == p.ticket
  {
    p.(id := Some(IntVal(Key(data, "id"))),
       ticketId := AssurePositiveInt(Key(data, "ticketid"), None),
       dateline := AssurePositiveInt(Key(data, "dateline"), None),
       userId := AssurePositiveInt(Key(data, "userid"), None),
       fullName := Key(data, "fullname"),
       email := Key(data, "email"),
       emailTo := Key(data, "emailto"),
       ipAddress := Key(data, "ipaddress"),
       hasAttachments := Some(AssureBool(Key(data, "hasattachments"))),
       creator := Some(IntVal(Key(data, "creator"))),
       isThirdParty := Some(AssureBool(Key(data, "isthirdparty"))),
       isHtml := Some(AssureBool(Key(data, "ishtml"))),
       isEmailed := Some(AssureBool(Key(data, "isemailed"))),
       staffId := AssurePositiveInt(Key(data, "staffid"), None),
       isSurveyComment := Some(AssureBool(Key(data, "issurveycomment"))),
       contents := Key(data, "contents"),
       isPrivate := if HasKey(data, "isprivate") then Some(AssureBool(Key(data, "isprivate"))) else None)
  }

  // ---------------------------------------------------------------------------------------------
  // The creator

  /** The author of a post is never both a staff member and a user, and the creator type agrees with the
      identifier that is set. */
  predicate CreatorConsistent(p: TicketPost) {
    (p.staffId.None? || p.userId.None?)
    && (p.creator == Some(StaffCreator) ==> p.userId.None? && p.user.None?)
    && (p.creator == Some(UserCreator) ==> p.staffId.None? && p.staff.None?)
  }

  /** `setUserId`: the positive identifier or `null`; the creator becomes USER exactly when one is set; the
      staff side and the cached user are cleared. */
  function SetUserId(p: TicketPost, v: Value): (r: TicketPost)
    ensures r.userId == AssurePositiveInt(v, None)
    ensures r.creator == (if r.userId.Some? then Some(UserCreator) else None)
    ensures r.staffId.None? && r.staff.None? && r.user.None?
    ensures CreatorConsistent(r)
  {
    var id := AssurePositiveInt(v, None);
    p.(userId := id, creator := if id.Some? then Some(UserCreator) else None, user := None, staffId := None, staff := None)
  }

  /** `setUser`: a `User` object becomes the cached user, its identifier the user identifier and the creator
      USER; anything else clears both. The staff side is cleared either way. */
  function SetUser(p: TicketPost, v: Value): (r: TicketPost)
    ensures r.user == AssureObject(v, "User")
    ensures r.user.Some? ==> r.userId == r.user.value.id && r.creator == Some(UserCreator)
    ensures r.user.None? ==> r.userId.None? && r.creator.None?
    ensures r.staffId.None? && r.staff.None?
    ensures CreatorConsistent(r)
  {
    var user := AssureObject(v, "User");
    p.(user := user, userId := if user.Some? then user.value.id else None,
       creator := if user.Some? then Some(UserCreator) else None, staffId := None, staff := None)
  }

  /** `setStaffId`: the mirror image of `setUserId`. */
  function SetStaffId(p: TicketPost, v: Value): (r: TicketPost)
    ensures r.staffId == AssurePositiveInt(v, None)
    ensures r.creator == (if r.staffId.Some? then Some(StaffCreator) else None)
    ensures r.userId.None? && r.user.None? && r.staff.None?
    ensures CreatorConsistent(r)
  {
    var id := AssurePositiveInt(v, None);
    p.(staffId := id, creator := if id.Some? then Some(StaffCreator) else None, staff := None, userId := None, user := None)
  }

  /** `setStaff`: the mirror image of `setUser`. */
  function SetStaff(p: TicketPost, v: Value): (r: TicketPost)
    ensures r.staff == AssureObject(v, "Staff")
    ensures r.staff.Some? ==> r.staffId == r.staff.value.id && r.creator == Some(StaffCreator)
    ensures r.staff.None? ==> r.staffId.None? && r.creator.None?
    ensures r.userId.None? && r.user.None?
    ensures CreatorConsistent(r)
  {
    var staff := AssureObject(v, "Staff");
    p.(staff := staff, staffId := if staff.Some? then staff.value.id else None,
       creator := if staff.Some? then Some(StaffCreator) else None, userId := None, user := None)
  }

  /** `setCreator`: a numeric creator is an identifier whose kind `type` names (compared loosely, USER
      first); a `User` or `Staff` object sets that side; anything else changes nothing. */
  function SetCreator(p: TicketPost, creator: Value, typ: Value): (r: TicketPost)
    ensures IsNumeric(creator) && LooseEq(typ, Int(UserCreator)) ==> r == SetUserId(p, creator)
    ensures IsNumeric(creator) && !LooseEq(typ, Int(UserCreator)) && LooseEq(typ, Int(StaffCreator)) ==>
      r == SetStaffId(p, creator)
    ensures IsNumeric(creator) && !LooseEq(typ, Int(UserCreator)) && !LooseEq(typ, Int(StaffCreator)) ==> r == p
    ensures !IsNumeric(creator) && creator.Obj? && creator.o.cls == "User" ==> r == SetUser(p, creator)
    ensures !IsNumeric(creator) && creator.Obj? && creator.o.cls == "Staff" ==> r == SetStaff(p, creator)
    ensures !IsNumeric(creator) && !(creator.Obj? && creator.o.cls in {"User", "Staff"}) ==> r == p
  {
    if IsNumeric(creator) then
      if LooseEq(typ, Int(UserCreator)) then SetUserId(p, creator)
      else if LooseEq(typ, Int(StaffCreator)) then SetStaffId(p, creator)
      else p
    else if creator.Obj? && creator.o.cls == "User" then SetUser(p, creator)
    else if creator.Obj? && creator.o.cls == "Staff" then SetStaff(p, creator)
    else p
  }

  /** Every creator setter leaves a consistent author, and `setCreator` keeps one. */
  lemma SetCreatorKeepsConsistent(p: TicketPost, creator: Value, typ: Value)
    requires CreatorConsistent(p)
    ensures CreatorConsistent(SetCreator(p, creator, typ))
    ensures SetCreator(p, creator, typ).staffId.None? || SetCreator(p, creator, typ).userId.None?
  {
  }

  /** Setting a numeric user identifier and then a staff identifier leaves only the staff side, and the
      other way round; the last setter decides the creator. */
  lemma LastCreatorWins(p: TicketPost, u: Value, s: Value)
    requires IntVal(u) > 0 && IntVal(s) > 0
    ensures SetStaffId(SetUserId(p, u), s).creator == Some(StaffCreator)
    ensures SetStaffId(SetUserId(p, u), s).userId.None?
    ensures SetUserId(SetStaffId(p, s), u).creator == Some(UserCreator)
    ensures SetUserId(SetStaffId(p, s), u).staffId.None?
  {
  }

  /** `getCreator`: the staff member or user the creator type points to, through their lazy getters. */
  function GetCreator(p: TicketPost): (r: Lookup)
    ensures p.creator != Some(StaffCreator) && p.creator != Some(UserCreator) ==> r == NoObject
    ensures p.creator == Some(StaffCreator) ==> r == LazyGet(p.staff, p.staffId, false, false)
    ensures p.creator == Some(UserCreator) ==> r == LazyGet(p.user, p.userId, false, false)
  {
    if p.creator == Some(StaffCreator) then LazyGet(p.staff, p.staffId, false, false)
    else if p.creator == Some(UserCreator) then LazyGet(p.user, p.userId, false, false)
    else NoObject
  }

  // ---------------------------------------------------------------------------------------------
  // Other setters

  function SetTicketId(p: TicketPost, v: Value): (r: TicketPost)
    ensures r.ticketId == AssurePositiveInt(v, None) && r.ticket.None?
  {
    p.(ticketId := AssurePositiveInt(v, None), ticket := None)
  }

  /** `setTicket`: a `Ticket` object becomes the cached ticket and gives its identifier; anything else
      clears both. */
  function SetTicket(p: TicketPost, v: Value): (r: TicketPost)
    ensures r.ticket == AssureObject(v, "Ticket")
    ensures r.ticketId == (if r.ticket.Some? then r.ticket.value.id else None)
  {
    var ticket := AssureObject(v, "Ticket");
    p.(ticket := ticket, ticketId := if ticket.Some? then ticket.value.id else None)
  }

  function SetSubject(p: TicketPost, v: Value): (r: TicketPost)
    ensures r.subject == AssureString(v, None)
  {
    p.(subject := AssureString(v, None))
  }

  function SetContents(p: TicketPost, v: Value): (r: TicketPost)
    ensures r.contents == StrOrNull(AssureString(v, None))
  {
    p.(contents := StrOrNull(AssureString(v, None)))
  }

  function SetIsPrivate(p: TicketPost, v: Value): (r: TicketPost)
    ensures r.isPrivate == Some(Truthy(v))
  {
    p.(isPrivate := Some(AssureBool(v)))
  }

  /** `createNew`: a new post of the ticket, by the creator, with the contents. */
  function CreateNew(ticket: Value, creator: Value, contents: Value): (p: TicketPost)
    ensures CreatorConsistent(p)
    ensures p.ticket == AssureObject(ticket, "Ticket")
    ensures p.contents == StrOrNull(AssureString(contents, None))
    ensures p.isPrivate == Some(false)
  {
    SetContents(SetCreator(SetTicket(New(), ticket), creator, Null), contents)
  }

  // ---------------------------------------------------------------------------------------------
  // Requests

  /** The author key `buildData` adds: `staffid` for a STAFF creator, `userid` for a USER creator, none
      otherwise. */
  function Author(p: TicketPost): (d: Data)
    ensures "staffid" in d <==> p.creator == Some(StaffCreator)
    ensures "userid" in d <==> p.creator == Some(UserCreator)
    ensures "staffid" in d ==> d["staffid"] == Raw(IdValue(p.staffId))
    ensures "userid" in d ==> d["userid"] == Raw(IdValue(p.userId))
    ensures d.Keys <= {"staffid", "userid"}
  {
    if p.creator == Some(StaffCreator) then map["staffid" := Raw(IdValue(p.staffId))]
    else if p.creator == Some(UserCreator) then map["userid" := Raw(IdValue(p.userId))]
    else map[]
  }

  const NoAuthor := GeneralException("Value for API fields 'staffid' or 'userid' is required for this operation to complete.")

  /** `buildData`: the required-field check first; then a post with neither a numeric staff identifier nor
      a numeric user identifier is refused with `GeneralException`; otherwise the ticket, subject (`''` for
      none), contents and privacy flag, plus the author key. */
  function Build(p: TicketPost, check: Check): (r: Result<Data>)
    ensures check.Missing? ==> r == Failure(RequiredFieldMissing(check.field))
    ensures check.Passes? && p.staffId.None? && p.userId.None? ==> r == Failure(NoAuthor)
    ensures r.Success? <==> check.Passes? && (p.staffId.Some? || p.userId.Some?)
    ensures r.Success? ==>
      r.value == Author(p) + map[
        "ticketid" := Raw(IdValue(p.ticketId)),
        "subject" := Raw(Str(p.subject.GetOr(""))),
        "contents" := Raw(p.contents),
        "isprivate" := Raw(BoolOrNull(p.isPrivate))]
  {
    var _ :- Checked(check, ());
    if !IsNumeric(IdValue(p.staffId)) && !IsNumeric(IdValue(p.userId)) then Failure(NoAuthor)
    else
      Success(Author(p) + map[
        "ticketid" := Raw(IdValue(p.ticketId)),
        "subject" := Raw(Str(p.subject.GetOr(""))),
        "contents" := Raw(p.contents),
        "isprivate" := Raw(BoolOrNull(p.isPrivate))])
  }

  /** A post whose author was set through a creator setter sends exactly one author key, the one of the
      side that was set. */
  lemma BuildSendsOneAuthor(p: TicketPost, v: Value)
    requires IntVal(v) > 0
    ensures var r := Build(SetStaffId(p, v), Passes); r.Success? && "staffid" in r.value && "userid" !in r.value
    ensures var r := Build(SetUserId(p, v), Passes); r.Success? && "userid" in r.value && "staffid" !in r.value
  {
  }

  /** For a post with an author, what a setter stores is what the next request sends: the subject as its
      string form (`''` for `null`), the contents as their string form (`null` kept), the privacy flag as a
      boolean and the ticket as a positive identifier or `null`. */
  lemma SettersAreSent(p: TicketPost, v: Value)
    requires p.staffId.Some? || p.userId.Some?
    ensures Sends(Build(SetSubject(p, v), Passes).value, "subject", Raw(Str(if v.Null? then "" else StrVal(v))))
    ensures Sends(Build(SetContents(p, v), Passes).value, "contents", Raw(StrOrNull(AssureString(v, None))))
    ensures Sends(Build(SetIsPrivate(p, v), Passes).value, "isprivate", Raw(Bool(Truthy(v))))
    ensures Sends(Build(SetTicketId(p, v), Passes).value, "ticketid", Raw(IdValue(AssurePositiveInt(v, None))))
  {
  }

  /** `update` is not supported for posts. */
  function Update(p: TicketPost): (r: Result<()>)
    ensures r.Failure? && r.error.BadMethodCall?
  {
    Failure(BadMethodCall("You can't update objects of type TicketPost."))
  }

  /** `getId($complete)`: the post identifier, or the pair ticket identifier and post identifier that
      addresses the post on the server. */
  function GetId(p: TicketPost, complete: bool): (v: Value)
    ensures !complete ==> v == IdValue(p.id)
    ensures complete ==> v == Arr([IdValue(p.ticketId), IdValue(p.id)])
  {
    if complete then Arr([IdValue(p.ticketId), IdValue(p.id)]) else IdValue(p.id)
  }

  /** `delete()`: the identifiers the request names, the ticket's and then the post's. */
  function DeleteIds(p: TicketPost): (ids: seq<Value>)
    ensures Arr(ids) == GetId(p, true)
  {
    [IdValue(p.ticketId), IdValue(p.id)]
  }

  /** `getAll($ticket)`: the search parameters, naming a ticket by its identifier or by the object. */
  function GetAllParameters(ticket: Value): (ps: seq<Value>)
    ensures |ps| == 2 && ps[0] == Str("ListAll")
    ensures ticket.Obj? && ticket.o.cls == "Ticket" ==> ps[1] == IdValue(ticket.o.id)
    ensures !(ticket.Obj? && ticket.o.cls == "Ticket") ==> ps[1] == ticket
  {
    [Str("ListAll"), if ticket.Obj? && ticket.o.cls == "Ticket" then IdValue(ticket.o.id) else ticket]
  }
}

=== FILE: ticket_type.dfy ===
/** `TicketType`: a read-only ticket type, public or private, optionally restricted to user groups and
    optionally tied to one department. The client never sends it back, so it has no setters and no
    request data. */
module TicketType {
  import opened Wrappers
  import opened Php
  import opened Helper
  import opened Wire
  import Constants

  datatype TicketType = TicketType(
    id: int, title: Value, displayOrder: int, departmentId: Option<int>, displayIcon: Value, typ: Value,
    userVisibilityCustom: bool, userGroupIds: seq<Option<int>>, department: Option<PhpObject>)

  const TypePublic := Constants.TicketTypeTypePublic

  /** The group identifiers of the data, `intval` of each element of `usergroupid` when it is a list. */
  function GroupIds(data: Value): (ids: seq<Option<int>>)
    ensures |ids| == |Elements(Key(data, "usergroupid"))|
    ensures forall k | 0 <= k < |ids| :: ids[k] == Some(IntVal(Elements(Key(data, "usergroupid"))[k]))
  {
    var items := Elements(Key(data, "usergroupid"));
    seq(|items|, k requires 0 <= k < |items| => Some(IntVal(items[k])))
  }

  /** The group identifiers one parse collects: those of the data when the custom flag parses as true and
      the data carries a list, none otherwise. */
  function ParsedGroupIds(data: Value): (ids: seq<Option<int>>)
    ensures Truthy(Key(data, "uservisibilitycustom")) && IsArray(Key(data, "usergroupid")) ==> ids == GroupIds(data)
    ensures !(Truthy(Key(data, "uservisibilitycustom")) && IsArray(Key(data, "usergroupid"))) ==> ids == []
  {
    if AssureBool(Key(data, "uservisibilitycustom")) && IsArray(Key(data, "usergroupid")) then GroupIds(data) else []
  }

  /** The scalar fields of `parseData`; the group list and the cached department are left as they were. */
  function ParseFields(t: TicketType, data: Value): (r: TicketType)
    ensures r.id == IntVal(Key(data, "id"))
    ensures r.departmentId == AssurePositiveInt(Key(data, "departmentid"), None)
    ensures r.typ == Key(data, "type")
    ensures r.userVisibilityCustom == Truthy(Key(data, "uservisibilitycustom"))
    ensures r.userGroupIds == t.userGroupIds && r.department == t.department
  {
    t.(id := IntVal(Key(data, "id")), title := Key(data, "title"), displayOrder := IntVal(Key(data, "displayorder")),
       departmentId := AssurePositiveInt(Key(data, "departmentid"), None), displayIcon := Key(data, "displayicon"),
       typ := Key(data, "type"), userVisibilityCustom := AssureBool(Key(data, "uservisibilitycustom")))
  }

  /** `parseData` as written: the group identifiers of the data are appended to the ones held, which are
      never reset. */
  function ParseAsWritten(t: TicketType, data: Value): (r: TicketType)
    ensures r.userGroupIds == t.userGroupIds + ParsedGroupIds(data)
    ensures r.department == t.department
  {
    ParseFields(t, data).(userGroupIds := t.userGroupIds + ParsedGroupIds(data))
  }

  /** `parseData` as intended: the group identifiers are those of the data alone. */
  function Parse(t: TicketType, data: Value): (r: TicketType)
    ensures r.userGroupIds == ParsedGroupIds(data)
    ensures r.department == t.department
  {
    ParseFields(t, data).(userGroupIds := ParsedGroupIds(data))
  }

  /** The data of a type restricted to user group 4 alone, as the server sends it. */
  const OneGroup := Dict([Pair("uservisibilitycustom", Str("1")), Pair("usergroupid", Arr([Str("4")]))])

  /** On a new ticket type, whose group list is empty, the written and the intended parse agree. */
  lemma ParseOfNewAgrees(t: TicketType, data: Value)
    requires |t.userGroupIds| == 0
    ensures ParseAsWritten(t, data) == Parse(t, data)
  {
  }

  /** As written, re-populating a type from the server (`refresh`) duplicates its groups: the second
      parse of the same data lists group 4 twice. */
  lemma ParseAsWrittenDuplicatesGroups(t: TicketType)
    requires |t.userGroupIds| == 0
    ensures ParseAsWritten(t, OneGroup).userGroupIds == [Some(4)]
    ensures ParseAsWritten(ParseAsWritten(t, OneGroup), OneGroup).userGroupIds == [Some(4), Some(4)]
  {
    assert Elements(Key(OneGroup, "usergroupid")) == [Str("4")];
    assert Truthy(Key(OneGroup, "uservisibilitycustom"));
  }

  /** Parsing the same data again changes nothing, and the groups after a parse depend on the data alone,
      not on what the type held before. */
  lemma ParseIsIdempotent(t: TicketType, u: TicketType, data: Value)
    ensures Parse(Parse(t, data), data) == Parse(t, data)
    ensures Parse(t, data).userGroupIds == Parse(u, data).userGroupIds
  {
  }

  /** `getDepartment`: `null` without asking the server when there is no positive department identifier. */
  function GetDepartment(t: TicketType, reload: bool): (r: Lookup)
    ensures (t.department.None? || reload) && t.departmentId.None? ==> r == NoObject
    ensures r.Fetch? ==> t.departmentId.Some? && r.ids == [t.departmentId.value]
  {
    LazyGet(t.department, t.departmentId, reload, true)
  }

  /** `isVisibleToUserGroup`: only a type that is exactly `'public'`; to every group without custom
      visibility, to the listed groups with it. */
  function IsVisibleToUserGroup(t: TicketType, group: Value): (r: bool)
    ensures t.typ != TypePublic ==> !r
    ensures t.typ == TypePublic && !t.userVisibilityCustom ==> r
    ensures t.typ == TypePublic && t.userVisibilityCustom ==> (r <==> HasId(t.userGroupIds, MemberId(group, "UserGroup")))
  {
    if t.typ != TypePublic then false
    else if !t.userVisibilityCustom then true
    else HasId(t.userGroupIds, MemberId(group, "UserGroup"))
  }

  /** A public type parsed without the custom flag is visible to every group, whatever group list the data
      carries. */
  lemma ParsedWithoutFlagIsOpen(t: TicketType, data: Value, group: Value)
    requires Key(data, "type") == TypePublic && !Truthy(Key(data, "uservisibilitycustom"))
    ensures IsVisibleToUserGroup(Parse(t, data), group)
  {
  }

  /** A parsed public type with the flag set is visible to a group exactly when the data lists it. */
  lemma ParsedWithFlagLists(t: TicketType, data: Value, g: int)
    requires Key(data, "type") == TypePublic && Truthy(Key(data, "uservisibilitycustom")) && IsArray(Key(data, "usergroupid"))
    requires g != 0
    ensures IsVisibleToUserGroup(Parse(t, data), Int(g)) <==>
      exists k | 0 <= k < |Elements(Key(data, "usergroupid"))| :: IntVal(Elements(Key(data, "usergroupid"))[k]) == g
  {
    var ids := Parse(t, data).userGroupIds;
    forall k | 0 <= k < |ids|
      ensures LooseEq(Int(g), IdValue(ids[k])) <==> ids[k] == Some(g)
    {
      SameIdMeaning(Some(g), ids[k]);
    }
  }

  /** `isAvailableInDepartment`: everywhere when the type has no department; otherwise only in the
      department whose identifier (the object's, or `intval` of anything else) is strictly the same. */
  function IsAvailableInDepartment(t: TicketType, department: Value): (r: bool)
    ensures t.departmentId.None? ==> r
    ensures t.departmentId.Some? ==> (r <==> MemberId(department, "Department") == Int(t.departmentId.value))
  {
    if t.departmentId.None? then true
    else MemberId(department, "Department") == Int(t.departmentId.value)
  }

  /** A type tied to a department is available by identifier in that department and in no other. */
  lemma AvailableOnlyInOwnDepartment(t: TicketType, d: int)
    requires t.departmentId.Some?
    ensures IsAvailableInDepartment(t, Int(d)) <==> t.departmentId == Some(d)
  {
  }

  /** `getId($complete)`. */
  function GetId(t: TicketType, complete: bool): (v: Value)
    ensures complete ==> v == Arr([Int(t.id)])
    ensures !complete ==> v == Int(t.id)
  {
    if complete then Arr([Int(t.id)]) else Int(t.id)
  }
}

=== FILE: troubleshooter_category.dfy ===
/** `TroubleshooterCategory`: a troubleshooter category of a given type (global, public or private),
    optionally restricted to user groups and to staff groups. */
module TroubleshooterCategory {
  import opened Wrappers
  import opened Php
  import opened Helper
  import opened Wire
  import Constants

  datatype Category = Category(
    id: Option<int>, title: Option<string>, categoryType: Value, displayOrder: Option<int>,
    description: Option<string>,
    /** Both start as `null`: neither the flag nor the list has a default. */
    userVisibilityCustom: Option<bool>, userGroupIds: Option<seq<Option<int>>>,
    staffVisibilityCustom: Option<bool>, staffGroupIds: seq<Option<int>>,
    staffId: Option<int>, staff: Option<PhpObject>)

  const TypeGlobal := Constants.CategoryTypeGlobal
  const TypePublic := Constants.CategoryTypePublic
  const TypePrivate := Constants.CategoryTypePrivate

  /** `new TroubleshooterCategory()`. */
  function New(): (c: Category)
    ensures c.userVisibilityCustom.None? && c.userGroupIds.None? && c.staffGroupIds == []
  {
    Category(None, None, Null, None, None, None, None, None, [], None, None)
  }

  /** The PHP value of the user group list, `null` while it has never been set. */
  function UserGroupList(c: Category): (v: Value)
    ensures c.userGroupIds.None? ==> v.Null?
    ensures c.userGroupIds.Some? ==> v == IdList(c.userGroupIds.value)
  {
    match c.userGroupIds
    case Some(ids) => IdList(ids)
    case None => Null
  }

  /** `parseData`: the staff flag is read from the data, but the user flag is not, so the user group list
      is read (as `intval`s) only when the flag was already set on the object; otherwise it is kept. */
  function Parse(c: Category, data: Value): (r: Category)
    ensures r.userVisibilityCustom == c.userVisibilityCustom
    ensures c.userVisibilityCustom == Some(true) && IsArray(Key(data, "usergroupidlist")) ==>
      r.userGroupIds.Some? && |r.userGroupIds.value| == |ListItems(data, "usergroupidlist", "usergroupid")|
    ensures !(c.userVisibilityCustom == Some(true) && IsArray(Key(data, "usergroupidlist"))) ==> r.userGroupIds == c.userGroupIds
    ensures r.staffVisibilityCustom == Some(Truthy(Key(data, "staffvisibilitycustom")))
    ensures Truthy(Key(data, "staffvisibilitycustom")) ==> r.staffGroupIds == ParseIds(data, "staffgroupidlist", "staffgroupid")
    ensures !Truthy(Key(data, "staffvisibilitycustom")) ==> r.staffGroupIds == []
    ensures r.categoryType == StrOrNull(AssureString(Key(data, "categorytype"), None))
  {
    var items := ListItems(data, "usergroupidlist", "usergroupid");
    var staffCustom := AssureBool(Key(data, "staffvisibilitycustom"));
    c.(id := AssurePositiveInt(Key(data, "id"), None),
       title := AssureString(Key(data, "title"), None),
       categoryType := StrOrNull(AssureString(Key(data, "categorytype"), None)),
       description := AssureString(Key(data, "description"), None),
       displayOrder := AssurePositiveInt(Key(data, "displayorder"), None),
       userGroupIds :=
         if c.userVisibilityCustom == Some(true) && IsArray(Key(data, "usergroupidlist"))
         then Some(seq(|items|, k requires 0 <= k < |items| => Some(IntVal(items[k]))))
         else c.userGroupIds,
       staffVisibilityCustom := Some(staffCustom),
       staffGroupIds := if staffCustom then ParseIds(data, "staffgroupidlist", "staffgroupid") else [],
       staffId := AssureInt(Key(data, "staffid"), None))
  }

  /** A new category parsed from data never gets user groups, whatever the data says: the flag it would
      need is never read. */
  lemma NewCategoryGetsNoUserGroups(data: Value)
    ensures Parse(New(), data).userGroupIds.None?
    ensures Parse(New(), data).userVisibilityCustom.None?
  {
  }

  /** `buildData`: no required-field check; the group lists only when their flags are set. */
  function Build(c: Category): (d: Data)
    ensures "title" in d && "categorytype" in d && "description" in d && "displayorder" in d && "staffid" in d
    ensures "uservisibilitycustom" in d && "staffvisibilitycustom" in d
    ensures "usergroupidlist" in d <==> c.userVisibilityCustom == Some(true)
    ensures "staffgroupidlist" in d <==> c.staffVisibilityCustom == Some(true)
    ensures "usergroupidlist" in d ==> d["usergroupidlist"] == Via(Emitter.AsList, UserGroupList(c))
    ensures "staffgroupidlist" in d ==> d["staffgroupidlist"] == Via(Emitter.AsList, IdList(c.staffGroupIds))
  {
    var d: Data := map[
      "title" := Via(AsString, StrOrNull(c.title)),
      "categorytype" := Via(AsString, c.categoryType),
      "description" := Via(AsString, StrOrNull(c.description)),
      "displayorder" := Via(AsNumeric, IdValue(c.displayOrder)),
      "uservisibilitycustom" := Via(AsBool, BoolOrNull(c.userVisibilityCustom)),
      "staffvisibilitycustom" := Via(AsBool, BoolOrNull(c.staffVisibilityCustom)),
      "staffid" := Via(AsNumeric, IdValue(c.staffId))];
    var d := if c.userVisibilityCustom == Some(true) then d["usergroupidlist" := Via(Emitter.AsList, UserGroupList(c))] else d;
    if c.staffVisibilityCustom == Some(true) then d["staffgroupidlist" := Via(Emitter.AsList, IdList(c.staffGroupIds))] else d
  }

  // ---------------------------------------------------------------------------------------------
  // Setters

  /** `setCategoryType`: one of the CATEGORY_TYPE constants, or `null`. */
  function SetCategoryType(c: Category, v: Value): (r: Category)
    ensures r.categoryType == Null || r.categoryType in GroupValues("TroubleshooterCategory", "CATEGORY_TYPE")
    ensures r.categoryType != Null ==> LooseEq(v, r.categoryType)
  {
    c.(categoryType := AssureConstant(v, Str("TroubleshooterCategory"), "CATEGORY_TYPE", Null))
  }

  /** The category types are the strings `'1'`, `'2'` and `'3'`, in that order. */
  lemma CategoryTypeGroup()
    ensures GroupValues("TroubleshooterCategory", "CATEGORY_TYPE") == [TypeGlobal, TypePublic, TypePrivate]
  {
    var consts := Constants.ClassConstants("TroubleshooterCategory");
    assert GroupValuesOf(consts[3..], "CATEGORY_TYPE") == [];
    InGroupExactly(consts[2], "CATEGORY_TYPE");
    InGroupExactly(consts[1], "CATEGORY_TYPE");
    InGroupExactly(consts[0], "CATEGORY_TYPE");
  }

  /** `SetCategoryType` accepts every category type of the group as it is. */
  lemma SetCategoryTypeKeepsTypes(c: Category, v: Value)
    requires v in GroupValues("TroubleshooterCategory", "CATEGORY_TYPE")
    ensures SetCategoryType(c, v).categoryType == v
  {
    CategoryTypeGroup();
    CategoryTypesDistinct();
    GroupValueKept(v, "TroubleshooterCategory", "CATEGORY_TYPE", Null);
  }

  /** The category types "1", "2" and "3" are numeric strings of different numbers. */
  lemma CategoryTypesDistinct()
    ensures LooselyDistinct([TypeGlobal, TypePublic, TypePrivate])
  {
    assert LeadingDigits("1") == "1" && LeadingDigits("2") == "2" && LeadingDigits("3") == "3";
  }

  /** The integer 2 loosely equals the string `'2'`, so it is read as the public type. */
  lemma SetCategoryTypeInteger(c: Category)
    ensures SetCategoryType(c, Int(2)).categoryType == TypePublic
  {
    var consts := Constants.ClassConstants("TroubleshooterCategory");
    InGroupExactly(consts[1], "CATEGORY_TYPE");
    AssureConstantFirst(Int(2), "TroubleshooterCategory", "CATEGORY_TYPE", Null, 1);
  }

  /** A value outside the CATEGORY_TYPE group is refused. */
  lemma SetCategoryTypeRefuses(c: Category)
    ensures SetCategoryType(c, Str("4")).categoryType == Null
  {
    var consts := Constants.ClassConstants("TroubleshooterCategory");
    assert forall k | k in consts :: !Matches(Str("4"), k, "CATEGORY_TYPE");
  }

  function SetTitle(c: Category, v: Value): (r: Category)
    ensures r.title == AssureString(v, None)
  {
    c.(title := AssureString(v, None))
  }

  function SetDescription(c: Category, v: Value): (r: Category)
    ensures r.description == AssureString(v, None)
  {
    c.(description := AssureString(v, None))
  }

  /** `setDisplayOrder`: an integer, 0 for `null`. */
  function SetDisplayOrder(c: Category, v: Value): (r: Category)
    ensures v.Null? ==> r.displayOrder == Some(0)
    ensures !v.Null? ==> r.displayOrder == Some(IntVal(v))
  {
    c.(displayOrder := AssureInt(v, Some(0)))
  }

  /** `setUserVisibilityCustom`: turning it off empties the user group list. */
  function SetUserVisibilityCustom(c: Category, v: Value): (r: Category)
    ensures r.userVisibilityCustom == Some(Truthy(v))
    ensures !Truthy(v) ==> r.userGroupIds == Some([])
    ensures Truthy(v) ==> r.userGroupIds == c.userGroupIds
  {
    if !AssureBool(v) then c.(userVisibilityCustom := Some(false), userGroupIds := Some([]))
    else c.(userVisibilityCustom := Some(true))
  }

  /** `setStaffVisibilityCustom`: turning it off empties the staff group list. */
  function SetStaffVisibilityCustom(c: Category, v: Value): (r: Category)
    ensures r.staffVisibilityCustom == Some(Truthy(v))
    ensures !Truthy(v) ==> r.staffGroupIds == []
    ensures Truthy(v) ==> r.staffGroupIds == c.staffGroupIds
  {
    if !AssureBool(v) then c.(staffVisibilityCustom := Some(false), staffGroupIds := [])
    else c.(staffVisibilityCustom := Some(true))
  }

  function SetUserGroupIds(c: Category, v: Value): (r: Category)
    ensures r.userGroupIds == Some(NormalizeIds(v))
  {
    c.(userGroupIds := Some(NormalizeIds(v)))
  }

  function SetStaffGroupIds(c: Category, v: Value): (r: Category)
    ensures r.staffGroupIds == NormalizeIds(v)
  {
    c.(staffGroupIds := NormalizeIds(v))
  }

  /** Turning a flag off leaves no group list in the next request. */
  lemma FlagOffSendsNoList(c: Category)
    ensures "usergroupidlist" !in Build(SetUserVisibilityCustom(c, Bool(false)))
    ensures "staffgroupidlist" !in Build(SetStaffVisibilityCustom(c, Bool(false)))
  {
  }

  /** The properties every request carries go out under their own keys as the values the category holds. */
  lemma BuildSendsFields(c: Category)
    ensures var d := Build(c);
      Sends(d, "title", Via(AsString, StrOrNull(c.title))) &&
      Sends(d, "categorytype", Via(AsString, c.categoryType)) &&
      Sends(d, "description", Via(AsString, StrOrNull(c.description))) &&
      Sends(d, "displayorder", Via(AsNumeric, IdValue(c.displayOrder))) &&
      Sends(d, "uservisibilitycustom", Via(AsBool, BoolOrNull(c.userVisibilityCustom))) &&
      Sends(d, "staffvisibilitycustom", Via(AsBool, BoolOrNull(c.staffVisibilityCustom))) &&
      Sends(d, "staffid", Via(AsNumeric, IdValue(c.staffId)))
  {
  }

  /** What a setter stores is what the next request sends: text through the string helper (`null` kept), the
      type as the constant it resolved to, the display order as an integer, the flags as booleans. */
  lemma SettersAreSent(c: Category, v: Value)
    ensures var text := Via(AsString, StrOrNull(AssureString(v, None)));
      Sends(Build(SetTitle(c, v)), "title", text) && Sends(Build(SetDescription(c, v)), "description", text)
    ensures Sends(Build(SetCategoryType(c, v)), "categorytype", Via(AsString, SetCategoryType(c, v).categoryType))
    ensures Sends(Build(SetDisplayOrder(c, v)), "displayorder", Via(AsNumeric, Int(if v.Null? then 0 else IntVal(v))))
    ensures Sends(Build(SetUserVisibilityCustom(c, v)), "uservisibilitycustom", Via(AsBool, Bool(Truthy(v))))
    ensures Sends(Build(SetStaffVisibilityCustom(c, v)), "staffvisibilitycustom", Via(AsBool, Bool(Truthy(v))))
  {
    BuildSendsFields(SetTitle(c, v));
    BuildSendsFields(SetDescription(c, v));
    BuildSendsFields(SetCategoryType(c, v));
    BuildSendsFields(SetDisplayOrder(c, v));
    BuildSendsFields(SetUserVisibilityCustom(c, v));
    BuildSendsFields(SetStaffVisibilityCustom(c, v));
  }

  /** `setStaffId`: a positive identifier or `null`; the cached staff member is kept. */
  function SetStaffId(c: Category, v: Value): (r: Category)
    ensures r.staffId == AssurePositiveInt(v, None) && r.staff == c.staff
  {
    c.(staffId := AssurePositiveInt(v, None))
  }

  /** `getStaff($reload)`: the cached creator unless reloading; otherwise fetched by identifier, or `null`
      without one. */
  function GetStaff(c: Category, reload: bool): (r: Lookup)
    ensures r.Cached? <==> c.staff.Some? && !reload
    ensures r.Cached? ==> r.o == c.staff.value
    ensures r.Fetch? <==> (c.staff.None? || reload) && c.staffId.Some?
    ensures r.Fetch? ==> r.ids == [c.staffId.value]
  {
    LazyGet(c.staff, c.staffId, reload, false)
  }

  /** `setStaffId` keeps the cached creator, so the getter still hands back the old object; only a reload
      fetches the new identifier. */
  lemma SetStaffIdKeepsCachedStaff(c: Category, v: Value)
    requires c.staff.Some? && IntVal(v) > 0
    ensures GetStaff(SetStaffId(c, v), false) == Cached(c.staff.value)
    ensures GetStaff(SetStaffId(c, v), true) == Fetch([IntVal(v)])
  {
  }

  function SetStaff(c: Category, v: Value): (r: Category)
    ensures r.staff == AssureObject(v, "Staff")
    ensures r.staffId == (if r.staff.Some? then r.staff.value.id else None)
  {
    var staff := AssureObject(v, "Staff");
    c.(staff := staff, staffId := if staff.Some? then staff.value.id else None)
  }

  /** `createNew($title, $categoryType, $staff)`. */
  function CreateNew(title: Value, categoryType: Value, staff: PhpObject): (c: Category)
    requires staff.cls == "Staff"
    ensures c.title == AssureString(title, None)
    ensures c.categoryType == AssureConstant(categoryType, Str("TroubleshooterCategory"), "CATEGORY_TYPE", Null)
    ensures c.staff == Some(staff) && c.staffId == staff.id
  {
    SetStaff(SetCategoryType(SetTitle(New(), title), categoryType), Obj(staff))
  }
}

=== FILE: troubleshooter_step.dfy ===
/** `TroubleshooterStep`: one step of a troubleshooter, linked to parent and child steps, and optionally
    redirecting the user to ticket submission with a preset department, type, priority and subject. */
module TroubleshooterStep {
  import opened Wrappers
  import opened Php
  import opened Helper
  import opened Wire
  import Constants

  datatype Step = Step(
    id: Option<int>, categoryId: Option<int>, category: Option<PhpObject>,
    staffId: Option<int>, staff: Option<PhpObject>, editedStaffId: Option<int>, editedStaff: Option<PhpObject>,
    subject: Option<string>, contents: Option<string>, displayOrder: Option<int>,
    allowComments: Option<bool>, hasAttachments: Option<bool>, enableTicketRedirection: Option<bool>,
    /** An integer after parsing, but `setRedirectDepartmentId` stores a string. */
    redirectDepartmentId: Value,
    ticketTypeId: Option<int>, ticketPriorityId: Option<int>, ticketSubject: Option<string>, status: Value,
    parentStepIds: seq<Option<int>>, childStepIds: seq<Option<int>>,
    ticketType: Option<PhpObject>, ticketPriority: Option<PhpObject>, redirectDepartment: Option<PhpObject>)

  const StatusDraft := Constants.StepStatusDraft
  const StatusPublished := Constants.StepStatusPublished

  /** `new TroubleshooterStep()`: nothing set, no linked steps. */
  function New(): (s: Step)
    ensures s.parentStepIds == [] && s.childStepIds == [] && s.status.Null?
  {
    Step(None, None, None, None, None, None, None, None, None, None, None, None, None, Null,
         None, None, None, Null, [], [], None, None, None)
  }

  /** `parseData`: both step lists are replaced by those of the data (empty when the data has none); the
      status is not read. */
  function Parse(s: Step, data: Value): (r: Step)
    ensures r.parentStepIds == ParseIds(data, "parentsteps", "id")
    ensures r.childStepIds == ParseIds(data, "childsteps", "id")
    ensures r.enableTicketRedirection == Some(Truthy(Key(data, "redirecttickets")))
    ensures r.redirectDepartmentId == IdValue(AssurePositiveInt(Key(data, "redirectdepartmentid"), None))
    ensures r.status == s.status
  {
    s.(id := AssurePositiveInt(Key(data, "id"), None),
       categoryId := AssurePositiveInt(Key(data, "categoryid"), None),
       staffId := AssurePositiveInt(Key(data, "staffid"), None),
       subject := AssureString(Key(data, "subject"), None),
       displayOrder := AssureInt(Key(data, "displayorder"), None),
       allowComments := Some(AssureBool(Key(data, "allowcomments"))),
       hasAttachments := Some(AssureBool(Key(data, "hasattachments"))),
       enableTicketRedirection := Some(AssureBool(Key(data, "redirecttickets"))),
       redirectDepartmentId := IdValue(AssurePositiveInt(Key(data, "redirectdepartmentid"), None)),
       ticketTypeId := AssurePositiveInt(Key(data, "tickettypeid"), None),
       ticketPriorityId := AssureInt(Key(data, "priorityid"), None),
       contents := AssureString(Key(data, "contents"), None),
       parentStepIds := ParseIds(data, "parentsteps", "id"),
       childStepIds := ParseIds(data, "childsteps", "id"))
  }

  /** Re-parsing forgets the lists the step held: both come from the data alone. */
  lemma ParseReplacesLists(s: Step, t: Step, data: Value)
    ensures Parse(s, data).parentStepIds == Parse(t, data).parentStepIds
    ensures Parse(s, data).childStepIds == Parse(t, data).childStepIds
    ensures Parse(Parse(s, data), data) == Parse(s, data)
  {
  }

  // ---------------------------------------------------------------------------------------------
  // Requests

  /** Every key a step request may carry; none of them lists child steps. */
  const StepKeys: set<string> := {
    "categoryid", "subject", "contents", "displayorder", "stepstatus", "allowcomments", "enableticketredirection",
    "parentstepidlist", "staffid", "editedstaffid", "redirectdepartmentid", "tickettypeid", "ticketpriorityid",
    "ticketsubject"}

  /** The keys of the redirection block, sent only when redirection is enabled. */
  function RedirectData(s: Step): (d: Data)
    ensures s.enableTicketRedirection != Some(true) ==> d == map[]
    ensures "tickettypeid" in d <==> s.enableTicketRedirection == Some(true)
    ensures "redirectdepartmentid" in d <==> s.enableTicketRedirection == Some(true)
    ensures "staffid" !in d && "editedstaffid" !in d
    ensures d.Keys <= StepKeys
  {
    if s.enableTicketRedirection == Some(true) then
      map["redirectdepartmentid" := Via(AsNumeric, s.redirectDepartmentId),
          "tickettypeid" := Via(AsNumeric, IdValue(s.ticketTypeId)),
          "ticketpriorityid" := Via(AsNumeric, IdValue(s.ticketPriorityId)),
          "ticketsubject" := Via(AsString, StrOrNull(s.ticketSubject))]
    else map[]
  }

  /** The author key of the mode: `staffid` when creating, `editedstaffid` when updating. */
  function ModeData(s: Step, create: bool): (d: Data)
    ensures "staffid" in d <==> create
    ensures "editedstaffid" in d <==> !create
    ensures "tickettypeid" !in d && "redirectdepartmentid" !in d
    ensures d.Keys <= StepKeys
  {
    if create then map["staffid" := Via(AsNumeric, IdValue(s.staffId))]
    else map["editedstaffid" := Via(AsNumeric, IdValue(s.editedStaffId))]
  }

  /** The keys every request carries, the parent step list among them. */
  function CommonData(s: Step): (d: Data)
    ensures Sends(d, "parentstepidlist", Via(Emitter.AsList, IdList(s.parentStepIds)))
    ensures Sends(d, "subject", Via(AsString, StrOrNull(s.subject)))
    ensures Sends(d, "contents", Via(AsString, StrOrNull(s.contents)))
    ensures Sends(d, "stepstatus", Via(AsNumeric, s.status))
    ensures Sends(d, "displayorder", Via(AsNumeric, IdValue(s.displayOrder)))
    ensures Sends(d, "allowcomments", Via(AsBool, BoolOrNull(s.allowComments)))
    ensures Sends(d, "enableticketredirection", Via(AsBool, BoolOrNull(s.enableTicketRedirection)))
    ensures "staffid" !in d && "editedstaffid" !in d && "tickettypeid" !in d && "redirectdepartmentid" !in d
    ensures d.Keys <= StepKeys
  {
    map["categoryid" := Via(AsNumeric, IdValue(s.categoryId)),
        "subject" := Via(AsString, StrOrNull(s.subject)),
        "contents" := Via(AsString, StrOrNull(s.contents)),
        "displayorder" := Via(AsNumeric, IdValue(s.displayOrder)),
        "stepstatus" := Via(AsNumeric, s.status),
        "allowcomments" := Via(AsBool, BoolOrNull(s.allowComments)),
        "enableticketredirection" := Via(AsBool, BoolOrNull(s.enableTicketRedirection)),
        "parentstepidlist" := Via(Emitter.AsList, IdList(s.parentStepIds))]
  }

  /** `buildData($create)`: the required-field check, then the common keys, the author key of the mode and
      the redirection block. */
  function Build(s: Step, create: bool, check: Check): (r: Result<Data>)
    ensures r.Success? <==> check.Passes?
    ensures r.Success? ==> r.value == CommonData(s) + ModeData(s, create) + RedirectData(s)
  {
    Checked(check, CommonData(s) + ModeData(s, create) + RedirectData(s))
  }

  /** What a successful build sends: exactly one author key, chosen by the mode; the redirect keys exactly
      when redirection is enabled; the parent step list always; and nothing outside the known keys, so no
      child step list. */
  lemma BuildKeys(s: Step, create: bool)
    ensures var d := Build(s, create, Passes).value;
      ("staffid" in d <==> create) && ("editedstaffid" in d <==> !create)
      && ("tickettypeid" in d <==> s.enableTicketRedirection == Some(true))
      && ("redirectdepartmentid" in d <==> s.enableTicketRedirection == Some(true))
      && "parentstepidlist" in d && d.Keys <= StepKeys
  {
    var c, m, rd := CommonData(s), ModeData(s, create), RedirectData(s);
    assert Build(s, create, Passes).value.Keys == c.Keys + m.Keys + rd.Keys;
  }

  // ---------------------------------------------------------------------------------------------
  // Setters

  /** `setStatus`: one of the STATUS constants, or `null`. */
  function SetStatus(s: Step, v: Value): (r: Step)
    ensures r.status == Null || r.status in GroupValues("TroubleshooterStep", "STATUS")
    ensures r.status != Null ==> LooseEq(v, r.status)
  {
    s.(status := AssureConstant(v, Str("TroubleshooterStep"), "STATUS", Null))
  }

  /** The step statuses are draft and published, in that order. */
  lemma StatusGroup()
    ensures GroupValues("TroubleshooterStep", "STATUS") == [StatusDraft, StatusPublished]
  {
    var consts := Constants.ClassConstants("TroubleshooterStep");
    assert GroupValuesOf(consts[2..], "STATUS") == [];
    InGroupExactly(consts[1], "STATUS");
    InGroupExactly(consts[0], "STATUS");
  }

  /** `SetStatus` accepts every status of the group as it is. */
  lemma SetStatusKeepsStatuses(s: Step, v: Value)
    requires v in GroupValues("TroubleshooterStep", "STATUS")
    ensures SetStatus(s, v).status == v
  {
    StatusGroup();
    GroupValueKept(v, "TroubleshooterStep", "STATUS", Null);
  }

  /** The two statuses are kept, and any other value becomes `null`. */
  lemma SetStatusValues(s: Step)
    ensures SetStatus(s, StatusDraft).status == StatusDraft
    ensures SetStatus(s, StatusPublished).status == StatusPublished
    ensures SetStatus(s, Int(3)).status == Null
  {
    var consts := Constants.ClassConstants("TroubleshooterStep");
    InGroupExactly(consts[0], "STATUS");
    InGroupExactly(consts[1], "STATUS");
    AssureConstantFirst(StatusDraft, "TroubleshooterStep", "STATUS", Null, 0);
    AssureConstantFirst(StatusPublished, "TroubleshooterStep", "STATUS", Null, 1);
    assert forall c | c in consts :: !Matches(Int(3), c, "STATUS");
  }

  /** `setDisplayOrder`: an integer or `null`. */
  function SetDisplayOrder(s: Step, v: Value): (r: Step)
    ensures r.displayOrder == AssureInt(v, None)
  {
    s.(displayOrder := AssureInt(v, None))
  }

  function SetAllowComments(s: Step, v: Value): (r: Step)
    ensures r.allowComments == Some(Truthy(v))
  {
    s.(allowComments := Some(AssureBool(v)))
  }

  /** `setParentStepIds`: the normalised list of positive identifiers. */
  function SetParentStepIds(s: Step, v: Value): (r: Step)
    ensures forall k | 0 <= k < |r.parentStepIds| :: r.parentStepIds[k].Some? && r.parentStepIds[k].value > 0
    ensures r.parentStepIds == NormalizeIds(v)
    ensures r.childStepIds == s.childStepIds
  {
    s.(parentStepIds := NormalizeIds(v))
  }

  /** `setCategory`: a troubleshooter category object gives its identifier; anything else clears both. */
  function SetCategory(s: Step, v: Value): (r: Step)
    ensures v.Obj? && v.o.cls == "TroubleshooterCategory" ==> r.category == Some(v.o) && r.categoryId == v.o.id
    ensures !(v.Obj? && v.o.cls == "TroubleshooterCategory") ==> r.category.None? && r.categoryId.None?
  {
    var category := AssureObject(v, "TroubleshooterCategory");
    s.(category := category, categoryId := if category.Some? then category.value.id else None)
  }

  /** `setTicketTypeId`: an integer or `null`; the cached ticket type is dropped. */
  function SetTicketTypeId(s: Step, v: Value): (r: Step)
    ensures r.ticketTypeId == AssureInt(v, None) && r.ticketType.None?
  {
    s.(ticketTypeId := AssureInt(v, None), ticketType := None)
  }

  /** `setTicketType`: a ticket type object gives its identifier; anything else clears both. */
  function SetTicketType(s: Step, v: Value): (r: Step)
    ensures r.ticketType == AssureObject(v, "TicketType")
    ensures r.ticketTypeId == (if r.ticketType.Some? then r.ticketType.value.id else None)
  {
    var t := AssureObject(v, "TicketType");
    s.(ticketType := t, ticketTypeId := if t.Some? then t.value.id else None)
  }

  /** `setTicketPriorityId`: an integer or `null`; unlike the other identifier setters it keeps the cached
      priority object. */
  function SetTicketPriorityId(s: Step, v: Value): (r: Step)
    ensures r.ticketPriorityId == AssureInt(v, None) && r.ticketPriority == s.ticketPriority
  {
    s.(ticketPriorityId := AssureInt(v, None))
  }

  /** `setTicketPriority`: a ticket priority object gives its identifier; anything else clears both. */
  function SetTicketPriority(s: Step, v: Value): (r: Step)
    ensures r.ticketPriority == AssureObject(v, "TicketPriority")
    ensures r.ticketPriorityId == (if r.ticketPriority.Some? then r.ticketPriority.value.id else None)
  {
    var p := AssureObject(v, "TicketPriority");
    s.(ticketPriority := p, ticketPriorityId := if p.Some? then p.value.id else None)
  }

  function SetTicketSubject(s: Step, v: Value): (r: Step)
    ensures r.ticketSubject == AssureString(v, None)
  {
    s.(ticketSubject := AssureString(v, None))
  }

  function SetSubject(s: Step, v: Value): (r: Step)
    ensures r.subject == AssureString(v, None)
  {
    s.(subject := AssureString(v, None))
  }

  function SetContents(s: Step, v: Value): (r: Step)
    ensures r.contents == AssureString(v, None)
  {
    s.(contents := AssureString(v, None))
  }

  function SetEnableTicketRedirection(s: Step, v: Value): (r: Step)
    ensures r.enableTicketRedirection == Some(Truthy(v))
  {
    s.(enableTicketRedirection := Some(AssureBool(v)))
  }

  /** `setRedirectDepartmentId`: stores the string form, unlike the other identifier setters. */
  function SetRedirectDepartmentId(s: Step, v: Value): (r: Step)
    ensures r.redirectDepartmentId == StrOrNull(AssureString(v, None))
  {
    s.(redirectDepartmentId := StrOrNull(AssureString(v, None)))
  }

  /** `setRedirectDepartment`: a department object gives its (integer) identifier; anything else clears both. */
  function SetRedirectDepartment(s: Step, v: Value): (r: Step)
    ensures r.redirectDepartment == AssureObject(v, "Department")
    ensures r.redirectDepartmentId == (if r.redirectDepartment.Some? then IdValue(r.redirectDepartment.value.id) else Null)
  {
    var d := AssureObject(v, "Department");
    s.(redirectDepartment := d, redirectDepartmentId := if d.Some? then IdValue(d.value.id) else Null)
  }

  function SetStaff(s: Step, v: Value): (r: Step)
    ensures r.staff == AssureObject(v, "Staff")
    ensures r.staffId == (if r.staff.Some? then r.staff.value.id else None)
  {
    var staff := AssureObject(v, "Staff");
    s.(staff := staff, staffId := if staff.Some? then staff.value.id else None)
  }

  function SetEditedStaffId(s: Step, v: Value): (r: Step)
    ensures r.editedStaffId == AssurePositiveInt(v, None) && r.editedStaff.None?
  {
    s.(editedStaffId := AssurePositiveInt(v, None), editedStaff := None)
  }

  function SetEditedStaff(s: Step, v: Value): (r: Step)
    ensures r.editedStaff == AssureObject(v, "Staff")
    ensures r.editedStaffId == (if r.editedStaff.Some? then r.editedStaff.value.id else None)
  {
    var staff := AssureObject(v, "Staff");
    s.(editedStaff := staff, editedStaffId := if staff.Some? then staff.value.id else None)
  }

  /** Disabling redirection drops the whole redirection block from the next request. */
  lemma DisabledRedirectionSendsNoBlock(s: Step, create: bool)
    ensures RedirectData(SetEnableTicketRedirection(s, Bool(false))) == map[]
    ensures "ticketsubject" !in Build(SetEnableTicketRedirection(s, Bool(false)), create, Passes).value
  {
  }

  /** The common keys reach the request unchanged: neither the author key nor the redirection block
      overrides them. */
  lemma BuildSendsCommon(s: Step, create: bool)
    ensures forall key | key in CommonData(s) :: Sends(Build(s, create, Passes).value, key, CommonData(s)[key])
  {
    var common, mode, redirect := CommonData(s), ModeData(s, create), RedirectData(s);
    forall key | key in common
      ensures key !in mode && key !in redirect
    {
    }
  }

  /** What a setter stores is what the next request sends, on create and update alike: text through the
      string helper (`null` kept), the status as the constant it resolved to, the redirection flag through
      the boolean helper. */
  lemma SettersAreSent(s: Step, v: Value, create: bool)
    ensures var text := Via(AsString, StrOrNull(AssureString(v, None)));
      Sends(Build(SetSubject(s, v), create, Passes).value, "subject", text) &&
      Sends(Build(SetContents(s, v), create, Passes).value, "contents", text)
    ensures Sends(Build(SetStatus(s, v), create, Passes).value, "stepstatus", Via(AsNumeric, SetStatus(s, v).status))
    ensures Sends(Build(SetEnableTicketRedirection(s, v), create, Passes).value, "enableticketredirection",
                  Via(AsBool, Bool(Truthy(v))))
    ensures Sends(Build(SetDisplayOrder(s, v), create, Passes).value, "displayorder", Via(AsNumeric, IdValue(AssureInt(v, None))))
    ensures Sends(Build(SetAllowComments(s, v), create, Passes).value, "allowcomments", Via(AsBool, Bool(Truthy(v))))
  {
    BuildSendsCommon(SetSubject(s, v), create);
    BuildSendsCommon(SetContents(s, v), create);
    BuildSendsCommon(SetStatus(s, v), create);
    BuildSendsCommon(SetEnableTicketRedirection(s, v), create);
    BuildSendsCommon(SetDisplayOrder(s, v), create);
    BuildSendsCommon(SetAllowComments(s, v), create);
  }

  /** While redirection is enabled, the redirection targets set are the ones the next request sends. */
  lemma RedirectSettersAreSent(s: Step, v: Value, create: bool)
    requires s.enableTicketRedirection == Some(true)
    ensures Sends(Build(SetRedirectDepartmentId(s, v), create, Passes).value, "redirectdepartmentid",
                  Via(AsNumeric, StrOrNull(AssureString(v, None))))
    ensures Sends(Build(SetTicketTypeId(s, v), create, Passes).value, "tickettypeid", Via(AsNumeric, IdValue(AssureInt(v, None))))
    ensures Sends(Build(SetTicketPriorityId(s, v), create, Passes).value, "ticketpriorityid", Via(AsNumeric, IdValue(AssureInt(v, None))))
    ensures Sends(Build(SetTicketSubject(s, v), create, Passes).value, "ticketsubject", Via(AsString, StrOrNull(AssureString(v, None))))
  {
  }

  /** `createNew($category, $subject, $contents, $staff)`. */
  function CreateNew(category: Value, subject: Value, contents: Value, staff: PhpObject): (s: Step)
    requires staff.cls == "Staff"
    ensures s.staff == Some(staff) && s.staffId == staff.id
    ensures s.subject == AssureString(subject, None) && s.contents == AssureString(contents, None)
    ensures s.parentStepIds == []
  {
    SetStaff(SetContents(SetSubject(SetCategory(New(), category), subject), contents), Obj(staff))
  }
}

=== FILE: user.dfy ===
/** `User`: an end user of the help desk, member of a user group and optionally of an organization, with a
    role, a salutation, one or more email addresses, and account and SLA expiry timestamps. */
module User {
  import opened Wrappers
  import opened Php
  import opened Helper
  import opened Wire
  import Constants

  datatype User = User(
    id: Option<int>,
    userGroupId: Option<int>, userGroup: Option<PhpObject>,
    userRole: Value,
    userOrganizationId: Option<int>, userOrganization: Option<PhpObject>,
    salutation: Value,
    /** A timestamp, `null`, or `false` where `strtotime` failed. */
    userExpiry: Value,
    fullName: Value,
    /** The addresses as a PHP array; the server's data is stored as it comes, apart from a single string. */
    email: Value,
    designation: Value, phone: Value, dateline: Option<int>, lastVisit: Option<int>,
    isEnabled: bool, timezone: Value, enableDst: bool,
    slaPlanId: Option<int>, slaPlanExpiry: Value,
    /** The setter coerces to a boolean, so this is never `null`. */
    sendWelcomeEmail: bool,
    password: Option<string>)

  const RoleUser := Constants.RoleUser
  const RoleManager := Constants.RoleManager
  const SalutationMr := Constants.SalutationMr
  const SalutationMiss := Constants.SalutationMiss
  const SalutationMrs := Constants.SalutationMrs
  const SalutationDr := Constants.SalutationDr

  /** `new User()`: the user role, no expiry, no addresses, enabled, no DST, welcome email on. */
  function New(): (u: User)
    ensures u.userRole == RoleUser && u.userExpiry == Int(0) && u.email == Arr([])
    ensures u.isEnabled && !u.enableDst && u.sendWelcomeEmail
  {
    User(None, None, None, RoleUser, None, None, Null, Int(0), Null, Arr([]), Null, Null, None, None,
         true, Null, false, None, Null, true, None)
  }

  // ---------------------------------------------------------------------------------------------
  // Parsing

  /** The address list as `parseData` stores it: a single string becomes a one-element list, anything
      else is kept as it is. */
  function ParsedEmail(v: Value): (r: Value)
    ensures v.Str? ==> r == Arr([v])
    ensures !v.Str? ==> r == v
  {
    if v.Str? then Arr([v]) else v
  }

  /** `parseData`. Text fields are stored raw; the timestamps are positive or `null`. */
  function Parse(u: User, data: Value): (r: User)
    ensures r.id == Some(IntVal(Key(data, "id")))
    ensures r.userGroupId == AssurePositiveInt(Key(data, "usergroupid"), None)
    ensures r.userRole == Key(data, "userrole") && r.salutation == Key(data, "salutation")
    ensures r.email == ParsedEmail(Key(data, "email"))
    ensures r.userExpiry == IdValue(AssurePositiveInt(Key(data, "userexpiry"), None))
    ensures r.slaPlanExpiry == IdValue(AssurePositiveInt(Key(data, "slaplanexpiry"), None))
    ensures r.isEnabled == Truthy(Key(data, "isenabled")) && r.enableDst == Truthy(Key(data, "enabledst"))
  {
    u.(id := Some(IntVal(Key(data, "id"))),
       userGroupId := AssurePositiveInt(Key(data, "usergroupid"), None),
       userRole := Key(data, "userrole"),
       userOrganizationId := AssurePositiveInt(Key(data, "userorganizationid"), None),
       salutation := Key(data, "salutation"),
       userExpiry := IdValue(AssurePositiveInt(Key(data, "userexpiry"), None)),
       fullName := Key(data, "fullname"),
       email := ParsedEmail(Key(data, "email")),
       designation := Key(data, "designation"),
       phone := Key(data, "phone"),
       dateline := AssurePositiveInt(Key(data, "dateline"), None),
       lastVisit := AssurePositiveInt(Key(data, "lastvisit"), None),
       isEnabled := AssureBool(Key(data, "isenabled")),
       timezone := Key(data, "timezone"),
       enableDst := AssureBool(Key(data, "enabledst")),
       slaPlanId := AssurePositiveInt(Key(data, "slaplanid"), None),
       slaPlanExpiry := IdValue(AssurePositiveInt(Key(data, "slaplanexpiry"), None)))
  }

  /** A single address in the data parses into a one-element list, which `getEmail` returns. */
  lemma ParseSingleEmail(u: User, data: Value, s: string)
    requires Key(data, "email") == Str(s)
    ensures Parse(u, data).email == Arr([Str(s)])
    ensures GetEmail(Parse(u, data)) == Success(Str(s))
  {
  }

  // ---------------------------------------------------------------------------------------------
  // Requests

  /** The profile fields, sent on both create and update as the PHP values they hold. */
  function ProfileData(u: User): (d: Data)
    ensures Sends(d, "usergroupid", Raw(IdValue(u.userGroupId)))
    ensures Sends(d, "userorganizationid", Raw(IdValue(u.userOrganizationId)))
    ensures Sends(d, "userrole", Raw(u.userRole)) && Sends(d, "salutation", Raw(u.salutation))
    ensures Sends(d, "fullname", Raw(u.fullName)) && Sends(d, "email", Raw(u.email))
    ensures Sends(d, "designation", Raw(u.designation)) && Sends(d, "phone", Raw(u.phone))
    ensures Sends(d, "timezone", Raw(u.timezone))
    ensures "password" !in d && "sendwelcomeemail" !in d
  {
    map["usergroupid" := Raw(IdValue(u.userGroupId)),
        "userrole" := Raw(u.userRole),
        "userorganizationid" := Raw(IdValue(u.userOrganizationId)),
        "salutation" := Raw(u.salutation),
        "fullname" := Raw(u.fullName),
        "email" := Raw(u.email),
        "designation" := Raw(u.designation),
        "phone" := Raw(u.phone),
        "timezone" := Raw(u.timezone)]
  }

  /** The account fields, sent on both create and update: flags as 1/0, missing timestamps as 0. */
  function AccountData(u: User): (d: Data)
    ensures "userexpiry" in d && d["userexpiry"] == Raw(TimestampOrZero(u.userExpiry))
    ensures "slaplanexpiry" in d && d["slaplanexpiry"] == Raw(TimestampOrZero(u.slaPlanExpiry))
    ensures "isenabled" in d && d["isenabled"] == Raw(Flag(u.isEnabled))
    ensures "enabledst" in d && d["enabledst"] == Raw(Flag(u.enableDst))
    ensures Sends(d, "slaplanid", Raw(IdValue(u.slaPlanId)))
    ensures "usergroupid" !in d && "userorganizationid" !in d && "userrole" !in d && "salutation" !in d
    ensures "fullname" !in d && "email" !in d && "designation" !in d && "phone" !in d && "timezone" !in d
    ensures "password" !in d && "sendwelcomeemail" !in d
  {
    map["userexpiry" := Raw(TimestampOrZero(u.userExpiry)),
        "isenabled" := Raw(Flag(u.isEnabled)),
        "enabledst" := Raw(Flag(u.enableDst)),
        "slaplanid" := Raw(IdValue(u.slaPlanId)),
        "slaplanexpiry" := Raw(TimestampOrZero(u.slaPlanExpiry))]
  }

  /** `buildData($create)`: the password and the welcome-email flag only on create. */
  function Build(u: User, create: bool, check: Check): (r: Result<Data>)
    ensures r.Success? <==> check.Passes?
    ensures r.Success? ==> ("password" in r.value <==> create) && ("sendwelcomeemail" in r.value <==> create)
    ensures r.Success? && create ==> r.value["password"] == Raw(StrOrNull(u.password))
    ensures r.Success? && create ==> r.value["sendwelcomeemail"] == Raw(Flag(u.sendWelcomeEmail))
    ensures r.Success? ==> "userexpiry" in r.value && r.value["userexpiry"] == Raw(TimestampOrZero(u.userExpiry))
    ensures r.Success? ==> "slaplanexpiry" in r.value && r.value["slaplanexpiry"] == Raw(TimestampOrZero(u.slaPlanExpiry))
    ensures r.Success? ==> "isenabled" in r.value && r.value["isenabled"] == Raw(Flag(u.isEnabled))
    ensures r.Success? ==> "enabledst" in r.value && r.value["enabledst"] == Raw(Flag(u.enableDst))
    ensures r.Success? ==> "email" in r.value && r.value["email"] == Raw(u.email)
  {
    var common := ProfileData(u) + AccountData(u);
    Checked(check, if create then common["password" := Raw(StrOrNull(u.password))]["sendwelcomeemail" := Raw(Flag(u.sendWelcomeEmail))]
                   else common)
  }

  /** Every profile field goes out under its own key as the value the user holds, on create and update alike. */
  lemma BuildSendsProfile(u: User, create: bool)
    ensures var d := Build(u, create, Passes).value;
      Sends(d, "usergroupid", Raw(IdValue(u.userGroupId))) &&
      Sends(d, "userorganizationid", Raw(IdValue(u.userOrganizationId))) &&
      Sends(d, "userrole", Raw(u.userRole)) && Sends(d, "salutation", Raw(u.salutation)) &&
      Sends(d, "fullname", Raw(u.fullName)) && Sends(d, "designation", Raw(u.designation)) &&
      Sends(d, "phone", Raw(u.phone)) && Sends(d, "timezone", Raw(u.timezone)) &&
      Sends(d, "slaplanid", Raw(IdValue(u.slaPlanId)))
  {
  }

  /** An expiry survives a parse and the next update: a positive timestamp is sent back as it came, and a
      missing or non-positive one is sent as 0. */
  lemma ExpiryRoundTrip(u: User, data: Value)
    ensures var sent := Build(Parse(u, data), false, Passes).value["userexpiry"];
      (IntVal(Key(data, "userexpiry")) > 0 ==> sent == Raw(Int(IntVal(Key(data, "userexpiry"))))) &&
      (IntVal(Key(data, "userexpiry")) <= 0 ==> sent == Raw(Int(0)))
  {
  }

  /** The flags go out as 1 or 0, and read back as the flag they were. */
  lemma FlagsRoundTrip(u: User, create: bool)
    ensures var d := Build(u, create, Passes).value;
      d["isenabled"].Raw? && Truthy(d["isenabled"].v) == u.isEnabled &&
      d["enabledst"].Raw? && Truthy(d["enabledst"].v) == u.enableDst
  {
  }

  /** A positive starting identifier was given. */
  predicate Positive(v: Value) {
    IsNumeric(v) && IntVal(v) > 0
  }

  /** `getAll($startingUserId, $maxItems)`: `'Filter'`, then each argument in turn when it is a positive
      number. */
  function GetAllParameters(start: Value, maxItems: Value): (ps: seq<Value>)
    ensures |ps| == 1 + (if Positive(start) then 1 else 0) + (if Positive(maxItems) then 1 else 0)
    ensures ps[0] == Str("Filter")
    ensures Positive(start) ==> ps[1] == start
    ensures Positive(maxItems) ==> ps[|ps| - 1] == maxItems
  {
    var ps := [Str("Filter")];
    var ps := if Positive(start) then ps + [start] else ps;
    if Positive(maxItems) then ps + [maxItems] else ps
  }

  /** The parameters are positional: without a starting identifier the maximum takes the second place,
      where a starting identifier goes when there is one. */
  lemma GetAllPositions(maxItems: int)
    requires maxItems > 0
    ensures GetAllParameters(Null, Int(maxItems)) == [Str("Filter"), Int(maxItems)]
    ensures GetAllParameters(Int(maxItems), Null) == [Str("Filter"), Int(maxItems)]
  {
  }

  // ---------------------------------------------------------------------------------------------
  // Email addresses

  /** `getEmail()`, PHP's `reset`: the first address, `false` for an empty list; `reset` of a value that is
      not an array is a runtime error. */
  function GetEmail(u: User): (r: Result<Value>)
    ensures r.Success? <==> IsArray(u.email)
    ensures r.Success? && |Elements(u.email)| > 0 ==> r.value == Elements(u.email)[0]
    ensures r.Success? && |Elements(u.email)| == 0 ==> r.value == Bool(false)
  {
    if !IsArray(u.email) then Failure(RuntimeError("reset(): Argument #1 ($array) must be of type array"))
    else if |Elements(u.email)| == 0 then Success(Bool(false))
    else Success(Elements(u.email)[0])
  }

  /** `addEmail($email, $clear)`: empty the list first when `clear` is set, then append the address as a
      string unless it is `null`. PHP appends to a list or a keyed array alike, and turns `null` or `false`
      into a list on append; appending to any other value is a runtime error. */
  function AddEmail(u: User, email: Value, clear: bool): (r: Result<User>)
    ensures email.Null? ==> r.Success? && r.value.email == (if clear then Arr([]) else u.email)
    ensures !email.Null? && clear ==> r.Success? && r.value.email == Arr([Str(StrVal(email))])
    ensures !email.Null? && !clear && IsArray(u.email) ==>
      r.Success? && Elements(r.value.email) == Elements(u.email) + [Str(StrVal(email))]
      && (r.value.email.Dict? <==> u.email.Dict?)
    ensures !email.Null? && !clear && u.email.Arr? ==> r.Success? && r.value.email == Arr(u.email.items + [Str(StrVal(email))])
    ensures !email.Null? && !clear && (u.email.Null? || u.email == Bool(false)) ==>
      r.Success? && r.value.email == Arr([Str(StrVal(email))])
    ensures r.Failure? <==> !email.Null? && !clear && !IsArray(u.email) && !u.email.Null? && u.email != Bool(false)
    ensures r.Success? ==> r.value == u.(email := r.value.email)
  {
    var list := if clear then Arr([]) else u.email;
    if email.Null? then Success(u.(email := list))
    else
      var entry := StrOrNull(AssureString(email, None));
      if IsArray(list) then Success(u.(email := Append(list, entry)))
      else if list.Null? || list == Bool(false) then Success(u.(email := Arr([entry])))
      else Failure(RuntimeError("Cannot use a scalar value as an array"))
  }

  /** Clearing then adding an address leaves it the only one, and `getEmail` returns it. */
  lemma ClearedEmailIsFirst(u: User, email: Value)
    requires !email.Null?
    ensures AddEmail(u, email, true).Success?
    ensures GetEmail(AddEmail(u, email, true).value) == Success(Str(StrVal(email)))
  {
  }

  /** Adding to a list keeps the first address: `getEmail` is unchanged by a later `addEmail`. */
  lemma AddEmailKeepsFirst(u: User, email: Value)
    requires IsArray(u.email) && |Elements(u.email)| > 0 && !email.Null?
    ensures AddEmail(u, email, false).Success?
    ensures GetEmail(AddEmail(u, email, false).value) == GetEmail(u)
  {
  }

  // ---------------------------------------------------------------------------------------------
  // Setters and getters

  /** `setUserGroupId`: positive or `null`; the cached group is dropped. */
  function SetUserGroupId(u: User, v: Value): (r: User)
    ensures r.userGroupId == AssurePositiveInt(v, None) && r.userGroup.None?
  {
    u.(userGroupId := AssurePositiveInt(v, None), userGroup := None)
  }

  /** `getUserGroup($reload)`. */
  function GetUserGroup(u: User, reload: bool): (r: Lookup)
    ensures r.Cached? <==> u.userGroup.Some? && !reload
    ensures r.Fetch? <==> (u.userGroup.None? || reload) && u.userGroupId.Some?
    ensures r.Fetch? ==> r.ids == [u.userGroupId.value]
  {
    LazyGet(u.userGroup, u.userGroupId, reload, false)
  }

  /** `setUserGroup(UserGroup $group)`: the group, and its identifier with it. */
  function SetUserGroup(u: User, group: PhpObject): (r: User)
    requires group.cls == "UserGroup"
    ensures r.userGroup == Some(group) && r.userGroupId == group.id
  {
    u.(userGroup := Some(group), userGroupId := group.id)
  }

  /** After `setUserGroupId` the group is fetched by the new identifier, never taken from a stale cache. */
  lemma SetUserGroupIdRefetches(u: User, id: int)
    requires id > 0
    ensures GetUserGroup(SetUserGroupId(u, Int(id)), false) == Fetch([id])
  {
  }

  function SetUserOrganizationId(u: User, v: Value): (r: User)
    ensures r.userOrganizationId == AssurePositiveInt(v, None) && r.userOrganization.None?
  {
    u.(userOrganizationId := AssurePositiveInt(v, None), userOrganization := None)
  }

  function GetUserOrganization(u: User, reload: bool): (r: Lookup)
    ensures r.Cached? <==> u.userOrganization.Some? && !reload
    ensures r.Fetch? <==> (u.userOrganization.None? || reload) && u.userOrganizationId.Some?
  {
    LazyGet(u.userOrganization, u.userOrganizationId, reload, false)
  }

  function SetUserOrganization(u: User, organization: PhpObject): (r: User)
    requires organization.cls == "UserOrganization"
    ensures r.userOrganization == Some(organization) && r.userOrganizationId == organization.id
  {
    u.(userOrganization := Some(organization), userOrganizationId := organization.id)
  }

  /** `setUserRole`: a ROLE constant, or `null`. */
  function SetUserRole(u: User, v: Value): (r: User)
    ensures r.userRole == Null || r.userRole in GroupValues("User", "ROLE")
    ensures r.userRole != Null ==> LooseEq(v, r.userRole)
  {
    u.(userRole := AssureConstant(v, Str("User"), "ROLE", Null))
  }

  /** `SetUserRole` accepts every role of the group as it is. */
  lemma SetUserRoleKeepsRoles(u: User, v: Value)
    requires v in GroupValues("User", "ROLE")
    ensures SetUserRole(u, v).userRole == v
  {
    RoleGroup();
    TextsDistinct([RoleUser, RoleManager]);
    GroupValueKept(v, "User", "ROLE", Null);
  }

  /** The roles are `'user'` and `'manager'`; the SALUTATION constants are not roles. */
  lemma RoleGroup()
    ensures GroupValues("User", "ROLE") == [RoleUser, RoleManager]
  {
    var consts := Constants.ClassConstants("User");
    assert GroupValuesOf(consts[2..], "ROLE") == [] by {
      assert GroupValuesOf(consts[6..], "ROLE") == [];
      assert GroupValuesOf(consts[5..], "ROLE") == [];
      assert GroupValuesOf(consts[4..], "ROLE") == [];
      assert GroupValuesOf(consts[3..], "ROLE") == [];
    }
    InGroupExactly(consts[1], "ROLE");
    InGroupExactly(consts[0], "ROLE");
  }

  lemma SetUserRoleManager(u: User)
    ensures SetUserRole(u, Str("manager")).userRole == RoleManager
  {
    var consts := Constants.ClassConstants("User");
    InGroupExactly(consts[1], "ROLE");
    AssureConstantFirst(Str("manager"), "User", "ROLE", Null, 1);
  }

  /** A salutation is not a role: it is refused. */
  lemma SetUserRoleRefuses(u: User)
    ensures SetUserRole(u, Str("Mr.")).userRole == Null
  {
    var consts := Constants.ClassConstants("User");
    assert forall k | k in consts :: !Matches(Str("Mr."), k, "ROLE");
  }

  /** The salutations are Mr., Ms., Mrs. and Dr., in that order. */
  lemma SalutationGroup()
    ensures GroupValues("User", "SALUTATION") == [SalutationMr, SalutationMiss, SalutationMrs, SalutationDr]
  {
    var consts := Constants.ClassConstants("User");
    assert GroupValuesOf(consts[6..], "SALUTATION") == [];
    InGroupExactly(consts[5], "SALUTATION");
    InGroupExactly(consts[4], "SALUTATION");
    InGroupExactly(consts[3], "SALUTATION");
    InGroupExactly(consts[2], "SALUTATION");
  }

  /** `SetSalutation` accepts every salutation of the group as it is. */
  lemma SetSalutationKeepsSalutations(u: User, v: Value)
    requires v in GroupValues("User", "SALUTATION")
    ensures SetSalutation(u, v).salutation == v
  {
    SalutationGroup();
    TextsDistinct([SalutationMr, SalutationMiss, SalutationMrs, SalutationDr]);
    GroupValueKept(v, "User", "SALUTATION", Null);
  }

  /** `setSalutation`: a SALUTATION constant, or `null`. */
  function SetSalutation(u: User, v: Value): (r: User)
    ensures r.salutation == Null || r.salutation in GroupValues("User", "SALUTATION")
    ensures r.salutation != Null ==> LooseEq(v, r.salutation)
  {
    u.(salutation := AssureConstant(v, Str("User"), "SALUTATION", Null))
  }

  lemma SetSalutationDoctor(u: User)
    ensures SetSalutation(u, Str("Dr.")).salutation == SalutationDr
  {
    var consts := Constants.ClassConstants("User");
    InGroupExactly(consts[5], "SALUTATION");
    AssureConstantFirst(Str("Dr."), "User", "SALUTATION", Null, 5);
  }

  /** A role is not a salutation. */
  lemma SetSalutationRefuses(u: User)
    ensures SetSalutation(u, Str("user")).salutation == Null
  {
    var consts := Constants.ClassConstants("User");
    assert forall k | k in consts :: !Matches(Str("user"), k, "SALUTATION");
  }

  /** A title that is not one of the constants' values, even one naming a constant, is refused too. */
  lemma SetSalutationRefusesUnknown(u: User)
    ensures SetSalutation(u, Str("Miss")).salutation == Null
  {
    var consts := Constants.ClassConstants("User");
    assert forall k | k in consts :: !Matches(Str("Miss"), k, "SALUTATION");
  }

  /** `setUserExpiry`: see `AssureTimestamp`. */
  function SetUserExpiry(u: User, v: Value, parsed: Option<int>): (r: User)
    ensures IsNumeric(v) || v.Null? ==> r.userExpiry == IdValue(AssurePositiveInt(v, None))
    ensures !(IsNumeric(v) || v.Null?) ==> r.userExpiry == (if parsed.Some? then Int(parsed.value) else Bool(false))
  {
    u.(userExpiry := AssureTimestamp(v, parsed))
  }

  /** `setSLAPlanExpiry`: see `AssureTimestamp`. */
  function SetSlaPlanExpiry(u: User, v: Value, parsed: Option<int>): (r: User)
    ensures IsNumeric(v) || v.Null? ==> r.slaPlanExpiry == IdValue(AssurePositiveInt(v, None))
    ensures !(IsNumeric(v) || v.Null?) ==> r.slaPlanExpiry == (if parsed.Some? then Int(parsed.value) else Bool(false))
  {
    u.(slaPlanExpiry := AssureTimestamp(v, parsed))
  }

  /** Clearing an expiry with `null` sends 0, the server's "never". */
  lemma ClearedExpirySendsZero(u: User, parsed: Option<int>)
    ensures Build(SetUserExpiry(u, Null, parsed), true, Passes).value["userexpiry"] == Raw(Int(0))
    ensures Build(SetSlaPlanExpiry(u, Null, parsed), true, Passes).value["slaplanexpiry"] == Raw(Int(0))
  {
  }

  function SetSlaPlanId(u: User, v: Value): (r: User)
    ensures r.slaPlanId == AssurePositiveInt(v, None)
  {
    u.(slaPlanId := AssurePositiveInt(v, None))
  }

  function SetFullName(u: User, v: Value): (r: User)
    ensures r.fullName == StrOrNull(AssureString(v, None))
  {
    u.(fullName := StrOrNull(AssureString(v, None)))
  }

  function SetDesignation(u: User, v: Value): (r: User)
    ensures r.designation == StrOrNull(AssureString(v, None))
  {
    u.(designation := StrOrNull(AssureString(v, None)))
  }

  function SetPhone(u: User, v: Value): (r: User)
    ensures r.phone == StrOrNull(AssureString(v, None))
  {
    u.(phone := StrOrNull(AssureString(v, None)))
  }

  function SetTimezone(u: User, v: Value): (r: User)
    ensures r.timezone == StrOrNull(AssureString(v, None))
  {
    u.(timezone := StrOrNull(AssureString(v, None)))
  }

  function SetIsEnabled(u: User, v: Value): (r: User)
    ensures r.isEnabled == Truthy(v)
  {
    u.(isEnabled := AssureBool(v))
  }

  function SetEnableDst(u: User, v: Value): (r: User)
    ensures r.enableDst == Truthy(v)
  {
    u.(enableDst := AssureBool(v))
  }

  function SetPassword(u: User, v: Value): (r: User)
    ensures r.password == AssureString(v, None)
  {
    u.(password := AssureString(v, None))
  }

  function SetSendWelcomeEmail(u: User, v: Value): (r: User)
    ensures r.sendWelcomeEmail == Truthy(v)
  {
    u.(sendWelcomeEmail := AssureBool(v))
  }

  /** What a setter stores is what the next request sends under the property's key: text as its string
      form (`null` kept), the role and salutation as the constant they resolved to, identifiers as positive
      integers or `null`. */
  lemma SettersAreSent(u: User, v: Value, create: bool)
    ensures var text := Raw(StrOrNull(AssureString(v, None)));
      Sends(Build(SetFullName(u, v), create, Passes).value, "fullname", text) &&
      Sends(Build(SetDesignation(u, v), create, Passes).value, "designation", text) &&
      Sends(Build(SetPhone(u, v), create, Passes).value, "phone", text) &&
      Sends(Build(SetTimezone(u, v), create, Passes).value, "timezone", text)
    ensures Sends(Build(SetUserRole(u, v), create, Passes).value, "userrole", Raw(SetUserRole(u, v).userRole))
    ensures Sends(Build(SetSalutation(u, v), create, Passes).value, "salutation", Raw(SetSalutation(u, v).salutation))
    ensures var id := Raw(IdValue(AssurePositiveInt(v, None)));
      Sends(Build(SetUserGroupId(u, v), create, Passes).value, "usergroupid", id) &&
      Sends(Build(SetUserOrganizationId(u, v), create, Passes).value, "userorganizationid", id) &&
      Sends(Build(SetSlaPlanId(u, v), create, Passes).value, "slaplanid", id)
  {
    BuildSendsProfile(SetFullName(u, v), create);
    BuildSendsProfile(SetDesignation(u, v), create);
    BuildSendsProfile(SetPhone(u, v), create);
    BuildSendsProfile(SetTimezone(u, v), create);
    BuildSendsProfile(SetUserRole(u, v), create);
    BuildSendsProfile(SetSalutation(u, v), create);
    BuildSendsProfile(SetUserGroupId(u, v), create);
    BuildSendsProfile(SetUserOrganizationId(u, v), create);
    BuildSendsProfile(SetSlaPlanId(u, v), create);
  }

  /** `createNew($fullName, $email, UserGroup $group, $password)`: a new user with one address (none for a
      `null` address) in the given group. */
  function CreateNew(fullName: Value, email: Value, group: PhpObject, password: Value): (u: User)
    requires group.cls == "UserGroup"
    ensures u.fullName == StrOrNull(AssureString(fullName, None))
    ensures u.email == (if email.Null? then Arr([]) else Arr([Str(StrVal(email))]))
    ensures u.userGroup == Some(group) && u.userGroupId == group.id
    ensures u.password == AssureString(password, None) && u.userRole == RoleUser
  {
    var named := SetFullName(New(), fullName);
    var withEmail := AddEmail(named, email, false);
    SetPassword(SetUserGroup(withEmail.value, group), password)
  }

  /** `getId($complete)`. */
  function GetId(u: User, complete: bool): (v: Value)
    ensures complete ==> v == Arr([IdValue(u.id)])
    ensures !complete ==> v == IdValue(u.id)
  {
    if complete then Arr([IdValue(u.id)]) else IdValue(u.id)
  }
}

=== FILE: user_group.dfy ===
/** `UserGroup`: a group of users, guest or registered; the built-in groups are "master" groups. */
module UserGroup {
  import opened Wrappers
  import opened Php
  import opened Helper
  import opened Wire
  import Constants
  import User

  datatype Group = Group(id: Option<int>, title: Value, groupType: Value, isMaster: Option<bool>)

  const TypeGuest := Constants.UserGroupTypeGuest
  const TypeRegistered := Constants.UserGroupTypeRegistered

  /** `new UserGroup()`: no identifier, type or master flag yet, all `null`. */
  function New(): (g: Group)
    ensures g.id.None? && g.groupType.Null? && g.isMaster.None?
  {
    Group(None, Null, Null, None)
  }

  /** The group as an object other records link to. */
  function AsObject(g: Group): (o: PhpObject)
    ensures o.cls == "UserGroup" && o.id == g.id
  {
    PhpObject("UserGroup", g.id, "")
  }

  /** `parseData`: the title and the type (from `grouptype`) as they come, `ismaster` as a boolean. */
  function Parse(g: Group, data: Value): (r: Group)
    ensures r.id == Some(IntVal(Key(data, "id")))
    ensures r.title == Key(data, "title") && r.groupType == Key(data, "grouptype")
    ensures r.isMaster == Some(Truthy(Key(data, "ismaster")))
  {
    Group(Some(IntVal(Key(data, "id"))), Key(data, "title"), Key(data, "grouptype"), Some(AssureBool(Key(data, "ismaster"))))
  }

  /** `buildData`: exactly the title and the type, the latter under `grouptype`. */
  function Build(g: Group, create: bool, check: Check): (r: Result<Data>)
    ensures r.Success? <==> check.Passes?
    ensures r.Success? ==> r.value.Keys == {"title", "grouptype"}
    ensures r.Success? ==> r.value["title"] == Raw(g.title) && r.value["grouptype"] == Raw(g.groupType)
  {
    Checked(check, map["title" := Raw(g.title), "grouptype" := Raw(g.groupType)])
  }

  /** A group read from the server is sent back with the title and type it came with. */
  lemma ParseThenBuild(g: Group, data: Value, create: bool)
    ensures var d := Build(Parse(g, data), create, Passes).value;
      d["title"] == Raw(Key(data, "title")) && d["grouptype"] == Raw(Key(data, "grouptype"))
  {
  }

  function SetTitle(g: Group, v: Value): (r: Group)
    ensures r.title == StrOrNull(AssureString(v, None)) && r.groupType == g.groupType
  {
    g.(title := StrOrNull(AssureString(v, None)))
  }

  /** `setType`: one of the TYPE constants, or `null`. */
  function SetType(g: Group, v: Value): (r: Group)
    ensures r.groupType == Null || r.groupType in GroupValues("UserGroup", "TYPE")
    ensures r.groupType != Null ==> LooseEq(v, r.groupType)
    ensures r.title == g.title
  {
    g.(groupType := AssureConstant(v, Str("UserGroup"), "TYPE", Null))
  }

  /** The group types are `'guest'` and `'registered'`, in that order. */
  lemma TypeGroup()
    ensures GroupValues("UserGroup", "TYPE") == [TypeGuest, TypeRegistered]
  {
    var consts := Constants.ClassConstants("UserGroup");
    InGroupExactly(consts[1], "TYPE");
    InGroupExactly(consts[0], "TYPE");
  }

  /** `setType` accepts every group type as it is. */
  lemma SetTypeKeepsTypes(g: Group, v: Value)
    requires v in GroupValues("UserGroup", "TYPE")
    ensures SetType(g, v).groupType == v
  {
    TypeGroup();
    TextsDistinct([TypeGuest, TypeRegistered]);
    GroupValueKept(v, "UserGroup", "TYPE", Null);
  }

  /** A value outside the TYPE group is refused. */
  lemma SetTypeRefuses(g: Group)
    ensures SetType(g, Str("staff")).groupType == Null
  {
    var consts := Constants.ClassConstants("UserGroup");
    assert forall k | k in consts :: !Matches(Str("staff"), k, "TYPE");
  }

  /** What a setter stores is what the next request sends: the title as its string form (`null` kept), the
      type as the constant it resolved to. */
  lemma SettersAreSent(g: Group, v: Value, create: bool)
    ensures Sends(Build(SetTitle(g, v), create, Passes).value, "title", Raw(StrOrNull(AssureString(v, None))))
    ensures Sends(Build(SetType(g, v), create, Passes).value, "grouptype", Raw(SetType(g, v).groupType))
  {
  }

  /** `createNew($title, $type = self::TYPE_REGISTERED)`. */
  function CreateNew(title: Value, groupType: Value): (g: Group)
    ensures g.title == StrOrNull(AssureString(title, None))
    ensures g.groupType == AssureConstant(groupType, Str("UserGroup"), "TYPE", Null)
    ensures g.id.None?
  {
    SetType(SetTitle(New(), title), groupType)
  }

  /** With the default type a new group is a registered one. */
  lemma CreateNewRegistered(title: Value)
    ensures CreateNew(title, TypeRegistered).groupType == TypeRegistered
  {
    var consts := Constants.ClassConstants("UserGroup");
    InGroupExactly(consts[1], "TYPE");
    AssureConstantFirst(TypeRegistered, "UserGroup", "TYPE", Null, 1);
  }

  /** `newUser($fullName, $email, $password)`: a user in this group. */
  function NewUser(g: Group, fullName: Value, email: Value, password: Value): (u: User.User)
    ensures u.userGroup == Some(AsObject(g)) && u.userGroupId == g.id
    ensures u.fullName == StrOrNull(AssureString(fullName, None))
  {
    User.CreateNew(fullName, email, AsObject(g), password)
  }

  /** `getId($complete)`. */
  function GetId(g: Group, complete: bool): (v: Value)
    ensures complete ==> v == Arr([IdValue(g.id)])
    ensures !complete ==> v == IdValue(g.id)
  {
    if complete then Arr([IdValue(g.id)]) else IdValue(g.id)
  }
}

=== FILE: user_organization.dfy ===
/** `UserOrganization`: an organization users belong to, restricted or shared, with contact details and an
    optional SLA plan. */
module UserOrganization {
  import opened Wrappers
  import opened Php
  import opened Helper
  import opened Wire
  import Constants

  datatype Organization = Organization(
    id: Option<int>, name: Value, orgType: Value,
    address: Value, city: Value, state: Value, postalCode: Value, country: Value,
    phone: Value, fax: Value, website: Value,
    dateline: Option<int>, lastUpdate: Option<int>,
    slaPlanId: Option<int>,
    /** A positive timestamp, `null`, or whatever `strtotime` gave the setter (`false` on failure). */
    slaPlanExpiry: Value)

  const TypeRestricted := Constants.OrganizationTypeRestricted
  const TypeShared := Constants.OrganizationTypeShared

  /** `new UserOrganization()`: restricted. */
  function New(): (o: Organization)
    ensures o.orgType == TypeRestricted && o.slaPlanExpiry.Null? && o.id.None?
  {
    Organization(None, Null, TypeRestricted, Null, Null, Null, Null, Null, Null, Null, Null, None, None, None, Null)
  }

  /** `parseData`: the contact fields and the type as they come, the timestamps and the SLA plan as positive
      integers or `null`. */
  function Parse(o: Organization, data: Value): (r: Organization)
    ensures r.id == Some(IntVal(Key(data, "id")))
    ensures r.orgType == Key(data, "organizationtype") && r.name == Key(data, "name")
    ensures r.dateline == AssurePositiveInt(Key(data, "dateline"), None)
    ensures r.lastUpdate == AssurePositiveInt(Key(data, "lastupdate"), None)
    ensures r.slaPlanId == AssurePositiveInt(Key(data, "slaplanid"), None)
    ensures r.slaPlanExpiry == IdValue(AssurePositiveInt(Key(data, "slaplanexpiry"), None))
  {
    Organization(
      Some(IntVal(Key(data, "id"))), Key(data, "name"), Key(data, "organizationtype"),
      Key(data, "address"), Key(data, "city"), Key(data, "state"), Key(data, "postalcode"), Key(data, "country"),
      Key(data, "phone"), Key(data, "fax"), Key(data, "website"),
      AssurePositiveInt(Key(data, "dateline"), None), AssurePositiveInt(Key(data, "lastupdate"), None),
      AssurePositiveInt(Key(data, "slaplanid"), None),
      IdValue(AssurePositiveInt(Key(data, "slaplanexpiry"), None)))
  }

  /** `buildData($create)`: the same fields on create and update; the identifier and the two server-side
      timestamps are never sent, and a missing SLA expiry goes out as 0. */
  function Build(o: Organization, create: bool, check: Check): (r: Result<Data>)
    ensures r.Success? <==> check.Passes?
    ensures r.Success? ==> "id" !in r.value && "dateline" !in r.value && "lastupdate" !in r.value
    ensures r.Success? ==> "organizationtype" in r.value && r.value["organizationtype"] == Raw(o.orgType)
    ensures r.Success? ==> "slaplanid" in r.value && r.value["slaplanid"] == Raw(IdValue(o.slaPlanId))
    ensures r.Success? ==> "slaplanexpiry" in r.value && r.value["slaplanexpiry"] == Raw(TimestampOrZero(o.slaPlanExpiry))
  {
    Checked(check, map[
      "name" := Raw(o.name), "organizationtype" := Raw(o.orgType),
      "address" := Raw(o.address), "city" := Raw(o.city), "state" := Raw(o.state),
      "postalcode" := Raw(o.postalCode), "country" := Raw(o.country),
      "phone" := Raw(o.phone), "fax" := Raw(o.fax), "website" := Raw(o.website),
      "slaplanid" := Raw(IdValue(o.slaPlanId)), "slaplanexpiry" := Raw(TimestampOrZero(o.slaPlanExpiry))])
  }

  /** The request carries exactly the twelve editable fields. */
  lemma BuildKeys(o: Organization, create: bool)
    ensures Build(o, create, Passes).value.Keys ==
      {"name", "organizationtype", "address", "city", "state", "postalcode", "country", "phone", "fax",
       "website", "slaplanid", "slaplanexpiry"}
  {
  }

  /** The request does not depend on whether it creates or updates. */
  lemma BuildIgnoresMode(o: Organization, check: Check)
    ensures Build(o, true, check) == Build(o, false, check)
  {
  }

  /** An SLA expiry survives a parse and the next update: a positive timestamp is sent back as it came,
      anything else as 0. */
  lemma SlaPlanExpiryRoundTrip(o: Organization, data: Value)
    ensures var sent := Build(Parse(o, data), false, Passes).value["slaplanexpiry"];
      (IntVal(Key(data, "slaplanexpiry")) > 0 ==> sent == Raw(Int(IntVal(Key(data, "slaplanexpiry"))))) &&
      (IntVal(Key(data, "slaplanexpiry")) <= 0 ==> sent == Raw(Int(0)))
  {
  }

  // ---------------------------------------------------------------------------------------------
  // Setters

  /** `setType`: one of the TYPE constants, or `null`. */
  function SetType(o: Organization, v: Value): (r: Organization)
    ensures r.orgType == Null || r.orgType in GroupValues("UserOrganization", "TYPE")
    ensures r.orgType != Null ==> LooseEq(v, r.orgType)
  {
    o.(orgType := AssureConstant(v, Str("UserOrganization"), "TYPE", Null))
  }

  /** `SetType` accepts every type of the group as it is. */
  lemma SetTypeKeepsTypes(o: Organization, v: Value)
    requires v in GroupValues("UserOrganization", "TYPE")
    ensures SetType(o, v).orgType == v
  {
    TypeGroup();
    TextsDistinct([TypeRestricted, TypeShared]);
    GroupValueKept(v, "UserOrganization", "TYPE", Null);
  }

  /** The organization types are `'restricted'` and `'shared'`, in that order. */
  lemma TypeGroup()
    ensures GroupValues("UserOrganization", "TYPE") == [TypeRestricted, TypeShared]
  {
    var consts := Constants.ClassConstants("UserOrganization");
    InGroupExactly(consts[1], "TYPE");
    InGroupExactly(consts[0], "TYPE");
  }

  lemma SetTypeShared(o: Organization)
    ensures SetType(o, Str("shared")).orgType == TypeShared
  {
    var consts := Constants.ClassConstants("UserOrganization");
    InGroupExactly(consts[1], "TYPE");
    AssureConstantFirst(Str("shared"), "UserOrganization", "TYPE", Null, 1);
  }

  /** A value outside the TYPE group is refused. */
  lemma SetTypeRefuses(o: Organization)
    ensures SetType(o, Str("public")).orgType == Null
  {
    var consts := Constants.ClassConstants("UserOrganization");
    assert forall k | k in consts :: !Matches(Str("public"), k, "TYPE");
  }

  function SetName(o: Organization, v: Value): (r: Organization)
    ensures r.name == StrOrNull(AssureString(v, None))
  {
    o.(name := StrOrNull(AssureString(v, None)))
  }

  function SetAddress(o: Organization, v: Value): (r: Organization)
    ensures r.address == StrOrNull(AssureString(v, None))
  {
    o.(address := StrOrNull(AssureString(v, None)))
  }

  function SetCity(o: Organization, v: Value): (r: Organization)
    ensures r.city == StrOrNull(AssureString(v, None))
  {
    o.(city := StrOrNull(AssureString(v, None)))
  }

  function SetState(o: Organization, v: Value): (r: Organization)
    ensures r.state == StrOrNull(AssureString(v, None))
  {
    o.(state := StrOrNull(AssureString(v, None)))
  }

  function SetPostalCode(o: Organization, v: Value): (r: Organization)
    ensures r.postalCode == StrOrNull(AssureString(v, None))
  {
    o.(postalCode := StrOrNull(AssureString(v, None)))
  }

  function SetCountry(o: Organization, v: Value): (r: Organization)
    ensures r.country == StrOrNull(AssureString(v, None))
  {
    o.(country := StrOrNull(AssureString(v, None)))
  }

  function SetPhone(o: Organization, v: Value): (r: Organization)
    ensures r.phone == StrOrNull(AssureString(v, None))
  {
    o.(phone := StrOrNull(AssureString(v, None)))
  }

  function SetFax(o: Organization, v: Value): (r: Organization)
    ensures r.fax == StrOrNull(AssureString(v, None))
  {
    o.(fax := StrOrNull(AssureString(v, None)))
  }

  function SetWebsite(o: Organization, v: Value): (r: Organization)
    ensures r.website == StrOrNull(AssureString(v, None))
  {
    o.(website := StrOrNull(AssureString(v, None)))
  }

  /** `setSLAPlanId`: a positive identifier or `null`. */
  function SetSlaPlanId(o: Organization, v: Value): (r: Organization)
    ensures r.slaPlanId.None? || r.slaPlanId.value > 0
    ensures IntVal(v) > 0 <==> r.slaPlanId == Some(IntVal(v))
  {
    o.(slaPlanId := AssurePositiveInt(v, None))
  }

  /** `setSLAPlanExpiry`: a number or `null` is kept only when positive; any other value is the timestamp
      `strtotime` parses from it (`parsed`). */
  function SetSlaPlanExpiry(o: Organization, v: Value, parsed: Option<int>): (r: Organization)
    ensures IsNumeric(v) || v.Null? ==> r.slaPlanExpiry == IdValue(AssurePositiveInt(v, None))
    ensures !(IsNumeric(v) || v.Null?) ==> r.slaPlanExpiry == (if parsed.Some? then Int(parsed.value) else Bool(false))
  {
    o.(slaPlanExpiry := AssureTimestamp(v, parsed))
  }

  /** Clearing the SLA expiry, or setting a non-positive number, sends 0. */
  lemma ClearedSlaPlanExpirySendsZero(o: Organization, v: Value, parsed: Option<int>, create: bool)
    requires v.Null? || (IsNumeric(v) && IntVal(v) <= 0)
    ensures Build(SetSlaPlanExpiry(o, v, parsed), create, Passes).value["slaplanexpiry"] == Raw(Int(0))
  {
  }

  /** Every contact field goes out under its own key as the value the organization holds. */
  lemma BuildSendsContact(o: Organization, create: bool)
    ensures var d := Build(o, create, Passes).value;
      Sends(d, "name", Raw(o.name)) && Sends(d, "address", Raw(o.address)) && Sends(d, "city", Raw(o.city)) &&
      Sends(d, "state", Raw(o.state)) && Sends(d, "postalcode", Raw(o.postalCode)) &&
      Sends(d, "country", Raw(o.country)) && Sends(d, "phone", Raw(o.phone)) && Sends(d, "fax", Raw(o.fax)) &&
      Sends(d, "website", Raw(o.website))
  {
  }

  /** What a setter stores is what the next request sends under the property's key: contact fields as their
      string form (`null` kept), the SLA plan as a positive identifier or `null`. */
  lemma SettersAreSent(o: Organization, v: Value, create: bool)
    ensures var text := Raw(StrOrNull(AssureString(v, None)));
      Sends(Build(SetName(o, v), create, Passes).value, "name", text) &&
      Sends(Build(SetAddress(o, v), create, Passes).value, "address", text) &&
      Sends(Build(SetCity(o, v), create, Passes).value, "city", text) &&
      Sends(Build(SetState(o, v), create, Passes).value, "state", text) &&
      Sends(Build(SetPostalCode(o, v), create, Passes).value, "postalcode", text) &&
      Sends(Build(SetCountry(o, v), create, Passes).value, "country", text) &&
      Sends(Build(SetPhone(o, v), create, Passes).value, "phone", text) &&
      Sends(Build(SetFax(o, v), create, Passes).value, "fax", text) &&
      Sends(Build(SetWebsite(o, v), create, Passes).value, "website", text)
    ensures Sends(Build(SetSlaPlanId(o, v), create, Passes).value, "slaplanid", Raw(IdValue(AssurePositiveInt(v, None))))
  {
    BuildSendsContact(SetName(o, v), create);
    BuildSendsContact(SetAddress(o, v), create);
    BuildSendsContact(SetCity(o, v), create);
    BuildSendsContact(SetState(o, v), create);
    BuildSendsContact(SetPostalCode(o, v), create);
    BuildSendsContact(SetCountry(o, v), create);
    BuildSendsContact(SetPhone(o, v), create);
    BuildSendsContact(SetFax(o, v), create);
    BuildSendsContact(SetWebsite(o, v), create);
  }

  /** `getId($complete)`. */
  function GetId(o: Organization, complete: bool): (v: Value)
    ensures complete ==> v == Arr([IdValue(o.id)])
    ensures !complete ==> v == IdValue(o.id)
  {
    if complete then Arr([IdValue(o.id)]) else IdValue(o.id)
  }
}

=== FILE: wire.dfy ===
/** What the resource classes share: the request data `buildData` produces, the verdict of the base
    class's required-field check, the decision a lazy getter takes, the normalisation of identifier
    lists by their setters, and the shape in which the XML decoder delivers lists to `parseData`. */
module Wire {
  import opened Wrappers
  import opened Php
  import opened Helper
  import Base64

  // ---------------------------------------------------------------------------------------------
  // Request data

  /** One of the base class's `buildData*` helpers, which format a property for the request. Their
      bodies belong to the base class; the model records which helper a key is handed to. `AsDate` stands
      for PHP's `date('m/d/Y', $value)`, which one `buildData` applies to a timestamp. */
  datatype Emitter = AsString | AsNumeric | AsBool | AsList | AsDate

  /** The entry `buildData` makes for a key. */
  datatype WireValue =
    /** `$data[$key] = $value`. */
    | Raw(v: Value)
    /** `$this->buildDataX($data, $key, $value)`. */
    | Via(how: Emitter, v: Value)
    /** A binary string assigned as it is. */
    | Bytes(b: seq<byte>)

  type Data = map<string, WireValue>

  /** The request data carries `key`, with entry `w`. */
  predicate Sends(d: Data, key: string, w: WireValue) {
    key in d && d[key] == w
  }

  /** The outcome of the base class's `checkRequiredAPIFields($create)`, which throws for a missing field. */
  datatype Check = Passes | Missing(field: string)

  /** Runs the required-field check ahead of building: the data when it passes, its exception otherwise. */
  function Checked<T>(check: Check, data: T): (r: Result<T>)
    ensures r.Success? <==> check.Passes?
    ensures r.Success? ==> r.value == data
    ensures check.Missing? ==> r.error == RequiredFieldMissing(check.field)
  {
    match check
    case Passes => Success(data)
    case Missing(f) => Failure(RequiredFieldMissing(f))
  }

  /** `$t !== null ? $t : 0`, as `buildData` sends an expiry timestamp. */
  function TimestampOrZero(v: Value): (r: Value)
    ensures v.Null? ==> r == Int(0)
    ensures !v.Null? ==> r == v
  {
    if v.Null? then Int(0) else v
  }

  /** `$x ? 1 : 0`, as several `buildData` methods send flags. */
  function Flag(b: bool): (v: Value)
    ensures v == Int(1) || v == Int(0)
    ensures Truthy(v) == b
  {
    if b then Int(1) else Int(0)
  }

  // ---------------------------------------------------------------------------------------------
  // Lazy getters

  /** What a lazy getter such as `getStaff()` does: hand back the cached object, answer `null` without
      asking the server, or fetch the object with the given identifiers (and cache it). */
  datatype Lookup = Cached(o: PhpObject) | NoObject | Fetch(ids: seq<int>)

  /** The usual getter: the cache unless `reload`, `null` for a missing identifier (or a non-positive one
      when `positive` is set), a fetch otherwise. */
  function LazyGet(cache: Option<PhpObject>, id: Option<int>, reload: bool, positive: bool): (r: Lookup)
    ensures cache.Some? && !reload <==> r.Cached?
    ensures r.Cached? ==> r.o == cache.value
    ensures r.Fetch? <==> (cache.None? || reload) && id.Some? && (!positive || id.value > 0)
    ensures r.Fetch? ==> r.ids == [id.value]
  {
    if cache.Some? && !reload then Cached(cache.value)
    else if id.None? || (positive && id.value <= 0) then NoObject
    else Fetch([id.value])
  }

  // ---------------------------------------------------------------------------------------------
  // Identifier lists

  /** The PHP array holding a list of identifiers, `null` for a missing one. */
  function IdList(ids: seq<Option<int>>): (v: Value)
    ensures v.Arr? && |v.items| == |ids|
    ensures forall k | 0 <= k < |ids| :: v.items[k] == IdValue(ids[k])
  {
    Arr(seq(|ids|, k requires 0 <= k < |ids| => IdValue(ids[k])))
  }

  /** `in_array($id, $ids)`: loose membership of a value in a list of identifiers. */
  predicate HasId(ids: seq<Option<int>>, id: Value) {
    exists k | 0 <= k < |ids| :: LooseEq(id, IdValue(ids[k]))
  }

  /** Loose comparison of two identifiers: equal numbers, or both null-or-zero. */
  lemma SameIdMeaning(a: Option<int>, b: Option<int>)
    ensures LooseEq(IdValue(a), IdValue(b)) <==> a == b || (a.GetOr(0) == 0 && b.GetOr(0) == 0)
  {
  }

  /** No two identifiers of the list compare loosely equal. */
  predicate DistinctIds(ids: seq<Option<int>>) {
    forall i, j | 0 <= i < j < |ids| :: !LooseEq(IdValue(ids[i]), IdValue(ids[j]))
  }

  /** The candidates of the setters' "normalisation to array": a list as it is, a numeric scalar as
      a one-element list, anything else (null included) as the empty list. */
  function IdCandidates(v: Value): (xs: seq<Value>)
    ensures IsArray(v) ==> xs == Elements(v)
    ensures !IsArray(v) && IsNumeric(v) ==> xs == [v]
    ensures !IsArray(v) && !IsNumeric(v) ==> xs == []
  {
    if IsArray(v) then Elements(v) else if IsNumeric(v) then [v] else []
  }

  /** The positive integer forms of the candidates, in order; the others are skipped. */
  function PositiveIdsOf(xs: seq<Value>): (ids: seq<Option<int>>)
    ensures forall k | 0 <= k < |ids| :: ids[k].Some? && ids[k].value > 0
    ensures forall n: int :: Some(n) in ids <==> n > 0 && exists x | x in xs :: IntVal(x) == n
    ensures |ids| <= |xs|
  {
    if |xs| == 0 then []
    else
      var rest := PositiveIdsOf(xs[1..]);
      assert forall x :: x in xs <==> x == xs[0] || x in xs[1..];
      match AssurePositiveInt(xs[0], None)
      case Some(n) => [Some(n)] + rest
      case None => rest
  }

  /** The identifier-list setters (`setUserGroupIds`, `setCategoryIds`, `setParentStepIds`, …). */
  function NormalizeIds(v: Value): (ids: seq<Option<int>>)
    ensures forall k | 0 <= k < |ids| :: ids[k].Some? && ids[k].value > 0
    ensures forall n: int :: Some(n) in ids <==> n > 0 && exists x | x in IdCandidates(v) :: IntVal(x) == n
  {
    PositiveIdsOf(IdCandidates(v))
  }

  /** A numeric scalar becomes a one-element list when positive and the empty list otherwise;
      a non-numeric scalar becomes the empty list. */
  lemma NormalizeScalar(v: Value)
    requires !IsArray(v)
    ensures IsNumeric(v) && IntVal(v) > 0 ==> NormalizeIds(v) == [Some(IntVal(v))]
    ensures !IsNumeric(v) || IntVal(v) <= 0 ==> NormalizeIds(v) == []
  {
    if IsNumeric(v) {
      assert [v][1..] == [];
    }
  }

  /** Setting a list that is already normalised keeps it as it is, so normalising twice equals once. */
  lemma {:induction false} NormalizeIdempotent(ids: seq<Option<int>>)
    requires forall k | 0 <= k < |ids| :: ids[k].Some? && ids[k].value > 0
    ensures NormalizeIds(IdList(ids)) == ids
    decreases |ids|
  {
    if |ids| > 0 {
      assert Elements(IdList(ids))[1..] == Elements(IdList(ids[1..]));
      NormalizeIdempotent(ids[1..]);
    }
  }

  /** `addUserGroup` and its kin: append the identifier unless the list already holds it. */
  function AddId(ids: seq<Option<int>>, id: Option<int>): (r: seq<Option<int>>)
    ensures HasId(r, IdValue(id))
    ensures HasId(ids, IdValue(id)) ==> r == ids
    ensures !HasId(ids, IdValue(id)) ==> r == ids + [id]
  {
    if HasId(ids, IdValue(id)) then ids
    else
      var r := ids + [id];
      assert LooseEq(IdValue(id), IdValue(r[|ids|]));
      r
  }

  /** Adding never introduces a duplicate: a list free of duplicates stays free of them. */
  lemma AddIdKeepsDistinct(ids: seq<Option<int>>, id: Option<int>)
    requires DistinctIds(ids)
    ensures DistinctIds(AddId(ids, id))
  {
    if !HasId(ids, IdValue(id)) {
      var r := ids + [id];
      forall i, j | 0 <= i < j < |r|
        ensures !LooseEq(IdValue(r[i]), IdValue(r[j]))
      {
        if j == |ids| {
          LooseEqSymmetric(IdValue(r[i]), IdValue(id));
        }
      }
    }
  }

  /** What a group membership test compares: the identifier of an object of the group's class, the
      `intval` of anything else. */
  function MemberId(group: Value, cls: string): (v: Value)
    ensures group.Obj? && group.o.cls == cls ==> v == IdValue(group.o.id)
    ensures !(group.Obj? && group.o.cls == cls) ==> v == Int(IntVal(group))
  {
    if group.Obj? && group.o.cls == cls then IdValue(group.o.id) else Int(IntVal(group))
  }

  // ---------------------------------------------------------------------------------------------
  // Lists as the XML decoder delivers them

  /** `$data[$list][0][$item]` read as a list: one element arrives as a single string, several as a list;
      nothing is read unless `$data[$list]` is an array. */
  function ListItems(data: Value, list: string, item: string): (xs: seq<Value>)
    ensures !IsArray(Key(data, list)) ==> xs == []
    ensures IsArray(Key(data, list)) && Key(Index(Key(data, list), 0), item).Str? ==>
      xs == [Key(Index(Key(data, list), 0), item)]
    ensures IsArray(Key(data, list)) && !Key(Index(Key(data, list), 0), item).Str? ==>
      xs == Elements(Key(Index(Key(data, list), 0), item))
  {
    var outer := Key(data, list);
    if !IsArray(outer) then []
    else
      var inner := Key(Index(outer, 0), item);
      if inner.Str? then [inner] else Elements(inner)
  }

  /** `assurePositiveInt` of every element, nulls kept (the parsers append whatever it returns). */
  function PositiveOrNull(xs: seq<Value>): (ids: seq<Option<int>>)
    ensures |ids| == |xs|
    ensures forall k | 0 <= k < |xs| :: ids[k] == AssurePositiveInt(xs[k], None)
  {
    seq(|xs|, k requires 0 <= k < |xs| => AssurePositiveInt(xs[k], None))
  }

  /** The identifiers of an XML list, as the parsers read them. */
  function ParseIds(data: Value, list: string, item: string): (ids: seq<Option<int>>)
    ensures !IsArray(Key(data, list)) ==> ids == []
    ensures forall k | 0 <= k < |ids| :: ids[k].None? || ids[k].value > 0
  {
    PositiveOrNull(ListItems(data, list, item))
  }

  // ---------------------------------------------------------------------------------------------
  // Attachment contents

  /** What an attachment's `getContents($autoFetch)` does: hand back the stored contents, or first fetch
      the attachment by its parent's identifier and its own. */
  datatype ContentsLookup = Stored(contents: Option<seq<byte>>) | FetchContents(ids: seq<int>)

  /** Fetches only when nothing is stored, both identifiers are known and `autoFetch` is set. */
  function GetContents(contents: Option<seq<byte>>, parentId: Option<int>, id: Option<int>, autoFetch: bool): (r: ContentsLookup)
    ensures r.FetchContents? <==> contents.None? && parentId.Some? && id.Some? && autoFetch
    ensures r.FetchContents? ==> r.ids == [parentId.value, id.value]
    ensures r.Stored? ==> r.contents == contents
  {
    if contents.None? && parentId.Some? && id.Some? && autoFetch then FetchContents([parentId.value, id.value])
    else Stored(contents)
  }

  /** `array_key_exists('contents', $data) && strlen($data['contents']) > 0`. */
  predicate HasContents(data: Value) {
    HasKey(data, "contents") && |StrVal(Key(data, "contents"))| > 0
  }

  /** The contents `parseData` keeps: the base64 decoding of present, non-empty contents, and the
      contents already held otherwise. */
  function ParsedContents(data: Value, current: Option<seq<byte>>): (r: Option<seq<byte>>)
    ensures !HasContents(data) ==> r == current
    ensures HasContents(data) ==> r.Some?
  {
    if HasContents(data) then Some(Base64.Decode(StrVal(Key(data, "contents")))) else current
  }

  /** `base64_encode($contents)`, where `null` encodes as the empty string. */
  function EncodedContents(contents: Option<seq<byte>>): (v: Value)
    ensures v.Str? && |v.s| == 4 * ((|contents.GetOr([])| + 2) / 3)
  {
    Str(Base64.Encode(contents.GetOr([])))
  }

  /** What `buildData` encodes, `parseData` decodes: non-empty contents come back unchanged, and empty
      ones leave the contents already held alone. */
  lemma ContentsRoundTrip(contents: Option<seq<byte>>, current: Option<seq<byte>>)
    ensures var data := Dict([Pair("contents", EncodedContents(contents))]);
      (|contents.GetOr([])| > 0 ==> ParsedContents(data, current) == Some(contents.GetOr([]))) &&
      (|contents.GetOr([])| == 0 ==> ParsedContents(data, current) == current)
  {
    var b := contents.GetOr([]);
    var data := Dict([Pair("contents", EncodedContents(contents))]);
    assert Key(data, "contents") == Str(Base64.Encode(b));
    if |b| > 0 {
      assert 4 * ((|b| + 2) / 3) > 0;
      Base64.RoundTrip(b);
    } else {
      assert |b| == 0;
    }
  }
}

=== FILE: wrappers.dfy ===
/** Failure-compatible wrappers shared by the whole model: an optional value standing for PHP's `null`,
    and the outcome of an operation that may throw one of the client library's exceptions. */
module Wrappers {

  /** `None` stands for a PHP `null` in a property that holds a value of type `T` otherwise. */
  datatype Option<+T> = None | Some(value: T) {

    /** Returns the wrapped value, or `default` for `None`. */
    function GetOr(default: T): T {
      match this
      case Some(v) => v
      case None => default
    }
  }

  /** The exceptions the modelled code raises. */
  datatype Error =
    /** `GeneralException`, raised for unknown custom field types and posts without an author. */
    | GeneralException(message: string)
    /** `BadMethodCallException`, raised by operations a resource type does not support. */
    | BadMethodCall(message: string)
    /** The rejection by the shared required-field check of the base class, naming the missing field. */
    | RequiredFieldMissing(field: string)
    /** A PHP runtime error (an operation applied to a value of the wrong kind). */
    | RuntimeError(message: string)

  /** Either the value an operation returns or the exception it throws. */
  datatype Result<+R> = Success(value: R) | Failure(error: Error) {

    predicate IsFailure() {
      Failure?
    }

    function PropagateFailure<U>(): Result<U>
      requires Failure?
    {
      Failure(error)
    }

    function Extract(): R
      requires Success?
    {
      value
    }
  }
}
